=== FILE: README.md ===
# more-itertools combinators, modelled in Dafny

This project models the core of the Rust crate `more-itertools` (ralgond). The crate is a library of lazy sequence combinators: chunking, splitting, windowing, merging, look-ahead, selecting and summarizing. Each combinator is a pull-based `next()` state machine over an in-memory source. Most items are `Result<T, Error>`, so an error from upstream, a predicate or an overflow check travels through the pipeline as an item.

How the model is built:

- **Errors and items** (`Base`). The `Error` record carries a `Kind` and an optional message. Items are `Res<T> = Ok(T) | Err(Error)`. `USIZE_MAX` bounds every `usize` overflow check the crate makes.
- **The pull protocol** (`Pull`). One call of `next()` is a total function from a state to its successor and an optional item. `Run(next, s, k)` gives the answers of the first `k` calls. `Observe(items, tail, k)` describes an iterator that delivers `items` and then answers `tail` forever. `RunObserves` turns a one-step lemma into a statement about every prefix of calls.
- **One module per combinator.** Each has:
  - a state record that mirrors the Rust struct, with upstream iterators given as the sequences they still hold;
  - `Next`, which follows the Rust `next()` branch by branch;
  - an independent reference definition of the whole output;
  - a `NextAdvances` lemma: one call delivers the first owed item and owes the rest;
  - a `Behaviour` lemma: a fresh iterator answers exactly the reference output, then its tail (usually `None`) forever.
- **Properties.** These are proved about the reference definitions: round trips (the groups concatenate back to the input), exact counts, ordering, membership, and where errors appear and whether they latch. The crate's own unit tests appear as example lemmas.
- **Callbacks** are total Dafny functions: predicates, key functions, reducers and validators.

## Model

| member | source | states |
|---|---|---|
| Accumulate.FitFrom | src/itertools/accumulate.rs:20-27 | the first position at or after i whose running total exceeds usize::MAX; every total before it fits |
| Accumulate.Behaviour | src/itertools/accumulate.rs:15-29 | the iterator yields the running totals that fit, then repeats its overflow error on every later call (the overflow is not latched) or answers None when nothing overflowed |
| Accumulate.SumsStep | src/itertools/accumulate.rs:22-26 | the first total is the first input and each later total adds one input to the previous total |
| Accumulate.NoOverflow | src/itertools/accumulate.rs:20-27 | no overflow error ever appears exactly when the whole sum fits in a usize, and then the output is every running total |
| Accumulate.Example | src/itertools/accumulate.rs:47-53 | 4, 3, 3 accumulates to 4, 7, 10 |
| BeforeAndAfter.Passing | src/selecting/before_and_after.rs:50-63 | the length of the longest prefix whose items all pass the predicate; the item after it fails |
| BeforeAndAfter.Construct | src/selecting/before_and_after.rs:37-66 | the constructor leaves the failing item unconsumed and collects only passing items into `before` |
| BeforeAndAfter.Behaviour | src/selecting/before_and_after.rs:17-33 | iterating yields the first failing item, then the rest of the input, then None forever |
| BeforeAndAfter.Split | src/selecting/before_and_after.rs:37-66 | `before` followed by the iterated items is the input; the iterated items start with a failing item; nothing is iterated exactly when every item passes |
| BeforeAndAfter.Example | src/selecting/before_and_after.rs:76-84 | "ABCdEfGhI" split at the first lower-case letter gives ABC before and dEfGhI after |
| Bucket.Get | src/grouping/bucket.rs:42-44 | a bucket that exists is never empty |
| Bucket.BuildNonEmpty | src/grouping/bucket.rs:17-32 | every bucket built by the constructor holds at least one item |
| Bucket.KeysOfExact | src/grouping/bucket.rs:17-32 | the keys collected are exactly the keys of the items |
| Bucket.BuildExact | src/grouping/bucket.rs:17-32 | the buckets are keyed by exactly the item keys, and each bucket holds the items with that key in input order |
| Bucket.MatchingAbsent | src/grouping/bucket.rs:42-44 | no item matches a key that no item has |
| Bucket.GetExact | src/grouping/bucket.rs:42-44 | `get` answers None exactly when no item has the key, and otherwise the items with that key in input order |
| Bucket.KeysExact | src/grouping/bucket.rs:34-40 | `keys` lists exactly the keys that occur among the items |
| Bucket.FirstKeysShape | src/grouping/bucket.rs:34-40 | the keys in order of first appearance are distinct and are exactly the keys that occur |
| Bucket.OccurrencesDistinct | src/grouping/bucket.rs:34-40 | a key occurs at most once in a distinct key list |
| Bucket.SizesSnoc | src/grouping/bucket.rs:17-32 | appending an item grows the total size of the listed buckets by one exactly when its key is listed |
| Bucket.SizesCover | src/grouping/bucket.rs:17-32 | when the listed keys are distinct and cover every key, their buckets hold every item exactly once |
| Bucket.SizesEmpty | src/grouping/bucket.rs:17-32 | with no items every bucket size is zero |
| Bucket.GroupsAddUp | src/grouping/bucket.rs:17-44 | the buckets partition the input: their keys are distinct, they are exactly the keys, and their sizes add up to the input length |
| Bucket.Example | src/grouping/bucket.rs:62-85 | a1 b1 c1 a2 b2 c2 b3 keyed by first letter: bucket a is a1 a2, bucket b is b1 b2 b3, bucket d does not exist |
| Bucket.ExampleMatching | src/grouping/bucket.rs:62-85 | the same example stated on the reference selection |
| Bucket.ByKeys | src/grouping/bucket.rs:62-85 | the example's selection for any seven items keyed a b c a b c b |
| Bucket.MatchingStep | src/grouping/bucket.rs:17-32 | selecting over one more item appends it exactly when its key matches |
| CacheLast.Behaviour | src/others/cache_last.rs:26-54 | from any consistent state the cursor yields the replayed item if armed, then the upstream up to and including its first error, then None forever |
| CacheLast.Plain | src/others/cache_last.rs:26-54 | without a replay, the cursor yields the values before the first error, then that error, then None forever |
| CacheLast.AfterPulls | src/others/cache_last.rs:26-54 | after k Ok pulls the cache holds the k-th item and the upstream is advanced by k |
| CacheLast.AfterStep | src/others/cache_last.rs:26-54 | k+1 pulls are one more pull after k pulls |
| CacheLast.Replay | src/others/cache_last.rs:26-54 | after re-insertion the next call answers the cached last item and restores the state it was in |
| CacheLast.Example | src/others/cache_last.rs:112-129 | after 1, 2, 3 and a re-insertion, the cursor answers 3, 4, 5, None |
| CacheUntil.Loop | src/others/cache_until.rs:24-64 | the pulling loop always answers an item and keeps the predicate, budget and mode |
| CacheUntil.Behaviour | src/others/cache_until.rs:19-84 | the iterator yields the reference grouping (groups cut at accepted items while the split budget lasts, stopping at the first upstream or predicate error), then None forever |
| CacheUntil.ErrorOnlyLast | src/others/cache_until.rs:48-57 | an error is only ever the last item: every earlier group is Ok |
| CacheUntil.ErrorEnds | src/others/cache_until.rs:48-57 | the last item is an error exactly when the input holds an upstream or predicate error, and it is the first such error |
| CacheUntil.CleanFlatten | src/others/cache_until.rs:24-64 | without errors, the groups concatenate back to the input |
| CacheUntil.GroupCount | src/others/cache_until.rs:32-33 | without errors there is one group more than the number of splits, which is the number of accepted items capped by a non-negative budget |
| CacheUntil.AfterShape | src/others/cache_until.rs:36-37 | with the split-after mode every group but the last ends with an accepted item |
| CacheUntil.BeforeShape | src/others/cache_until.rs:38-42 | with the split-before mode every group after the first starts with an accepted item |
| CacheUntil.LeadingMatch | src/others/cache_until.rs:38-43 | in split-before mode an accepted first item yields an empty first group |
| CacheUntil.NoBudget | src/others/cache_until.rs:32 | a budget of zero yields the whole input as a single group |
| CacheUntil.ZeroStep | src/others/cache_until.rs:32-45 | once the split budget is spent an Ok value joins the group being collected whatever the predicate answers |
| CacheUntil.ExampleBefore | src/grouping/split_before.rs:22-31 | split_before on 0..9 at multiples of 3 gives [], 0 1 2, 3 4 5, 6 7 8, 9 |
| CacheUntil.ExampleAfter | src/grouping/split_after.rs:22-31 | split_after on 0..9 at multiples of 3 gives 0, 1 2 3, 4 5 6, 7 8 9, [] |
| CacheUntil.Skip | src/others/cache_until.rs:44-46 | a rejected value joins the group being collected and the later groups are unchanged |
| CacheUntil.CutBefore | src/others/cache_until.rs:32-43 | in split-before mode an accepted value closes the collected group and starts the next one |
| CacheUntil.CutAfter | src/others/cache_until.rs:32-43 | in split-after mode an accepted value ends the collected group and the next one starts empty |
| CacheUntil.CleanTail | src/others/cache_until.rs:24-31 | a clean input starts with a value the predicate judges without error, and its remainder is clean |
| CacheUntil.CutStep | src/others/cache_until.rs:32-43 | after a split the closed group and the later groups together still hold the collected values and the rest of the input |
| CacheUntil.CutFlatten | src/others/cache_until.rs:32-43 | a closed group in front of Ok groups holding the rest concatenates to the collected values, the split value and the rest |
| Chain.Next | src/itertools/chain.rs:12-35 | a call only moves the cursor forward over exhausted inputs, and any item it yields is the head of the input under the cursor, which loses that head |
| Chain.SkipRest | src/itertools/chain.rs:12-35 | skipping an exhausted input does not change what is still owed |
| Chain.PopRest | src/itertools/chain.rs:12-35 | taking the head of the current input delivers the first owed item and owes the rest |
| Chain.Behaviour | src/itertools/chain.rs:12-35 | the iterator yields every input in turn, concatenated, then None forever |
| Chain.OutputShape | src/itertools/chain.rs:12-35 | the output is as long as all inputs together, and item i of input a sits after all items of the inputs before a |
| Chain.Example | src/itertools/chain.rs:53-66 | 1 2 3 chained with 2 4 6 gives 1 2 3 2 4 6 |
| Chunked.Next | src/grouping/chunked.rs:19-52 | a chunk handed out is a non-empty prefix of at most n remaining items, which are then consumed; None changes nothing |
| Chunked.ChunksCount | src/grouping/chunked.rs:19-52 | there are ceil(len/n) chunks |
| Chunked.LastChunk | src/grouping/chunked.rs:19-52 | the last chunk has len mod n items, or n when n divides len |
| Chunked.ChunksFlatten | src/grouping/chunked.rs:19-52 | the chunks concatenate back to the input |
| Chunked.ChunksShape | src/grouping/chunked.rs:19-52 | every chunk has between 1 and n items, and all but the last have exactly n |
| Chunked.Behaviour | src/grouping/chunked.rs:19-66 | the iterator yields the chunks (a strict short last chunk becomes a ValueError), then None forever, or repeats the "n should not be 0" error forever when n is 0 |
| Chunked.PlainOutput | src/chunked.rs:18-59 | without strict mode every chunk is Ok and they concatenate back to the input |
| Chunked.StrictOutput | src/grouping/chunked.rs:35-43 | in strict mode every Ok chunk has exactly n items, only the last item can be an error, and it is one exactly when n does not divide the length |
| Chunked.FlattenLength | src/grouping/chunked.rs:19-52 | chunks of n items but the last concatenate to (count-1)*n plus the last chunk's length |
| ChunkedEven.Drain | src/grouping/chunked_even.rs:26-49 | draining a strided cursor collects exactly the items of its stride |
| ChunkedEven.Output | src/grouping/chunked_even.rs:10-18 | there is one bucket per requested bucket |
| ChunkedEven.Behaviour | src/grouping/chunked_even.rs:26-49 | the iterator yields the bucket_cnt strided buckets in order, then None forever |
| ChunkedEven.Covers | src/grouping/chunked_even.rs:10-49 | input item p lands in bucket p mod k at position p div k |
| ChunkedEven.Members | src/grouping/chunked_even.rs:10-49 | item j of bucket i is input item i + j*k |
| ChunkedEven.Example | src/grouping/chunked_even.rs:57-67 | 1..10 in 3 buckets gives 1 4 7 10, 2 5 8, 3 6 9 |
| CountCycle.Behaviour | src/augmenting/count_cycle.rs:16-38 | the iterator yields n passes over the items, each item tagged with its pass number, then None forever (nothing for an empty input) |
| CountCycle.TaggedBlocks | src/augmenting/count_cycle.rs:16-38 | the output is the concatenation of the tagged passes |
| CountCycle.TaggedShape | src/augmenting/count_cycle.rs:16-38 | output item i is item i mod len tagged i div len, and untagged the output is ncycles of the same input |
| CountCycle.Example | src/augmenting/count_cycle.rs:61-78 | A B over 3 cycles gives (0,A) (0,B) (1,A) (1,B) (2,A) (2,B) |
| Distribute.Behaviour | src/grouping/distribute.rs:44-65 | the cursor offset by i yields bucket i (every k-th item from i), then None forever |
| Distribute.ZeroBuckets | src/grouping/distribute.rs:44-65 | with a stride of zero the cursor never advances and answers the first item on every call |
| Distribute.StridedAt | src/grouping/distribute.rs:44-65 | item j of a stride from i is input item i + j*k, and the stride runs to the end of the input |
| Distribute.SlotPosition | src/grouping/distribute.rs:44-65 | position i + j*k with i < k lies in bucket i at index j |
| Distribute.Covers | src/grouping/distribute.rs:44-109 | input item p lands in bucket p mod k at index p div k, so every item is distributed |
| Distribute.Example | src/grouping/distribute.rs:116-126 | 1..10 over 3 buckets gives 1 4 7 10, 2 5 8, 3 6 9 |
| Distribute.ExampleCase | src/grouping/distribute.rs:116-126 | the same example over a bound input |
| Divide.SizesSum | src/grouping/divide.rs:41-52 | the first i sizes add up to i*q plus min(i, r) |
| Divide.SizesPrefix | src/grouping/divide.rs:41-52 | the offset of bucket i is i*(len div k) + min(i, len mod k) |
| Divide.SizesShape | src/grouping/divide.rs:21-52 | the sizes add up to the input length, and any two differ by at most one with larger buckets first |
| Divide.OffsetsFormula | src/grouping/divide.rs:41-62 | without overflow there are k+1 offsets, offset i being i*(len div k) + min(i, len mod k) |
| Divide.Offsets | src/grouping/divide.rs:41-62 | the offsets are non-decreasing and the last one is the input length |
| Divide.Behaviour | src/grouping/divide.rs:71-127 | the cursor of bucket b yields that bucket's items in order, then None forever |
| Divide.ErrorCursor | src/grouping/divide.rs:109-127 | a cursor of a zero-bucket or overflowed divider yields nothing and repeats its error forever |
| Divide.SlicesFlatten | src/grouping/divide.rs:71-85 | the slices between consecutive offsets concatenate to the span they cover |
| Divide.SlicesItems | src/grouping/divide.rs:71-85 | there is one slice per pair of consecutive offsets, slice `j` lying between offsets `j` and `j + 1` |
| Divide.SlicesConcat | src/grouping/divide.rs:71-85 | the slices, concatenated, are the span from the first to the last offset |
| Divide.Reassemble | src/grouping/divide.rs:21-85 | the k buckets concatenate back to the input |
| Divide.Example | src/grouping/divide.rs:135-158 | 1..10 divided in 3 gives 1 2 3 4, 5 6 7, 8 9 10 |
| Divide.ExampleCase | src/grouping/divide.rs:135-158 | the same example over a bound input |
| Except.Behaviour | src/selecting/map_except.rs:17-47 | the iterator yields the results, skipping acceptable errors and stopping with one tagged error at the first other one, then None forever |
| Except.OutputShape | src/selecting/filter_except.rs:19-48 | there are at most as many results as inputs, and only the last one can be an error, which is the tagged form of some input's non-acceptable failure |
| Except.OkAreResults | src/selecting/map_except.rs:17-47 | every Ok result is the function's result on some input |
| Except.NoErrors | src/selecting/map_except.rs:17-47 | when the function never fails, the output is its result on every input in order |
| Except.NothingAcceptable | src/selecting/filter_map.rs:14-40 | with no acceptable kinds (filter_map) the output is the results before the first failure, then that failure tagged "func failed" |
| Except.ValidatedPassThrough | src/selecting/filter_except.rs:19-48 | when every validation succeeds, filter_except yields every input |
| Except.AcceptableSkipped | src/selecting/filter_except.rs:31-33 | an item whose validator fails with an acceptable kind is skipped without output |
| GroupBy.NextGroup | src/itertools/groupby.rs:21-51 | moving to the next group never grows the unread input, and a key handed out consumes an item |
| GroupBy.Next | src/itertools/groupby.rs:60-96 | a value handed out consumes an item (or is the group's first, already read), without changing the group |
| GroupBy.Same | src/itertools/groupby.rs:60-96 | the leading run of items equal to v: a prefix of equal items followed by a different one |
| GroupBy.Runs | src/itertools/groupby.rs:21-96 | every maximal run is non-empty |
| GroupBy.RunsShape | src/itertools/groupby.rs:21-96 | the runs concatenate back to the input, each holds one value, and neighbouring runs differ |
| GroupBy.ReadGroup | src/itertools/groupby.rs:60-96 | reading a group never grows the unread input |
| GroupBy.NextGroupMoves | src/itertools/groupby.rs:21-51 | `next_group` skips the rest of the current run and hands out the next item as key, or answers None when nothing is left |
| GroupBy.ReadGroupRun | src/itertools/groupby.rs:60-96 | reading a group yields its key followed by the equal items after it, and stops holding the first different item |
| GroupBy.ConsumeRuns | src/itertools/groupby.rs:21-96 | reading every group in full from any consistent state gives the runs of the unread input |
| GroupBy.Firsts | src/itertools/groupby.rs:21-51 | the keys are the first items of the runs |
| GroupBy.KeysOfRuns | src/itertools/groupby.rs:21-51 | calling only `next_group` yields the first item of each run |
| GroupBy.SkipRun | src/itertools/groupby.rs:21-51 | after `next_group`, skipping the new group leaves the input that follows its whole run |
| GroupBy.Behaviour | src/itertools/groupby.rs:99-144 | from the start, reading every group gives the runs of the input, and `next` before any `next_group` answers None |
| GroupByTransform.Inner | src/augmenting/groupby_transform.rs:29-81 | the inner pull loop keeps the functions and never grows the work left |
| GroupByTransform.Reduced | src/augmenting/groupby_transform.rs:35-40 | each group's key is paired with the reduction of its values |
| GroupByTransform.ReducedCons | src/augmenting/groupby_transform.rs:35-40 | reducing groups one at a time |
| GroupByTransform.InnerGroup | src/augmenting/groupby_transform.rs:29-81 | the inner loop finishes the current group: either the input ends, or it stops at the first item of the next key |
| GroupByTransform.PendingStep | src/augmenting/groupby_transform.rs:29-81 | a pending first item of the next group is delivered as the next group |
| GroupByTransform.Behaviour | src/augmenting/groupby_transform.rs:29-104 | with the last-group fix, the iterator yields (key, reduce(values)) for each maximal run of equal keys, then None forever |
| GroupByTransform.AsWrittenLosesLastGroup | src/augmenting/groupby_transform.rs:31-40 | as written, "ab" yields only the group of 'a' and then None |
| GroupByTransform.CorrectedKeepsLastGroup | src/augmenting/groupby_transform.rs:31-40 | with the fix, "ab" yields the groups of 'a' and 'b' and then None |
| GroupByTransform.AccShape | src/augmenting/groupby_transform.rs:29-81 | the grouped values in order are all the values; neighbouring groups have different keys; groups after the first are non-empty |
| GroupByTransform.GroupsShape | src/augmenting/groupby_transform.rs:29-81 | the grouped values are the transformed input in order, every group is non-empty, neighbouring groups have different keys, and each group is a stretch of the input whose items all have the group's key |
| GroupByTransform.AccKeyed | src/augmenting/groupby_transform.rs:29-81 | with the open group gathered from items of its key, value `j` of group `i` is the transformed input item at that group's offset plus `j`, and that item has the group's key |
| GroupByTransform.AccFirst | src/augmenting/groupby_transform.rs:29-81 | the first group keeps the values already gathered |
| Grouper.Behaviour | src/grouping/grouper.rs:25-73 | the iterator yields the groups of n (filled, dropped or rejected at the short tail by mode), then None forever; with n == 0, or fill mode without a fill value, it repeats the configuration error on every call while items remain |
| Grouper.GroupsShape | src/grouping/grouper.rs:25-73 | every Ok group has exactly n items, only the last item can be an error, and it is one exactly in strict mode when n does not divide the length |
| Grouper.FillFlatten | src/grouping/grouper.rs:55-60 | in fill mode the groups concatenate to the input followed by just enough fill values to reach a multiple of n |
| Grouper.CutFlatten | src/grouping/grouper.rs:61-66 | in ignore and strict modes the groups concatenate to the input without its short tail |
| Grouper.FillShort | src/grouping/grouper.rs:55-60 | a stretch shorter than n becomes one group padded with the fill value to n items |
| Grouper.CutShort | src/grouping/grouper.rs:61-66 | in ignore and strict modes a stretch shorter than n contributes no values |
| Grouper.Examples | src/grouping/grouper.rs:91-124 | 1..10 in threes: fill gives a final 10 0 0, ignore drops 10, strict ends with the incomplete error |
| Grouper.ExampleCase | src/grouping/grouper.rs:91-124 | the same examples over a bound input |
| Interleave.RoundsStep | src/combining/interleave.rs:38-47 | one round, then the rounds of the inputs without their heads |
| Interleave.ColumnOfTails | src/combining/interleave.rs:38-47 | after a round, column `j` is what column `j + 1` was |
| Interleave.Behaviour | src/combining/interleave.rs:14-49 | with at least one input, the iterator yields one item per input per round and stops entirely at the first round where an input is exhausted, then None forever |
| Interleave.OutputShape | src/combining/interleave.rs:14-49 | the output has inputs*shortest items, item i being item i div inputs of input i mod inputs |
| Interleave.BlockShape | src/combining/interleave.rs:14-49 | reading the rounds one after another puts item `i div k` of input `i mod k` at position `i` |
| Interleave.Example | src/combining/interleave.rs:70-78 | 1 2 3, 4 5, 6 7 8 interleave to 1 4 6 2 5 7 |
| InterleaveLongest.HeadsNonEmpty | src/combining/interleave_longest.rs:27-54 | a round yields something exactly when some input is non-empty |
| InterleaveLongest.Behaviour | src/combining/interleave_longest.rs:14-56 | the iterator yields one item per non-exhausted input per round, skipping exhausted inputs, then None forever |
| InterleaveLongest.HeadsTotal | src/combining/interleave_longest.rs:27-54 | a round takes exactly the items that dropping the heads removes |
| InterleaveLongest.OutputLength | src/combining/interleave_longest.rs:14-56 | every input item is yielded: the output is as long as all inputs together |
| InterleaveLongest.EmptyTotal | src/combining/interleave_longest.rs:14-56 | when every input is empty there are no items |
| InterleaveLongest.OnlyAppend | src/combining/interleave_longest.rs:14-56 | selecting one input's items distributes over concatenation |
| InterleaveLongest.HeadsOnly | src/combining/interleave_longest.rs:27-54 | a round holds exactly the head of each non-empty input |
| InterleaveLongest.TaggedDrop | src/combining/interleave_longest.rs:27-54 | the inputs after the first carry the tags of their own positions |
| InterleaveLongest.HeadsOnlyStep | src/combining/interleave_longest.rs:27-54 | if the part of the later inputs' round tagged `t` is that input's head (or nothing), then the part of the whole round tagged `t` is the head of input `t` when it is non-empty, and nothing otherwise |
| InterleaveLongest.OrderKept | src/combining/interleave_longest.rs:14-56 | the items of each input appear in the output in their original order, and nothing else from that input does |
| InterleaveLongest.TaggedTails | src/combining/interleave_longest.rs:27-54 | a round leaves every remaining item with its input's tag |
| InterleaveLongest.OrderStep | src/combining/interleave_longest.rs:14-56 | the items of one input come out as its head in this round, then the rest in later rounds |
| InterleaveLongest.Round3 | src/combining/interleave_longest.rs:27-54 | over three inputs, the output is one round followed by the output of the remainders |
| InterleaveLongest.Heads3 | src/combining/interleave_longest.rs:27-54 | a round over three inputs takes their heads in input order |
| InterleaveLongest.Lengths100 | src/combining/interleave_longest.rs:27-54 | inputs of lengths 1, 0, 0 yield the single item |
| InterleaveLongest.Lengths101 | src/combining/interleave_longest.rs:27-54 | inputs of lengths 1, 0, 1 yield the first input's item, then the third's |
| InterleaveLongest.Lengths201 | src/combining/interleave_longest.rs:27-54 | inputs of lengths 2, 0, 1 yield a0 c0 a1 |
| InterleaveLongest.Lengths212 | src/combining/interleave_longest.rs:27-54 | inputs of lengths 2, 1, 2 yield a0 b0 c0 a1 c1 |
| InterleaveLongest.Lengths323 | src/combining/interleave_longest.rs:77-86 | the order of the library's example for any inputs of lengths 3, 2, 3 |
| InterleaveLongest.Lengths312 | src/combining/roundrobin.rs:21-29 | the order of the roundrobin example for any inputs of lengths 3, 1, 2 |
| InterleaveLongest.Example | src/combining/interleave_longest.rs:77-86 | 1 2 3, 4 5, 6 7 8 interleave to 1 4 6 2 5 7 3 8 |
| InterleaveLongest.RoundrobinExample | src/combining/roundrobin.rs:6-29 | roundrobin of ABC, D, EF yields A D E B F C |
| Intersperse.EmitAdvances | src/augmenting/intersperse.rs:29-68 | handing out the buffered item or a separator delivers the next owed item |
| Intersperse.Behaviour | src/augmenting/intersperse.rs:29-68 | the iterator yields the values with e after every n of them (never at the end), then the first upstream error if any, then None; n == 0 repeats its error forever |
| Intersperse.InterPrefix | src/augmenting/intersperse.rs:29-68 | the first n-c items pass unchanged, and a separator follows before the rest |
| Intersperse.InterIsJoin | src/augmenting/intersperse.rs:29-68 | the output is the chunks of n joined by e |
| Intersperse.InterLength | src/augmenting/intersperse.rs:29-68 | the output has one separator per full group of n values that is followed by more values |
| Intersperse.Examples | src/augmenting/intersperse.rs:96-128 | 1..5 with 0 every 2 gives 1 2 0 3 4 0 5; an empty input gives nothing |
| Intersperse.ExampleCase | src/augmenting/intersperse.rs:96-128 | the same example over a bound input |
| Islice.PullN | src/itertools/islice.rs:18-60 | k pulls land on upstream item k-1, or on None past the end |
| Islice.SkipLands | src/itertools/islice.rs:37-58 | skipping to start lands on input item start |
| Islice.SkipShort | src/itertools/islice.rs:37-58 | skipping past the end of the input yields nothing and does not overflow |
| Islice.RunLater | src/itertools/islice.rs:20-36 | after the start item, the iterator yields every step-th item while below stop, then None |
| Islice.LaterStep | src/itertools/islice.rs:20-36 | one later call moves the position by `step`, delivers the next owed item (or `None` at `stop` or at the end of the input) and owes the rest |
| Islice.Behaviour | src/itertools/islice.rs:18-60 | while no usize overflow can occur, the iterator yields the items start, start+step, … below stop (the start item even when start >= stop), then None forever |
| Islice.StepOverflowForever | src/itertools/islice.rs:21-23 | once the cursor cannot advance by step without overflow, every call repeats the overflow error |
| Islice.LaterItem | src/itertools/islice.rs:20-36 | item j after the start is input item (j+1)*step past it, and lies below stop |
| Islice.LaterEnd | src/itertools/islice.rs:20-36 | the output after the start ends when the next position reaches stop or the end of the input |
| Islice.OutputItem | src/itertools/islice.rs:18-60 | output item k is input item start + k*step, and after the first item every position is below stop |
| Islice.LaterAt | src/itertools/islice.rs:20-36 | later item `j` is the value `(j + 1) * step` positions on, and it lies below `stop` |
| Islice.OutputEnd | src/itertools/islice.rs:18-60 | the output ends exactly where the next position passes the input or reaches stop |
| Islice.Examples | src/itertools/islice.rs:83-156 | the library's slices: 3..10 of 0..4 is 3 4, start 7 past a 7-item input is empty, step 3 gives 3 6 9, start == stop gives the start item |
| Islice.ExampleCase | src/itertools/islice.rs:83-156 | the same examples over bound inputs |
| Iterate.PowerShift | src/others/iterate.rs:14-18 | applying f once more before or after i applications is the same |
| Iterate.Behaviour | src/others/iterate.rs:14-18 | answer i is f applied i times to start, on every call |
| Iterate.Doubling | src/others/iterate.rs:39-46 | iterating doubling from 1 gives the powers of two |
| Iterate.Example | src/others/iterate.rs:39-46 | doubling from 1 yields 1 2 4 8 16 |
| Locate.WindowBottom | src/others/locate.rs:15-37 | the matches from lo are a match at lo, if there is one, followed by the matches from lo+1 |
| Locate.Behaviour | src/others/locate.rs:15-37 | the iterator yields the positions where the window starting there equals the query, in increasing order, then None forever |
| Locate.WindowExact | src/others/locate.rs:15-37 | a position is reported exactly when it lies in range and the query occurs there; positions are strictly increasing |
| Locate.OutputExact | src/others/locate.rs:15-51 | with a window of the query's length, every occurrence of the query is reported, nothing else, in increasing order |
| Locate.Examples | src/others/locate.rs:59-74 | 1 1 1 1 1 locates 1 1 1 at 0 1 2, and 1 at 0 1 2 3 4 |
| MarkEnds.LoopAdvances | src/augmenting/mark_ends.rs:21-70 | the look-ahead loop delivers the next owed marked item |
| MarkEnds.DeliverStep | src/augmenting/mark_ends.rs:28-47 | with an item and the entry after it buffered, the item is delivered tagged first if no item was delivered yet and last if the marker follows it |
| MarkEnds.PullStep | src/augmenting/mark_ends.rs:50-68 | pulling one entry into the buffer answers the same, owes the same and moves the loop towards its end |
| MarkEnds.PullEnd | src/augmenting/mark_ends.rs:54-61 | an exhausted input pushes the end marker and the same items stay owed |
| MarkEnds.PullItem | src/augmenting/mark_ends.rs:62-67 | a pulled item is pushed to the buffer and the same items stay owed |
| MarkEnds.ItemsAppend | src/augmenting/mark_ends.rs:21-70 | the buffered items of two buffers are the items of each in turn |
| MarkEnds.Behaviour | src/augmenting/mark_ends.rs:21-70 | the iterator yields every item marked whether it is first and whether it is last, then None forever |
| MarkEnds.MarksShape | src/augmenting/mark_ends.rs:21-70 | one mark per item carrying that item; first exactly at index 0 and last exactly at the final index |
| MarkEnds.Examples | src/augmenting/mark_ends.rs:91-108 | 1 2 3 is marked (T,F,1) (F,F,2) (F,T,3); a single item is both first and last; nothing is marked in an empty input |
| Ncycles.Behaviour | src/augmenting/ncycles.rs:17-36 | the iterator yields the sequence n times over, then None forever |
| Ncycles.InitRest | src/augmenting/ncycles.rs:17-36 | a fresh iterator satisfies the invariant and owes exactly the n copies of the sequence |
| Ncycles.CyclesOfEmpty | src/augmenting/ncycles.rs:17-36 | cycling an empty sequence yields nothing |
| Ncycles.CyclesAreCopies | src/augmenting/ncycles.rs:17-36 | the output is c copies of the sequence concatenated |
| Ncycles.CyclesShape | src/augmenting/ncycles.rs:17-36 | the output has len*n items, item i being item i mod len |
| Ncycles.Examples | src/augmenting/ncycles.rs:57-65 | A B three times gives A B A B A B |
| Nth.NthIsIndex | src/selecting/nth.rs:5-27 | nth answers item n when it exists, otherwise Ok(default) or None without a default |
| Nth.Examples | src/selecting/nth.rs:36-46 | index 5 of 0..5 is 5; index 7 gives the default, or None without one; index 6 of 0..5 followed by an overflow error answers that error despite the default |
| Nth.ExampleCase | src/selecting/nth.rs:36-40 | the three lookups in 0..5, over a bound input |
| Nth.ExampleErrCase | src/selecting/nth.rs:42-46 | index 6 of 0..5 followed by an overflow error answers Some of that error although a default is given |
| Padded.Behaviour | src/augmenting/padded.rs:22-70 | the iterator yields the input padded with the fill value, then None forever |
| Padded.SearchFinds | src/augmenting/padded.rs:29-34 | the target is the least positive multiple of n at least the input length |
| Padded.OutputShape | src/augmenting/padded.rs:22-70 | plain padding yields max(n, len) items, the input then fill; next-multiple padding yields the input then fill up to the least positive multiple of n not below its length |
| Padded.Examples | src/augmenting/padded.rs:96-123 | 1 2 3 padded to 5 gives 1 2 3 0 0, to 2 is unchanged, to the next multiple of 2 gives 1 2 3 0 |
| Pairwise.PairsBehaviour | src/windowing/pairwise.rs:6-11 | pairwise yields every pair of neighbours in order, then None forever |
| Pairwise.TriplesBehaviour | src/windowing/triplewise.rs:6-11 | triplewise yields every three consecutive items in order, then None forever |
| Pairwise.PairsShape | src/windowing/pairwise.rs:6-11 | there are len-1 pairs, pair i being items i and i+1 |
| Pairwise.TriplesShape | src/windowing/triplewise.rs:6-11 | there are len-2 triples, triple i being items i, i+1 and i+2 |
| Pairwise.Examples | src/windowing/pairwise.rs:20-29 | 0..4 gives pairs 01 12 23 34 and triples 012 123 234 |
| Pairwise.ExampleCase | src/windowing/triplewise.rs:21-29 | the same examples over a bound input |
| Peekable.Next | src/look_ahead_back/peekable.rs:12-22 | next answers the first pending item (peeked, prepended or upstream) and removes it, or None when nothing is pending |
| Peekable.Peek | src/look_ahead_back/peekable.rs:27-43 | peek answers the first pending item without removing it |
| Peekable.Prepend | src/look_ahead_back/peekable.rs:45-49 | prepending puts the given items, in order, before everything pending |
| Peekable.Behaviour | src/peekable.rs:14-24 | from any state, next yields the pending items in order, then None forever |
| Peekable.PeekThenNext | src/peekable.rs:29-45 | peeking twice answers the same, and next after a peek answers what was peeked |
| Peekable.Examples | src/look_ahead_back/peekable.rs:70-97 | peek of 1 2 3 is 1, after a next it is 2; prepending 10 11 12 gives 10 11 12 1 2 3 |
| Partition.Behaviour | src/grouping/partition.rs:29-87 | the false cursor yields exactly the items failing the predicate and the true cursor exactly those passing it, each in input order, then None forever |
| Partition.SelectMembers | src/grouping/partition.rs:29-60 | a selected item is an input item whose predicate value is the cursor's side |
| Partition.SidesSplit | src/grouping/partition.rs:64-87 | together the two sides hold every input item exactly as often as the input does |
| Partition.ExampleEven | src/grouping/partition.rs:100-107 | the false side of 1..10 under "is odd" is 2 4 6 8 10 |
| Partition.ExampleOdd | src/grouping/partition.rs:100-107 | the true side of 1..10 under "is odd" is 1 3 5 7 9 |
| Partition.Alternating | src/grouping/partition.rs:29-60 | an odd item followed by an even one sends the odd item to the true side and the even one to the false side, ahead of what the rest contributes |
| Prepend.Behaviour | src/combining/prepend.rs:14-34 | the iterator yields the value, then the upstream, then None forever |
| Prepend.Example | src/combining/prepend.rs:56-58 | 0 prepended to 1 2 3 gives 0 1 2 3, then None |
| RepeatAppendDefault.Behaviour | src/others/repeat_append_default.rs:15-45 | the iterator yields the upstream up to and including its first error; after an error it answers None forever, otherwise it repeats Ok(default) forever, or None without a default |
| RepeatAppendDefault.TailCases | src/others/repeat_append_default.rs:15-45 | an error-free input is passed through whole and followed by the default, while an input with an error ends with that error and then None |
| RepeatEach.Behaviour | src/augmenting/repeat_each.rs:22-67 | the iterator yields each item n times (errors included) up to the first error after the first item, then None forever |
| RepeatEach.AllOkRepeats | src/augmenting/repeat_each.rs:22-51 | without errors the output has n*len items, item i being input item i div n |
| RepeatEach.LaterBlocks | src/augmenting/repeat_each.rs:22-51 | without errors the items after the first are their blocks of copies concatenated |
| RepeatEach.ZeroRepeats | src/augmenting/repeat_each.rs:22-51 | with n == 0 the items after the first yield only their first error, if any |
| RepeatEach.Errors | src/augmenting/repeat_each.rs:22-67 | an error after the first item is yielded once and ends the output, while an error first is repeated n times and the input continues |
| RepeatLast.Behaviour | src/augmenting/repeat_last.rs:18-42 | the iterator yields the input, then its last item forever, or the default forever for an empty input |
| RepeatLast.Answers | src/augmenting/repeat_last.rs:18-42 | every answer is Some: item i while the input lasts, then the final item |
| RepeatLast.Examples | src/augmenting/repeat_last.rs:66-73 | 1 2 3 gives 1 2 3 3 3; an empty input with default 42 gives 42 forever |
| Rlocate.ReverseAppend | src/others/rlocate.rs:18-40 | reversing a concatenation reverses and swaps the parts |
| Rlocate.Behaviour | src/others/rlocate.rs:18-54 | the iterator yields the match positions from the right, in decreasing order, then None forever; a query longer than the items repeats the offset overflow error instead |
| Rlocate.PositionsExact | src/others/rlocate.rs:18-40 | a position is reported exactly when the query occurs there, and positions strictly decrease |
| Rlocate.ReverseMembers | src/others/rlocate.rs:18-40 | reversing keeps the members |
| Rlocate.Examples | src/others/rlocate.rs:62-93 | 1 1 1 1 1 rlocates 1 1 1 at 2 1 0 and 1 at 4 3 2 1 0; a query longer than the items gives the overflow error |
| Rlocate.ExampleRepeated | src/others/rlocate.rs:62-93 | 0123 three times rlocates 1 2 3 at 9 5 1 |
| Rlocate.RepeatedWindow | src/others/rlocate.rs:62-93 | the forward matches of the repeated example are 1 5 9 |
| Rlocate.Skip | src/others/rlocate.rs:18-40 | a position where the query's first item does not occur adds no match |
| Rlocate.Hit | src/others/rlocate.rs:18-40 | a position where the query occurs adds that position as the last forward match |
| Replace.IsEquals | src/others/replace.rs:68-88 | the cache comparison answers true exactly when the cache equals the query |
| Replace.FlushCache | src/others/replace.rs:37-45 | flushing queues the cached items in order and clears the cache |
| Replace.PushAndPop | src/others/replace.rs:47-56 | pushing onto a full cache evicts its oldest item; the cache never grows beyond the query length |
| Replace.PullOk | src/others/replace.rs:121-129 | pulling a value consumes one upstream item |
| Replace.Loop | src/others/replace.rs:95-143 | the pulling loop never changes the query or the substitute |
| Replace.Preload | src/others/replace.rs:158-176 | preloading only fills the cache and may latch the end or an error |
| Replace.ReplaceAllShort | src/others/replace.rs:95-143 | fewer items than the query contain no match |
| Replace.ReplaceAllWindow | src/others/replace.rs:118-129 | a cache shorter than or different from the query is not replaced |
| Replace.ReplaceAllSlide | src/others/replace.rs:121-129 | when a full cache does not match, its oldest item is emitted unchanged and the search slides by one |
| Replace.FlushSubStep | src/others/replace.rs:118-119 | flushing the substitute on a match changes nothing in what is owed |
| Replace.EndStep | src/others/replace.rs:137-140 | at upstream exhaustion the cache is flushed and nothing owed is lost |
| Replace.ErrStep | src/others/replace.rs:130-134 | an upstream error flushes the cache and is owed after it |
| Replace.OkStep | src/others/replace.rs:123-129 | pulling a value keeps what is owed |
| Replace.OkFillStep | src/others/replace.rs:123-129 | filling a non-full cache keeps what is owed |
| Replace.OkSlideStep | src/others/replace.rs:123-129 | sliding a full, non-matching cache keeps what is owed |
| Replace.PullFull | src/others/replace.rs:47-56 | pulling a value into a full cache pops the oldest cached value into the output and appends the new one |
| Replace.Advance | src/others/replace.rs:117-141 | a pass of the loop that delivers nothing (flush the substitute, end, record an error or pull a value) keeps what is owed and what `next()` answers, and moves towards the end |
| ReplaceFacts.PreloadRest | src/others/replace.rs:158-176 | after preloading, the iterator owes the outcome the preload decides |
| ReplaceFacts.PreloadErrKeeps | src/others/replace.rs:167-170 | an error seen while preloading is kept |
| ReplaceFacts.Behaviour | src/others/replace.rs:95-192 | the iterator yields the reference output (replacements, then the first error once), then None forever |
| ReplaceFacts.CacheBound | src/others/replace.rs:47-56 | the cache never holds more than query.len() items |
| ReplaceFacts.PreloadErrAllOk | src/others/replace.rs:158-176 | an error-free input raises no preload error |
| ReplaceFacts.OutputAllOk | src/others/replace.rs:95-143 | for an error-free input at least as long as the query, the output is every left-to-right, non-overlapping occurrence replaced by the substitute |
| ReplaceFacts.ShortInputLost | src/others/replace.rs:158-176 | an input shorter than the query yields nothing: the preloaded items are not emitted |
| ReplaceFacts.ErrorLast | src/others/replace.rs:107-116 | an error can only be the last item |
| ReplaceFacts.ErrorAfterValues | src/others/replace.rs:107-116 | an upstream error after the values is emitted once, after all replaced values |
| ReplaceFacts.PreloadErrWindow | src/others/replace.rs:158-176 | an error after the first query.len() items is not seen by the preload |
| ReplaceFacts.OkPrefixThenErr | src/others/replace.rs:107-116 | values followed by an error: the values, then that error |
| ReplaceFacts.ReplaceByItself | src/others/replace.rs:95-143 | replacing the query by itself changes nothing |
| ReplaceFacts.ReplaceNoOccurrence | src/others/replace.rs:95-143 | without an occurrence of the query the input is unchanged |
| ReplaceFacts.ReplaceRestartsAfterMatch | src/others/replace.rs:23-35 | after a match the cache is cleared, so the search restarts right after it and matches never overlap |
| ReplaceFacts.ExampleOverlap | src/others/replace.rs:203-238 | 1 1 1 1 1 with 1 1 1 replaced by 3 4 gives 3 4 1 1 |
| ReplaceFacts.ExampleMiddle | src/others/replace.rs:203-238 | 0 1 2 5 0 1 2 5 with 1 2 5 replaced by 3 4 gives 0 3 4 0 3 4 |
| ReplaceFacts.MiddleHalf | src/others/replace.rs:203-238 | 0 1 2 5 with 1 2 5 replaced by 3 4 gives 0 3 4 |
| ReplaceFacts.ExampleFront | src/others/replace.rs:203-238 | 0 1 2 5 0 1 2 5 with 0 1 2 replaced by 3 4 gives 3 4 5 3 4 5 |
| ReplaceFacts.FrontHalf | src/others/replace.rs:203-238 | 5 0 1 2 5 with 0 1 2 replaced by 3 4 gives 5 3 4 5 |
| ReplaceFacts.EmptyQueryAsWritten | src/others/replace.rs:155-156 | as written, an empty query yields its ValueError and then the substitute forever |
| ReplaceFacts.EmptyQueryFinishes | src/others/replace.rs:155-156 | corrected, an empty query yields its ValueError once and then None forever |
| Selecting.Take | src/selecting/take.rs:2-21 | take returns the first min(n, len) items, pulling one more only when the input runs out first |
| Selecting.Spy | src/look_ahead_back/spy.rs:2-15 | spy always answers Some of the first min(n, len) items, pulling at most n |
| Selecting.FirstReadsOne | src/selecting/first.rs:5-23 | `first` pulls a single item: the items after it never change the answer, and on a non-empty input the default is ignored |
| Selecting.FirstExamples | src/selecting/first.rs:28-54 | 2 3 4 answers 2 and 1 2 3 answers 1 despite a default; an empty input answers the default 5, or an error without a default |
| Selecting.Only | src/selecting/only.rs:5-34 | the single item, the default (or the "too short" error) for an empty input, the "too long" error for two or more items; at most two pulls |
| Selecting.One | src/selecting/one.rs:5-26 | exactly one item is answered, otherwise the "too short" or "too long" error; at most two pulls |
| Selecting.StrictlyN | src/selecting/strictly_n.rs:5-31 | n == 0 and n == usize::MAX are rejected without pulling; otherwise all items when there are exactly n, else the "too short" or "too long" error |
| Selecting.Last | src/selecting/last.rs:6-35 | the first upstream error, else the last item, else the default or the "empty" error |
| Selecting.NthOrLast | src/selecting/nth_or_last.rs:6-48 | item n, else the last item, else the default or the "empty" error; exactly min(n, len)+1 pulls |
| Sequence.Slice | src/sequence.rs:35-37 | a slice has end-begin items, item i being item begin+i |
| Sequence.GetOfSlice | src/sequence.rs:27-37 | `get(j)` on `slice(begin, end)` reads index `begin + j` of the vector inside the slice and answers `None` past the slice's end, even where the vector goes on |
| Sequence.StartsWithPrefix | src/sequence.rs:44-48 | one sequence starts with another exactly when the other is its prefix |
| Sequence.AreSeqsEqualExact | src/sequence.rs:44-48 | are_seqs_equals answers true exactly when both sequences are equal |
| Sequence.SliceJoin | src/sequence.rs:35-37 | adjacent slices join into the slice spanning both |
| Sequence.CreateFromIterator | src/sequence.rs:56-71 | the sequence built from an iterator holds its items in order |
| Sequence.Example | src/sequence.rs:90-97 | the sequence built from 1 2 3 has length 3 and items 1 2 3 |
| Sliced.NextAdvances | src/grouping/sliced.rs:28-53 | each `next()` delivers the next owed slice (or the not-divisible error) and owes the rest |
| Sliced.Behaviour | src/grouping/sliced.rs:12-53 | `sliced(xs, n, strict)` with `n > 0` answers its slices and then `None` forever; with `n == 0` it answers `Ok([])` on every call for a non-empty vector and nothing for an empty one |
| Sliced.PlainOutput | src/grouping/sliced.rs:28-53 | without `strict` the slices are the chunks of `n` items, and they concatenate back to the input |
| Sliced.StrictOutput | src/grouping/sliced.rs:36-48 | with `strict` every delivered slice holds exactly `n` items, only the last item can be an error, and it is one exactly when `n` does not divide the input length |
| Sliced.Examples | src/grouping/sliced.rs:68-87 | slicing 1..10 by 3 gives [1,2,3],[4,5,6],[7,8,9],[10]; strict slicing of 1..11 ends with the not-divisible error |
| Sliced.ExampleCase | src/grouping/sliced.rs:68-87 | the same two cases, stated for arbitrary sequences equal to those inputs |
| SlidingWindow.Slides | src/windowing/sliding_window.rs:24-31 | there are `|xs| - n + 1` windows when the input has at least `n` items and none otherwise |
| SlidingWindow.Behaviour | src/windowing/sliding_window.rs:19-31 | the iterator answers every window of `n` consecutive items as an `Ok` item and then `None`; with `n == 0` it answers the windowing error forever |
| SlidingWindow.Examples | src/windowing/sliding_window.rs:41-71 | windows of 4 over 0..5 are [0..3],[1..4],[2..5]; an input of 3 items has none |
| SlidingWindow.ExampleCase | src/windowing/sliding_window.rs:41-61 | the windows of 4 over 0..5, stated for any sequence equal to it |
| SortTogether.Insert | src/combining/sort_together.rs:3-19 | inserting an index into an argument order adds one position and keeps every position inside the key vector |
| SortTogether.ArgSort | src/combining/sort_together.rs:3-19 | the argument order of the first `n` keys has `n` positions, each inside the key vector |
| SortTogether.InsertMembers | src/combining/sort_together.rs:3-19 | inserting index `i` adds exactly `i` to the multiset of positions |
| SortTogether.InsertSorted | src/combining/sort_together.rs:3-19 | inserting into an order whose keys ascend keeps them ascending |
| SortTogether.InsertSplit | src/combining/sort_together.rs:3-19 | inserting an index places it at one point and keeps the other positions in their order around it |
| SortTogether.ArgSortCorrect | src/combining/sort_together.rs:3-19 | the argument order lists the keys in ascending order and is a permutation of `0..n` |
| SortTogether.ApplyArgSort | src/combining/sort_together.rs:3-19 | reading a companion vector through the argument order rearranges its first `n` items without losing or adding any |
| SortTogether.ApplyReverse | src/combining/sort_together.rs:12-14 | reading through the reversed order is reading through the order and reversing |
| SortTogether.OrderKeeps | src/combining/sort_together.rs:3-19 | the ascending or descending order is a permutation of the companion vector's items |
| SortTogether.OrderSorted | src/combining/sort_together.rs:3-19 | the keys read through the order ascend, or descend when `reverse` is set |
| SortTogether.Descending | src/combining/sort_together.rs:12-14 | reading an ascending order backwards gives descending keys |
| SortTogether.SortTogether2 | src/combining/sort_together.rs:3-19 | both returned vectors have as many items as the key vector |
| SortTogether.SortTogether3 | src/combining/sort_together.rs:21-40 | all three returned vectors have as many items as the key vector |
| SortTogether.SortTogether2Correct | src/combining/sort_together.rs:3-19 | the keys come back ascending (descending when `reverse`), and the multiset of (key, companion) rows is unchanged |
| SortTogether.SortTogether3Correct | src/combining/sort_together.rs:21-40 | the keys come back ascending (descending when `reverse`), and the multiset of (key, companion, companion) rows is unchanged |
| SortTogether.Examples | src/combining/sort_together.rs:47-64 | sorting [4,3,2,1] with a,b,c,d gives [1,2,3,4] with d,c,b,a and keeps the input when reversed; sort_together3 with 5,6,7,8 also gives 8,7,6,5, and reversed with 8,7,6,5 keeps every vector |
| SortTogether.ExampleOrder | src/combining/sort_together.rs:47-64 | the keys 4, 3, 2, 1 are ordered by positions 3, 2, 1, 0, and by 0, 1, 2, 3 when reversed |
| SplitAt.Fill | src/grouping/split_at.rs:43-96 | reading upstream never changes the predicate, the budget or the keep flag |
| SplitAt.Drain | src/grouping/split_at.rs:98-114 | popping a buffered group changes only the buffer, which does not grow |
| SplitAt.RenderAppend | src/grouping/split_at.rs:98-114 | the groups delivered from two buffers in turn are those of each buffer, in order |
| SplitAt.FillRest | src/grouping/split_at.rs:43-96 | reading upstream keeps the groups still owed and leaves a whole group ready unless upstream ended |
| SplitAt.DrainAdvances | src/grouping/split_at.rs:98-114 | popping delivers the next owed group (separators only when `keep_separator`) and owes the rest |
| SplitAt.NextAdvances | src/grouping/split_at.rs:23-115 | each `next()` delivers the next owed group and owes the rest |
| SplitAt.Behaviour | src/grouping/split_at.rs:118-138 | `split_at(xs, pred, maxsplit, keep)` answers the groups of the reference split and then `None` forever |
| SplitAt.NoBudget | src/grouping/split_at.rs:24-41 | with no splits left the rest of the input is one group |
| SplitAt.ZeroMaxsplit | src/grouping/split_at.rs:24-41 | `maxsplit == 0` answers the whole input as one group |
| SplitAt.EmptyInput | src/grouping/split_at.rs:118-138 | an empty input answers one empty group |
| SplitAt.KeepFlatten | src/grouping/split_at.rs:23-115 | with `keep_separator` the groups and separators concatenate back to the input |
| SplitAt.GroupCount | src/grouping/split_at.rs:58-93 | without separators there is one group more than the splits made: every matching item when `maxsplit < 0`, at most `maxsplit` of them otherwise |
| SplitAt.UnlimitedRuns | src/grouping/split_at.rs:58-74 | with an unlimited budget and no separators no group holds a matching item, and the groups concatenate to the non-matching items |
| SplitAt.Examples | src/grouping/split_at.rs:147-210 | "bababa" splits into b,b,b,""; "bababbabc" with budget 2 into b,b,"bbabc"; "aaa" keeping separators into "",a,"",a,"",a,"" |
| SplitAt.ExampleUnlimited | src/grouping/split_at.rs:168-171 | "bababa" with no budget and no separators splits into b,b,b and a final empty group |
| SplitAt.ExampleLimited | src/grouping/split_at.rs:196-199 | "bababbabc" with budget 2 splits twice and keeps the later `a` in the last group |
| SplitAt.ExampleKept | src/grouping/split_at.rs:147-151 | "aaa" keeping separators alternates empty groups and `a` separators, seven groups in all |
| SplitAt.DropFront | src/grouping/split_at.rs:98-114 | removing the front buffered group keeps the invariant and owes the same groups minus that one (a separator only when kept) |
| SplitAt.UnlimitedClean | src/grouping/split_at.rs:58-74 | with an unlimited budget and no separators no group holds a matching item |
| SplitAt.UnlimitedFlatten | src/grouping/split_at.rs:58-93 | with an unlimited budget and no separators the groups concatenate to the non-matching items |
| SplitAt.CleanCons | src/grouping/split_at.rs:58-74 | putting a group without matching items in front of groups without them keeps every group free of matches |
| SplitInto.Split | src/grouping/split_into.rs:68-88 | there is one group per requested size |
| SplitInto.EmptyGroups | src/grouping/split_into.rs:21-65 | pending groups with no items yet are the split of an empty input |
| SplitInto.SplitEmpty | src/grouping/split_into.rs:21-65 | splitting an empty input gives only empty groups |
| SplitInto.PopAdvances | src/grouping/split_into.rs:21-65 | a full front group is delivered and the rest stays owed |
| SplitInto.ExhaustAdvances | src/grouping/split_into.rs:21-65 | once upstream ends every pending group is delivered as it stands |
| SplitInto.NextAdvances | src/grouping/split_into.rs:21-65 | each `next()` delivers the next owed group and owes the rest |
| SplitInto.FillOneRest | src/grouping/split_into.rs:21-65 | moving one upstream item into a front group that is not full changes nothing that is owed |
| SplitInto.FillOneSame | src/grouping/split_into.rs:21-65 | moving one upstream item into the front group changes neither the answer nor what is owed |
| SplitInto.Behaviour | src/grouping/split_into.rs:21-88 | `split_into(xs, sizes)` answers the groups of the reference split and then `None` forever |
| SplitInto.InitRest | src/grouping/split_into.rs:68-88 | a fresh iterator owes exactly the reference split |
| SplitInto.SplitShape | src/grouping/split_into.rs:21-65 | the groups concatenate to the first `min(sum(sizes), |xs|)` items; group `i` holds at most `sizes[i]` items; after a short group every later group is empty |
| SplitInto.Examples | src/grouping/split_into.rs:98-125 | 1..6 split into [1,2,3] sizes gives [1],[2,3],[4,5,6]; into [2,3] gives [1,2],[3,4,5]; 1..4 into [1,2,3,4] gives [1],[2,3],[4],[]; 1..4 into [1,2,0,3,4] gives [1],[2,3],[],[4],[] |
| SplitInto.ExampleExact | src/grouping/split_into.rs:99-103 | 1..6 split into sizes [1,2,3] gives [1],[2,3],[4,5,6] |
| SplitInto.ExampleDropping | src/grouping/split_into.rs:105-110 | 1..6 split into sizes [2,3] gives [1,2],[3,4,5], dropping the item beyond the sizes |
| SplitInto.ExampleUneven | src/grouping/split_into.rs:112-117 | 1..4 split into sizes [1,2,3,4] gives [1],[2,3],[4],[]: the short group and then an empty one |
| SplitInto.ExampleShort | src/grouping/split_into.rs:119-124 | 1..4 split into sizes [1,2,0,3,4] gives [1],[2,3],[],[4],[] |
| SplitWhen.Fill | src/grouping/split_when.rs:40-90 | reading upstream never changes the predicate or the budget |
| SplitWhen.FillRest | src/grouping/split_when.rs:40-90 | reading upstream either completes the last group or buffers a whole group ahead of a started one, keeping what is owed |
| SplitWhen.NextAdvances | src/grouping/split_when.rs:20-101 | each `next()` delivers the next owed group and owes the rest |
| SplitWhen.Behaviour | src/grouping/split_when.rs:104-122 | `split_when(xs, pred, maxsplit)` answers the groups of the reference split and then `None` forever |
| SplitWhen.NoBudget | src/grouping/split_when.rs:21-38 | with no splits left the rest of the input is one group |
| SplitWhen.ZeroMaxsplit | src/grouping/split_when.rs:21-38 | `maxsplit == 0` answers the whole input as one group |
| SplitWhen.GroupsFlatten | src/grouping/split_when.rs:40-100 | the groups concatenate back to the input |
| SplitWhen.GroupsNonEmpty | src/grouping/split_when.rs:40-90 | a non-empty input never yields an empty group |
| SplitWhen.SplitsAreMatches | src/grouping/split_when.rs:51-83 | between consecutive groups the predicate holds for (first item of the later group, last item of the earlier one) |
| SplitWhen.GroupBound | src/grouping/split_when.rs:64-75 | with a budget of `maxsplit >= 0` there are at most `maxsplit + 1` groups |
| SplitWhen.NoSplitInside | src/grouping/split_when.rs:51-83 | while the budget lasts no group holds two neighbours that the predicate relates: every group with an unlimited budget, every group but the last otherwise, and the last too when the budget was not used up |
| SplitWhen.SplitsExact | src/grouping/split_when.rs:40-122 | both directions: the predicate holds across every cut of `split_when(xs, pred, maxsplit)`, and inside the groups it does not hold while the budget lasts |
| SplitWhen.Join | src/grouping/split_when.rs:50-87 | a first value, a value after the budget is spent, or a value the predicate does not relate to its predecessor joins the group being collected |
| SplitWhen.Cut | src/grouping/split_when.rs:54-72 | a value the predicate relates to its predecessor closes the group being collected, starts the next one and spends one split of a budget |
| SplitWhen.ExampleFalls | src/grouping/split_when.rs:131-151 | 1,2,3,3,2,5,2,4,2 cut where the next value is smaller gives [1,2,3,3],[2,5],[2,4],[2] without a budget and with budget 10, [1,2,3,3],[2,5],[2,4,2] with budget 2, and the whole input with budget 0 |
| SplitWhen.Examples | src/grouping/split_when.rs:153-161 | with `pred(x, y) = y > x`, [2,1] gives [2],[1] and [1,2] gives [1,2]; an empty input gives one empty group |
| Substrings.Loop | src/windowing/substrings_indexes.rs:32-76 | the search for the next span changes only the cursor and the span length |
| Substrings.ForwardAdvances | src/windowing/substrings_indexes.rs:33-53 | in forward order each `next()` delivers the next owed span and owes the rest |
| Substrings.ForwardCarry | src/windowing/substrings_indexes.rs:38-41 | when the span overruns the text the cursor restarts at 0 with a span one longer, owing the same |
| Substrings.ForwardEmit | src/windowing/substrings_indexes.rs:42-52 | a span that fits is delivered and the cursor moves one right |
| Substrings.ReverseAdvances | src/windowing/substrings_indexes.rs:55-75 | in reverse order each `next()` delivers the next owed span and owes the rest |
| Substrings.ReverseCarry | src/windowing/substrings_indexes.rs:60-63 | when the cursor has wrapped below 0 the span shrinks by one and the cursor restarts at the last start that fits, owing the same |
| Substrings.ReverseEmit | src/windowing/substrings_indexes.rs:64-74 | a span is delivered and the cursor moves one left |
| Substrings.ReverseEmitSpans | src/windowing/substrings_indexes.rs:64-74 | in reverse order the delivered triple is the next owed span with its slice, and the others stay owed |
| Substrings.LoopAdvances | src/windowing/substrings_indexes.rs:32-76 | once the text is loaded each call delivers the next owed span in either order |
| Substrings.NextAdvances | src/windowing/substrings_indexes.rs:19-77 | each `next()` loads the text on its first call and delivers the next owed span |
| Substrings.LoadKeeps | src/windowing/substrings_indexes.rs:20-30 | loading the text on the first call changes neither what is owed nor the next answer |
| Substrings.InitIndexesRest | src/windowing/substrings_indexes.rs:81-99 | a fresh iterator owes exactly the reference spans in the requested order |
| Substrings.InitSpans | src/windowing/substrings_indexes.rs:81-99 | the initial cursor owes every span of the requested order |
| Substrings.Behaviour | src/windowing/substrings_indexes.rs:19-99 | `substrings_indexes(s, reverse)` answers every (substring, start, end) triple in the reference order and then `None` forever |
| Substrings.SliceNextAdvances | src/windowing/substrings.rs:23-54 | each `next()` of `substrings` delivers the next owed slice and owes the rest |
| Substrings.SliceBehaviour | src/windowing/substrings.rs:23-70 | `substrings(xs)` answers the slices of every forward span and then `None` forever |
| Substrings.UpFromShape | src/windowing/substrings_indexes.rs:33-53 | the forward spans of length at least `k` are valid, strictly ordered by length then start, and include every span of that length |
| Substrings.ForwardSpans | src/windowing/substrings_indexes.rs:33-53 | forward order lists every non-empty span of the text exactly once, shorter spans first and left to right within a length |
| Substrings.UpFromCount | src/windowing/substrings_indexes.rs:33-53 | there are `(n-k+1)(n-k+2)/2` spans of length at least `k` |
| Substrings.UpToFrom | src/windowing/substrings_indexes.rs:33-53 | the spans shorter than `k` followed by those of length at least `k` are all the spans |
| Substrings.DownIsReversedUp | src/windowing/substrings_indexes.rs:55-75 | the backward walk from length `m` down is the forward walk up to length `m`, reversed |
| Substrings.ReverseSpans | src/windowing/substrings_indexes.rs:55-75 | reverse order is exactly forward order backwards |
| Substrings.OutputShape | src/windowing/substrings_indexes.rs:19-99 | a text of `n` characters yields `n(n+1)/2` triples, each a valid span whose text is that slice of the input |
| Substrings.SpansValid | src/windowing/substrings_indexes.rs:19-99 | in either order there are `n(n+1)/2` spans and each lies inside the text and is non-empty |
| Substrings.SliceCount | src/windowing/substrings.rs:23-54 | `substrings` yields `n(n+1)/2` slices, none for an empty input |
| Substrings.ExampleForward | src/windowing/substrings_indexes.rs:106-121 | "more" yields m,o,r,e,mo,or,re,mor,ore,more with their indexes |
| Substrings.ExampleReverse | src/windowing/substrings_indexes.rs:124-140 | "more" in reverse yields more,ore,mor,re,or,mo,e,r,o,m with their indexes |
| Substrings.DownExample | src/windowing/substrings_indexes.rs:124-140 | the backward spans over four characters come in the order the reverse test expects |
| Substrings.Slices | src/windowing/substrings_indexes.rs:106-121 | each span of "more" names the substring the forward test expects |
| Summing.SumOf | src/itertools/sum.rs:4-48 | the sum answers the overflow error when the values before the first error exceed the maximum, else that first error, else `init` plus the sum of all values |
| Summing.Ilen | src/summarizing/ilen.rs:3-23 | the count answers the overflow error when `init` plus the values before the first error exceeds `usize::MAX`, else that first error, else `init` plus the input length |
| Tail.LastN | src/selecting/tail.rs:20-38 | the kept items are the last `min(n, |xs|)` items of the input |
| Tail.Next | src/selecting/tail.rs:20-38 | a call keeps the bound `n` and never holds more than `n` items |
| Tail.PullKeeps | src/selecting/tail.rs:30-35 | pulling an item into a full window drops its oldest item and keeps the same last `n` items of what is left |
| Tail.NextAdvances | src/selecting/tail.rs:20-38 | each `next()` delivers the next owed item of the last `n` and owes the rest |
| Tail.Behaviour | src/selecting/tail.rs:20-51 | `tail(xs, n)` answers the last `n` items of the input, oldest first, then `None` forever |
| Tail.Examples | src/selecting/tail.rs:59-78 | the last 3 of 1..5 are 3,4,5; the last 7 are all of them; the last 0 are none |
| Unzip.Zip2 | src/grouping/unzip.rs:3-12 | zipping two equally long sequences pairs them position by position |
| Unzip.Unzip2 | src/grouping/unzip.rs:3-12 | the two outputs hold the first and second components of each pair in order, and zipping them gives the input back |
| Unzip.Unzip3 | src/grouping/unzip.rs:14-38 | each output holds its component of every triple, in order |
| Unzip.Unzip4 | src/grouping/unzip.rs:40-67 | each output holds its component of every quadruple, in order |
| Unzip.Unzip5 | src/grouping/unzip.rs:69-99 | each output holds its component of every quintuple, in order |
| Unzip.ZipUnzip | src/grouping/unzip.rs:3-12 | unzipping zipped sequences gives the two sequences back |
| Utils.ExtractValues | src/utils.rs:3-12 | the values are those before the first error; the flag is set exactly when some item is an error, i.e. exactly when not every item was taken |
| Windowed.FillOk | src/windowing/windowed.rs:33-52 | reading the first window from values only appends them to the buffer |
| Windowed.FillStop | src/windowing/windowed.rs:33-52 | reading the first window stops at the first upstream error and reports it; without one the whole input lands in the buffer |
| Windowed.ShiftOk | src/windowing/windowed.rs:67-85 | each step of a slide drops the oldest value and appends the next one |
| Windowed.ShiftStop | src/windowing/windowed.rs:67-85 | a slide stops at the first upstream error and reports it; at the end of the input the buffer shrinks |
| Windowed.FirstAdvances | src/windowing/windowed.rs:33-63 | the first call delivers the first window, the upstream error or nothing, and owes the rest |
| Windowed.SlideAdvances | src/windowing/windowed.rs:67-94 | each later call delivers the window `step` items further on, or the upstream error, and owes the rest |
| Windowed.SlideFull | src/windowing/windowed.rs:64-94 | when at least `step` values remain the window moves on by `step` and the rest of the windows stay owed |
| Windowed.SlideShort | src/windowing/windowed.rs:78-86 | when fewer than `step` values remain the window falls short and the iterator answers None from then on |
| Windowed.NextAdvances | src/windowing/windowed.rs:24-95 | each `next()` delivers the next owed window and owes the rest |
| Windowed.Behaviour | src/windowing/windowed.rs:24-111 | `windowed(xs, n, step)` answers its windows and then its tail forever: `None` normally, the `n == 0` error for `n == 0` |
| Windowed.WinsCount | src/windowing/windowed.rs:55-94 | there are `(|v| - n) / step + 1` windows when the input holds at least `n` values, none otherwise |
| Windowed.WinsIndex | src/windowing/windowed.rs:58-94 | window `j` is the `n` values starting at position `j * step` |
| Windowed.WinAt | src/windowing/windowed.rs:58-94 | window `j`, starting at `m = j * step`, is the `n` values from position `m` |
| Windowed.WinsAt | src/windowing/windowed.rs:55-94 | the window count and the position of every window together |
| Windowed.StepOne | src/windowing/windowed.rs:67-94 | with `step == 1` window `i` is the `n` values starting at `i` |
| Windowed.OutputShape | src/windowing/windowed.rs:24-95 | every delivered window holds `n` values, only the last item can be an error, and an error item is the input's first error |
| Windowed.TooShort | src/windowing/windowed.rs:55-57 | an input shorter than `n` answers `None` at once |
| Windowed.Examples | src/windowing/windowed.rs:122-140 | windows of 3 over 1..5 by 1 are [1,2,3],[2,3,4],[3,4,5]; over 1..8 by 2 they are [1,2,3],[3,4,5],[5,6,7] |
| Windowed.ExampleCase | src/windowing/windowed.rs:122-140 | the same two cases, stated for sequences equal to those inputs |
| WindowedComplete.NextAdvances | src/windowing/windowed_complete.rs:23-50 | each `next()` delivers the next owed (before, window, after) split and owes the rest |
| WindowedComplete.Behaviour | src/windowing/windowed_complete.rs:23-78 | `windowed_complete(xs, n)` answers each split and then `None` forever, or the `n > len` error forever when the input is too short |
| WindowedComplete.OutputShape | src/windowing/windowed_complete.rs:28-49 | there are `|xs| - n + 1` splits, split `c` cutting the input into its first `c` items, the `n` items after them, and the rest |
| WindowedComplete.Example | src/windowing/windowed_complete.rs:85-164 | windows of 3 over 0..6 give ([],[0,1,2],[3..6]) through ([0..3],[4,5,6],[]) |
| WindowedComplete.ExampleCase | src/windowing/windowed_complete.rs:85-164 | the same case, stated for any sequence equal to that input |
| Zip.Next | src/itertools/zip.rs:11-27 | an unfinished call consumes one item from each input |
| Zip.NextAdvances | src/itertools/zip.rs:11-27 | each `next()` delivers the next owed pair and owes the rest |
| Zip.Behaviour | src/itertools/zip.rs:11-32 | `zip(xs, ys)` answers the pairs and then `None` forever |
| Zip.Projections | src/itertools/zip.rs:11-27 | the first components form a prefix of `xs`, the second a prefix of `ys`, and one of the inputs is used up |
| Zip.Examples | src/itertools/zip.rs:41-54 | zipping 1..4 with a,b,c, or 1..3 with a,b,c,d, gives (1,a),(2,b),(3,c) |
| ZipEqual.PullRoundShape | src/combining/zip_equal.rs:31-45 | a round without error takes one item from every input: its value, or nothing from an exhausted input, and leaves every input one item shorter |
| ZipEqual.PullRoundIns | src/combining/zip_equal.rs:31-45 | a round without error leaves every input with its first item taken, an exhausted input staying empty |
| ZipEqual.PullRoundGot | src/combining/zip_equal.rs:31-45 | a round without error records, per input, the value it took or nothing for an exhausted input |
| ZipEqual.Somes | src/combining/zip_equal.rs:53-72 | the collected values are the present ones; when all are present they are all of them, in order |
| ZipEqual.HeadErr | src/combining/zip_equal.rs:31-41 | a round sees no error exactly when every non-exhausted input's next item is a value |
| ZipEqual.PullRoundErr | src/combining/zip_equal.rs:31-41 | a round stops at the first input whose next item is an error |
| ZipEqual.NoneIsEmpty | src/combining/zip_equal.rs:47-76 | the round finds every input exhausted exactly when all are used up, and finds a value in every input exactly when none is |
| ZipEqual.SomesCount | src/combining/zip_equal.rs:53-73 | when every input gave a value the collected row has one value per input |
| ZipEqual.NextAdvances | src/combining/zip_equal.rs:18-85 | each `next()` delivers the next owed row or error and owes the rest |
| ZipEqual.Behaviour | src/combining/zip_equal.rs:18-97 | `zip_equal(ins)` answers the reference rows and errors and then `None` forever |
| ZipEqual.RowsItems | src/combining/zip_equal.rs:53-81 | row `j` holds item `j` of every input, one per input |
| ZipEqual.OkInputs | src/combining/zip_equal.rs:47-82 | for error-free inputs the answer is every full row, followed by the length error when the inputs differ in length |
| ZipEqual.OkStep | src/combining/zip_equal.rs:47-82 | a round over error-free inputs that all have an item delivers their first row ahead of what the rest answers |
| ZipEqual.OutputCons | src/combining/zip_equal.rs:47-82 | with no error in front and no input exhausted, the first item is the first row and the rest is what the shortened inputs answer |
| ZipEqual.OkHeads | src/combining/zip_equal.rs:31-41 | error-free inputs never stop a round on an error |
| ZipEqual.TailsOk | src/combining/zip_equal.rs:31-45 | error-free inputs stay error-free after a round |
| ZipEqual.RowsCons | src/combining/zip_equal.rs:53-81 | the rows are the first row followed by the rows of what a round leaves |
| ZipEqual.EmptyRowOutput | src/combining/zip_equal.rs:47-82 | once an input is exhausted, error-free inputs deliver nothing if all are, otherwise only the length error |
| ZipEqual.EqualLengths | src/combining/zip_equal.rs:76-81 | error-free inputs of one length answer exactly their rows |
| ZipEqual.ErrorOnlyLast | src/combining/zip_equal.rs:37-40 | only the last item can be an error, and it is either the length error or an error taken from some input |
| ZipEqual.HeadErrIn | src/combining/zip_equal.rs:37-40 | a reported error is one of the inputs' items |
| ZipEqual.ErrorsOfTails | src/combining/zip_equal.rs:31-45 | an error still ahead after a round is an item of one of the inputs |
| ZipEqual.ExampleEqual | src/combining/zip_equal.rs:107-119 | zipping [1,2,3],[4,5,6],[6,7,8] gives [1,4,6],[2,5,7],[3,6,8] |
| ZipEqual.EqualCase | src/combining/zip_equal.rs:107-119 | the same case, stated for any sequence equal to that input |
| ZipEqual.RowsOfExample | src/combining/zip_equal.rs:107-119 | the rows of that input are [1,4,6],[2,5,7],[3,6,8] |
| ZipEqual.ExampleUneven | src/combining/zip_equal.rs:122-134 | zipping [1,2,3],[4,5],[6,7,8] gives two rows and then the length error |
| ZipEqual.UnevenCase | src/combining/zip_equal.rs:122-134 | the same case, stated for any sequence equal to that input |
| ZipEqual.RowsOfUneven | src/combining/zip_equal.rs:122-134 | the full rows of the uneven input are [1,4,6],[2,5,7] |
| ZipOffset.ShortRows | src/combining/zip_offset.rs:71-81 | without `longest` every row entry is the matching input's item |
| ZipOffset.OutputTails | src/combining/zip_offset.rs:38-82 | after one row the inputs' remainders owe the remaining rows |
| ZipOffset.HeadsRow | src/combining/zip_offset.rs:21-84 | a call with rows left delivers the first row and advances every input; with none left it finishes |
| ZipOffset.NextAdvances | src/combining/zip_offset.rs:21-84 | each `next()` delivers the next owed row and owes the rest |
| ZipOffset.Behaviour | src/combining/zip_offset.rs:21-105 | `zip_offset(ins, offsets, longest, fill)` answers the rows of the shifted inputs and then `None` forever |
| ZipOffset.OutputShape | src/combining/zip_offset.rs:38-82 | there are as many rows as the longest shifted input (with `longest`) or the shortest (without); each row has one entry per input, the input's own item where it has one |
| ZipOffset.Examples | src/combining/zip_offset.rs:117-140 | "0123" with "abcdef" offset by 1 gives 0b,1c,2d,3e, and with `longest` also 9f |
| ZipOffset.ExampleCase | src/combining/zip_offset.rs:117-140 | the same two cases, stated for sequences equal to the shifted inputs |
| Filter.Kept | src/itertools/filter.rs:12-33 | filtering never yields more items than the input has |
| Filter.NextAdvances | src/itertools/filter.rs:12-33 | each `next()` skips rejected items, delivers the next kept one and owes the rest |
| Filter.Behaviour | src/itertools/filter.rs:12-44 | `filter(xs, pred)` answers the kept items and then `None` forever |
| Filter.KeptExact | src/itertools/filter.rs:24-30 | the kept items are a subsequence of the input, and an item is kept exactly when it is in the input and passes `pred` |
| Filter.KeptAppend | src/itertools/filter.rs:12-33 | filtering a concatenation filters each part |
| Filter.Example | src/itertools/filter.rs:54-58 | the even items of 1..9 are 2,4,6,8 |
| MapItems.NextAdvances | src/itertools/map.rs:12-27 | each `next()` delivers `f` of the next input item and owes the rest |
| MapItems.Behaviour | src/itertools/map.rs:12-37 | `map(xs, f)` answers `f` of each item and then `None` forever |
| MapItems.ApplyAppend | src/itertools/map.rs:12-27 | mapping a concatenation maps each part |
| MapItems.Example | src/itertools/map.rs:44-48 | mapping `x == 3` over 1,2,3 gives false,false,true |
| Accumulate.NextAdvances | src/itertools/accumulate.rs:15-29 | each `next()` delivers the next owed running total or error and owes the rest |
| BeforeAndAfter.NextAdvances | src/selecting/before_and_after.rs:17-33 | each `next()` delivers the next owed item of the remainder and owes the rest |
| CacheLast.NextAdvances | src/others/cache_last.rs:26-54 | each `next()` of a cursor delivers the next owed item and owes the rest |
| CacheUntil.LoopAdvances | src/others/cache_until.rs:19-66 | each `next()` delivers the next owed group or error and owes the rest |
| Chain.NextAdvances | src/itertools/chain.rs:12-35 | each `next()` delivers the next owed item of the current input, moving on when it is used up |
| Chunked.NextAdvances | src/grouping/chunked.rs:19-52 | each `next()` delivers the next owed chunk or error and owes the rest |
| Chunked.FullGroupBeforeError | src/grouping/chunked.rs:25-47 | in strict mode with a short remainder, a full group ahead of more items is delivered and the error stays owed last |
| Chunked.FullGroupBeforeGroups | src/grouping/chunked.rs:25-47 | a full group ahead of more items is delivered and the remaining groups stay owed |
| Chunked.LastGroup | src/grouping/chunked.rs:25-50 | at most `n` items left are delivered as the last group, or as the strict error when short, and nothing is owed afterwards |
| ChunkedEven.NextAdvances | src/grouping/chunked_even.rs:26-49 | each `next()` delivers the next owed bucket and owes the rest |
| CountCycle.NextAdvances | src/augmenting/count_cycle.rs:16-38 | each `next()` delivers the next owed (pass, item) pair and owes the rest |
| Distribute.NextAdvances | src/grouping/distribute.rs:44-65 | each `next()` of a bucket cursor delivers its next owed item and owes the rest |
| Divide.NextAdvances | src/grouping/divide.rs:109-127 | each `next()` of a bucket cursor delivers its next owed item or error and owes the rest |
| Except.LoopAdvances | src/selecting/map_except.rs:17-47 | each `next()` skips the acceptable errors, delivers the next owed result and owes the rest |
| GroupByTransform.NextAdvances | src/augmenting/groupby_transform.rs:29-81 | with the last-group fix each `next()` delivers the next owed group and owes the rest |
| Grouper.NextAdvances | src/grouping/grouper.rs:25-73 | each `next()` delivers the next owed group or error and owes the rest |
| Interleave.NextAdvances | src/combining/interleave.rs:14-49 | each `next()` delivers the next owed item of the round robin and owes the rest |
| Interleave.RoundAdvances | src/combining/interleave.rs:38-47 | with every input holding an item, a fresh round delivers its first item and buffers the others |
| InterleaveLongest.NextAdvances | src/combining/interleave_longest.rs:14-56 | each `next()` delivers the next owed item, skipping exhausted inputs, and owes the rest |
| Intersperse.NextAdvances | src/augmenting/intersperse.rs:29-68 | each `next()` delivers the next owed item or separator and owes the rest |
| Locate.NextAdvances | src/others/locate.rs:15-37 | each `next()` delivers the next owed match position and owes the rest |
| MarkEnds.NextAdvances | src/augmenting/mark_ends.rs:21-70 | each `next()` delivers the next owed marked item and owes the rest |
| Ncycles.NextAdvances | src/augmenting/ncycles.rs:17-36 | each `next()` delivers the next owed item of the repetitions and owes the rest |
| Padded.NextAdvances | src/augmenting/padded.rs:22-70 | each `next()` delivers the next owed item or fill value and owes the rest |
| Partition.NextAdvances | src/grouping/partition.rs:29-60 | each `next()` of a side's cursor delivers that side's next owed item and owes the rest |
| Prepend.NextAdvances | src/combining/prepend.rs:14-34 | each `next()` delivers the prepended value first, then the next owed upstream item |
| RepeatAppendDefault.NextAdvances | src/others/repeat_append_default.rs:15-45 | each `next()` delivers the next owed item or default and owes the rest |
| RepeatEach.NextAdvances | src/augmenting/repeat_each.rs:22-51 | each `next()` delivers the next owed repetition and owes the rest |
| RepeatLast.NextAdvances | src/augmenting/repeat_last.rs:18-42 | each `next()` delivers the next owed item, then the last item forever |
| Replace.LoopAdvances | src/others/replace.rs:95-143 | each `next()` delivers the next owed item of the replaced output and owes the rest |
| Rlocate.NextAdvances | src/others/rlocate.rs:18-40 | each `next()` delivers the next owed match position from the right and owes the rest |
| Rlocate.RestStep | src/others/rlocate.rs:18-40 | the start examined now is owed first when the query occurs there, ahead of the occurrences at lower starts |
| SplitAt.FillEnd | src/grouping/split_at.rs:48-57 | reading an exhausted upstream keeps what is owed |
| SplitAt.FillSplit | src/grouping/split_at.rs:58-93 | a splitting item closes the current group, queues the separator and a new group, keeping what is owed |
| SplitAt.AppendStep | src/grouping/split_at.rs:72-92 | a non-splitting item joins the current group and keeps what is owed |
| SortTogether.ApplyInsert | src/combining/sort_together.rs:3-19 | inserting index `i` into an order adds exactly item `i` of the companion vector to what the order reads |
| SortTogether.ReverseMultiset | src/combining/sort_together.rs:12-14 | reversing keeps every item |

## Left out

- Output, formatting and panics: `println!` calls (divide, groupby_transform), `Debug`/`Display` of `Error`, and `Error::message_mut` are not modelled. A panicking `unwrap` is modelled by the path that does not panic, as noted below.
- Boxed trait objects, `Rc<RefCell<..>>` sharing and raw pointers become plain values. cache_last's shared cache is one state that every cursor reads, and divide's and distribute's pointer cursors become index arithmetic.
- Integer widths: positions and counts are `nat`. Each `usize` overflow check the crate makes is modelled against `USIZE_MAX`. `sum!` is modelled for unsigned element types only, with the type's maximum as a parameter.
- Infinite iterators (iterate, repeat_last's tail, cycles) are described by their first `m` answers, through `Pull.Run`.
- Kind: `OverflowError`, `IteratorError` and `None` are used by the crate but not listed in src/error.rs:50-56. The model's `Kind` is the union of the kinds used.
- src/error.rs: `Error::new`, `value_error`, `type_error` and `any_error` only build the (kind, message) record, and `kind()` and `message()` read its fields. `Base.Error` and its builders stand for them, with no property of their own beyond what each iterator states about the errors it yields.
- Modules outside the core are not modelled: dotproduct, unique_to_each, tee, adjacent, src/itertools/chain.rs's helpers and src/itertools/iter.rs (test sources only).
- Sliced.Behaviour: the overflow of `cur + n` is not modelled. With `n == 0` the cursor never moves, so a non-empty vector answers `Ok([])` forever, as the crate does.
- Islice.Behaviour: requires that `start + m * step` stays within `USIZE_MAX` for the `m` answers observed. Past that point the index overflow is covered separately, by `Islice.StepOverflowForever`.
- Nth.Nth: requires `n < USIZE_MAX`, because the crate adds one to `n` before calling islice. The crate nests the item `Result` inside islice's `Result`; this is flattened to one `Res`.
- Nth.ExampleErrCase: the test helper `generate_okokerr_iterator` is not part of this model. Its input is read as its name says: the six values, then the overflow error.
- Divide.Behaviour: requires `k > 0`, because `Divide::new` divides by `k` (src/grouping/divide.rs:30), and `b < k`, as `iter(b)` demands. The cursor's zero-bucket check is therefore unreachable. The buffer length is bounded by `USIZE_MAX`.
- Distribute.Behaviour: requires `k > 0`. With `k == 0` the cursor's stride is 0 and it repeats its first item forever; `Distribute.ZeroBuckets` states that case. The address-overflow checks on the raw pointer are not modelled.
- Interleave.Behaviour: requires at least one input. With none, the crate's `next()` loops forever.
- ZipOffset.Behaviour: requires `|offsets| <= |ins|`, because the crate unwraps `iter_vec.get_mut(index)`. It also requires `longest` or at least one input: without either, the crate's `next()` loops forever.
- Padded.Behaviour: requires that `next_multiple` with `n == 0` is only used on an empty input, because the crate's search for the next multiple never ends otherwise. `n * i` is not checked for overflow.
- SortTogether.SortTogether2: argsort is not part of this model. Ordering is modelled by a stable insertion argsort over `int` keys, so among equal keys the order of the companion rows may differ from the crate's. The companions must hold at least as many items as the keys, because the crate indexes them by the keys' positions.
- SortTogether.SortTogether3: the same assumptions as `SortTogether2`.
- Summing.SumOf: requires `init <= max`. The element type is unsigned.
- Summing.Ilen: requires `init <= USIZE_MAX`, as the `usize` parameter guarantees.
- CacheUntil: a predicate error with no message makes the crate's `unwrap` panic. The model gives it the empty message.
- GroupByTransform: the model delivers the last group that the crate loses (see Findings); `GroupByTransform.AsWrittenLosesLastGroup` keeps the crate's behaviour.
- SlidingWindow.Behaviour: `sliding_windowed` hands plain items to `windowed`, which expects `Result` items. The model wraps every item as `Ok` and uses step 1.
- ChunkedEven: `iter(cur)` is called with an argument the cursor API does not take. It is read as the cursor offset by `cur`.
- SplitInto: the upstream holds plain items and is finite.
- RepeatLast: the upstream holds plain items.
- Substrings: the crate indexes the `String` by `char`, which agrees with its byte length only for ASCII text; the model works on characters. The reverse cursor's `self.cur -= 1` at 0 (src/windowing/substrings_indexes.rs:70) panics in a debug build, where overflow checks are on, and wraps to `usize::MAX` in a release build, which the check at line 60 takes as "this length is done". The model follows the wrapping reading, which the crate's reverse test expects, and writes the wrapped value as -1.
- Replace.Loop: with an empty query and an empty substitute the crate's `next()` never returns after the ValueError: the empty cache equals the empty query, so src/others/replace.rs:118-119 flush an empty substitute and lines 97-101 pop it and loop again. A function cannot diverge, so the model answers `None` there instead. The corrected constructor (`ReplaceFacts.EmptyQueryFinishes`) never reaches that state.
- Locate: with an empty query (and window 0) every offset from 0 to the array length matches, so the crate answers those `len + 1` offsets. On the next call `self.array.len() - self.offset` (src/others/locate.rs:21) underflows: a debug build panics there, and a release build wraps past the guard and then panics at the slice on line 25. The model answers `None` at the call where the crate panics.
- Rlocate: `self.offset -= 1` at offset 0 (src/others/rlocate.rs:33 and 37) panics in a debug build, where overflow checks are on, and wraps to `usize::MAX` in a release build, which the sentinel check at line 24 turns into `None`. The model follows the wrapping reading, which the crate's tests expect (`Some(Ok(0))` then `None`), and ends the search there.
- Selecting.NthOrLast: src/nth_or_last.rs (taking any `IntoIterator`) and src/selecting/nth_or_last.rs (taking a boxed iterator) hold the same loop. One member models both.
- Peekable: src/peekable.rs and src/look_ahead_back/peekable.rs hold the same code. Both are modelled by one module.
- Partition: the predicate is total, and the cursors share one buffered input.
- Bucket: keys are kept as a set, and the key function is total.
- Sequence: `SequenceVector` is modelled as a `seq`, so `as_slice` is the sequence itself. `Sequence.Slice` requires bounds inside the sequence, as the crate's slice indexing does.
- Selecting: `last`'s helpers `is_empty` and `get_last_item` are not part of this model; they are modelled by their evident meaning. `spy`'s `None` arm cannot be reached.
- Chunked: the root src/chunked.rs is the non-strict variant, modelled as `strict = false`.
- Filter and MapItems: `fn` pointers become total functions.
- BeforeAndAfter: the `before` iterator's field is read directly, not through its own `next()`.
- Roundrobin passes an extra argument to interleave_longest. It is modelled as interleave_longest.

## Findings

| source | as written | input that shows it | evidently intended | confidence | as-written member | corrected member |
|---|---|---|---|---|---|---|
| src/augmenting/groupby_transform.rs:31-40 | `next()` returns `None` once upstream is finished and the value buffer is empty, even if a final item still waits in the input buffer | the input "ab" with identity key: the group of 'a', then `None` | the final single-item group is delivered too: the finish check also requires the input buffer to be empty | not executed | GroupByTransform.AsWrittenLosesLastGroup | GroupByTransform.CorrectedKeepsLastGroup |
| src/others/replace.rs:155-156 | an empty query sets the ValueError but leaves the iterator unfinished; after the error, the empty cache always equals the empty query, so every later `next()` flushes the substitute again | any input, query [], substitute [v]: ValueError, v, v, ... (with substitute [] the second `next()` never returns, see Replace.Loop under Left out) | the ValueError once, then `None` forever | not executed | ReplaceFacts.EmptyQueryAsWritten | ReplaceFacts.EmptyQueryFinishes |

=== FILE: accumulate.dfy ===
/** `accumulate`: the running sums of a vector of `usize` values. An addition
    that would pass `usize::MAX` answers an OverflowError without moving on,
    so the same error is answered on every later call. */
module Accumulate {
  import opened Base
  import Pull

  datatype State = State(sum: nat, idx: nat, v: seq<nat>)

  function Init(v: seq<nat>): State
  {
    State(0, 0, v)
  }

  const AddOverflow := AnyError(OverflowError, "Add overflow.")

  /** `Accumulate::next`. */
  function Next(s: State): Pull.Step<State, Res<nat>>
  {
    if s.idx >= |s.v| then Pull.Step(s, None)
    else if s.sum + s.v[s.idx] > USIZE_MAX then Pull.Step(s, Some(Err(AddOverflow)))
    else Pull.Step(s.(idx := s.idx + 1, sum := s.sum + s.v[s.idx]), Some(Ok(s.sum + s.v[s.idx])))
  }

  /** The running sums: item `i` is the sum of `v[0..=i]`. */
  function PrefixSums(v: seq<nat>): (r: seq<nat>)
    ensures |r| == |v|
    ensures forall i :: 0 <= i < |v| ==> r[i] == Sum(v[..i + 1])
  {
    seq(|v|, i requires 0 <= i < |v| => Sum(v[..i + 1]))
  }

  /** How many running sums, from index `i` on, stay within `usize::MAX`. */
  function FitFrom(v: seq<nat>, i: nat): (r: nat)
    requires i <= |v|
    ensures i <= r <= |v|
    ensures forall j :: i <= j < r ==> PrefixSums(v)[j] <= USIZE_MAX
    ensures r < |v| ==> PrefixSums(v)[r] > USIZE_MAX
    decreases |v| - i
  {
    if i < |v| && PrefixSums(v)[i] <= USIZE_MAX then FitFrom(v, i + 1) else i
  }

  /** Every item delivered before the iterator gets stuck or ends. */
  function Output(v: seq<nat>): seq<Res<nat>>
  {
    Oks(PrefixSums(v)[..FitFrom(v, 0)])
  }

  /** What every later call answers: the overflow error, or `None`. */
  function Tail(v: seq<nat>): Option<Res<nat>>
  {
    if FitFrom(v, 0) < |v| then Some(Err(AddOverflow)) else None
  }

  ghost predicate Inv(s: State)
  {
    s.idx <= |s.v| && s.sum == Sum(s.v[..s.idx]) && s.sum <= USIZE_MAX && FitFrom(s.v, 0) == FitFrom(s.v, s.idx)
  }

  function Rest(s: State): seq<Res<nat>>
  {
    if s.idx <= |s.v| then Oks(PrefixSums(s.v)[s.idx..FitFrom(s.v, s.idx)]) else []
  }

  function TailOf(s: State): Option<Res<nat>> { Tail(s.v) }

  lemma NextAdvances(s: State)
    requires Inv(s)
    ensures Pull.Advances(Next, Inv, Rest, TailOf, s)
  {
    if s.idx < |s.v| {
      SumPrefix(s.v, s.idx);
    }
  }

  /** `accumulate` delivers the running sums that fit, then answers the
      overflow error forever, or `None` forever when every sum fits. */
  lemma Behaviour(v: seq<nat>, k: nat)
    ensures Pull.Run(Next, Init(v), k) == Pull.Observe(Output(v), Tail(v), k)
  {
    forall s: State | Inv(s) ensures Pull.Advances(Next, Inv, Rest, TailOf, s) {
      NextAdvances(s);
    }
    assert v[..0] == [];
    Pull.RunObserves(Next, Inv, Rest, TailOf, Init(v), k);
  }

  /** Each running sum is the previous one plus the next value. */
  lemma SumsStep(v: seq<nat>)
    ensures |v| > 0 ==> PrefixSums(v)[0] == v[0]
    ensures forall i :: 0 < i < |v| ==> PrefixSums(v)[i] == PrefixSums(v)[i - 1] + v[i]
  {
    if |v| > 0 {
      assert v[..1] == [v[0]] && [v[0]][1..] == [];
      assert Sum(v[..1]) == v[0] + Sum([]);
      assert PrefixSums(v)[0] == Sum(v[..1]);
    }
    forall i | 0 < i < |v| ensures PrefixSums(v)[i] == PrefixSums(v)[i - 1] + v[i] {
      SumPrefix(v, i);
    }
  }

  /** When the total fits, every running sum is delivered and the iterator
      then ends; otherwise it ends in the overflow error. */
  lemma NoOverflow(v: seq<nat>)
    ensures Sum(v) <= USIZE_MAX <==> Tail(v) == None
    ensures Sum(v) <= USIZE_MAX ==> Output(v) == Oks(PrefixSums(v))
  {
    var f := FitFrom(v, 0);
    if f < |v| {
      SumPrefix(v, f);
    } else {
      assert PrefixSums(v)[..f] == PrefixSums(v);
      if |v| > 0 {
        SumPrefix(v, |v| - 1);
        assert v[..|v|] == v;
        assert PrefixSums(v)[|v| - 1] == Sum(v);
      }
    }
  }

  /** The library's example: [4, 3, 3] accumulates to 4, 7, 10. */
  lemma Example()
    ensures Output([4, 3, 3]) == [Ok(4), Ok(7), Ok(10)] && Tail([4, 3, 3]) == None
  {
    var v: seq<nat> := [4, 3, 3];
    assert v[..1] == [4] && v[..2] == [4, 3] && v[..3] == v;
    assert Sum([3]) == 3 && Sum([3, 3]) == 6 && Sum(v) == 10;
    NoOverflow(v);
    assert PrefixSums(v) == [4, 7, 10];
  }
}

=== FILE: base.dfy ===
/** Values shared by every combinator: optional values, the error record and
    the `Result` items most iterators carry. */
module Base {

  /** The `Option` of an item; `None` is also what an exhausted `next()` answers. */
  datatype Option<+T> = None | Some(value: T)

  /** Every error kind the library raises. `NoneKind` is the kind spelled `None`,
      which only appears as a placeholder before any upstream error was seen. */
  datatype Kind = ValueError | TypeError | ParseIntError | OverflowError | IteratorError | NoneKind

  /** An error: its kind and an optional human readable message. */
  datatype Error = Error(kind: Kind, message: Option<string>)

  /** The item type of most combinators: a value or an error. */
  datatype Res<+T> = Ok(value: T) | Err(error: Error)

  /** The largest `usize` on a 64-bit target. */
  const USIZE_MAX: nat := 0xFFFF_FFFF_FFFF_FFFF

  /** Builds an error of the given kind carrying message `m`. */
  function AnyError(kind: Kind, m: string): (e: Error)
    ensures e.kind == kind && e.message == Some(m)
  {
    Error(kind, Some(m))
  }

  /** Builds a ValueError carrying message `m`. */
  function ValueErr(m: string): (e: Error)
    ensures e.kind == ValueError && e.message == Some(m)
  {
    AnyError(ValueError, m)
  }

  /** Builds a TypeError carrying message `m`. */
  function TypeErr(m: string): (e: Error)
    ensures e.kind == TypeError && e.message == Some(m)
  {
    AnyError(TypeError, m)
  }

  /** Wraps every value as an `Ok` item. */
  function Oks<T>(xs: seq<T>): (r: seq<Res<T>>)
    ensures |r| == |xs|
    ensures forall i :: 0 <= i < |xs| ==> r[i] == Ok(xs[i])
  {
    seq(|xs|, i requires 0 <= i < |xs| => Ok(xs[i]))
  }

  /** True when no item of `xs` is an error. */
  predicate AllOk<T>(xs: seq<Res<T>>)
  {
    forall i :: 0 <= i < |xs| ==> xs[i].Ok?
  }

  /** The values of an all-Ok sequence. */
  function Values<T>(xs: seq<Res<T>>): (r: seq<T>)
    requires AllOk(xs)
    ensures |r| == |xs|
    ensures forall i :: 0 <= i < |xs| ==> xs[i] == Ok(r[i])
  {
    seq(|xs|, i requires 0 <= i < |xs| => xs[i].value)
  }

  /** The values delivered before the first error (all of them when there is none). */
  function OkPrefix<T>(xs: seq<Res<T>>): seq<T>
  {
    if |xs| == 0 || xs[0].Err? then [] else [xs[0].value] + OkPrefix(xs[1..])
  }

  /** The first error of `xs`, if any. */
  function FirstErr<T>(xs: seq<Res<T>>): Option<Error>
  {
    if |xs| == 0 then None else if xs[0].Err? then Some(xs[0].error) else FirstErr(xs[1..])
  }

  /** The error item for an optional error: one item, or none. */
  function ErrItem<T>(e: Option<Error>): seq<Res<T>>
  {
    if e.Some? then [Err(e.value)] else []
  }

  /** The items a consumer sees from `xs` when it stops at the first error:
      the values before it, then the error itself. */
  function UntilErr<T>(xs: seq<Res<T>>): seq<Res<T>>
  {
    Oks(OkPrefix(xs)) + ErrItem(FirstErr(xs))
  }

  lemma OksAppend<T>(a: seq<T>, b: seq<T>)
    ensures Oks(a + b) == Oks(a) + Oks(b)
  {
  }

  lemma {:induction false} OkPrefixOfAllOk<T>(xs: seq<Res<T>>)
    requires AllOk(xs)
    ensures OkPrefix(xs) == Values(xs) && FirstErr(xs) == None
  {
    if |xs| > 0 {
      OkPrefixOfAllOk(xs[1..]);
    }
  }

  /** The values before the first error are the inputs' values; the item
      right after them, if any, is the first error. */
  lemma {:induction false} OkPrefixShape<T>(xs: seq<Res<T>>)
    ensures |OkPrefix(xs)| <= |xs|
    ensures forall j :: 0 <= j < |OkPrefix(xs)| ==> xs[j] == Ok(OkPrefix(xs)[j])
    ensures |OkPrefix(xs)| < |xs| ==> xs[|OkPrefix(xs)|].Err? && FirstErr(xs) == Some(xs[|OkPrefix(xs)|].error)
    ensures |OkPrefix(xs)| == |xs| <==> FirstErr(xs).None?
  {
    if |xs| > 0 && xs[0].Ok? {
      OkPrefixShape(xs[1..]);
    }
  }

  /** The concatenation of a sequence of sequences. */
  function Flatten<T>(xss: seq<seq<T>>): (r: seq<T>)
  {
    if |xss| == 0 then [] else xss[0] + Flatten(xss[1..])
  }

  lemma FlattenAppend<T>(a: seq<seq<T>>, b: seq<seq<T>>)
    ensures Flatten(a + b) == Flatten(a) + Flatten(b)
  {
    if |a| > 0 {
      assert (a + b)[1..] == a[1..] + b;
      FlattenAppend(a[1..], b);
    } else {
      assert a + b == b;
    }
  }

  /** `k` copies of `x`. */
  function Pad<T>(x: T, k: nat): (r: seq<T>)
    ensures |r| == k && forall i :: 0 <= i < k ==> r[i] == x
  {
    seq(k, i => x)
  }

  /** `xs` backwards. */
  function Reverse<T>(xs: seq<T>): (r: seq<T>)
    ensures |r| == |xs|
    ensures forall i :: 0 <= i < |xs| ==> r[i] == xs[|xs| - 1 - i]
  {
    seq(|xs|, i requires 0 <= i < |xs| => xs[|xs| - 1 - i])
  }

  /** What is missing from `count` to reach `total` (0 when nothing is). */
  function Gap(total: nat, count: nat): nat
  {
    if total > count then total - count else 0
  }

  /** The sum of a sequence of naturals. */
  function Sum(xs: seq<nat>): nat
  {
    if |xs| == 0 then 0 else xs[0] + Sum(xs[1..])
  }

  lemma SumAppend(a: seq<nat>, b: seq<nat>)
    ensures Sum(a + b) == Sum(a) + Sum(b)
  {
    if |a| > 0 {
      assert (a + b)[1..] == a[1..] + b;
      SumAppend(a[1..], b);
    } else {
      assert a + b == b;
    }
  }

  /** Sums of prefixes grow one item at a time and never exceed the whole sum. */
  lemma SumPrefix(a: seq<nat>, i: nat)
    requires i < |a|
    ensures Sum(a[..i + 1]) == Sum(a[..i]) + a[i]
    ensures Sum(a[..i + 1]) <= Sum(a)
  {
    assert a[..i + 1] == a[..i] + [a[i]];
    SumAppend(a[..i], [a[i]]);
    assert a == a[..i + 1] + a[i + 1..];
    SumAppend(a[..i + 1], a[i + 1..]);
  }

  /** Quotient and remainder are determined by any decomposition `a == q * n + r` with `r < n`. */
  lemma DivMod(a: nat, n: nat, q: nat, r: nat)
    requires n > 0 && r < n && a == q * n + r
    ensures a / n == q && a % n == r
  {
    var q0, r0 := a / n, a % n;
    assert a == q0 * n + r0;
    if q0 < q {
      assert q0 * n + n <= q * n by { MulMono(q0 + 1, q, n); }
    } else if q0 > q {
      assert q * n + n <= q0 * n by { MulMono(q + 1, q0, n); }
    }
  }

  lemma MulMono(a: nat, b: nat, n: nat)
    requires a <= b
    ensures a * n <= b * n
  {
  }

  /** Adding `n` adds one to the quotient and keeps the remainder. */
  lemma DivStep(a: nat, n: nat)
    requires n > 0
    ensures (a + n) / n == a / n + 1
    ensures (a + n) % n == a % n
  {
    DivMod(a + n, n, a / n + 1, a % n);
  }

  /** Concatenating blocks of `n` items each gives `n * |bs|` items, item
      `i` being item `i % n` of block `i / n`. */
  lemma FlattenBlocks<T>(bs: seq<seq<T>>, n: nat)
    requires n > 0 && forall k :: 0 <= k < |bs| ==> |bs[k]| == n
    ensures |Flatten(bs)| == n * |bs|
    ensures forall i :: 0 <= i < n * |bs| ==> i / n < |bs| && Flatten(bs)[i] == bs[i / n][i % n]
  {
    BlocksLength(bs, n);
    forall i | 0 <= i < n * |bs|
      ensures 0 <= i / n < |bs| && i % n < n && Flatten(bs)[i] == bs[i / n][i % n]
    {
      var q, r := Split(i, n);
      BlockBound(i, n, q, r, |bs|);
      BlockIndex(bs, n, q, r);
    }
  }

  lemma {:induction false} BlocksLength<T>(bs: seq<seq<T>>, n: nat)
    requires forall k :: 0 <= k < |bs| ==> |bs[k]| == n
    ensures |Flatten(bs)| == n * |bs|
  {
    if |bs| > 0 {
      BlocksLength(bs[1..], n);
      MulSuccNat(n, |bs| - 1);
    }
  }

  /** Item `r` of block `q` sits at position `q * n + r` of the concatenation. */
  lemma {:induction false} BlockIndex<T>(bs: seq<seq<T>>, n: nat, q: nat, r: nat)
    requires forall k :: 0 <= k < |bs| ==> |bs[k]| == n
    requires q < |bs| && r < n
    ensures q * n + r < |Flatten(bs)| && Flatten(bs)[q * n + r] == bs[q][r]
  {
    BlocksLength(bs, n);
    MulMono(q + 1, |bs|, n);
    assert Flatten(bs) == bs[0] + Flatten(bs[1..]);
    if q > 0 {
      BlockIndex(bs[1..], n, q - 1, r);
      MulSuccNat(n, q - 1);
      assert q * n + r == n + ((q - 1) * n + r);
    }
  }

  /** A position below `n * m` lies in one of the first `m` blocks. */
  lemma BlockBound(i: nat, n: nat, q: nat, r: nat, m: nat)
    requires i < n * m && i == q * n + r
    ensures q < m
  {
    if q >= m {
      MulMono(m, q, n);
    }
  }

  /** The quotient and remainder of `a` by `n`, as naturals. */
  lemma Split(a: nat, n: nat) returns (q: nat, r: nat)
    requires n > 0
    ensures q == a / n && r == a % n && r < n && a == q * n + r
  {
    q, r := a / n, a % n;
  }

  lemma MulSuccNat(n: nat, m: nat)
    ensures n * (m + 1) == n + n * m
  {
  }

  function Min(a: int, b: int): int { if a <= b then a else b }
  function Max(a: int, b: int): int { if a >= b then a else b }
}

=== FILE: before_and_after.dfy ===
/** `before_and_after`: splits the input at the first item failing a
    predicate. The leading passing items are collected eagerly into `before`;
    iterating the result then yields the failing item and everything after it. */
module BeforeAndAfter {
  import opened Base
  import Pull

  /** The collected prefix, the first failing item (if any), whether it was
      already handed out, and the upstream left after it (absent when the
      whole input passed). */
  datatype State<T> = State(before: seq<T>, theOne: Option<T>, consumed: bool, after: Option<seq<T>>)

  /** How many leading items of `xs` satisfy `pred`. */
  function Passing<T>(xs: seq<T>, pred: T -> bool): (k: nat)
    ensures k <= |xs|
    ensures forall i :: 0 <= i < k ==> pred(xs[i])
    ensures k < |xs| ==> !pred(xs[k])
  {
    if |xs| == 0 || !pred(xs[0]) then 0 else 1 + Passing(xs[1..], pred)
  }

  /** The constructor: pull items into `before` while they pass; the first
      failing item becomes `theOne` and the rest of the upstream `after`. */
  function Construct<T>(xs: seq<T>, pred: T -> bool): (r: State<T>)
    ensures !r.consumed
    ensures forall i :: 0 <= i < |r.before| ==> pred(r.before[i])
  {
    var k := Passing(xs, pred);
    if k < |xs| then State(xs[..k], Some(xs[k]), false, Some(xs[k + 1..]))
    else State(xs, None, false, None)
  }

  /** One call of `next()`: the first call answers `theOne` (or `None`), later
      calls forward to `after`. */
  function Next<T>(s: State<T>): Pull.Step<State<T>, T>
  {
    if !s.consumed then Pull.Step(s.(consumed := true), s.theOne)
    else if s.after.None? || |s.after.value| == 0 then Pull.Step(s, None)
    else Pull.Step(s.(after := Some(s.after.value[1..])), Some(s.after.value[0]))
  }

  /** Without a failing item there is nothing after it. */
  ghost predicate Inv<T>(s: State<T>) { s.theOne.None? ==> s.after.None? }

  /** What iteration still yields. */
  function Rest<T>(s: State<T>): seq<T>
  {
    (if !s.consumed && s.theOne.Some? then [s.theOne.value] else [])
      + (if s.after.Some? then s.after.value else [])
  }

  function TailOf<T>(s: State<T>): Option<T> { None }

  lemma NextAdvances<T>(s: State<T>)
    requires Inv(s)
    ensures Pull.Advances(Next, Inv, Rest, TailOf, s)
  {
    if s.consumed && s.after.Some? && |s.after.value| > 0 {
      assert Rest(s) == s.after.value;
    }
  }

  /** Iterating a constructed value yields exactly `Rest`, then `None`. */
  lemma Behaviour<T>(xs: seq<T>, pred: T -> bool, m: nat)
    ensures Pull.Run(Next, Construct(xs, pred), m) == Pull.Observe(Rest(Construct(xs, pred)), None, m)
  {
    forall s: State<T> | Inv(s) ensures Pull.Advances(Next, Inv, Rest, TailOf, s) {
      NextAdvances(s);
    }
    Pull.RunObserves(Next, Inv, Rest, TailOf, Construct(xs, pred), m);
  }

  /** `before` is the longest passing prefix: it and the iterated items make
      up the input, the iterated items start with a failing item, and nothing
      is iterated exactly when every item passes. */
  lemma Split<T>(xs: seq<T>, pred: T -> bool)
    ensures var r := Construct(xs, pred);
      r.before + Rest(r) == xs &&
      (|Rest(r)| > 0 ==> !pred(Rest(r)[0])) &&
      (|Rest(r)| == 0 <==> forall i :: 0 <= i < |xs| ==> pred(xs[i]))
  {
    var r := Construct(xs, pred);
    var k := Passing(xs, pred);
    if k < |xs| {
      assert Rest(r) == [xs[k]] + xs[k + 1..];
      assert xs[..k] + ([xs[k]] + xs[k + 1..]) == xs;
    } else {
      assert Rest(r) == [];
    }
  }

  /** The library's example: "ABCdEfGhI" split at the first lower-case letter. */
  lemma Example(xs: string, upper: char -> bool)
    requires xs == "ABCdEfGhI"
    requires forall c :: upper(c) == ('A' <= c <= 'Z')
    ensures Construct(xs, upper).before == "ABC"
    ensures Rest(Construct(xs, upper)) == "dEfGhI"
  {
    assert upper(xs[0]) && upper(xs[1]) && upper(xs[2]) && !upper(xs[3]);
    assert Passing(xs[3..], upper) == 0;
    assert Passing(xs[2..], upper) == 1;
    assert Passing(xs[1..], upper) == 2;
    assert Passing(xs, upper) == 3;
    assert [xs[3]] + xs[4..] == xs[3..];
  }
}

=== FILE: bucket.dfy ===
/** `bucket`: the items of a vector grouped into a table by a key function,
    each group keeping the input order. */
module Bucket {
  import opened Base

  /** The table built from the first `|buf|` items: each key seen so far maps
      to its items in input order. */
  function Build<K(==), V>(buf: seq<V>, key: V -> K): map<K, seq<V>>
  {
    if |buf| == 0 then map[]
    else
      var t := Build(buf[..|buf| - 1], key);
      var x := buf[|buf| - 1];
      var k := key(x);
      t[k := (if k in t then t[k] else []) + [x]]
  }

  /** `get(key)`: the group of `k`, or `None` when no item has that key. */
  function Get<K(==), V>(buf: seq<V>, key: V -> K, k: K): (r: Option<seq<V>>)
    ensures r.Some? ==> |r.value| > 0
  {
    var t := Build(buf, key);
    if k in t then (BuildNonEmpty(buf, key); Some(t[k])) else None
  }

  /** `keys()`: every key present in the table, once each. */
  function Keys<K(==), V>(buf: seq<V>, key: V -> K): set<K>
  {
    Build(buf, key).Keys
  }

  /** Reference definition: the items of `buf` whose key is `k`, in order. */
  function Matching<K(==), V>(buf: seq<V>, key: V -> K, k: K): seq<V>
  {
    if |buf| == 0 then []
    else Matching(buf[..|buf| - 1], key, k) + (if key(buf[|buf| - 1]) == k then [buf[|buf| - 1]] else [])
  }

  /** Every group in the table is non-empty. */
  lemma {:induction false} BuildNonEmpty<K, V>(buf: seq<V>, key: V -> K)
    ensures forall k :: k in Build(buf, key) ==> |Build(buf, key)[k]| > 0
  {
    if |buf| > 0 {
      BuildNonEmpty(buf[..|buf| - 1], key);
    }
  }

  /** The keys of the items, item by item. */
  function KeysOf<K(==), V>(buf: seq<V>, key: V -> K): set<K>
  {
    if |buf| == 0 then {} else KeysOf(buf[..|buf| - 1], key) + {key(buf[|buf| - 1])}
  }

  /** A key is among the keys of the items exactly when some item carries it. */
  lemma {:induction false} KeysOfExact<K, V>(buf: seq<V>, key: V -> K)
    ensures KeysOf(buf, key) == set i | 0 <= i < |buf| :: key(buf[i])
  {
    if |buf| > 0 {
      var p := buf[..|buf| - 1];
      KeysOfExact(p, key);
      forall k ensures k in KeysOf(buf, key) <==> k in set i | 0 <= i < |buf| :: key(buf[i]) {
        if k in KeysOf(p, key) {
          var i :| 0 <= i < |p| && key(p[i]) == k;
          assert key(buf[i]) == k;
        }
        if k in set i | 0 <= i < |buf| :: key(buf[i]) {
          var i :| 0 <= i < |buf| && key(buf[i]) == k;
          if i < |p| {
            assert key(p[i]) == k;
          }
        }
      }
    }
  }

  /** The table holds exactly the keys of the items, and each key's group is
      the items with that key, in input order. */
  lemma {:induction false} BuildExact<K, V>(buf: seq<V>, key: V -> K)
    ensures Build(buf, key).Keys == KeysOf(buf, key)
    ensures forall k :: k in Build(buf, key) ==> Build(buf, key)[k] == Matching(buf, key, k)
  {
    if |buf| > 0 {
      var p := buf[..|buf| - 1];
      BuildExact(p, key);
      var kx := key(buf[|buf| - 1]);
      if kx !in Build(p, key) {
        MatchingAbsent(p, key, kx);
      }
    }
  }

  /** A key no item carries matches nothing. */
  lemma {:induction false} MatchingAbsent<K, V>(buf: seq<V>, key: V -> K, k: K)
    requires k !in KeysOf(buf, key)
    ensures Matching(buf, key, k) == []
  {
    if |buf| > 0 {
      MatchingAbsent(buf[..|buf| - 1], key, k);
    }
  }

  /** `get` answers the items with the requested key, in input order, and
      `None` exactly when no item has it. */
  lemma GetExact<K, V>(buf: seq<V>, key: V -> K, k: K)
    ensures Get(buf, key, k).None? <==> forall i :: 0 <= i < |buf| ==> key(buf[i]) != k
    ensures Get(buf, key, k).Some? ==> Get(buf, key, k).value == Matching(buf, key, k)
  {
    BuildExact(buf, key);
    KeysOfExact(buf, key);
    if Get(buf, key, k).Some? {
      var i :| 0 <= i < |buf| && key(buf[i]) == k;
    }
  }

  /** `keys` lists exactly the keys of the items. */
  lemma KeysExact<K, V>(buf: seq<V>, key: V -> K)
    ensures Keys(buf, key) == set i | 0 <= i < |buf| :: key(buf[i])
  {
    BuildExact(buf, key);
    KeysOfExact(buf, key);
  }

  /** The keys in order of first appearance (one valid listing of `keys()`). */
  function FirstKeys<K(==), V>(buf: seq<V>, key: V -> K): seq<K>
  {
    if |buf| == 0 then []
    else
      var p := FirstKeys(buf[..|buf| - 1], key);
      var k := key(buf[|buf| - 1]);
      if k in p then p else p + [k]
  }

  predicate Distinct<K(==)>(ks: seq<K>)
  {
    forall i, j :: 0 <= i < j < |ks| ==> ks[i] != ks[j]
  }

  /** The keys in order of first appearance are distinct and are the keys of
      the items. */
  lemma {:induction false} FirstKeysShape<K, V>(buf: seq<V>, key: V -> K)
    ensures Distinct(FirstKeys(buf, key))
    ensures forall k :: k in FirstKeys(buf, key) <==> k in KeysOf(buf, key)
  {
    if |buf| > 0 {
      FirstKeysShape(buf[..|buf| - 1], key);
    }
  }

  /** The sizes of the groups of the keys `ks`. */
  function Sizes<K(==), V>(ks: seq<K>, buf: seq<V>, key: V -> K): nat
  {
    if |ks| == 0 then 0 else |Matching(buf, key, ks[0])| + Sizes(ks[1..], buf, key)
  }

  /** How often `k` occurs in `ks`. */
  function Occurrences<K(==)>(ks: seq<K>, k: K): nat
  {
    if |ks| == 0 then 0 else (if ks[0] == k then 1 else 0) + Occurrences(ks[1..], k)
  }

  lemma {:induction false} OccurrencesDistinct<K>(ks: seq<K>, k: K)
    requires Distinct(ks)
    ensures Occurrences(ks, k) == if k in ks then 1 else 0
  {
    if |ks| > 0 {
      OccurrencesDistinct(ks[1..], k);
      if ks[0] == k {
        assert k !in ks[1..];
      }
    }
  }

  /** One more item grows the group of its key by one. */
  lemma {:induction false} SizesSnoc<K, V>(ks: seq<K>, buf: seq<V>, key: V -> K)
    requires |buf| > 0
    ensures Sizes(ks, buf, key) == Sizes(ks, buf[..|buf| - 1], key) + Occurrences(ks, key(buf[|buf| - 1]))
  {
    if |ks| > 0 {
      SizesSnoc(ks[1..], buf, key);
    }
  }

  /** For any duplicate-free listing of keys covering every item, the group
      sizes add up to the number of items: nothing is lost or counted twice. */
  lemma {:induction false} SizesCover<K, V>(ks: seq<K>, buf: seq<V>, key: V -> K)
    requires Distinct(ks)
    requires forall k :: k in KeysOf(buf, key) ==> k in ks
    ensures Sizes(ks, buf, key) == |buf|
  {
    if |buf| == 0 {
      SizesEmpty(ks, buf, key);
    } else {
      var p := buf[..|buf| - 1];
      SizesCover(ks, p, key);
      SizesSnoc(ks, buf, key);
      OccurrencesDistinct(ks, key(buf[|buf| - 1]));
    }
  }

  lemma {:induction false} SizesEmpty<K, V>(ks: seq<K>, buf: seq<V>, key: V -> K)
    requires |buf| == 0
    ensures Sizes(ks, buf, key) == 0
  {
    if |ks| > 0 {
      SizesEmpty(ks[1..], buf, key);
    }
  }

  /** The groups listed by `keys()` add up to the whole input. */
  lemma GroupsAddUp<K, V>(buf: seq<V>, key: V -> K)
    ensures Distinct(FirstKeys(buf, key))
    ensures (set k | k in FirstKeys(buf, key)) == Keys(buf, key)
    ensures Sizes(FirstKeys(buf, key), buf, key) == |buf|
  {
    var ks := FirstKeys(buf, key);
    FirstKeysShape(buf, key);
    BuildKeys(buf, key);
    SetOfSeq(ks, Keys(buf, key));
    SizesCover(ks, buf, key);
  }

  /** The keys of the built map are the keys of the items. */
  lemma BuildKeys<K, V>(buf: seq<V>, key: V -> K)
    ensures Keys(buf, key) == KeysOf(buf, key)
  {
    BuildExact(buf, key);
  }

  /** A sequence listing exactly the members of a set has that set as its elements. */
  lemma SetOfSeq<K>(ks: seq<K>, s: set<K>)
    requires forall k :: k in ks <==> k in s
    ensures (set k | k in ks) == s
  {
  }

  /** The library's example: strings keyed by their first letter. */
  lemma Example(v: seq<string>, first: string -> string)
    requires v == ["a1", "b1", "c1", "a2", "b2", "c2", "b3"]
    requires forall x :: |x| > 0 ==> first(x) == [x[0]]
    ensures Get(v, first, "a") == Some(["a1", "a2"])
    ensures Get(v, first, "b") == Some(["b1", "b2", "b3"])
    ensures Get(v, first, "d") == None
  {
    GetExact(v, first, "a");
    GetExact(v, first, "b");
    GetExact(v, first, "d");
    ExampleMatching(v, first);
    assert first(v[0]) == "a" && first(v[1]) == "b";
  }

  lemma ExampleMatching(v: seq<string>, first: string -> string)
    requires v == ["a1", "b1", "c1", "a2", "b2", "c2", "b3"]
    requires forall x :: |x| > 0 ==> first(x) == [x[0]]
    ensures Matching(v, first, "a") == ["a1", "a2"]
    ensures Matching(v, first, "b") == ["b1", "b2", "b3"]
    ensures forall i :: 0 <= i < |v| ==> first(v[i]) != "d"
  {
    assert v[0] == "a1" && v[1] == "b1" && v[2] == "c1" && v[3] == "a2";
    assert v[4] == "b2" && v[5] == "c2" && v[6] == "b3";
    ByKeys(v, first, "a", "b", "c", "d");
  }

  /** Matching over seven items whose keys are a b c a b c b. */
  lemma ByKeys<K, V>(v: seq<V>, key: V -> K, a: K, b: K, c: K, d: K)
    requires |v| == 7 && a != b && b != c && a != c && d != a && d != b && d != c
    requires key(v[0]) == a && key(v[1]) == b && key(v[2]) == c && key(v[3]) == a
    requires key(v[4]) == b && key(v[5]) == c && key(v[6]) == b
    ensures Matching(v, key, a) == [v[0], v[3]]
    ensures Matching(v, key, b) == [v[1], v[4], v[6]]
    ensures forall i :: 0 <= i < |v| ==> key(v[i]) != d
  {
    assert v[..0] == [];
    MatchingStep(v, key, a, 0);
    MatchingStep(v, key, b, 0);
    MatchingStep(v, key, a, 1);
    MatchingStep(v, key, b, 1);
    MatchingStep(v, key, a, 2);
    MatchingStep(v, key, b, 2);
    MatchingStep(v, key, a, 3);
    MatchingStep(v, key, b, 3);
    MatchingStep(v, key, a, 4);
    MatchingStep(v, key, b, 4);
    MatchingStep(v, key, a, 5);
    MatchingStep(v, key, b, 5);
    MatchingStep(v, key, a, 6);
    MatchingStep(v, key, b, 6);
    assert v[..7] == v;
  }

  /** The items among the first `n + 1` with key `k` are those among the
      first `n`, plus item `n` when it has that key. */
  lemma MatchingStep<K, V>(v: seq<V>, key: V -> K, k: K, n: nat)
    requires n < |v|
    ensures Matching(v[..n + 1], key, k) == Matching(v[..n], key, k) + (if key(v[n]) == k then [v[n]] else [])
  {
    assert v[..n + 1][..n] == v[..n];
  }
}

=== FILE: cache_last.dfy ===
/** `cache_last`: an upstream shared by any number of cursors that remembers
    the last item it delivered, and `insert_last_to_head`, which makes the
    next pull deliver that item again. Every cursor is a handle on the one
    shared state, so a pull through any of them is a call of `Next` on it. */
module CacheLast {
  import opened Base
  import Pull

  /** The shared state: the items not yet pulled, whether the upstream is
      done (exhausted or failed), the last item delivered, and whether the
      next pull replays it. */
  datatype State<T> = State(up: seq<Res<T>>, finished: bool, last: Option<Res<T>>, replay: bool)

  function Init<T>(xs: seq<Res<T>>): State<T>
  {
    State(xs, false, None, false)
  }

  /** One pull through any cursor. */
  function Next<T>(s: State<T>): Pull.Step<State<T>, Res<T>>
  {
    if s.finished then Pull.Step(s, None)
    else if s.replay then
      Pull.Step(s.(replay := false), if s.last.Some? then Some(s.last.value) else None)
    else if |s.up| == 0 then Pull.Step(s.(finished := true, last := None), None)
    else
      var x := s.up[0];
      Pull.Step(s.(up := s.up[1..], last := Some(x), finished := x.Err?), Some(x))
  }

  /** `insert_last_to_head`: schedule a replay, unless the upstream is done
      or nothing was delivered yet. */
  function InsertLastToHead<T>(s: State<T>): (t: State<T>)
    ensures s.finished || s.last.None? ==> t == s
    ensures !s.finished && s.last.Some? ==> t == s.(replay := true)
  {
    if s.finished || s.last.None? then s else s.(replay := true)
  }

  /** A scheduled replay always has an item to replay, and a done upstream
      schedules none. */
  ghost predicate Inv<T>(s: State<T>)
  {
    s.replay ==> !s.finished && s.last.Some?
  }

  function Rest<T>(s: State<T>): seq<Res<T>>
  {
    if s.finished then []
    else (if s.replay && s.last.Some? then [s.last.value] else []) + UntilErr(s.up)
  }

  function TailOf<T>(s: State<T>): Option<Res<T>> { None }

  lemma NextAdvances<T>(s: State<T>)
    requires Inv(s)
    ensures Pull.Advances(Next, Inv, Rest, TailOf, s)
  {
    if !s.finished && !s.replay && |s.up| > 0 {
      if s.up[0].Ok? {
        assert UntilErr(s.up) == [s.up[0]] + UntilErr(s.up[1..]);
      }
    }
  }

  /** From any reachable state the pulls deliver what is owed: a scheduled
      replay, then the upstream items up to and including the first error,
      then `None` forever. */
  lemma Behaviour<T>(s: State<T>, m: nat)
    requires Inv(s)
    ensures Pull.Run(Next, s, m) == Pull.Observe(Rest(s), None, m)
  {
    forall u: State<T> | Inv(u) ensures Pull.Advances(Next, Inv, Rest, TailOf, u) {
      NextAdvances(u);
    }
    Pull.RunObserves(Next, Inv, Rest, TailOf, s, m);
  }

  /** Without replays the cursors deliver the input up to and including the
      first error; an empty input answers `None` every time. */
  lemma Plain<T>(xs: seq<Res<T>>, m: nat)
    ensures Pull.Run(Next, Init(xs), m) == Pull.Observe(UntilErr(xs), None, m)
  {
    Behaviour(Init(xs), m);
  }

  /** The state after `k` pulls. */
  function After<T>(s: State<T>, k: nat): State<T>
    decreases k
  {
    if k == 0 then s else After(Next(s).state, k - 1)
  }

  /** After `k` pulls of error-free items nothing is done, the upstream has
      moved on by `k`, and the last delivered item is remembered. */
  lemma {:induction false} AfterPulls<T>(xs: seq<Res<T>>, k: nat)
    requires k <= |xs| && AllOk(xs[..k])
    ensures After(Init(xs), k) == State(xs[k..], false, if k == 0 then None else Some(xs[k - 1]), false)
  {
    if k > 0 {
      AfterPulls(xs, k - 1);
      assert xs[..k - 1] == xs[..k][..k - 1];
      AfterStep(Init(xs), k - 1);
      assert xs[k - 1..][1..] == xs[k..];
    }
  }

  lemma {:induction false} AfterStep<T>(s: State<T>, k: nat)
    ensures After(s, k + 1) == Next(After(s, k)).state
    decreases k
  {
    if k > 0 {
      AfterStep(Next(s).state, k - 1);
    }
  }

  /** `insert_last_to_head` after a delivered item makes the next pull
      deliver it again without touching the upstream, after which the
      cursors carry on as if nothing had been inserted. */
  lemma Replay<T>(s: State<T>)
    requires Inv(s) && !s.finished && s.last.Some?
    ensures Next(InsertLastToHead(s)).out == Some(s.last.value)
    ensures Next(InsertLastToHead(s)).state == s.(replay := false)
    ensures Rest(InsertLastToHead(s)) == [s.last.value] + Rest(s.(replay := false))
  {
  }

  /** The library's example: pull 1, 2, 3 from 1..5, insert, then the pulls
      give 3, 4, 5 and `None`. */
  lemma Example(xs: seq<Res<int>>)
    requires xs == Oks([1, 2, 3, 4, 5])
    ensures Pull.Run(Next, Init(xs), 3) == [Some(Ok(1)), Some(Ok(2)), Some(Ok(3))]
    ensures Pull.Run(Next, InsertLastToHead(After(Init(xs), 3)), 4) == [Some(Ok(3)), Some(Ok(4)), Some(Ok(5)), None]
  {
    Plain(xs, 3);
    assert AllOk(xs[..3]);
    AfterPulls(xs, 3);
    var s := After(Init(xs), 3);
    assert xs[3..] == [Ok(4), Ok(5)];
    OkPrefixOfAllOk(xs[3..]);
    assert Values(xs[3..]) == [4, 5];
    Behaviour(InsertLastToHead(s), 4);
    assert Rest(InsertLastToHead(s)) == [Ok(3), Ok(4), Ok(5)];
  }
}

=== FILE: cache_until.dfy ===
/** `cache_until` (spelled `cache_util` where it is defined): cuts a stream of
    results into groups at the values a fallible predicate accepts. In
    append-tail mode the accepted value ends its group; otherwise it starts
    the next one. `split_before` and `split_after` are the two modes. */
module CacheUntil {
  import opened Base
  import Pull

  datatype State<!T> = State(buf: seq<T>, up: seq<Res<T>>, pred: T -> Res<bool>, count: int, max: int,
                             appendTail: bool, finished: bool)

  function Init<T>(xs: seq<Res<T>>, pred: T -> Res<bool>, max: int, appendTail: bool): State<T>
  {
    State([], xs, pred, 0, max, appendTail, false)
  }

  /** `split_before`: a match starts a new group. */
  function SplitBefore<T>(xs: seq<Res<T>>, pred: T -> Res<bool>, maxsplit: int): State<T>
  {
    Init(xs, pred, maxsplit, false)
  }

  /** `split_after`: a match ends its group. */
  function SplitAfter<T>(xs: seq<Res<T>>, pred: T -> Res<bool>, maxsplit: int): State<T>
  {
    Init(xs, pred, maxsplit, true)
  }

  /** The error reported for a failing predicate: its kind, with the message
      prefixed by "[cache_util] ". */
  function PredError(e: Error): (r: Error)
    ensures r.kind == e.kind
    ensures e.message.Some? ==> r.message == Some("[cache_util] " + e.message.value)
  {
    AnyError(e.kind, "[cache_util] " + (if e.message.Some? then e.message.value else ""))
  }

  /** The inner loop of `next()`: pull until a group is complete, an error
      arrives or the upstream ends. */
  function Loop<T>(s: State<T>): (t: Pull.Step<State<T>, Res<seq<T>>>)
    requires !s.finished
    ensures t.out.Some? && t.state.pred == s.pred && t.state.max == s.max && t.state.appendTail == s.appendTail
    decreases |s.up|
  {
    if |s.up| == 0 then Pull.Step(s.(buf := [], finished := true), Some(Ok(s.buf)))
    else match s.up[0]
      case Err(e) => Pull.Step(s.(up := s.up[1..], finished := true), Some(Err(e)))
      case Ok(v) =>
        match s.pred(v)
        case Err(e) => Pull.Step(s.(up := s.up[1..], finished := true), Some(Err(PredError(e))))
        case Ok(b) =>
          if b && (s.max < 0 || s.count < s.max) then
            if s.appendTail then Pull.Step(s.(up := s.up[1..], buf := [], count := s.count + 1), Some(Ok(s.buf + [v])))
            else Pull.Step(s.(up := s.up[1..], buf := [v], count := s.count + 1), Some(Ok(s.buf)))
          else Loop(s.(up := s.up[1..], buf := s.buf + [v]))
  }

  function Next<T>(s: State<T>): Pull.Step<State<T>, Res<seq<T>>>
  {
    if s.finished then Pull.Step(s, None) else Loop(s)
  }

  /** Reference definition: the groups of `cur` followed by `xs`, with `left`
      splits remaining (negative: any number). */
  function Groups<T>(cur: seq<T>, xs: seq<Res<T>>, pred: T -> Res<bool>, left: int, appendTail: bool): seq<Res<seq<T>>>
    decreases |xs|
  {
    if |xs| == 0 then [Ok(cur)]
    else match xs[0]
      case Err(e) => [Err(e)]
      case Ok(v) =>
        match pred(v)
        case Err(e) => [Err(PredError(e))]
        case Ok(b) =>
          var left' := if left > 0 then left - 1 else left;
          if b && left != 0 then
            if appendTail then [Ok(cur + [v])] + Groups([], xs[1..], pred, left', appendTail)
            else [Ok(cur)] + Groups([v], xs[1..], pred, left', appendTail)
          else Groups(cur + [v], xs[1..], pred, left, appendTail)
  }

  function Budget(max: int): int { if max < 0 then -1 else max }

  function Output<T>(xs: seq<Res<T>>, pred: T -> Res<bool>, max: int, appendTail: bool): seq<Res<seq<T>>>
  {
    Groups([], xs, pred, Budget(max), appendTail)
  }

  ghost predicate Inv<T>(s: State<T>)
  {
    s.max >= 0 ==> 0 <= s.count <= s.max
  }

  function Left<T>(s: State<T>): int
  {
    if s.max < 0 then -1 else s.max - s.count
  }

  function Rest<T>(s: State<T>): seq<Res<seq<T>>>
  {
    if s.finished then [] else Groups(s.buf, s.up, s.pred, Left(s), s.appendTail)
  }

  function TailOf<T>(s: State<T>): Option<Res<seq<T>>> { None }

  lemma {:induction false} LoopAdvances<T>(s: State<T>)
    requires Inv(s) && !s.finished
    ensures Pull.Advances(Next, Inv, Rest, TailOf, s)
    decreases |s.up|
  {
    if |s.up| > 0 && s.up[0].Ok? {
      var v := s.up[0].value;
      if s.pred(v).Ok? && !(s.pred(v).value && (s.max < 0 || s.count < s.max)) {
        var s1 := s.(up := s.up[1..], buf := s.buf + [v]);
        LoopAdvances(s1);
        Pull.AdvancesTransfer(Next, Inv, Rest, TailOf, s, s1);
      }
    }
  }

  /** The answers of `next()` are the groups, then `None` forever. */
  lemma Behaviour<T>(xs: seq<Res<T>>, pred: T -> Res<bool>, max: int, appendTail: bool, k: nat)
    ensures Pull.Run(Next, Init(xs, pred, max, appendTail), k) == Pull.Observe(Output(xs, pred, max, appendTail), None, k)
  {
    forall s: State<T> | Inv(s) ensures Pull.Advances(Next, Inv, Rest, TailOf, s) {
      if !s.finished {
        LoopAdvances(s);
      }
    }
    Pull.RunObserves(Next, Inv, Rest, TailOf, Init(xs, pred, max, appendTail), k);
  }

  // ---- properties of the reference definition ----

  /** Every value is Ok and accepted or rejected without error. */
  predicate Clean<T>(xs: seq<Res<T>>, pred: T -> Res<bool>)
  {
    forall i :: 0 <= i < |xs| ==> xs[i].Ok? && pred(xs[i].value).Ok?
  }

  /** Does `pred` accept `v`? */
  predicate Accepts<T>(pred: T -> Res<bool>, v: T)
  {
    pred(v) == Ok(true)
  }

  /** The number of accepted values. */
  function Matches<T>(xs: seq<Res<T>>, pred: T -> Res<bool>): nat
  {
    if |xs| == 0 then 0 else (if xs[0].Ok? && Accepts(pred, xs[0].value) then 1 else 0) + Matches(xs[1..], pred)
  }

  /** Only the last item can be an error, and there is always a last item. */
  lemma {:induction false} ErrorOnlyLast<T>(cur: seq<T>, xs: seq<Res<T>>, pred: T -> Res<bool>, left: int, appendTail: bool)
    ensures var g := Groups(cur, xs, pred, left, appendTail);
      |g| > 0 && forall i :: 0 <= i < |g| - 1 ==> g[i].Ok?
    decreases |xs|
  {
    if |xs| > 0 && xs[0].Ok? && pred(xs[0].value).Ok? {
      var v := xs[0].value;
      var left' := if left > 0 then left - 1 else left;
      if pred(v).value && left != 0 {
        ErrorOnlyLast(if appendTail then [] else [v], xs[1..], pred, left', appendTail);
      } else {
        ErrorOnlyLast(cur + [v], xs[1..], pred, left, appendTail);
      }
    }
  }

  /** The error that stops the scan of `xs`: the first upstream error, or
      the prefixed error of the first value the predicate fails on. */
  function Failure<T>(xs: seq<Res<T>>, pred: T -> Res<bool>): Option<Error>
  {
    if |xs| == 0 then None
    else if xs[0].Err? then Some(xs[0].error)
    else if pred(xs[0].value).Err? then Some(PredError(pred(xs[0].value).error))
    else Failure(xs[1..], pred)
  }

  /** The output ends in an error exactly when the scan meets a failure, and
      then it is that failure. */
  lemma {:induction false} ErrorEnds<T>(cur: seq<T>, xs: seq<Res<T>>, pred: T -> Res<bool>, left: int, appendTail: bool)
    ensures var g := Groups(cur, xs, pred, left, appendTail);
      |g| > 0 && (if g[|g| - 1].Err? then Some(g[|g| - 1].error) else None) == Failure(xs, pred)
    decreases |xs|
  {
    if |xs| > 0 && xs[0].Ok? && pred(xs[0].value).Ok? {
      var v := xs[0].value;
      var left' := if left > 0 then left - 1 else left;
      if pred(v).value && left != 0 {
        ErrorEnds(if appendTail then [] else [v], xs[1..], pred, left', appendTail);
      } else {
        ErrorEnds(cur + [v], xs[1..], pred, left, appendTail);
      }
    }
  }

  /** On clean input every group is Ok and together they are the input. */
  lemma {:induction false} CleanFlatten<T>(cur: seq<T>, xs: seq<Res<T>>, pred: T -> Res<bool>, left: int, appendTail: bool)
    requires Clean(xs, pred)
    ensures var g := Groups(cur, xs, pred, left, appendTail);
      AllOk(g) && Flatten(Values(g)) == cur + Values(xs)
    decreases |xs|
  {
    if |xs| == 0 {
      assert Flatten(Values(Groups(cur, xs, pred, left, appendTail))) == cur + Flatten([]);
    } else {
      var v := xs[0].value;
      CleanTail(xs, pred);
      if pred(v).value && left != 0 {
        var left' := if left > 0 then left - 1 else left;
        CleanFlatten(if appendTail then [] else [v], xs[1..], pred, left', appendTail);
        CutStep(cur, xs, pred, left, appendTail);
      } else {
        CleanFlatten(cur + [v], xs[1..], pred, left, appendTail);
        assert Groups(cur, xs, pred, left, appendTail) == Groups(cur + [v], xs[1..], pred, left, appendTail);
        assert cur + [v] + Values(xs[1..]) == cur + ([v] + Values(xs[1..]));
      }
    }
  }

  /** The inductive step of `CleanFlatten` at an accepted value that splits. */
  lemma CutStep<T>(cur: seq<T>, xs: seq<Res<T>>, pred: T -> Res<bool>, left: int, appendTail: bool)
    requires |xs| > 0 && xs[0].Ok? && pred(xs[0].value) == Ok(true) && left != 0
    requires AllOk(xs) && Values(xs) == [xs[0].value] + Values(xs[1..])
    requires AllOk(Groups(if appendTail then [] else [xs[0].value], xs[1..], pred, if left > 0 then left - 1 else left, appendTail))
    requires Flatten(Values(Groups(if appendTail then [] else [xs[0].value], xs[1..], pred, if left > 0 then left - 1 else left, appendTail))) == (if appendTail then [] else [xs[0].value]) + Values(xs[1..])
    ensures var g := Groups(cur, xs, pred, left, appendTail);
      AllOk(g) && Flatten(Values(g)) == cur + Values(xs)
  {
    var v := xs[0].value;
    var c := if appendTail then [] else [v];
    var g1 := Groups(c, xs[1..], pred, if left > 0 then left - 1 else left, appendTail);
    var first := if appendTail then cur + [v] else cur;
    assert Groups(cur, xs, pred, left, appendTail) == [Ok(first)] + g1;
    CutFlatten(Groups(cur, xs, pred, left, appendTail), first, g1, cur, v, c, Values(xs[1..]));
  }

  /** A clean input starts with an Ok value and goes on cleanly. */
  lemma CleanTail<T>(xs: seq<Res<T>>, pred: T -> Res<bool>)
    requires Clean(xs, pred) && |xs| > 0
    ensures xs[0].Ok? && pred(xs[0].value).Ok? && Clean(xs[1..], pred)
    ensures AllOk(xs) && Values(xs) == [xs[0].value] + Values(xs[1..])
  {
    assert forall i :: 0 <= i < |xs[1..]| ==> xs[1..][i] == xs[i + 1];
  }

  /** A closed group in front of groups that hold the rest holds the whole. */
  lemma CutFlatten<T>(g: seq<Res<seq<T>>>, first: seq<T>, g1: seq<Res<seq<T>>>, cur: seq<T>, v: T, c: seq<T>, vs: seq<T>)
    requires g == [Ok(first)] + g1 && AllOk(g1) && Flatten(Values(g1)) == c + vs && first + c == cur + [v]
    ensures AllOk(g) && Flatten(Values(g)) == cur + ([v] + vs)
  {
    assert forall i :: 1 <= i < |g| ==> g[i] == g1[i - 1];
    assert Values(g) == [first] + Values(g1);
    assert Flatten(Values(g)) == first + (c + vs);
    assert first + (c + vs) == (cur + [v]) + vs;
  }

  /** On clean input there is one group more than splits were made. */
  lemma {:induction false} GroupCount<T>(cur: seq<T>, xs: seq<Res<T>>, pred: T -> Res<bool>, left: int, appendTail: bool)
    requires Clean(xs, pred)
    ensures |Groups(cur, xs, pred, left, appendTail)| == 1 + (if left < 0 then Matches(xs, pred) else Min(Matches(xs, pred), left))
    decreases |xs|
  {
    if |xs| > 0 {
      var v := xs[0].value;
      assert Clean(xs[1..], pred) by {
        assert forall i :: 0 <= i < |xs[1..]| ==> xs[1..][i] == xs[i + 1];
      }
      if pred(v).value && left != 0 {
        GroupCount(if appendTail then [] else [v], xs[1..], pred, if left > 0 then left - 1 else left, appendTail);
      } else {
        GroupCount(cur + [v], xs[1..], pred, left, appendTail);
      }
    }
  }

  /** A group that ends with an accepted value. */
  predicate EndsAccepted<T>(pred: T -> Res<bool>, r: Res<seq<T>>)
  {
    r.Ok? && |r.value| > 0 && Accepts(pred, r.value[|r.value| - 1])
  }

  /** Append-tail mode: every group but the last ends with an accepted value. */
  lemma {:induction false} AfterShape<T>(cur: seq<T>, xs: seq<Res<T>>, pred: T -> Res<bool>, left: int)
    requires Clean(xs, pred)
    ensures var g := Groups(cur, xs, pred, left, true);
      forall i :: 0 <= i < |g| - 1 ==> EndsAccepted(pred, g[i])
    decreases |xs|
  {
    if |xs| > 0 {
      var v := xs[0].value;
      assert Clean(xs[1..], pred) by {
        assert forall i :: 0 <= i < |xs[1..]| ==> xs[1..][i] == xs[i + 1];
      }
      var g := Groups(cur, xs, pred, left, true);
      if pred(v).value && left != 0 {
        var left' := if left > 0 then left - 1 else left;
        var nil: seq<T> := [];
        AfterShape(nil, xs[1..], pred, left');
        var g1 := Groups(nil, xs[1..], pred, left', true);
        assert forall j :: 0 <= j < |Groups(nil, xs[1..], pred, left', true)| - 1 ==> EndsAccepted(pred, Groups(nil, xs[1..], pred, left', true)[j]);
        assert g == [Ok(cur + [v])] + g1;
        assert (cur + [v])[|cur + [v]| - 1] == v;
        assert EndsAccepted(pred, g[0]);
        forall i | 0 < i < |g| - 1
          ensures EndsAccepted(pred, g[i])
        {
          assert g[i] == g1[i - 1];
        }
      } else {
        AfterShape(cur + [v], xs[1..], pred, left);
        assert forall j :: 0 <= j < |Groups(cur + [v], xs[1..], pred, left, true)| - 1 ==> EndsAccepted(pred, Groups(cur + [v], xs[1..], pred, left, true)[j]);
        assert g == Groups(cur + [v], xs[1..], pred, left, true);
      }
    }
  }

  /** Split-before mode: every group but the first starts with an accepted
      value; the first starts with whatever was collected before. */
  lemma {:induction false} BeforeShape<T>(cur: seq<T>, xs: seq<Res<T>>, pred: T -> Res<bool>, left: int)
    requires Clean(xs, pred)
    ensures var g := Groups(cur, xs, pred, left, false);
      |g| > 0 && (forall i :: 0 <= i < |g| ==> g[i].Ok?) &&
      (|cur| > 0 ==> |g[0].value| > 0 && g[0].value[0] == cur[0]) &&
      (forall i :: 0 < i < |g| ==> |g[i].value| > 0 && Accepts(pred, g[i].value[0]))
    decreases |xs|
  {
    if |xs| > 0 {
      var v := xs[0].value;
      assert Clean(xs[1..], pred) by {
        assert forall i :: 0 <= i < |xs[1..]| ==> xs[1..][i] == xs[i + 1];
      }
      if pred(v).value && left != 0 {
        var left' := if left > 0 then left - 1 else left;
        BeforeShape([v], xs[1..], pred, left');
        var g1 := Groups([v], xs[1..], pred, left', false);
        var g := Groups(cur, xs, pred, left, false);
        assert g == [Ok(cur)] + g1;
        assert forall i :: 0 < i < |g| ==> g[i] == g1[i - 1];
      } else {
        assert |cur| > 0 ==> (cur + [v])[0] == cur[0];
        BeforeShape(cur + [v], xs[1..], pred, left);
        assert Groups(cur, xs, pred, left, false) == Groups(cur + [v], xs[1..], pred, left, false);
      }
    }
  }

  /** A leading match in split-before mode gives an empty first group. */
  lemma LeadingMatch<T>(v: T, xs: seq<Res<T>>, pred: T -> Res<bool>, maxsplit: int)
    requires Accepts(pred, v) && maxsplit != 0
    ensures Output([Ok(v)] + xs, pred, maxsplit, false)[0] == Ok([])
  {
    assert ([Ok(v)] + xs)[0] == Ok(v);
  }

  /** A budget of 0 makes clean input one group. */
  lemma {:induction false} NoBudget<T>(cur: seq<T>, xs: seq<Res<T>>, pred: T -> Res<bool>, appendTail: bool)
    requires Clean(xs, pred)
    ensures Groups(cur, xs, pred, 0, appendTail) == [Ok(cur + Values(xs))]
    decreases |xs|
  {
    if |xs| > 0 {
      CleanTail(xs, pred);
      var v := xs[0].value;
      NoBudget(cur + [v], xs[1..], pred, appendTail);
      ZeroStep(cur, v, xs, pred, appendTail, [Ok(cur + [v] + Values(xs[1..]))]);
      assert cur + [v] + Values(xs[1..]) == cur + ([v] + Values(xs[1..]));
    } else {
      assert cur + Values(xs) == cur;
    }
  }

  /** With no budget left an Ok value joins the current group, whatever the
      predicate says. */
  lemma ZeroStep<T>(cur: seq<T>, v: T, xs: seq<Res<T>>, pred: T -> Res<bool>, appendTail: bool, g: seq<Res<seq<T>>>)
    requires |xs| > 0 && xs[0] == Ok(v) && pred(v).Ok? && Groups(cur + [v], xs[1..], pred, 0, appendTail) == g
    ensures Groups(cur, xs, pred, 0, appendTail) == g
  {
  }

  function Mod3(x: int): Res<bool> { Ok(x % 3 == 0) }

  /** The crate's example of `split_before` over 0..9 with "divisible by 3". */
  lemma ExampleBefore(xs: seq<Res<int>>)
    requires xs == [Ok(0), Ok(1), Ok(2), Ok(3), Ok(4), Ok(5), Ok(6), Ok(7), Ok(8), Ok(9)]
    ensures Output(xs, Mod3, -1, false) == [Ok([]), Ok([0, 1, 2]), Ok([3, 4, 5]), Ok([6, 7, 8]), Ok([9])]
  {
    BeforeFrom0(xs[1..]);
    CutBefore([], 0, xs, xs[1..], Mod3, [Ok([0, 1, 2]), Ok([3, 4, 5]), Ok([6, 7, 8]), Ok([9])],
      [Ok([]), Ok([0, 1, 2]), Ok([3, 4, 5]), Ok([6, 7, 8]), Ok([9])]);
  }

  /** Split-before groups of the example once 0 has started a group. */
  lemma BeforeFrom0(ys: seq<Res<int>>)
    requires ys == [Ok(1), Ok(2), Ok(3), Ok(4), Ok(5), Ok(6), Ok(7), Ok(8), Ok(9)]
    ensures Groups([0], ys, Mod3, -1, false) == [Ok([0, 1, 2]), Ok([3, 4, 5]), Ok([6, 7, 8]), Ok([9])]
  {
    var g := [Ok([0, 1, 2]), Ok([3, 4, 5]), Ok([6, 7, 8]), Ok([9])];
    BeforeFrom3(ys[3..]);
    CutBefore([0, 1, 2], 3, ys[2..], ys[3..], Mod3, g[1..], g);
    Skip([0, 1], 2, [0, 1, 2], ys[1..], ys[2..], Mod3, false, g);
    Skip([0], 1, [0, 1], ys, ys[1..], Mod3, false, g);
  }

  lemma BeforeFrom3(ys: seq<Res<int>>)
    requires ys == [Ok(4), Ok(5), Ok(6), Ok(7), Ok(8), Ok(9)]
    ensures Groups([3], ys, Mod3, -1, false) == [Ok([3, 4, 5]), Ok([6, 7, 8]), Ok([9])]
  {
    var g := [Ok([3, 4, 5]), Ok([6, 7, 8]), Ok([9])];
    BeforeFrom6(ys[3..]);
    CutBefore([3, 4, 5], 6, ys[2..], ys[3..], Mod3, g[1..], g);
    Skip([3, 4], 5, [3, 4, 5], ys[1..], ys[2..], Mod3, false, g);
    Skip([3], 4, [3, 4], ys, ys[1..], Mod3, false, g);
  }

  lemma BeforeFrom6(ys: seq<Res<int>>)
    requires ys == [Ok(7), Ok(8), Ok(9)]
    ensures Groups([6], ys, Mod3, -1, false) == [Ok([6, 7, 8]), Ok([9])]
  {
    var g := [Ok([6, 7, 8]), Ok([9])];
    assert Groups([9], ys[3..], Mod3, -1, false) == [Ok([9])];
    CutBefore([6, 7, 8], 9, ys[2..], ys[3..], Mod3, g[1..], g);
    Skip([6, 7], 8, [6, 7, 8], ys[1..], ys[2..], Mod3, false, g);
    Skip([6], 7, [6, 7], ys, ys[1..], Mod3, false, g);
  }

  /** The crate's example of `split_after` over 0..9 with "divisible by 3". */
  lemma ExampleAfter(xs: seq<Res<int>>)
    requires xs == [Ok(0), Ok(1), Ok(2), Ok(3), Ok(4), Ok(5), Ok(6), Ok(7), Ok(8), Ok(9)]
    ensures Output(xs, Mod3, -1, true) == [Ok([0]), Ok([1, 2, 3]), Ok([4, 5, 6]), Ok([7, 8, 9]), Ok([])]
  {
    AfterFrom1(xs[1..]);
    CutAfter([], 0, [0], xs, xs[1..], Mod3, [Ok([1, 2, 3]), Ok([4, 5, 6]), Ok([7, 8, 9]), Ok([])],
      [Ok([0]), Ok([1, 2, 3]), Ok([4, 5, 6]), Ok([7, 8, 9]), Ok([])]);
  }

  /** Split-after groups of the example from 1 onwards. */
  lemma AfterFrom1(ys: seq<Res<int>>)
    requires ys == [Ok(1), Ok(2), Ok(3), Ok(4), Ok(5), Ok(6), Ok(7), Ok(8), Ok(9)]
    ensures Groups([], ys, Mod3, -1, true) == [Ok([1, 2, 3]), Ok([4, 5, 6]), Ok([7, 8, 9]), Ok([])]
  {
    var g := [Ok([1, 2, 3]), Ok([4, 5, 6]), Ok([7, 8, 9]), Ok([])];
    AfterFrom4(ys[3..]);
    CutAfter([1, 2], 3, [1, 2, 3], ys[2..], ys[3..], Mod3, g[1..], g);
    Skip([1], 2, [1, 2], ys[1..], ys[2..], Mod3, true, g);
    Skip([], 1, [1], ys, ys[1..], Mod3, true, g);
  }

  lemma AfterFrom4(ys: seq<Res<int>>)
    requires ys == [Ok(4), Ok(5), Ok(6), Ok(7), Ok(8), Ok(9)]
    ensures Groups([], ys, Mod3, -1, true) == [Ok([4, 5, 6]), Ok([7, 8, 9]), Ok([])]
  {
    var g := [Ok([4, 5, 6]), Ok([7, 8, 9]), Ok([])];
    AfterFrom7(ys[3..]);
    CutAfter([4, 5], 6, [4, 5, 6], ys[2..], ys[3..], Mod3, g[1..], g);
    Skip([4], 5, [4, 5], ys[1..], ys[2..], Mod3, true, g);
    Skip([], 4, [4], ys, ys[1..], Mod3, true, g);
  }

  lemma AfterFrom7(ys: seq<Res<int>>)
    requires ys == [Ok(7), Ok(8), Ok(9)]
    ensures Groups([], ys, Mod3, -1, true) == [Ok([7, 8, 9]), Ok([])]
  {
    var g := [Ok([7, 8, 9]), Ok([])];
    assert Groups([], ys[3..], Mod3, -1, true) == [Ok([])];
    CutAfter([7, 8], 9, [7, 8, 9], ys[2..], ys[3..], Mod3, g[1..], g);
    Skip([7], 8, [7, 8], ys[1..], ys[2..], Mod3, true, g);
    Skip([], 7, [7], ys, ys[1..], Mod3, true, g);
  }

  /** A rejected value joins the current group. */
  lemma Skip<T>(cur: seq<T>, v: T, next: seq<T>, xs: seq<Res<T>>, rest: seq<Res<T>>, pred: T -> Res<bool>, appendTail: bool, g: seq<Res<seq<T>>>)
    requires pred(v) == Ok(false) && next == cur + [v] && |xs| > 0 && xs[0] == Ok(v) && xs[1..] == rest
    requires Groups(next, rest, pred, -1, appendTail) == g
    ensures Groups(cur, xs, pred, -1, appendTail) == g
  {
  }

  /** In split-before mode an accepted value closes the current group and
      starts the next one. */
  lemma CutBefore<T>(cur: seq<T>, v: T, xs: seq<Res<T>>, rest: seq<Res<T>>, pred: T -> Res<bool>, g: seq<Res<seq<T>>>, r: seq<Res<seq<T>>>)
    requires pred(v) == Ok(true) && |xs| > 0 && xs[0] == Ok(v) && xs[1..] == rest
    requires Groups([v], rest, pred, -1, false) == g && r == [Ok(cur)] + g
    ensures Groups(cur, xs, pred, -1, false) == r
  {
  }

  /** In append-tail mode an accepted value ends the current group. */
  lemma CutAfter<T>(cur: seq<T>, v: T, closed: seq<T>, xs: seq<Res<T>>, rest: seq<Res<T>>, pred: T -> Res<bool>, g: seq<Res<seq<T>>>, r: seq<Res<seq<T>>>)
    requires pred(v) == Ok(true) && closed == cur + [v] && |xs| > 0 && xs[0] == Ok(v) && xs[1..] == rest
    requires Groups([], rest, pred, -1, true) == g && r == [Ok(closed)] + g
    ensures Groups(cur, xs, pred, -1, true) == r
  {
  }
}

=== FILE: chain.dfy ===
/** `chain`: all of input 0, then all of input 1, and so on. */
module Chain {
  import opened Base
  import opened Columns
  import Pull

  /** The remaining items of every input, the input being read, and whether
      the last input was found exhausted. */
  datatype State<T> = State(ins: seq<seq<T>>, cur: nat, finished: bool)

  function Init<T>(ins: seq<seq<T>>): State<T>
  {
    State(ins, 0, false)
  }

  /** Every input from `a` up to (not including) `b` is exhausted. */
  predicate Skipped<T>(ins: seq<seq<T>>, a: nat, b: nat)
  {
    forall j :: a <= j < b && j < |ins| ==> |ins[j]| == 0
  }

  /** One call of `next()`: pull from the current input, moving on for good
      past every exhausted one. */
  function Next<T>(s: State<T>): (t: Pull.Step<State<T>, T>)
    ensures t.state.cur >= s.cur && |t.state.ins| == |s.ins|
    ensures Skipped(s.ins, s.cur, t.state.cur)
    ensures t.out.Some? ==> !s.finished && t.state.cur < |s.ins| && |s.ins[t.state.cur]| > 0
    ensures t.out.Some? ==> t.out.value == s.ins[t.state.cur][0]
    ensures t.out.Some? ==> t.state.ins == s.ins[t.state.cur := s.ins[t.state.cur][1..]]
    decreases |s.ins| - s.cur
  {
    if s.finished then Pull.Step(s, None)
    else if s.cur >= |s.ins| then Pull.Step(s.(finished := true), None)
    else if |s.ins[s.cur]| == 0 then Next(s.(cur := s.cur + 1))
    else Pull.Step(s.(ins := s.ins[s.cur := s.ins[s.cur][1..]]), Some(s.ins[s.cur][0]))
  }

  /** Every item the iterator delivers, in order. */
  function Output<T>(ins: seq<seq<T>>): seq<T>
  {
    Flatten(ins)
  }

  ghost predicate Inv<T>(s: State<T>) { s.cur <= |s.ins| }

  function Rest<T>(s: State<T>): seq<T>
  {
    if s.finished || s.cur > |s.ins| then [] else Flatten(s.ins[s.cur..])
  }

  function TailOf<T>(s: State<T>): Option<T> { None }

  lemma {:induction false} NextAdvances<T>(s: State<T>)
    requires Inv(s)
    ensures Pull.Advances(Next, Inv, Rest, TailOf, s)
    decreases |s.ins| - s.cur
  {
    if !s.finished && s.cur < |s.ins| {
      if |s.ins[s.cur]| == 0 {
        var s1 := s.(cur := s.cur + 1);
        SkipRest(s);
        NextAdvances(s1);
        Pull.AdvancesTransfer(Next, Inv, Rest, TailOf, s, s1);
      } else {
        PopRest(s);
      }
    } else if !s.finished {
      assert s.ins[s.cur..] == [];
    }
  }

  /** An exhausted current input owes nothing. */
  lemma SkipRest<T>(s: State<T>)
    requires !s.finished && s.cur < |s.ins| && |s.ins[s.cur]| == 0
    ensures Rest(s) == Rest(s.(cur := s.cur + 1))
  {
    assert s.ins[s.cur..][1..] == s.ins[s.cur + 1..];
  }

  /** Pulling from the current input leaves the rest of it and the later inputs. */
  lemma PopRest<T>(s: State<T>)
    requires !s.finished && s.cur < |s.ins| && |s.ins[s.cur]| > 0
    ensures |Rest(s)| > 0 && Rest(s)[0] == s.ins[s.cur][0]
    ensures Rest(s.(ins := s.ins[s.cur := s.ins[s.cur][1..]])) == Rest(s)[1..]
  {
    var c := s.cur;
    var ins1 := s.ins[c := s.ins[c][1..]];
    var later := Flatten(s.ins[c + 1..]);
    assert s.ins[c..][0] == s.ins[c] && s.ins[c..][1..] == s.ins[c + 1..];
    assert ins1[c..][0] == s.ins[c][1..] && ins1[c..][1..] == s.ins[c + 1..];
    assert Flatten(s.ins[c..]) == s.ins[c] + later;
    assert Flatten(ins1[c..]) == s.ins[c][1..] + later;
    assert (s.ins[c] + later)[1..] == s.ins[c][1..] + later;
  }

  /** The iterator delivers every input in turn, then `None` forever. */
  lemma Behaviour<T>(ins: seq<seq<T>>, m: nat)
    ensures Pull.Run(Next, Init(ins), m) == Pull.Observe(Output(ins), None, m)
  {
    forall s: State<T> | Inv(s) ensures Pull.Advances(Next, Inv, Rest, TailOf, s) {
      NextAdvances(s);
    }
    assert ins[0..] == ins;
    Pull.RunObserves(Next, Inv, Rest, TailOf, Init(ins), m);
  }

  /** The output holds as many items as the inputs together, input after
      input: item `i` of input `a` comes after every item of earlier inputs. */
  lemma {:induction false} OutputShape<T>(ins: seq<seq<T>>, a: nat, i: nat)
    requires a < |ins| && i < |ins[a]|
    ensures |Output(ins)| == Total(ins)
    ensures Total(ins[..a]) + i < |Output(ins)| && Output(ins)[Total(ins[..a]) + i] == ins[a][i]
  {
    FlattenTotal(ins);
    assert ins == ins[..a] + ins[a..];
    FlattenAppend(ins[..a], ins[a..]);
    FlattenTotal(ins[..a]);
    assert Flatten(ins[a..]) == ins[a] + Flatten(ins[a + 1..]) by {
      assert ins[a..][1..] == ins[a + 1..];
    }
  }

  /** The library's example: 1, 2, 3 followed by their doubles. */
  lemma Example(ins: seq<seq<int>>)
    requires ins == [[1, 2, 3], [2, 4, 6]]
    ensures Output(ins) == [1, 2, 3, 2, 4, 6]
  {
    assert ins[1..] == [[2, 4, 6]] && ins[1..][1..] == [];
    assert Flatten(ins[1..]) == [2, 4, 6];
  }
}

=== FILE: chunked.dfy ===
/** `chunked`: cuts the input into consecutive groups of `n` items. The strict
    variant turns a short final group into a ValueError; the plain variant of
    the library root is the same machine with `strict` off. */
module Chunked {
  import opened Base
  import Pull

  /** The iterator state: the configuration and the items not yet pulled.
      The item buffer of the crate is always empty between calls. */
  datatype State<T> = State(n: nat, strict: bool, up: seq<T>)

  function Init<T>(xs: seq<T>, n: nat, strict: bool): State<T>
  {
    State(n, strict, xs)
  }

  const ZeroN := ValueErr("n should not be 0")
  const NotDivisible := ValueErr("iterable is not divisible by n.")

  /** One call of `next()`: pull up to `n` items; an exhausted upstream with
      nothing pulled answers `None`. */
  function Next<T>(s: State<T>): (t: Pull.Step<State<T>, Res<seq<T>>>)
    ensures t.state.n == s.n && t.state.strict == s.strict
    ensures t.out.Some? && t.out.value.Ok? ==> exists c :: 0 < c <= s.n && c <= |s.up| && t.out.value.value == s.up[..c] && t.state.up == s.up[c..]
    ensures t.out.None? ==> t.state == s
  {
    if s.n == 0 then Pull.Step(s, Some(Err(ZeroN)))
    else
      var c := Min(s.n, |s.up|);
      if c == 0 then Pull.Step(s, None)
      else if s.strict && c < s.n then Pull.Step(s.(up := s.up[c..]), Some(Err(NotDivisible)))
      else Pull.Step(s.(up := s.up[c..]), Some(Ok(s.up[..c])))
  }

  /** Reference definition: the groups of `n` consecutive items, the last one
      possibly shorter. */
  function Chunks<T>(xs: seq<T>, n: nat): seq<seq<T>>
    requires n > 0
    decreases |xs|
  {
    if |xs| == 0 then [] else if |xs| <= n then [xs] else [xs[..n]] + Chunks(xs[n..], n)
  }

  /** Every item the iterator delivers, in order. */
  function Output<T>(xs: seq<T>, n: nat, strict: bool): seq<Res<seq<T>>>
  {
    if n == 0 then []
    else
      var cs := Chunks(xs, n);
      if strict && |xs| % n != 0 then Oks(cs[..|cs| - 1]) + [Err(NotDivisible)] else Oks(cs)
  }

  /** What every call answers once the items are delivered. */
  function Tail<T>(n: nat): Option<Res<seq<T>>>
  {
    if n == 0 then Some(Err(ZeroN)) else None
  }

  /** There are `ceil(L / n)` groups. */
  lemma {:induction false} ChunksCount<T>(xs: seq<T>, n: nat)
    requires n > 0
    ensures |Chunks(xs, n)| == (|xs| + n - 1) / n
    decreases |xs|
  {
    if |xs| > n {
      ChunksCount(xs[n..], n);
      DivStep(|xs| - n + n - 1, n);
    } else if |xs| > 0 {
      DivMod(|xs| + n - 1, n, 1, |xs| - 1);
    } else {
      DivMod(n - 1, n, 0, n - 1);
    }
  }

  /** The last group is short exactly when `n` does not divide the length,
      and then holds the remainder. */
  lemma {:induction false} LastChunk<T>(xs: seq<T>, n: nat)
    requires n > 0 && |xs| > 0
    ensures |Chunks(xs, n)| > 0
    ensures |Chunks(xs, n)[|Chunks(xs, n)| - 1]| == if |xs| % n == 0 then n else |xs| % n
    decreases |xs|
  {
    if |xs| > n {
      LastChunk(xs[n..], n);
      DivStep(|xs| - n, n);
    } else if |xs| == n {
      DivMod(n, n, 1, 0);
    } else {
      DivMod(|xs|, n, 0, |xs|);
    }
  }

  /** Concatenating the groups gives back the input. */
  lemma {:induction false} ChunksFlatten<T>(xs: seq<T>, n: nat)
    requires n > 0
    ensures Flatten(Chunks(xs, n)) == xs
    decreases |xs|
  {
    if |xs| > n {
      ChunksFlatten(xs[n..], n);
      assert Chunks(xs, n)[1..] == Chunks(xs[n..], n);
      assert xs == xs[..n] + xs[n..];
    } else if |xs| > 0 {
      assert Flatten(Chunks(xs, n)) == xs + Flatten([]);
    }
  }

  /** Every group is non-empty and holds at most `n` items; all but the last
      hold exactly `n`. */
  lemma {:induction false} ChunksShape<T>(xs: seq<T>, n: nat)
    requires n > 0
    ensures forall i :: 0 <= i < |Chunks(xs, n)| ==> 0 < |Chunks(xs, n)[i]| <= n
    ensures forall i :: 0 <= i < |Chunks(xs, n)| - 1 ==> |Chunks(xs, n)[i]| == n
    decreases |xs|
  {
    if |xs| > n {
      ChunksShape(xs[n..], n);
      assert Chunks(xs, n)[1..] == Chunks(xs[n..], n);
    }
  }

  ghost predicate Inv<T>(s: State<T>) { true }

  function Rest<T>(s: State<T>): seq<Res<seq<T>>> { Output(s.up, s.n, s.strict) }

  function TailOf<T>(s: State<T>): Option<Res<seq<T>>> { Tail(s.n) }

  lemma NextAdvances<T>(s: State<T>)
    ensures Pull.Advances(Next, Inv, Rest, TailOf, s)
  {
    if s.n > 0 && |s.up| > s.n {
      if s.strict && |s.up| % s.n != 0 {
        FullGroupBeforeError(s);
      } else {
        FullGroupBeforeGroups(s);
      }
    } else if s.n > 0 && |s.up| > 0 {
      LastGroup(s);
    }
  }

  /** A full group followed by more items is delivered and the error stays last. */
  lemma FullGroupBeforeError<T>(s: State<T>)
    requires s.n > 0 && |s.up| > s.n && s.strict && |s.up| % s.n != 0
    ensures Pull.Advances(Next, Inv, Rest, TailOf, s)
  {
    var cs := Chunks(s.up, s.n);
    var tl := Chunks(s.up[s.n..], s.n);
    assert cs == [s.up[..s.n]] + tl;
    DivStep(|s.up| - s.n, s.n);
    LastChunk(s.up[s.n..], s.n);
    assert cs[..|cs| - 1] == [s.up[..s.n]] + tl[..|tl| - 1];
    assert Oks(cs[..|cs| - 1]) + [Err(NotDivisible)] == [Ok(s.up[..s.n])] + (Oks(tl[..|tl| - 1]) + [Err(NotDivisible)]);
  }

  /** A full group followed by more items is delivered and the remaining groups follow. */
  lemma FullGroupBeforeGroups<T>(s: State<T>)
    requires s.n > 0 && |s.up| > s.n && !(s.strict && |s.up| % s.n != 0)
    ensures Pull.Advances(Next, Inv, Rest, TailOf, s)
  {
    var cs := Chunks(s.up, s.n);
    var tl := Chunks(s.up[s.n..], s.n);
    assert cs == [s.up[..s.n]] + tl;
    DivStep(|s.up| - s.n, s.n);
    assert |s.up[s.n..]| % s.n == |s.up| % s.n;
    assert Oks(cs) == [Ok(s.up[..s.n])] + Oks(tl);
    assert Rest(s) == Oks(cs);
    assert Rest(Next(s).state) == Oks(tl);
  }

  /** At most `n` items left: they form the last group, or the strict error. */
  lemma LastGroup<T>(s: State<T>)
    requires s.n > 0 && 0 < |s.up| <= s.n
    ensures Pull.Advances(Next, Inv, Rest, TailOf, s)
  {
    var cs := Chunks(s.up, s.n);
    assert cs == [s.up];
    assert s.up[|s.up|..] == [] && s.up[..|s.up|] == s.up;
    DivMod(0, s.n, 0, 0);
    if |s.up| == s.n {
      DivMod(s.n, s.n, 1, 0);
    } else {
      DivMod(|s.up|, s.n, 0, |s.up|);
      if s.strict {
        assert cs[..0] == [];
      }
    }
  }

  /** The answers of `next()` are exactly the groups (or the strict error),
      then `None` forever; with `n == 0` every call is a ValueError. */
  lemma Behaviour<T>(xs: seq<T>, n: nat, strict: bool, k: nat)
    ensures Pull.Run(Next, Init(xs, n, strict), k) == Pull.Observe(Output(xs, n, strict), Tail(n), k)
  {
    forall s: State<T> | Inv(s) ensures Pull.Advances(Next, Inv, Rest, TailOf, s) {
      NextAdvances(s);
    }
    Pull.RunObserves(Next, Inv, Rest, TailOf, Init(xs, n, strict), k);
  }

  /** Non-strict mode delivers every group as `Ok`, and together they are the input. */
  lemma PlainOutput<T>(xs: seq<T>, n: nat)
    requires n > 0
    ensures AllOk(Output(xs, n, false)) && Flatten(Values(Output(xs, n, false))) == xs
  {
    assert Values(Output(xs, n, false)) == Chunks(xs, n);
    ChunksFlatten(xs, n);
  }

  /** Strict mode: an error is delivered exactly when the length is not a
      multiple of `n`, and then only as the last item; every `Ok` group has `n` items. */
  lemma StrictOutput<T>(xs: seq<T>, n: nat)
    requires n > 0
    ensures var r := Output(xs, n, true);
      (forall i :: 0 <= i < |r| && r[i].Ok? ==> |r[i].value| == n) &&
      (forall i :: 0 <= i < |r| - 1 ==> r[i].Ok?) &&
      (|r| > 0 && r[|r| - 1].Err? <==> |xs| % n != 0)
  {
    ChunksShape(xs, n);
    var cs := Chunks(xs, n);
    if |xs| > 0 {
      LastChunk(xs, n);
    } else {
      DivMod(0, n, 0, 0);
    }
  }

  /** The length of the concatenation of groups that are all full except maybe the last. */
  lemma {:induction false} FlattenLength<T>(cs: seq<seq<T>>, n: nat)
    requires |cs| > 0
    requires forall i :: 0 <= i < |cs| - 1 ==> |cs[i]| == n
    ensures |Flatten(cs)| == (|cs| - 1) * n + |cs[|cs| - 1]|
  {
    if |cs| > 1 {
      FlattenLength(cs[1..], n);
    } else {
      assert Flatten(cs) == cs[0] + Flatten([]);
    }
  }
}

=== FILE: chunked_even.dfy ===
/** `chunked_even`: delivers the `k` buckets of `distribute` one after the
    other, each collected into a vector. The crate calls `iter` with the
    bucket number although `Distribute::iter` takes none; the model reads it
    as the cursor moved to that bucket with `offset`. */
module ChunkedEven {
  import opened Base
  import Pull
  import D = Distribute

  datatype State<T> = State(dist: D.Distribute<T>, cur: nat)

  function Init<T>(buf: seq<T>, k: nat): State<T>
  {
    State(D.New(buf, k), 0)
  }

  /** The collecting loop: pull from the cursor until it answers `None`,
      returning the first error instead of the items when one comes. */
  function Drain<T>(c: D.Cursor<T>, acc: seq<T>): (r: Res<seq<T>>)
    requires c.step > 0
    ensures r == Ok(acc + D.Strided(c.buf, c.cur, c.step))
    decreases |c.buf| - c.cur
  {
    match D.Next(c).out
    case None =>
      assert acc + [] == acc;
      Ok(acc)
    case Some(Err(e)) => Err(e)
    case Some(Ok(v)) =>
      assert acc + [v] + D.Strided(c.buf, c.cur + c.step, c.step) == acc + D.Strided(c.buf, c.cur, c.step);
      Drain(D.Next(c).state, acc + [v])
  }

  /** `next()`: the next bucket while there is one, then `None`. */
  function Next<T>(s: State<T>): Pull.Step<State<T>, Res<seq<T>>>
  {
    if s.cur < s.dist.bucketCount then
      var cursor := D.Offset(D.Iter(s.dist), s.cur);
      Pull.Step(s.(cur := s.cur + 1), Some(Drain(cursor, [])))
    else Pull.Step(s, None)
  }

  /** Reference definition: bucket `i` for every `i < k`. */
  function Output<T>(buf: seq<T>, k: nat): (r: seq<Res<seq<T>>>)
    ensures |r| == k
  {
    if k == 0 then [] else Oks(seq(k, i requires 0 <= i < k => D.Bucket(buf, k, i)))
  }

  ghost predicate Inv<T>(s: State<T>) { s.cur <= s.dist.bucketCount }

  function Rest<T>(s: State<T>): seq<Res<seq<T>>>
  {
    if s.cur > s.dist.bucketCount then [] else Output(s.dist.buf, s.dist.bucketCount)[s.cur..]
  }

  function TailOf<T>(s: State<T>): Option<Res<seq<T>>> { None }

  lemma NextAdvances<T>(s: State<T>)
    requires Inv(s)
    ensures Pull.Advances(Next, Inv, Rest, TailOf, s)
  {
    if s.cur < s.dist.bucketCount {
      var o := Output(s.dist.buf, s.dist.bucketCount);
      assert o[s.cur..][1..] == o[s.cur + 1..];
      assert [] + D.Strided(s.dist.buf, s.cur, s.dist.bucketCount) == D.Strided(s.dist.buf, s.cur, s.dist.bucketCount);
    }
  }

  /** The answers are the `k` buckets, in bucket order, then `None` forever. */
  lemma Behaviour<T>(buf: seq<T>, k: nat, m: nat)
    ensures Pull.Run(Next, Init(buf, k), m) == Pull.Observe(Output(buf, k), None, m)
  {
    forall s: State<T> | Inv(s) ensures Pull.Advances(Next, Inv, Rest, TailOf, s) {
      NextAdvances(s);
    }
    Pull.RunObserves(Next, Inv, Rest, TailOf, Init(buf, k), m);
    assert Output(buf, k)[0..] == Output(buf, k);
  }

  /** Item `p` lands in group `p % k`, as element `p / k`. */
  lemma Covers<T>(buf: seq<T>, k: nat, p: nat)
    requires k > 0 && p < |buf|
    ensures p / k < |Output(buf, k)[p % k].value| && Output(buf, k)[p % k].value[p / k] == buf[p]
  {
    D.Covers(buf, k, p);
    assert Output(buf, k)[p % k].value == D.Bucket(buf, k, p % k);
  }

  /** Element `j` of group `i` is item `i + j * k`; together with `Covers`
      and `Distribute.SlotPosition`, every item is in exactly one group, once. */
  lemma Members<T>(buf: seq<T>, k: nat, i: nat, j: nat)
    requires i < k && j < |Output(buf, k)[i].value|
    ensures i + j * k < |buf| && Output(buf, k)[i].value[j] == buf[i + j * k]
  {
    D.StridedAt(buf, i, k);
    assert Output(buf, k)[i].value == D.Bucket(buf, k, i);
  }

  /** The library's example: 1..10 in three groups. */
  lemma Example()
    ensures Output([1, 2, 3, 4, 5, 6, 7, 8, 9, 10], 3) == [Ok([1, 4, 7, 10]), Ok([2, 5, 8]), Ok([3, 6, 9])]
  {
    D.Example();
  }
}

=== FILE: columns.dfy ===
/** Helpers for combinators that read several inputs side by side: the
    shortest and longest input length, and the inputs after one round of pulls. */
module Columns {
  import opened Base

  /** The length of the longest input (0 when there is none). */
  function MaxLen<T>(xss: seq<seq<T>>): (r: nat)
    ensures forall i :: 0 <= i < |xss| ==> |xss[i]| <= r
    ensures |xss| == 0 ==> r == 0
  {
    if |xss| == 0 then 0
    else
      var m := MaxLen(xss[1..]);
      assert forall i :: 1 <= i < |xss| ==> xss[i] == xss[1..][i - 1];
      if |xss[0]| >= m then |xss[0]| else m
  }

  /** The length of the shortest input (0 when there is none). */
  function MinLen<T>(xss: seq<seq<T>>): (r: nat)
    ensures forall i :: 0 <= i < |xss| ==> r <= |xss[i]|
    ensures |xss| == 0 ==> r == 0
  {
    if |xss| == 0 then 0
    else if |xss| == 1 then |xss[0]|
    else
      var m := MinLen(xss[1..]);
      assert forall i :: 1 <= i < |xss| ==> xss[i] == xss[1..][i - 1];
      if |xss[0]| <= m then |xss[0]| else m
  }

  /** An input of the greatest length. */
  lemma {:induction false} Longest<T>(xss: seq<seq<T>>) returns (i: nat)
    requires |xss| > 0
    ensures i < |xss| && |xss[i]| == MaxLen(xss)
  {
    if |xss| > 1 {
      var j := Longest(xss[1..]);
      assert xss[1..][j] == xss[j + 1];
      i := if |xss[0]| >= MaxLen(xss[1..]) then 0 else j + 1;
    } else {
      i := 0;
    }
  }

  /** An input of the least length. */
  lemma {:induction false} Shortest<T>(xss: seq<seq<T>>) returns (i: nat)
    requires |xss| > 0
    ensures i < |xss| && |xss[i]| == MinLen(xss)
  {
    if |xss| > 1 {
      var j := Shortest(xss[1..]);
      assert xss[1..][j] == xss[j + 1];
      i := if |xss[0]| <= MinLen(xss[1..]) then 0 else j + 1;
    } else {
      i := 0;
    }
  }

  /** Every input after one pull: exhausted inputs stay empty. */
  function Tails<T>(xss: seq<seq<T>>): (r: seq<seq<T>>)
    ensures |r| == |xss|
    ensures forall i :: 0 <= i < |xss| ==> r[i] == (if |xss[i]| == 0 then [] else xss[i][1..])
  {
    seq(|xss|, i requires 0 <= i < |xss| => if |xss[i]| == 0 then [] else xss[i][1..])
  }

  /** One round of pulls shortens the longest and the shortest input by one
      (down to zero). */
  lemma TailsLen<T>(xss: seq<seq<T>>)
    ensures MaxLen(Tails(xss)) == if MaxLen(xss) == 0 then 0 else MaxLen(xss) - 1
    ensures MinLen(Tails(xss)) == if MinLen(xss) == 0 then 0 else MinLen(xss) - 1
  {
    var t := Tails(xss);
    if |xss| > 0 {
      var i := Longest(xss);
      assert |t[i]| == if MaxLen(xss) == 0 then 0 else MaxLen(xss) - 1;
      var j := Longest(t);
      assert |xss[j]| <= MaxLen(xss);
      var a := Shortest(xss);
      assert |t[a]| == if MinLen(xss) == 0 then 0 else MinLen(xss) - 1;
      var b := Shortest(t);
      assert |xss[b]| >= MinLen(xss);
    }
  }

  /** The number of items of all inputs together. */
  function Total<T>(xss: seq<seq<T>>): nat
  {
    if |xss| == 0 then 0 else |xss[0]| + Total(xss[1..])
  }

  /** Concatenating the inputs keeps every item. */
  lemma {:induction false} FlattenTotal<T>(xss: seq<seq<T>>)
    ensures |Flatten(xss)| == Total(xss)
  {
    if |xss| > 0 {
      FlattenTotal(xss[1..]);
    }
  }
}

=== FILE: count_cycle.dfy ===
/** `count_cycle`: a sequence delivered `n` times over, each item tagged
    with the number of its cycle. */
module CountCycle {
  import opened Base
  import Pull
  import Ncycles

  datatype State<T> = State(xs: seq<T>, n: nat, num: nat, idx: nat)

  function Init<T>(xs: seq<T>, n: nat): State<T>
  {
    State(xs, n, 0, 0)
  }

  /** One call of `next()`: at the end of a cycle move to the next one, and
      stop once `n` cycles are done. */
  function Next<T>(s: State<T>): Pull.Step<State<T>, (nat, T)>
  {
    if |s.xs| == 0 || s.num == s.n then Pull.Step(s, None)
    else
      var t := if s.idx == |s.xs| then s.(num := s.num + 1, idx := 0) else s;
      if t.num == t.n || t.idx >= |t.xs| then Pull.Step(t, None)
      else Pull.Step(t.(idx := t.idx + 1), Some((t.num, t.xs[t.idx])))
  }

  /** The items of one cycle, tagged with its number. */
  function Tag<T>(c: nat, ys: seq<T>): (r: seq<(nat, T)>)
    ensures |r| == |ys| && forall j :: 0 <= j < |ys| ==> r[j] == (c, ys[j])
  {
    seq(|ys|, j requires 0 <= j < |ys| => (c, ys[j]))
  }

  /** Reference definition: cycles `c` to `n - 1`, each tagged. */
  function Tagged<T>(xs: seq<T>, c: nat, n: nat): seq<(nat, T)>
    decreases n - c
  {
    if c >= n then [] else Tag(c, xs) + Tagged(xs, c + 1, n)
  }

  ghost predicate Inv<T>(s: State<T>) { s.idx <= |s.xs| && s.num <= s.n }

  function Rest<T>(s: State<T>): seq<(nat, T)>
  {
    if |s.xs| == 0 || s.num >= s.n || s.idx > |s.xs| then [] else Tag(s.num, s.xs[s.idx..]) + Tagged(s.xs, s.num + 1, s.n)
  }

  function TailOf<T>(s: State<T>): Option<(nat, T)> { None }

  lemma NextAdvances<T>(s: State<T>)
    requires Inv(s)
    ensures Pull.Advances(Next, Inv, Rest, TailOf, s)
  {
    if |s.xs| > 0 && s.num < s.n {
      if s.idx == |s.xs| {
        assert Tag(s.num, s.xs[s.idx..]) == [];
        if s.num + 1 < s.n {
          assert s.xs[0..] == s.xs;
          assert Tag(s.num + 1, s.xs[1..]) == Tag(s.num + 1, s.xs)[1..];
        }
      } else {
        assert Tag(s.num, s.xs[s.idx + 1..]) == Tag(s.num, s.xs[s.idx..])[1..];
      }
    }
  }

  /** The answers are the tagged cycles, then `None` forever; an empty
      sequence or `n == 0` answers `None` at once. */
  lemma Behaviour<T>(xs: seq<T>, n: nat, m: nat)
    ensures Pull.Run(Next, Init(xs, n), m) == Pull.Observe(if |xs| == 0 then [] else Tagged(xs, 0, n), None, m)
  {
    forall s: State<T> | Inv(s) ensures Pull.Advances(Next, Inv, Rest, TailOf, s) {
      NextAdvances(s);
    }
    assert xs[0..] == xs;
    Pull.RunObserves(Next, Inv, Rest, TailOf, Init(xs, n), m);
  }

  /** The cycles as blocks. */
  function Blocks<T>(xs: seq<T>, c: nat, n: nat): (r: seq<seq<(nat, T)>>)
    ensures |r| == Gap(n, c) && forall k :: 0 <= k < |r| ==> r[k] == Tag(c + k, xs)
  {
    seq(Gap(n, c), k requires 0 <= k < Gap(n, c) => Tag(c + k, xs))
  }

  lemma {:induction false} TaggedBlocks<T>(xs: seq<T>, c: nat, n: nat)
    ensures Tagged(xs, c, n) == Flatten(Blocks(xs, c, n))
    decreases n - c
  {
    if c < n {
      TaggedBlocks(xs, c + 1, n);
      assert Blocks(xs, c, n)[1..] == Blocks(xs, c + 1, n);
    }
  }

  /** `n * L` items; item `i` is item `i % L` of the sequence, tagged with
      cycle `i / L`; without the tags they are the `n` cycles of `ncycles`. */
  lemma TaggedShape<T>(xs: seq<T>, n: nat)
    requires |xs| > 0
    ensures |Tagged(xs, 0, n)| == |xs| * n
    ensures forall i :: 0 <= i < |xs| * n ==> Tagged(xs, 0, n)[i] == (i / |xs|, xs[i % |xs|])
    ensures |Ncycles.Cycles(xs, n)| == |xs| * n
    ensures forall i :: 0 <= i < |xs| * n ==> Tagged(xs, 0, n)[i].1 == Ncycles.Cycles(xs, n)[i]
  {
    TaggedBlocks(xs, 0, n);
    FlattenBlocks(Blocks(xs, 0, n), |xs|);
    Ncycles.CyclesShape(xs, n);
  }

  /** The library's example. */
  lemma Example()
    ensures Tagged(['A', 'B'], 0, 3) == [(0, 'A'), (0, 'B'), (1, 'A'), (1, 'B'), (2, 'A'), (2, 'B')]
  {
    assert Tagged(['A', 'B'], 2, 3) == [(2, 'A'), (2, 'B')];
    assert Tagged(['A', 'B'], 1, 3) == [(1, 'A'), (1, 'B'), (2, 'A'), (2, 'B')];
  }
}

=== FILE: distribute.dfy ===
/** `distribute`: deals a vector round-robin into `k` buckets. Every cursor
    walks the vector with stride `k`; the raw pointers of the crate are
    modelled as indices into the vector. */
module Distribute {
  import opened Base
  import Pull

  datatype Distribute<T> = Distribute(buf: seq<T>, bucketCount: nat)

  /** A cursor: the vector, the index of the next item and the stride. */
  datatype Cursor<T> = Cursor(buf: seq<T>, cur: nat, step: nat)

  function New<T>(buf: seq<T>, k: nat): (d: Distribute<T>)
    ensures d.buf == buf && d.bucketCount == k
  {
    Distribute(buf, k)
  }

  /** `iter()`: a cursor at the first item with stride `k`. */
  function Iter<T>(d: Distribute<T>): (c: Cursor<T>)
    ensures c.buf == d.buf && c.cur == 0 && c.step == d.bucketCount
  {
    Cursor(d.buf, 0, d.bucketCount)
  }

  /** `offset(count)`: a copy of the cursor moved `count` items on. */
  function Offset<T>(c: Cursor<T>, count: nat): (r: Cursor<T>)
    ensures r.buf == c.buf && r.step == c.step && r.cur == c.cur + count
  {
    c.(cur := c.cur + count)
  }

  /** `Cursor::next`: the item under the cursor, then a move of one stride. */
  function Next<T>(c: Cursor<T>): Pull.Step<Cursor<T>, Res<T>>
  {
    if c.cur >= |c.buf| then Pull.Step(c, None)
    else Pull.Step(c.(cur := c.cur + c.step), Some(Ok(c.buf[c.cur])))
  }

  /** Reference definition: the items at positions `i`, `i + k`, `i + 2k`, ... */
  function Strided<T>(buf: seq<T>, i: nat, k: nat): seq<T>
    requires k > 0
    decreases |buf| - i
  {
    if i >= |buf| then [] else [buf[i]] + Strided(buf, i + k, k)
  }

  /** The bucket of a cursor started `i` items on. */
  function Bucket<T>(buf: seq<T>, k: nat, i: nat): seq<T>
    requires k > 0
  {
    Strided(buf, i, k)
  }

  ghost predicate Inv<T>(c: Cursor<T>) { true }

  function Rest<T>(c: Cursor<T>): seq<Res<T>>
  {
    if c.step == 0 then [] else Oks(Strided(c.buf, c.cur, c.step))
  }

  /** With stride 0 the cursor never moves, so it repeats its item forever. */
  function TailOf<T>(c: Cursor<T>): Option<Res<T>>
  {
    if c.step == 0 && c.cur < |c.buf| then Some(Ok(c.buf[c.cur])) else None
  }

  lemma NextAdvances<T>(c: Cursor<T>)
    ensures Pull.Advances(Next, Inv, Rest, TailOf, c)
  {
  }

  /** A cursor with stride `k > 0` delivers its bucket, then `None` forever. */
  lemma Behaviour<T>(buf: seq<T>, k: nat, i: nat, m: nat)
    requires k > 0
    ensures Pull.Run(Next, Offset(Iter(New(buf, k)), i), m) == Pull.Observe(Oks(Bucket(buf, k, i)), None, m)
  {
    forall c: Cursor<T> | Inv(c) ensures Pull.Advances(Next, Inv, Rest, TailOf, c) {
      NextAdvances(c);
    }
    Pull.RunObserves(Next, Inv, Rest, TailOf, Offset(Iter(New(buf, k)), i), m);
  }

  /** With zero buckets the cursor answers the first item forever (and
      nothing at all for an empty vector). */
  lemma ZeroBuckets<T>(buf: seq<T>, m: nat)
    ensures Pull.Run(Next, Iter(New(buf, 0)), m) == Pull.Observe([], if |buf| > 0 then Some(Ok(buf[0])) else None, m)
  {
    forall c: Cursor<T> | Inv(c) ensures Pull.Advances(Next, Inv, Rest, TailOf, c) {
      NextAdvances(c);
    }
    Pull.RunObserves(Next, Inv, Rest, TailOf, Iter(New(buf, 0)), m);
  }

  /** The bucket started at `i` holds exactly the positions `i + j * k` that
      lie inside the vector, in increasing order. */
  lemma {:induction false} StridedAt<T>(buf: seq<T>, i: nat, k: nat)
    requires k > 0
    ensures forall j :: 0 <= j < |Strided(buf, i, k)| ==> i + j * k < |buf| && Strided(buf, i, k)[j] == buf[i + j * k]
    ensures i + |Strided(buf, i, k)| * k >= |buf|
    decreases |buf| - i
  {
    if i < |buf| {
      StridedAt(buf, i + k, k);
      var s := Strided(buf, i, k);
      var t := Strided(buf, i + k, k);
      forall j | 0 <= j < |s| ensures i + j * k < |buf| && s[j] == buf[i + j * k] {
        if j > 0 {
          MulSucc(j - 1, k);
          assert s[j] == t[j - 1];
        }
      }
      MulSucc(|t|, k);
    }
  }

  lemma MulSucc(j: nat, k: nat)
    ensures (j + 1) * k == j * k + k
  {
  }

  /** Slot `j` of bucket `i < k` is position `i + j * k`: bucket and slot are
      the remainder and the quotient of the position, so distinct slots hold
      distinct positions. */
  lemma SlotPosition(i: nat, j: nat, k: nat)
    requires i < k
    ensures (i + j * k) % k == i && (i + j * k) / k == j
  {
    DivMod(i + j * k, k, j, i);
  }

  /** The buckets `0 .. k - 1` together hold every item exactly once: position
      `p` is slot `p / k` of bucket `p % k`. */
  lemma Covers<T>(buf: seq<T>, k: nat, p: nat)
    requires k > 0 && p < |buf|
    ensures p / k < |Bucket(buf, k, p % k)| && Bucket(buf, k, p % k)[p / k] == buf[p]
  {
    var i, j := p % k, p / k;
    StridedAt(buf, i, k);
    var n := |Strided(buf, i, k)|;
    assert p == i + j * k;
    if n <= j {
      MulMono(n, j, k);
    }
  }

  /** The library's example: 1..10 into three buckets. */
  lemma Example()
    ensures Bucket([1, 2, 3, 4, 5, 6, 7, 8, 9, 10], 3, 0) == [1, 4, 7, 10]
    ensures Bucket([1, 2, 3, 4, 5, 6, 7, 8, 9, 10], 3, 1) == [2, 5, 8]
    ensures Bucket([1, 2, 3, 4, 5, 6, 7, 8, 9, 10], 3, 2) == [3, 6, 9]
  {
    ExampleCase([1, 2, 3, 4, 5, 6, 7, 8, 9, 10]);
  }

  lemma ExampleCase(buf: seq<int>)
    requires buf == [1, 2, 3, 4, 5, 6, 7, 8, 9, 10]
    ensures Bucket(buf, 3, 0) == [1, 4, 7, 10] && Bucket(buf, 3, 1) == [2, 5, 8] && Bucket(buf, 3, 2) == [3, 6, 9]
  {
    assert Strided(buf, 10, 3) == [] && Strided(buf, 11, 3) == [] && Strided(buf, 12, 3) == [];
    assert Strided(buf, 9, 3) == [10];
    assert Strided(buf, 6, 3) == [7, 10];
    assert Strided(buf, 3, 3) == [4, 7, 10];
    assert Strided(buf, 7, 3) == [8];
    assert Strided(buf, 4, 3) == [5, 8];
    assert Strided(buf, 8, 3) == [9];
    assert Strided(buf, 5, 3) == [6, 9];
  }
}

=== FILE: divide.dfy ===
/** `divide`: cuts a vector into `k` consecutive buckets whose sizes differ by
    at most one, the larger ones first. Each bucket is read through a cursor;
    the crate's raw pointers are modelled as indices into the vector. */
module Divide {
  import opened Base
  import Accumulate
  import Pull

  datatype Divide<T> = Divide(buf: seq<T>, n: nat, offs: seq<nat>, base: nat, overflow: bool)

  /** The bucket sizes: `len / k` each, plus one for the first `len % k`. */
  function Sizes(len: nat, k: nat): (r: seq<nat>)
    requires k > 0
    ensures |r| == k
    ensures forall i :: 0 <= i < k ==> r[i] == len / k + (if i < len % k then 1 else 0)
  {
    seq(k, i requires 0 <= i < k => len / k + (if i < len % k then 1 else 0))
  }

  /** `Divide::new(buf, k)`; `k == 0` is a division by zero in the crate. The
      offsets are 0 followed by the running sums of the sizes collected from
      `accumulate`. */
  function New<T>(buf: seq<T>, k: nat): Divide<T>
    requires k > 0
  {
    var sizes := Sizes(|buf|, k);
    var fit := Accumulate.FitFrom(sizes, 0);
    Divide(buf, k, [0] + Accumulate.PrefixSums(sizes)[..fit], |buf| / k, fit < |sizes|)
  }

  /** A cursor over one bucket. */
  datatype Cursor<T> = Cursor(buf: seq<T>, cur: nat, end: nat, bucketCount: nat, overflow: bool)

  /** `Divide::iter(b)`: asserts that `b` names a bucket. */
  function Iter<T>(d: Divide<T>, b: nat): Cursor<T>
    requires b + 1 < |d.offs|
  {
    Cursor(d.buf, d.offs[b], d.offs[b + 1], d.n, d.overflow)
  }

  const ZeroBuckets := ValueErr("bucket count should not be 0")
  const AccOverflow := ValueErr("accumulate overflow")

  /** `Cursor::next`. Both errors are answered again on every call. Reading
      past the vector cannot happen for a cursor made by `Iter` and answers
      `None`. */
  function Next<T>(c: Cursor<T>): Pull.Step<Cursor<T>, Res<T>>
  {
    if c.bucketCount == 0 then Pull.Step(c, Some(Err(ZeroBuckets)))
    else if c.overflow then Pull.Step(c, Some(Err(AccOverflow)))
    else if c.cur >= c.end || c.cur >= |c.buf| then Pull.Step(c, None)
    else Pull.Step(c.(cur := c.cur + 1), Some(Ok(c.buf[c.cur])))
  }

  // ---- bucket arithmetic ----

  lemma MulSucc(i: nat, q: nat)
    ensures (i + 1) * q == i * q + q
  {
  }

  /** Sizes of `q` or `q + 1`, the larger ones in the first `r` places: the
      first `i` of them hold `i * q + min(i, r)` items. */
  lemma {:induction false} SizesSum(sizes: seq<nat>, q: nat, r: nat, i: nat)
    requires forall j :: 0 <= j < |sizes| ==> sizes[j] == q + (if j < r then 1 else 0)
    requires i <= |sizes|
    ensures Sum(sizes[..i]) == i * q + Min(i, r)
  {
    if i > 0 {
      SizesSum(sizes, q, r, i - 1);
      SumPrefix(sizes, i - 1);
      MulSucc(i - 1, q);
    } else {
      assert sizes[..0] == [];
    }
  }

  /** The first `i` buckets hold `i * (len / k) + min(i, len % k)` items. */
  lemma SizesPrefix(len: nat, k: nat, i: nat)
    requires k > 0 && i <= k
    ensures Sum(Sizes(len, k)[..i]) == i * (len / k) + Min(i, len % k)
  {
    SizesSum(Sizes(len, k), len / k, len % k, i);
  }

  /** The sizes add up to the length, differ by at most one and never grow. */
  lemma SizesShape(len: nat, k: nat)
    requires k > 0
    ensures Sum(Sizes(len, k)) == len
    ensures forall i, j :: 0 <= i <= j < k ==> Sizes(len, k)[j] <= Sizes(len, k)[i] <= Sizes(len, k)[j] + 1
  {
    var q, r := len / k, len % k;
    SizesSum(Sizes(len, k), q, r, k);
    assert Sizes(len, k)[..k] == Sizes(len, k);
    assert len == k * q + r;
  }

  /** A vector can hold at most `usize::MAX` items, so the running sums never
      overflow: the offsets are 0 and the running sums, the last is the length. */
  lemma OffsetsFormula<T>(buf: seq<T>, k: nat)
    requires k > 0 && |buf| <= USIZE_MAX
    ensures !New(buf, k).overflow
    ensures |New(buf, k).offs| == k + 1
    ensures forall i :: 0 <= i <= k ==> New(buf, k).offs[i] == i * (|buf| / k) + Min(i, |buf| % k)
  {
    var sizes := Sizes(|buf|, k);
    SizesShape(|buf|, k);
    Accumulate.NoOverflow(sizes);
    var d := New(buf, k);
    forall i | 0 <= i <= k ensures d.offs[i] == i * (|buf| / k) + Min(i, |buf| % k) {
      SizesPrefix(|buf|, k, i);
      if i > 0 {
        assert d.offs[i] == Accumulate.PrefixSums(sizes)[i - 1];
        assert sizes[..i - 1 + 1] == sizes[..i];
      } else {
        assert sizes[..0] == [];
      }
    }
  }

  /** The offsets never decrease and the last one is the length. */
  lemma Offsets<T>(buf: seq<T>, k: nat)
    requires k > 0 && |buf| <= USIZE_MAX
    ensures !New(buf, k).overflow
    ensures |New(buf, k).offs| == k + 1
    ensures forall i :: 0 <= i <= k ==> New(buf, k).offs[i] == i * (|buf| / k) + Min(i, |buf| % k)
    ensures forall i, j :: 0 <= i <= j <= k ==> New(buf, k).offs[i] <= New(buf, k).offs[j]
    ensures New(buf, k).offs[k] == |buf|
  {
    OffsetsFormula(buf, k);
    var o := New(buf, k).offs;
    var q, r := |buf| / k, |buf| % k;
    forall i, j | 0 <= i <= j <= k ensures o[i] <= o[j] {
      MulMono(i, j, q);
    }
    assert |buf| == k * q + r;
  }

  /** The items of bucket `b`. */
  function Bucket<T>(buf: seq<T>, k: nat, b: nat): seq<T>
    requires k > 0 && b < k && |buf| <= USIZE_MAX
  {
    Offsets(buf, k);
    buf[New(buf, k).offs[b]..New(buf, k).offs[b + 1]]
  }

  // ---- cursors ----

  ghost predicate Inv<T>(c: Cursor<T>) { c.end <= |c.buf| }

  function Rest<T>(c: Cursor<T>): seq<Res<T>>
  {
    if c.bucketCount == 0 || c.overflow || c.cur >= c.end || c.end > |c.buf| then [] else Oks(c.buf[c.cur..c.end])
  }

  function TailOf<T>(c: Cursor<T>): Option<Res<T>>
  {
    if c.bucketCount == 0 then Some(Err(ZeroBuckets)) else if c.overflow then Some(Err(AccOverflow)) else None
  }

  lemma NextAdvances<T>(c: Cursor<T>)
    requires Inv(c)
    ensures Pull.Advances(Next, Inv, Rest, TailOf, c)
  {
    if c.bucketCount > 0 && !c.overflow && c.cur < c.end {
      assert c.buf[c.cur..c.end][1..] == c.buf[c.cur + 1..c.end];
    }
  }

  /** The cursor of bucket `b` delivers exactly that bucket's items, then
      `None` forever. */
  lemma Behaviour<T>(buf: seq<T>, k: nat, b: nat, m: nat)
    requires k > 0 && b < k && |buf| <= USIZE_MAX
    ensures (Offsets(buf, k); Pull.Run(Next, Iter(New(buf, k), b), m) == Pull.Observe(Oks(Bucket(buf, k, b)), None, m))
  {
    forall c: Cursor<T> | Inv(c) ensures Pull.Advances(Next, Inv, Rest, TailOf, c) {
      NextAdvances(c);
    }
    Offsets(buf, k);
    MulMono(b, b + 1, |buf| / k);
    var c := Iter(New(buf, k), b);
    assert c.end <= |buf| by {
      MulMono(b + 1, k, |buf| / k);
    }
    Pull.RunObserves(Next, Inv, Rest, TailOf, c, m);
  }

  /** A cursor stuck on an error: no buckets, or overflowed running sums. */
  predicate Stuck<T>(c: Cursor<T>) { c.bucketCount == 0 || c.overflow }

  /** A stuck cursor answers its error on every call and never moves on. */
  lemma ErrorCursor<T>(c: Cursor<T>, m: nat)
    requires Stuck(c)
    ensures Pull.Run(Next, c, m) == Pull.Observe([], TailOf(c), m)
    ensures TailOf(c).Some? && TailOf(c).value.Err?
  {
    forall u: Cursor<T> | Stuck(u) ensures Pull.Advances(Next, Stuck, Rest, TailOf, u) {
    }
    Pull.RunObserves(Next, Stuck, Rest, TailOf, c, m);
  }

  /** The slices between consecutive offsets, from offset `i` on. */
  function Slices<T>(buf: seq<T>, o: seq<nat>, i: nat): seq<seq<T>>
    requires i < |o| && o[|o| - 1] <= |buf|
    requires forall a, b :: 0 <= a <= b < |o| ==> o[a] <= o[b]
    decreases |o| - i
  {
    if i == |o| - 1 then [] else [buf[o[i]..o[i + 1]]] + Slices(buf, o, i + 1)
  }

  /** Consecutive slices between non-decreasing offsets concatenate to the
      slice between the first and the last offset. */
  lemma {:induction false} SlicesFlatten<T>(buf: seq<T>, o: seq<nat>, i: nat)
    requires i < |o| && o[|o| - 1] <= |buf|
    requires forall a, b :: 0 <= a <= b < |o| ==> o[a] <= o[b]
    ensures |Slices(buf, o, i)| == |o| - 1 - i
    ensures forall j :: 0 <= j < |o| - 1 - i ==> Slices(buf, o, i)[j] == buf[o[i + j]..o[i + j + 1]]
    ensures Flatten(Slices(buf, o, i)) == buf[o[i]..o[|o| - 1]]
  {
    SlicesItems(buf, o, i);
    SlicesConcat(buf, o, i);
  }

  /** Slice `j` lies between offsets `i + j` and `i + j + 1`. */
  lemma {:induction false} SlicesItems<T>(buf: seq<T>, o: seq<nat>, i: nat)
    requires i < |o| && o[|o| - 1] <= |buf|
    requires forall a, b :: 0 <= a <= b < |o| ==> o[a] <= o[b]
    ensures |Slices(buf, o, i)| == |o| - 1 - i
    ensures forall j :: 0 <= j < |o| - 1 - i ==> Slices(buf, o, i)[j] == buf[o[i + j]..o[i + j + 1]]
    decreases |o| - i
  {
    if i < |o| - 1 {
      SlicesItems(buf, o, i + 1);
      var sl := Slices(buf, o, i);
      assert sl[1..] == Slices(buf, o, i + 1);
      forall j | 1 <= j < |o| - 1 - i ensures sl[j] == buf[o[i + j]..o[i + j + 1]] {
        assert sl[j] == Slices(buf, o, i + 1)[j - 1];
      }
    }
  }

  lemma {:induction false} SlicesConcat<T>(buf: seq<T>, o: seq<nat>, i: nat)
    requires i < |o| && o[|o| - 1] <= |buf|
    requires forall a, b :: 0 <= a <= b < |o| ==> o[a] <= o[b]
    ensures Flatten(Slices(buf, o, i)) == buf[o[i]..o[|o| - 1]]
    decreases |o| - i
  {
    if i < |o| - 1 {
      SlicesConcat(buf, o, i + 1);
      assert Slices(buf, o, i)[1..] == Slices(buf, o, i + 1);
      assert buf[o[i]..o[|o| - 1]] == buf[o[i]..o[i + 1]] + buf[o[i + 1]..o[|o| - 1]];
    }
  }

  /** All buckets together, in order, are the vector. */
  lemma Reassemble<T>(buf: seq<T>, k: nat)
    requires k > 0 && |buf| <= USIZE_MAX
    ensures Flatten(seq(k, b requires 0 <= b < k => Bucket(buf, k, b))) == buf
  {
    Offsets(buf, k);
    var o := New(buf, k).offs;
    SlicesFlatten(buf, o, 0);
    assert Slices(buf, o, 0) == seq(k, b requires 0 <= b < k => Bucket(buf, k, b));
    assert o[0] == 0;
    assert buf[0..|buf|] == buf;
  }

  /** The library's example: 1..10 in three buckets is 1-4, 5-7, 8-10. */
  lemma Example()
    ensures Bucket([1, 2, 3, 4, 5, 6, 7, 8, 9, 10], 3, 0) == [1, 2, 3, 4]
    ensures Bucket([1, 2, 3, 4, 5, 6, 7, 8, 9, 10], 3, 1) == [5, 6, 7]
    ensures Bucket([1, 2, 3, 4, 5, 6, 7, 8, 9, 10], 3, 2) == [8, 9, 10]
  {
    ExampleCase([1, 2, 3, 4, 5, 6, 7, 8, 9, 10]);
  }

  lemma ExampleCase(buf: seq<int>)
    requires buf == [1, 2, 3, 4, 5, 6, 7, 8, 9, 10]
    ensures Bucket(buf, 3, 0) == [1, 2, 3, 4] && Bucket(buf, 3, 1) == [5, 6, 7] && Bucket(buf, 3, 2) == [8, 9, 10]
  {
    Offsets(buf, 3);
    assert New(buf, 3).offs[1] == 4 && New(buf, 3).offs[2] == 7 && New(buf, 3).offs[3] == 10;
  }
}

=== FILE: except.dfy ===
/** `map_except` (exported as `filter_map`), `filter_except` and the boxed
    `filter_map`: apply a fallible function to each value; errors of an
    acceptable kind skip the value, any other error is reported once with a
    labelled message and stops the iterator for good. */
module Except {
  import opened Base
  import Pull

  datatype State<!I, O> = State(up: seq<I>, func: I -> Res<O>, acceptable: seq<Kind>, tag: string, failed: bool)

  /** `filter_map` of map_except.rs. */
  function MapExcept<I, O>(xs: seq<I>, func: I -> Res<O>, acceptable: seq<Kind>): State<I, O>
  {
    State(xs, func, acceptable, "func failed", false)
  }

  /** The validator seen as a function: any Ok answer keeps the value itself. */
  function Validate<I>(validator: I -> Res<bool>, v: I): (r: Res<I>)
    ensures validator(v).Ok? <==> r == Ok(v)
    ensures validator(v).Err? ==> r == Err(validator(v).error)
  {
    match validator(v)
    case Ok(_) => Ok(v)
    case Err(e) => Err(e)
  }

  /** `filter_except`. */
  function FilterExcept<I>(xs: seq<I>, validator: I -> Res<bool>, acceptable: seq<Kind>): State<I, I>
  {
    State(xs, v => Validate(validator, v), acceptable, "validator failed", false)
  }

  /** `filter_map` of filter_map.rs: no error kind is acceptable. */
  function FilterMap<I, O>(xs: seq<I>, func: I -> Res<O>): State<I, O>
  {
    State(xs, func, [], "func failed", false)
  }

  /** The error reported for a failing call: the same kind, the message
      "<tag>" or "<tag>: <message>". */
  function Failed(tag: string, e: Error): (r: Error)
    ensures r.kind == e.kind
    ensures r.message == Some(if e.message.Some? then tag + ": " + e.message.value else tag)
  {
    AnyError(e.kind, if e.message.None? then tag else tag + ": " + e.message.value)
  }

  function Loop<I, O>(s: State<I, O>): (t: Pull.Step<State<I, O>, Res<O>>)
    decreases |s.up|
  {
    if |s.up| == 0 then Pull.Step(s, None)
    else match s.func(s.up[0])
      case Ok(o) => Pull.Step(s.(up := s.up[1..]), Some(Ok(o)))
      case Err(e) =>
        if e.kind in s.acceptable then Loop(s.(up := s.up[1..]))
        else Pull.Step(s.(up := s.up[1..], failed := true), Some(Err(Failed(s.tag, e))))
  }

  function Next<I, O>(s: State<I, O>): Pull.Step<State<I, O>, Res<O>>
  {
    if s.failed then Pull.Step(s, None) else Loop(s)
  }

  /** Reference definition: the results, skipping acceptable errors and
      ending at the first other one. */
  function Output<I, O>(xs: seq<I>, func: I -> Res<O>, acceptable: seq<Kind>, tag: string): seq<Res<O>>
  {
    if |xs| == 0 then []
    else match func(xs[0])
      case Ok(o) => [Ok(o)] + Output(xs[1..], func, acceptable, tag)
      case Err(e) =>
        if e.kind in acceptable then Output(xs[1..], func, acceptable, tag)
        else [Err(Failed(tag, e))]
  }

  ghost predicate Inv<I, O>(s: State<I, O>) { true }

  function Rest<I, O>(s: State<I, O>): seq<Res<O>>
  {
    if s.failed then [] else Output(s.up, s.func, s.acceptable, s.tag)
  }

  function TailOf<I, O>(s: State<I, O>): Option<Res<O>> { None }

  lemma {:induction false} LoopAdvances<I, O>(s: State<I, O>)
    requires !s.failed
    ensures Pull.Advances(Next, Inv, Rest, TailOf, s)
    decreases |s.up|
  {
    if |s.up| > 0 && s.func(s.up[0]).Err? && s.func(s.up[0]).error.kind in s.acceptable {
      var s1 := s.(up := s.up[1..]);
      LoopAdvances(s1);
      Pull.AdvancesTransfer(Next, Inv, Rest, TailOf, s, s1);
    }
  }

  /** The answers of `next()` are exactly the output items, then `None` forever. */
  lemma Behaviour<I, O>(s0: State<I, O>, k: nat)
    requires !s0.failed
    ensures Pull.Run(Next, s0, k) == Pull.Observe(Output(s0.up, s0.func, s0.acceptable, s0.tag), None, k)
  {
    forall s: State<I, O> | Inv(s) ensures Pull.Advances(Next, Inv, Rest, TailOf, s) {
      if !s.failed {
        LoopAdvances(s);
      }
    }
    Pull.RunObserves(Next, Inv, Rest, TailOf, s0, k);
  }

  // ---- properties of the reference definition ----

  /** The output is never longer than the input; only its last item can be
      an error, and that error keeps the kind of the function's error. */
  lemma {:induction false} OutputShape<I, O>(xs: seq<I>, func: I -> Res<O>, acceptable: seq<Kind>, tag: string)
    ensures var r := Output(xs, func, acceptable, tag);
      |r| <= |xs| && (forall i :: 0 <= i < |r| - 1 ==> r[i].Ok?) &&
      (|r| > 0 && r[|r| - 1].Err? ==> exists j :: 0 <= j < |xs| && func(xs[j]).Err? && func(xs[j]).error.kind !in acceptable &&
                                         r[|r| - 1].error == Failed(tag, func(xs[j]).error))
    decreases |xs|
  {
    if |xs| > 0 {
      OutputShape(xs[1..], func, acceptable, tag);
      var r1 := Output(xs[1..], func, acceptable, tag);
      var r := Output(xs, func, acceptable, tag);
      if |r1| > 0 && r1[|r1| - 1].Err? {
        var j :| 0 <= j < |xs[1..]| && func(xs[1..][j]).Err? && func(xs[1..][j]).error.kind !in acceptable &&
                 r1[|r1| - 1].error == Failed(tag, func(xs[1..][j]).error);
        assert xs[1..][j] == xs[j + 1];
      }
      match func(xs[0]) {
        case Ok(o) =>
          assert r == [Ok(o)] + r1;
          forall i | 0 <= i < |r| - 1 ensures r[i].Ok? {
            if i > 0 { assert r[i] == r1[i - 1]; }
          }
        case Err(e) =>
          if e.kind !in acceptable {
            assert func(xs[0]).Err?;
          }
      }
    }
  }

  /** Every Ok item is a successful result of the function on some input value. */
  lemma {:induction false} OkAreResults<I, O>(xs: seq<I>, func: I -> Res<O>, acceptable: seq<Kind>, tag: string)
    ensures forall i :: 0 <= i < |Output(xs, func, acceptable, tag)| && Output(xs, func, acceptable, tag)[i].Ok? ==>
      exists j :: 0 <= j < |xs| && func(xs[j]) == Output(xs, func, acceptable, tag)[i]
    decreases |xs|
  {
    if |xs| > 0 {
      OkAreResults(xs[1..], func, acceptable, tag);
      var r1 := Output(xs[1..], func, acceptable, tag);
      var r := Output(xs, func, acceptable, tag);
      forall i | 0 <= i < |r| && r[i].Ok? ensures exists j :: 0 <= j < |xs| && func(xs[j]) == r[i] {
        if func(xs[0]).Ok? {
          if i == 0 {
            assert func(xs[0]) == r[0];
          } else {
            assert r == [func(xs[0])] + r1;
            assert r[i] == r1[i - 1] && r1[i - 1].Ok?;
            var j :| 0 <= j < |xs[1..]| && func(xs[1..][j]) == r1[i - 1];
            assert xs[1..][j] == xs[j + 1];
          }
        } else if func(xs[0]).error.kind in acceptable {
          assert r == r1;
          var j :| 0 <= j < |xs[1..]| && func(xs[1..][j]) == r1[i];
          assert xs[1..][j] == xs[j + 1];
        }
      }
    }
  }

  /** When the function never fails the output is its results, in order. */
  lemma {:induction false} NoErrors<I, O>(xs: seq<I>, func: I -> Res<O>, acceptable: seq<Kind>, tag: string)
    requires forall i :: 0 <= i < |xs| ==> func(xs[i]).Ok?
    ensures Output(xs, func, acceptable, tag) == seq(|xs|, i requires 0 <= i < |xs| => func(xs[i]))
    decreases |xs|
  {
    if |xs| > 0 {
      NoErrors(xs[1..], func, acceptable, tag);
      assert func(xs[0]).Ok?;
    }
  }

  /** Without acceptable kinds, the output is the results up to the first
      error, then that error, labelled. */
  lemma {:induction false} NothingAcceptable<I, O>(xs: seq<I>, func: I -> Res<O>, tag: string)
    ensures var rs := seq(|xs|, i requires 0 <= i < |xs| => func(xs[i]));
      Output(xs, func, [], tag) ==
        Oks(OkPrefix(rs)) + (if FirstErr(rs).Some? then [Err(Failed(tag, FirstErr(rs).value))] else [])
    decreases |xs|
  {
    var rs := seq(|xs|, i requires 0 <= i < |xs| => func(xs[i]));
    if |xs| > 0 {
      NothingAcceptable(xs[1..], func, tag);
      var rs1 := seq(|xs[1..]|, i requires 0 <= i < |xs[1..]| => func(xs[1..][i]));
      assert rs[1..] == rs1;
      if func(xs[0]).Ok? {
        assert OkPrefix(rs) == [func(xs[0]).value] + OkPrefix(rs1);
        OksAppend([func(xs[0]).value], OkPrefix(rs1));
      }
    }
  }

  /** Validator answers never drop a value: with a validator that always
      answers, `filter_except` passes every value through. */
  lemma {:induction false} ValidatedPassThrough<I>(xs: seq<I>, validator: I -> Res<bool>, acceptable: seq<Kind>)
    requires forall i :: 0 <= i < |xs| ==> validator(xs[i]).Ok?
    ensures var s := FilterExcept(xs, validator, acceptable);
      Output(s.up, s.func, s.acceptable, s.tag) == Oks(xs)
    decreases |xs|
  {
    var s := FilterExcept(xs, validator, acceptable);
    if |xs| > 0 {
      ValidatedPassThrough(xs[1..], validator, acceptable);
      assert s.func(xs[0]) == Ok(xs[0]);
      assert Oks(xs) == [Ok(xs[0])] + Oks(xs[1..]);
    }
  }

  /** A value whose validator error is acceptable is skipped silently. */
  lemma AcceptableSkipped<I>(v: I, xs: seq<I>, validator: I -> Res<bool>, acceptable: seq<Kind>)
    requires validator(v).Err? && validator(v).error.kind in acceptable
    ensures var s := FilterExcept([v] + xs, validator, acceptable);
      Output(s.up, s.func, s.acceptable, s.tag) == Output(xs, s.func, s.acceptable, s.tag)
  {
    assert ([v] + xs)[1..] == xs;
  }
}

=== FILE: filter.dfy ===
/** `filter`: the items satisfying a predicate, in order. */
module Filter {
  import opened Base
  import Pull

  /** The upstream left, whether exhaustion was latched, and the predicate. */
  datatype State<!T> = State(up: seq<T>, finished: bool, pred: T -> bool)

  function Init<T>(xs: seq<T>, pred: T -> bool): State<T>
  {
    State(xs, false, pred)
  }

  /** The items of `xs` satisfying `pred`, in order. */
  function Kept<T>(xs: seq<T>, pred: T -> bool): (r: seq<T>)
    ensures |r| <= |xs|
  {
    if |xs| == 0 then [] else (if pred(xs[0]) then [xs[0]] else []) + Kept(xs[1..], pred)
  }

  /** One call of `next()`: skip rejected items; latch exhaustion. */
  function Next<T>(s: State<T>): Pull.Step<State<T>, T>
    decreases |s.up|
  {
    if s.finished then Pull.Step(s, None)
    else if |s.up| == 0 then Pull.Step(s.(finished := true), None)
    else if s.pred(s.up[0]) then Pull.Step(s.(up := s.up[1..]), Some(s.up[0]))
    else Next(s.(up := s.up[1..]))
  }

  ghost predicate Inv<T>(s: State<T>) { true }

  function Rest<T>(s: State<T>): seq<T>
  {
    if s.finished then [] else Kept(s.up, s.pred)
  }

  function TailOf<T>(s: State<T>): Option<T> { None }

  lemma {:induction false} NextAdvances<T>(s: State<T>)
    ensures Pull.Advances(Next, Inv, Rest, TailOf, s)
    decreases |s.up|
  {
    if !s.finished && |s.up| > 0 && !s.pred(s.up[0]) {
      var s1 := s.(up := s.up[1..]);
      NextAdvances(s1);
      Pull.AdvancesTransfer(Next, Inv, Rest, TailOf, s, s1);
    }
  }

  /** The iterator yields `Kept(xs, pred)` and then `None` forever. */
  lemma Behaviour<T>(xs: seq<T>, pred: T -> bool, m: nat)
    ensures Pull.Run(Next, Init(xs, pred), m) == Pull.Observe(Kept(xs, pred), None, m)
  {
    forall s: State<T> | Inv(s) ensures Pull.Advances(Next, Inv, Rest, TailOf, s) {
      NextAdvances(s);
    }
    Pull.RunObserves(Next, Inv, Rest, TailOf, Init(xs, pred), m);
  }

  /** `a` is obtained from `b` by deleting items. */
  predicate Subsequence<T(==)>(a: seq<T>, b: seq<T>)
    decreases |b|
  {
    if |a| == 0 then true
    else if |b| == 0 then false
    else if a[0] == b[0] then Subsequence(a[1..], b[1..])
    else Subsequence(a, b[1..])
  }

  /** The kept items are a subsequence of the input, each kept item
      satisfies the predicate, and every satisfying input item is kept. */
  lemma {:induction false} KeptExact<T>(xs: seq<T>, pred: T -> bool)
    ensures Subsequence(Kept(xs, pred), xs)
    ensures forall x :: x in Kept(xs, pred) <==> x in xs && pred(x)
  {
    if |xs| > 0 {
      KeptExact(xs[1..], pred);
      var k := Kept(xs[1..], pred);
      if pred(xs[0]) {
        assert Kept(xs, pred) == [xs[0]] + k;
        assert ([xs[0]] + k)[1..] == k;
      } else {
        assert Kept(xs, pred) == k;
        // a kept item passes, so it is never the rejected head
        assert |k| > 0 ==> k[0] in k;
      }
      forall x ensures x in Kept(xs, pred) <==> x in xs && pred(x) {
        assert x in xs <==> x == xs[0] || x in xs[1..] by {
          assert xs == [xs[0]] + xs[1..];
        }
      }
    }
  }

  /** Filtering distributes over concatenation. */
  lemma {:induction false} KeptAppend<T>(a: seq<T>, b: seq<T>, pred: T -> bool)
    ensures Kept(a + b, pred) == Kept(a, pred) + Kept(b, pred)
  {
    if |a| > 0 {
      assert (a + b)[1..] == a[1..] + b;
      KeptAppend(a[1..], b, pred);
    } else {
      assert a + b == b;
    }
  }

  /** The predicate of the library's example. */
  predicate IsEven(x: int) { x % 2 == 0 }

  /** The library's example: the even numbers of 1..9. */
  lemma Example(xs: seq<int>)
    requires xs == [1, 2, 3, 4, 5, 6, 7, 8, 9]
    ensures Kept(xs, IsEven) == [2, 4, 6, 8]
  {
    assert Kept(xs[9..], IsEven) == [];
    KeepStep(xs[8..], xs[9..], IsEven, [], []);
    KeepStep(xs[7..], xs[8..], IsEven, [], [8]);
    KeepStep(xs[6..], xs[7..], IsEven, [8], [8]);
    KeepStep(xs[5..], xs[6..], IsEven, [8], [6, 8]);
    KeepStep(xs[4..], xs[5..], IsEven, [6, 8], [6, 8]);
    KeepStep(xs[3..], xs[4..], IsEven, [6, 8], [4, 6, 8]);
    KeepStep(xs[2..], xs[3..], IsEven, [4, 6, 8], [4, 6, 8]);
    KeepStep(xs[1..], xs[2..], IsEven, [4, 6, 8], [2, 4, 6, 8]);
    KeepStep(xs, xs[1..], IsEven, [2, 4, 6, 8], [2, 4, 6, 8]);
  }

  /** One step of filtering: the first item is kept when the predicate
      accepts it, ahead of what the rest keeps. */
  lemma KeepStep<T>(xs: seq<T>, rest: seq<T>, pred: T -> bool, s: seq<T>, r: seq<T>)
    requires |xs| > 0 && xs[1..] == rest && Kept(rest, pred) == s
    requires r == (if pred(xs[0]) then [xs[0]] else []) + s
    ensures Kept(xs, pred) == r
  {
  }
}

=== FILE: groupby.dfy ===
/** `groupby`: a cursor over the runs of equal consecutive values.
    `next_group()` moves to the next run and returns its first value;
    `next()` then yields every value of that run (the key first) and `None`
    at its end. */
module GroupBy {
  import opened Base
  import Pull

  datatype State<T> = State(curKey: Option<T>, buf: seq<T>, emittedFirst: bool, up: seq<T>,
                            finished: bool, stopNext: bool)

  /** `groupby`: no current group, so `next()` answers `None` until the
      first `next_group()`. */
  function Init<T>(xs: seq<T>): State<T>
  {
    State(None, [], false, xs, false, true)
  }

  /** Does `v` belong to the current group? */
  predicate SameKey<T(==)>(key: Option<T>, v: T)
  {
    key.Some? && v == key.value
  }

  /** `next_group()`: take values (the buffered one first) until one differs
      from the current key, and make it the new key. */
  function NextGroup<T(==)>(s: State<T>): (t: Pull.Step<State<T>, T>)
    ensures |t.state.buf| + |t.state.up| <= |s.buf| + |s.up|
    ensures t.out.Some? ==> |t.state.buf| + |t.state.up| < |s.buf| + |s.up|
    decreases |s.buf| + |s.up|, !s.finished
  {
    if s.finished then Pull.Step(s, None)
    else if |s.buf| == 0 && |s.up| == 0 then NextGroup(s.(finished := true))
    else
      var v := if |s.buf| > 0 then s.buf[0] else s.up[0];
      var s1 := if |s.buf| > 0 then s.(buf := s.buf[1..]) else s.(up := s.up[1..]);
      if !SameKey(s.curKey, v) then
        Pull.Step(s1.(curKey := Some(v), emittedFirst := false, stopNext := false), Some(v))
      else NextGroup(s1)
  }

  /** `next()`: the key first, then upstream values while they equal it; the
      first different value is buffered for the next group. */
  function Next<T(==)>(s: State<T>): (t: Pull.Step<State<T>, T>)
    ensures t.out.Some? ==> |t.state.up| < |s.up| || (|t.state.up| == |s.up| && !s.emittedFirst && t.state.emittedFirst)
    ensures t.out.Some? ==> t.state.buf == s.buf && t.state.curKey == s.curKey && !t.state.finished && !t.state.stopNext
    ensures |t.state.buf| + |t.state.up| <= |s.buf| + |s.up|
  {
    if s.finished || s.stopNext || s.curKey.None? then Pull.Step(s, None)
    else if !s.emittedFirst then Pull.Step(s.(emittedFirst := true), Some(s.curKey.value))
    else if |s.up| == 0 then Pull.Step(s.(finished := true), None)
    else if !SameKey(s.curKey, s.up[0]) then Pull.Step(s.(up := s.up[1..], buf := s.buf + [s.up[0]], stopNext := true), None)
    else Pull.Step(s.(up := s.up[1..]), Some(s.up[0]))
  }

  // ---- reference definition ----

  /** The longest prefix of `xs` whose values all equal `v`. */
  function Same<T(==)>(xs: seq<T>, v: T): (r: seq<T>)
    ensures |r| <= |xs| && r == xs[..|r|]
    ensures forall i :: 0 <= i < |r| ==> r[i] == v
    ensures |r| < |xs| ==> xs[|r|] != v
  {
    if |xs| == 0 || xs[0] != v then [] else [xs[0]] + Same(xs[1..], v)
  }

  /** The maximal runs of equal consecutive values. */
  function Runs<T(==)>(xs: seq<T>): (r: seq<seq<T>>)
    ensures forall i :: 0 <= i < |r| ==> |r[i]| > 0
    decreases |xs|
  {
    if |xs| == 0 then []
    else
      var run := [xs[0]] + Same(xs[1..], xs[0]);
      [run] + Runs(xs[|run|..])
  }

  /** A run: non-empty, every value equal to the first. */
  predicate Constant<T(==)>(r: seq<T>)
  {
    |r| > 0 && forall i :: 0 <= i < |r| ==> r[i] == r[0]
  }

  /** The runs concatenate to the input, each is constant, and neighbouring
      runs hold different values. */
  lemma {:induction false} RunsShape<T>(xs: seq<T>)
    ensures Flatten(Runs(xs)) == xs
    ensures forall i :: 0 <= i < |Runs(xs)| ==> Constant(Runs(xs)[i])
    ensures forall i :: 0 <= i < |Runs(xs)| - 1 ==> Runs(xs)[i][0] != Runs(xs)[i + 1][0]
    decreases |xs|
  {
    if |xs| > 0 {
      var run := [xs[0]] + Same(xs[1..], xs[0]);
      var tl := xs[|run|..];
      RunsShape(tl);
      assert run == xs[..|run|];
      assert xs == run + tl;
      var r := Runs(xs);
      assert r == [run] + Runs(tl);
      assert Constant(run);
      forall i | 0 <= i < |r| ensures Constant(r[i]) {
        if i > 0 { assert r[i] == Runs(tl)[i - 1]; }
      }
      if |Runs(tl)| > 0 {
        assert Runs(tl)[0][0] == tl[0];
        assert tl[0] == xs[|run|];
        if |Same(xs[1..], xs[0])| < |xs[1..]| {
          assert xs[1..][|Same(xs[1..], xs[0])|] != xs[0];
        }
      }
      forall i | 0 <= i < |r| - 1 ensures r[i][0] != r[i + 1][0] {
        if i > 0 { assert r[i] == Runs(tl)[i - 1] && r[i + 1] == Runs(tl)[i]; }
      }
    }
  }

  // ---- a consumer that reads every group in full ----

  /** Calls `next()` until it answers `None`, collecting the values. */
  function ReadGroup<T(==)>(s: State<T>): (r: (seq<T>, State<T>))
    ensures |r.1.buf| + |r.1.up| <= |s.buf| + |s.up|
    decreases |s.up|, if s.emittedFirst then 0 else 1
  {
    var t := Next(s);
    if t.out.None? then ([], t.state)
    else var (g, s2) := ReadGroup(t.state); ([t.out.value] + g, s2)
  }

  /** Alternates `next_group()` and a full read until `next_group()` answers `None`. */
  function Consume<T(==)>(s: State<T>): seq<seq<T>>
    decreases |s.buf| + |s.up|, !s.finished
  {
    var g := NextGroup(s);
    if g.out.None? then []
    else [ReadGroup(g.state).0] + Consume(ReadGroup(g.state).1)
  }

  /** Calls `next_group()` only, collecting the keys. */
  function Keys<T(==)>(s: State<T>): seq<T>
    decreases |s.buf| + |s.up|
  {
    var g := NextGroup(s);
    if g.out.None? then [] else [g.out.value] + Keys(g.state)
  }

  /** The states between calls: at most one value is buffered, and only after
      `next()` met it, so it differs from the key; a finished cursor holds none. */
  ghost predicate Inv<T>(s: State<T>)
  {
    |s.buf| <= 1 && (|s.buf| == 1 ==> s.stopNext && !SameKey(s.curKey, s.buf[0])) && (s.finished ==> |s.buf| == 0)
  }

  /** What remains of the input once the rest of the current run is skipped. */
  function Unread<T(==)>(s: State<T>): seq<T>
  {
    var rest := s.buf + s.up;
    if s.curKey.None? then rest else rest[|Same(rest, s.curKey.value)|..]
  }

  /** `next_group()` returns the first value of the unread input after the
      current run, and leaves a fresh group with the rest. */
  lemma {:induction false} NextGroupMoves<T>(s: State<T>)
    requires Inv(s) && !s.finished
    ensures Inv(NextGroup(s).state)
    ensures |Unread(s)| == 0 ==> NextGroup(s).out == None && NextGroup(s).state.finished
    ensures |Unread(s)| > 0 ==> var t := NextGroup(s);
      t.out == Some(Unread(s)[0]) && t.state.curKey == t.out && t.state.buf == [] && !t.state.emittedFirst &&
      !t.state.stopNext && !t.state.finished && t.state.up == Unread(s)[1..]
    decreases |s.buf| + |s.up|
  {
    var rest := s.buf + s.up;
    if |s.buf| == 0 && |s.up| == 0 {
      assert rest == [];
    } else {
      var v := if |s.buf| > 0 then s.buf[0] else s.up[0];
      var s1 := if |s.buf| > 0 then s.(buf := s.buf[1..]) else s.(up := s.up[1..]);
      assert rest[0] == v && s1.buf + s1.up == rest[1..];
      if SameKey(s.curKey, v) {
        assert |s.buf| == 0;
        NextGroupMoves(s1);
        assert Same(rest, s.curKey.value) == [v] + Same(rest[1..], s.curKey.value);
        assert Unread(s1) == Unread(s);
      } else if s.curKey.Some? {
        assert Same(rest, s.curKey.value) == [];
      }
    }
  }

  /** Reading a fresh group yields its key followed by the equal values after
      it, and stops at the first different value (buffering it) or at the end. */
  lemma {:induction false} ReadGroupRun<T>(s: State<T>)
    requires Inv(s) && s.curKey.Some? && !s.stopNext && !s.finished && s.buf == []
    ensures var r := ReadGroup(s); var v := s.curKey.value;
      r.0 == (if s.emittedFirst then [] else [v]) + Same(s.up, v) && Inv(r.1) && r.1.curKey == s.curKey &&
      (r.1.finished ==> |Same(s.up, v)| == |s.up|) &&
      (r.1.finished || (r.1.buf + r.1.up == s.up[|Same(s.up, v)|..] && |r.1.buf| == 1))
    decreases |s.up|, if s.emittedFirst then 0 else 1
  {
    var v := s.curKey.value;
    var t := Next(s);
    if !s.emittedFirst {
      ReadGroupRun(t.state);
    } else if |s.up| > 0 {
      if SameKey(s.curKey, s.up[0]) {
        ReadGroupRun(t.state);
        assert Same(s.up, v) == [s.up[0]] + Same(s.up[1..], v);
      } else {
        assert t.state.buf + t.state.up == s.up;
      }
    }
  }

  /** Reading every group in full yields exactly the runs of the unread input. */
  lemma {:induction false} ConsumeRuns<T>(s: State<T>)
    requires Inv(s)
    ensures Consume(s) == if s.finished then [] else Runs(Unread(s))
    decreases |s.buf| + |s.up|, !s.finished
  {
    if !s.finished {
      NextGroupMoves(s);
      var g := NextGroup(s);
      var u := Unread(s);
      if |u| > 0 {
        var v := u[0];
        ReadGroupRun(g.state);
        var r := ReadGroup(g.state);
        var run := [v] + Same(u[1..], v);
        assert r.0 == run;
        ConsumeRuns(r.1);
        if !r.1.finished {
          var rest := r.1.buf + r.1.up;
          assert Same(rest, v) == [] by {
            assert rest[0] != v;
          }
          assert Unread(r.1) == u[|run|..];
        } else {
          assert g.state.up == u[1..];
          assert u[|run|..] == [];
        }
      }
    }
  }

  /** The first value of every run. */
  function Firsts<T>(rs: seq<seq<T>>): (r: seq<T>)
    requires forall i :: 0 <= i < |rs| ==> |rs[i]| > 0
    ensures |r| == |rs| && forall i :: 0 <= i < |rs| ==> r[i] == rs[i][0]
  {
    if |rs| == 0 then [] else [rs[0][0]] + Firsts(rs[1..])
  }

  /** Calling only `next_group()` returns the first value of every run. */
  lemma {:induction false} KeysOfRuns<T>(s: State<T>)
    requires Inv(s) && !s.finished
    ensures Keys(s) == Firsts(Runs(Unread(s)))
    decreases |s.buf| + |s.up|
  {
    NextGroupMoves(s);
    var g := NextGroup(s);
    var u := Unread(s);
    if |u| > 0 {
      KeysOfRuns(g.state);
      SkipRun(s);
      var run := [u[0]] + Same(u[1..], u[0]);
      assert Runs(u) == [run] + Runs(u[|run|..]);
    }
  }

  /** After `next_group()` the input left once the new run is skipped is the
      input after that run. */
  lemma SkipRun<T>(s: State<T>)
    requires Inv(s) && !s.finished && |Unread(s)| > 0
    ensures var u := Unread(s);
      Unread(NextGroup(s).state) == u[|[u[0]] + Same(u[1..], u[0])|..]
  {
    NextGroupMoves(s);
    var g := NextGroup(s);
    var u := Unread(s);
    var v := u[0];
    var run := [v] + Same(u[1..], v);
    assert g.state.buf + g.state.up == u[1..];
    assert u[1..][|Same(u[1..], v)|..] == u[|run|..];
  }

  /** From the start: reading every group gives the runs of the input, and
      `next()` before any `next_group()` answers `None`. */
  lemma Behaviour<T>(xs: seq<T>)
    ensures Consume(Init(xs)) == Runs(xs)
    ensures Next(Init(xs)).out == None
  {
    ConsumeRuns(Init(xs));
    assert Init(xs).buf + xs == xs;
  }
}

=== FILE: groupby_transform.dfy ===
/** `groupby_transform`: groups consecutive values with equal
    `keyfunc(value)` and yields `(key, reducefunc(valuefunc of the group))`.
    The machine looks ahead through an input buffer. As written, its first
    check ends the iterator once the upstream is exhausted and no values are
    collected, even when the input buffer still holds values; the flag
    `fixed` adds the missing "and the input buffer is empty" condition. */
module GroupByTransform {
  import opened Base
  import Pull

  datatype State<!T, K, !V, R> = State(keys: seq<K>, cur: Option<K>, vals: seq<V>, inbuf: seq<T>, up: seq<T>,
                                       finished: bool, key: T -> K, value: T -> V, reduce: seq<V> -> R, fixed: bool)

  /** `groupby_transform` as written (`fixed == false`) or corrected. */
  function Init<T, K, V, R>(xs: seq<T>, key: T -> K, value: T -> V, reduce: seq<V> -> R, fixed: bool): State<T, K, V, R>
  {
    State([], None, [], [], xs, false, key, value, reduce, fixed)
  }

  /** Work left to the loops: upstream values count twice, buffered ones once. */
  function Measure<T, K, V, R>(s: State<T, K, V, R>): nat
  {
    2 * |s.up| + |s.inbuf| + (if s.finished then 0 else 1)
  }

  /** Whether the current key still has to be set from the buffer's front. */
  function Mismatch<T, K(==), V, R>(s: State<T, K, V, R>): nat
  {
    if |s.inbuf| > 0 && s.cur == Some(s.key(s.inbuf[0])) then 0 else 1
  }

  /** One pull from the upstream into the input buffer. */
  function Pull1<T, K, V, R>(s: State<T, K, V, R>): State<T, K, V, R>
  {
    if |s.up| == 0 then s.(finished := true) else s.(inbuf := s.inbuf + [s.up[0]], up := s.up[1..])
  }

  /** The inner loop: pull one value, then take the buffer's front into the
      current group while its key matches; a new key is queued and ends the loop. */
  function Inner<T, K(==), V, R>(s: State<T, K, V, R>): (t: State<T, K, V, R>)
    ensures t.key == s.key && t.value == s.value && t.reduce == s.reduce && t.fixed == s.fixed
    ensures Measure(t) <= Measure(s)
    ensures Measure(t) == Measure(s) ==> s.finished && |s.up| == 0
    ensures Measure(t) == Measure(s) && |s.inbuf| == 0 ==> t == s
    ensures Measure(t) == Measure(s) && |s.inbuf| > 0 ==> Mismatch(s) == 1 && Mismatch(t) == 0 && t.vals == s.vals
    decreases Measure(s)
  {
    var p := Pull1(s);
    if |p.inbuf| == 0 then p
    else
      var v := p.inbuf[0];
      var k := s.key(v);
      if p.cur == Some(k) then Inner(p.(vals := p.vals + [s.value(v)], inbuf := p.inbuf[1..]))
      else p.(cur := Some(k), keys := p.keys + [k])
  }

  /** `next()`: the outer loop. */
  function Next<T, K(==), V, R>(s: State<T, K, V, R>): Pull.Step<State<T, K, V, R>, (K, R)>
    decreases Measure(s), Mismatch(s)
  {
    if s.finished && |s.vals| == 0 && (!s.fixed || |s.inbuf| == 0) then Pull.Step(s, None)
    else if |s.vals| > 0 then
      if |s.keys| == 0 then Pull.Step(s.(vals := []), None)
      else Pull.Step(s.(keys := s.keys[1..], vals := []), Some((s.keys[0], s.reduce(s.vals))))
    else Next(Inner(s))
  }

  // ---- reference definition ----

  /** The groups of `xs`, the open group having key `k` and values `vals`. */
  function Acc<T, K(==), V>(key: T -> K, value: T -> V, k: K, vals: seq<V>, xs: seq<T>): (r: seq<(K, seq<V>)>)
    ensures |r| > 0 && r[0].0 == k
    decreases |xs|
  {
    if |xs| == 0 then [(k, vals)]
    else if key(xs[0]) == k then Acc(key, value, k, vals + [value(xs[0])], xs[1..])
    else [(k, vals)] + Acc(key, value, key(xs[0]), [value(xs[0])], xs[1..])
  }

  /** The maximal runs of values with equal keys, as (key, mapped values). */
  function Groups<T, K(==), V>(key: T -> K, value: T -> V, xs: seq<T>): seq<(K, seq<V>)>
  {
    if |xs| == 0 then [] else Acc(key, value, key(xs[0]), [value(xs[0])], xs[1..])
  }

  function Reduced<K, V, R>(reduce: seq<V> -> R, gs: seq<(K, seq<V>)>): (r: seq<(K, R)>)
    ensures |r| == |gs|
    ensures forall i :: 0 <= i < |gs| ==> r[i] == (gs[i].0, reduce(gs[i].1))
  {
    if |gs| == 0 then [] else [(gs[0].0, reduce(gs[0].1))] + Reduced(reduce, gs[1..])
  }

  /** Every pair the iterator should deliver. */
  function Output<T, K(==), V, R>(xs: seq<T>, key: T -> K, value: T -> V, reduce: seq<V> -> R): seq<(K, R)>
  {
    Reduced(reduce, Groups(key, value, xs))
  }

  // ---- the corrected machine delivers the reference output ----

  /** States between calls: fresh, holding the next group's first value at
      the buffer's front, or done. */
  ghost predicate Inv<T, K, V, R>(s: State<T, K, V, R>)
  {
    s.fixed && s.vals == [] && (s.finished ==> s.up == []) &&
    ((s.cur.None? && s.keys == [] && s.inbuf == [] && !s.finished) ||
     (s.cur.Some? && s.keys == [s.cur.value] && |s.inbuf| > 0 && s.key(s.inbuf[0]) == s.cur.value) ||
     (s.finished && s.inbuf == [] && s.keys == []))
  }

  function Rest<T, K(==), V, R>(s: State<T, K, V, R>): seq<(K, R)>
  {
    Reduced(s.reduce, Groups(s.key, s.value, s.inbuf + s.up))
  }

  function TailOf<T, K, V, R>(s: State<T, K, V, R>): Option<(K, R)> { None }

  /** Inside a group with key `k`: the collected values and the unread input
      still describe the same groups. */
  ghost predicate InGroup<T, K, V, R>(s: State<T, K, V, R>, k: K)
  {
    s.fixed && s.cur == Some(k) && s.keys == [k] && (s.finished ==> s.up == []) &&
    (s.vals != [] || (|s.inbuf| > 0 && s.key(s.inbuf[0]) == k))
  }

  lemma ReducedCons<K, V, R>(reduce: seq<V> -> R, g: (K, seq<V>), gs: seq<(K, seq<V>)>)
    ensures Reduced(reduce, [g] + gs) == [(g.0, reduce(g.1))] + Reduced(reduce, gs)
  {
    assert ([g] + gs)[1..] == gs;
  }

  /** The inner loop completes the group: it ends with the values of the
      whole run collected and either the input used up or the next key queued. */
  lemma {:induction false} InnerGroup<T, K, V, R>(s: State<T, K, V, R>, k: K)
    requires InGroup(s, k)
    ensures var t := Inner(s);
      t.vals != [] && t.cur.Some? && t.fixed && (t.finished ==> t.up == []) &&
      ((t.keys == [k] && t.inbuf == [] && t.up == [] && t.finished && Acc(s.key, s.value, k, s.vals, s.inbuf + s.up) == [(k, t.vals)]) ||
       (t.keys == [k, t.cur.value] && |t.inbuf| > 0 && s.key(t.inbuf[0]) == t.cur.value &&
        Acc(s.key, s.value, k, s.vals, s.inbuf + s.up) == [(k, t.vals)] + Groups(s.key, s.value, t.inbuf + t.up)))
    decreases Measure(s)
  {
    var p := Pull1(s);
    assert p.inbuf + p.up == s.inbuf + s.up;
    if |p.inbuf| > 0 {
      var v := p.inbuf[0];
      var xs := p.inbuf + p.up;
      assert xs[0] == v && xs[1..] == p.inbuf[1..] + p.up;
      if p.cur == Some(s.key(v)) {
        var p1 := p.(vals := p.vals + [s.value(v)], inbuf := p.inbuf[1..]);
        InnerGroup(p1, k);
      }
    }
  }

  lemma NextAdvances<T, K, V, R>(s: State<T, K, V, R>)
    requires Inv(s)
    ensures Pull.Advances(Next, Inv, Rest, TailOf, s)
  {
    if s.cur.Some? && s.keys == [s.cur.value] && |s.inbuf| > 0 && s.key(s.inbuf[0]) == s.cur.value {
      PendingStep(s);
    } else if !s.finished {
      var t := Inner(s);
      var p := Pull1(s);
      if |p.inbuf| > 0 {
        assert t == p.(cur := Some(s.key(p.inbuf[0])), keys := [s.key(p.inbuf[0])]);
        assert t.inbuf + t.up == s.inbuf + s.up;
        PendingStep(t);
      }
    }
  }

  /** From a state holding the next group's first value, `next()` delivers
      that group. */
  lemma PendingStep<T, K, V, R>(s: State<T, K, V, R>)
    requires s.fixed && s.vals == [] && (s.finished ==> s.up == [])
    requires s.cur.Some? && s.keys == [s.cur.value] && |s.inbuf| > 0 && s.key(s.inbuf[0]) == s.cur.value
    ensures var t := Next(s); Inv(t.state) && |Rest(s)| > 0 && t.out == Some(Rest(s)[0]) && Rest(t.state) == Rest(s)[1..]
  {
    var k := s.cur.value;
    var xs := s.inbuf + s.up;
    assert xs[0] == s.inbuf[0] && xs == [xs[0]] + xs[1..];
    InnerGroup(s, k);
    var i := Inner(s);
    assert Next(s) == Next(i);
    assert [] + [s.value(xs[0])] == [s.value(xs[0])];
    assert Groups(s.key, s.value, xs) == Acc(s.key, s.value, k, [], xs);
    var g := Acc(s.key, s.value, k, [], xs);
    ReducedCons(s.reduce, g[0], g[1..]);
    assert g == [g[0]] + g[1..];
  }

  /** The corrected iterator delivers exactly the reference output, then
      `None` forever. */
  lemma Behaviour<T, K, V, R>(xs: seq<T>, key: T -> K, value: T -> V, reduce: seq<V> -> R, n: nat)
    ensures Pull.Run(Next, Init(xs, key, value, reduce, true), n) == Pull.Observe(Output(xs, key, value, reduce), None, n)
  {
    forall s: State<T, K, V, R> | Inv(s) ensures Pull.Advances(Next, Inv, Rest, TailOf, s) {
      NextAdvances(s);
    }
    assert Init(xs, key, value, reduce, true).inbuf + xs == xs;
    Pull.RunObserves(Next, Inv, Rest, TailOf, Init(xs, key, value, reduce, true), n);
  }

  // ---- the finding ----

  function Id(c: char): char { c }
  function Str(cs: seq<char>): string { cs }

  /** As written, "ab" loses its last group: the second call answers `None`. */
  lemma AsWrittenLosesLastGroup()
    ensures Pull.Run(Next, Init("ab", Id, Id, Str, false), 2) == [Some(('a', "a")), None]
  {
    var s0 := Init("ab", Id, Id, Str, false);
    var s1 := State(['a'], Some('a'), [], "a", "b", false, Id, Id, Str, false);
    assert Inner(s0) == s1;
    var s2 := State(['a', 'b'], Some('b'), "a", "b", "", true, Id, Id, Str, false);
    var s1p := State(['a'], Some('a'), "a", "b", "", false, Id, Id, Str, false);
    assert Pull1(s1).inbuf == "ab";
    assert Inner(s1p) == s2;
    assert Inner(s1) == s2;
    var s3 := State(['b'], Some('b'), [], "b", "", true, Id, Id, Str, false);
    assert Next(s0) == Pull.Step(s3, Some(('a', "a")));
    assert Next(s3).out == None;
  }

  /** Corrected, "ab" yields both groups. */
  lemma CorrectedKeepsLastGroup()
    ensures Pull.Run(Next, Init("ab", Id, Id, Str, true), 3) == [Some(('a', "a")), Some(('b', "b")), None]
  {
    Behaviour("ab", Id, Id, Str, 3);
    assert Groups(Id, Id, "ab") == [('a', "a"), ('b', "b")];
  }

  // ---- properties of the reference definition ----

  /** The values of a list of groups, concatenated. */
  function AllValues<K, V>(gs: seq<(K, seq<V>)>): seq<V>
  {
    if |gs| == 0 then [] else gs[0].1 + AllValues(gs[1..])
  }

  /** The groups hold exactly the mapped input values, in order; groups
      after the first are not empty, and neighbouring groups have different
      keys. `AccKeyed` ties each value to the input item it comes from. */
  lemma {:induction false} AccShape<T, K, V>(key: T -> K, value: T -> V, k: K, vals: seq<V>, xs: seq<T>)
    ensures AllValues(Acc(key, value, k, vals, xs)) == vals + seq(|xs|, i requires 0 <= i < |xs| => value(xs[i]))
    ensures forall i :: 0 <= i < |Acc(key, value, k, vals, xs)| - 1 ==>
      Acc(key, value, k, vals, xs)[i].0 != Acc(key, value, k, vals, xs)[i + 1].0
    ensures forall i :: 0 < i < |Acc(key, value, k, vals, xs)| ==> |Acc(key, value, k, vals, xs)[i].1| > 0
    decreases |xs|
  {
    var m := seq(|xs|, i requires 0 <= i < |xs| => value(xs[i]));
    if |xs| == 0 {
      assert AllValues([(k, vals)]) == vals + AllValues<K, V>([]);
    } else {
      var m1 := seq(|xs[1..]|, i requires 0 <= i < |xs[1..]| => value(xs[1..][i]));
      assert m == [value(xs[0])] + m1;
      if key(xs[0]) == k {
        AccShape(key, value, k, vals + [value(xs[0])], xs[1..]);
      } else {
        AccShape(key, value, key(xs[0]), [value(xs[0])], xs[1..]);
        var tl := Acc(key, value, key(xs[0]), [value(xs[0])], xs[1..]);
        var r := Acc(key, value, k, vals, xs);
        assert r == [(k, vals)] + tl;
        assert r[1..] == tl;
        forall i | 0 <= i < |r| - 1 ensures r[i].0 != r[i + 1].0 {
          if i > 0 { assert r[i] == tl[i - 1] && r[i + 1] == tl[i]; }
        }
        AccFirst(key, value, key(xs[0]), [value(xs[0])], xs[1..]);
        forall i | 0 < i < |r| ensures |r[i].1| > 0 {
          if i > 1 { assert r[i] == tl[i - 1]; }
        }
      }
    }
  }

  /** Where group `i` starts in the input: the sizes of the groups before it. */
  function Offset<K, V>(gs: seq<(K, seq<V>)>, i: nat): nat
    requires i <= |gs|
  {
    if i == 0 then 0 else |gs[0].1| + Offset(gs[1..], i - 1)
  }

  /** Every group is a stretch of the input: value `j` of group `i` is the
      mapped input item at `Offset(gs, i) + j`, and that item has the
      group's key. */
  ghost predicate KeyedRuns<T, K, V>(key: T -> K, value: T -> V, gs: seq<(K, seq<V>)>, xs: seq<T>)
  {
    forall i: nat, j: nat :: i < |gs| && j < |gs[i].1| ==> KeyedAt(key, value, gs, xs, i, j)
  }

  /** Value `j` of group `i` is the mapped input item at `Offset(gs, i) + j`,
      and that item has the group's key. */
  ghost predicate KeyedAt<T, K, V>(key: T -> K, value: T -> V, gs: seq<(K, seq<V>)>, xs: seq<T>, i: nat, j: nat)
    requires i < |gs| && j < |gs[i].1|
  {
    Offset(gs, i) + j < |xs| && gs[i].1[j] == value(xs[Offset(gs, i) + j]) && key(xs[Offset(gs, i) + j]) == gs[i].0
  }

  /** With the open group gathered from `pre`, whose items all have key `k`,
      every group is a stretch of `pre + xs` whose items have the group's key. */
  lemma {:induction false} AccKeyed<T, K, V>(key: T -> K, value: T -> V, k: K, pre: seq<T>, xs: seq<T>)
    requires forall j :: 0 <= j < |pre| ==> key(pre[j]) == k
    ensures KeyedRuns(key, value, Acc(key, value, k, seq(|pre|, j requires 0 <= j < |pre| => value(pre[j])), xs), pre + xs)
    decreases |xs|
  {
    var vals := seq(|pre|, j requires 0 <= j < |pre| => value(pre[j]));
    var r := Acc(key, value, k, vals, xs);
    if |xs| == 0 {
      assert pre + xs == pre;
      forall i: nat, j: nat | i < |r| && j < |r[i].1|
        ensures KeyedAt(key, value, r, pre + xs, i, j)
      {
        assert i == 0 && Offset(r, i) == 0;
      }
      assert KeyedRuns(key, value, r, pre + xs);
    } else if key(xs[0]) == k {
      var pre' := pre + [xs[0]];
      AccKeyed(key, value, k, pre', xs[1..]);
      assert seq(|pre'|, j requires 0 <= j < |pre'| => value(pre'[j])) == vals + [value(xs[0])];
      assert pre' + xs[1..] == pre + xs;
    } else {
      var tl := Acc(key, value, key(xs[0]), [value(xs[0])], xs[1..]);
      AccKeyed(key, value, key(xs[0]), [xs[0]], xs[1..]);
      assert seq(1, j requires 0 <= j < 1 => value([xs[0]][j])) == [value(xs[0])];
      assert [xs[0]] + xs[1..] == xs;
      assert r == [(k, vals)] + tl && r[1..] == tl;
      forall i: nat, j: nat | i < |r| && j < |r[i].1|
        ensures KeyedAt(key, value, r, pre + xs, i, j)
      {
        if i > 0 {
          assert r[i] == tl[i - 1];
          assert Offset(r, i) == |pre| + Offset(tl, i - 1);
          assert KeyedAt(key, value, tl, xs, i - 1, j);
          assert (pre + xs)[Offset(r, i) + j] == xs[Offset(tl, i - 1) + j];
        } else {
          assert r[0] == (k, vals) && Offset(r, 0) == 0;
          assert (pre + xs)[j] == pre[j];
        }
      }
      assert KeyedRuns(key, value, r, pre + xs);
    }
  }

  /** For the reference groups of `xs`: all groups are non-empty, they hold
      the mapped input in order, neighbouring keys differ, and each group is
      a stretch of the input whose items all have the group's key. */
  lemma GroupsShape<T, K, V>(key: T -> K, value: T -> V, xs: seq<T>)
    ensures AllValues(Groups(key, value, xs)) == seq(|xs|, i requires 0 <= i < |xs| => value(xs[i]))
    ensures forall i :: 0 <= i < |Groups(key, value, xs)| ==> |Groups(key, value, xs)[i].1| > 0
    ensures forall i :: 0 <= i < |Groups(key, value, xs)| - 1 ==> Groups(key, value, xs)[i].0 != Groups(key, value, xs)[i + 1].0
    ensures KeyedRuns(key, value, Groups(key, value, xs), xs)
  {
    if |xs| > 0 {
      AccShape(key, value, key(xs[0]), [value(xs[0])], xs[1..]);
      AccFirst(key, value, key(xs[0]), [value(xs[0])], xs[1..]);
      AccKeyed(key, value, key(xs[0]), [xs[0]], xs[1..]);
      assert seq(1, j requires 0 <= j < 1 => value([xs[0]][j])) == [value(xs[0])];
      assert [xs[0]] + xs[1..] == xs;
      assert seq(|xs|, i requires 0 <= i < |xs| => value(xs[i])) == [value(xs[0])] + seq(|xs[1..]|, i requires 0 <= i < |xs[1..]| => value(xs[1..][i]));
    }
  }

  /** The open group keeps the values it already has. */
  lemma {:induction false} AccFirst<T, K, V>(key: T -> K, value: T -> V, k: K, vals: seq<V>, xs: seq<T>)
    ensures |Acc(key, value, k, vals, xs)[0].1| >= |vals|
    decreases |xs|
  {
    if |xs| > 0 && key(xs[0]) == k {
      AccFirst(key, value, k, vals + [value(xs[0])], xs[1..]);
    }
  }
}

=== FILE: grouper.dfy ===
/** `grouper`: groups of `n` consecutive items of a vector; what happens to a
    short last group is chosen by `IncompleteType`. */
module Grouper {
  import opened Base
  import Pull

  /** Pad a short last group, drop it, or report it as an error. */
  datatype IncompleteType = Fill | Ignore | Strict

  datatype State<T> = State(buf: seq<T>, n: nat, incomplete: IncompleteType, fillvalue: Option<T>, cur: nat)

  function Init<T>(buf: seq<T>, n: nat, incomplete: IncompleteType, fillvalue: Option<T>): State<T>
  {
    State(buf, n, incomplete, fillvalue, 0)
  }

  const ZeroN := ValueErr("n should not be 0.")
  const NoFill := ValueErr("fillvalue should not be None when incomplete is Fill")
  const Incomplete := ValueErr("length of buf should be divide by n")

  /** A configuration that can never deliver a group. */
  predicate Misconfigured<T>(n: nat, incomplete: IncompleteType, fillvalue: Option<T>)
  {
    n == 0 || (incomplete == Fill && fillvalue.None?)
  }

  /** One call of `next()`: nothing once the vector is read; the
      configuration errors on every call while items remain; otherwise up
      to `n` items, with a short group treated as `incomplete` says. */
  function Next<T>(s: State<T>): Pull.Step<State<T>, Res<seq<T>>>
  {
    if s.cur >= |s.buf| then Pull.Step(s, None)
    else if s.n == 0 then Pull.Step(s, Some(Err(ZeroN)))
    else if s.incomplete == Fill && s.fillvalue.None? then Pull.Step(s, Some(Err(NoFill)))
    else
      var c := Min(s.n, |s.buf| - s.cur);
      var ret := s.buf[s.cur..s.cur + c];
      var t := s.(cur := s.cur + c);
      if c < s.n then
        match s.incomplete
        case Fill => Pull.Step(t, Some(Ok(ret + Pad(s.fillvalue.value, s.n - c))))
        case Ignore => Pull.Step(t, None)
        case Strict => Pull.Step(t, Some(Err(Incomplete)))
      else Pull.Step(t, Some(Ok(ret)))
  }

  /** Reference definition: the groups from position `cur` on. */
  function Groups<T>(buf: seq<T>, n: nat, incomplete: IncompleteType, fillvalue: Option<T>, cur: nat): seq<Res<seq<T>>>
    requires !Misconfigured(n, incomplete, fillvalue)
    decreases |buf| - cur
  {
    if cur >= |buf| then []
    else if cur + n <= |buf| then [Ok(buf[cur..cur + n])] + Groups(buf, n, incomplete, fillvalue, cur + n)
    else
      match incomplete
      case Fill => [Ok(buf[cur..] + Pad(fillvalue.value, cur + n - |buf|))]
      case Ignore => []
      case Strict => [Err(Incomplete)]
  }

  function Output<T>(buf: seq<T>, n: nat, incomplete: IncompleteType, fillvalue: Option<T>): seq<Res<seq<T>>>
  {
    if Misconfigured(n, incomplete, fillvalue) then [] else Groups(buf, n, incomplete, fillvalue, 0)
  }

  /** A misconfigured grouper answers an error while items remain. */
  function Tail<T>(buf: seq<T>, n: nat, incomplete: IncompleteType, fillvalue: Option<T>): Option<Res<seq<T>>>
  {
    if |buf| == 0 then None
    else if n == 0 then Some(Err(ZeroN))
    else if incomplete == Fill && fillvalue.None? then Some(Err(NoFill))
    else None
  }

  ghost predicate Inv<T>(s: State<T>) { true }

  function Rest<T>(s: State<T>): seq<Res<seq<T>>>
  {
    if Misconfigured(s.n, s.incomplete, s.fillvalue) then [] else Groups(s.buf, s.n, s.incomplete, s.fillvalue, s.cur)
  }

  function TailOf<T>(s: State<T>): Option<Res<seq<T>>>
  {
    if s.cur >= |s.buf| then None else Tail(s.buf, s.n, s.incomplete, s.fillvalue)
  }

  lemma NextAdvances<T>(s: State<T>)
    ensures Pull.Advances(Next, Inv, Rest, TailOf, s)
  {
    if s.cur < |s.buf| && !Misconfigured(s.n, s.incomplete, s.fillvalue) {
      var t := Next(s).state;
      if s.cur + s.n > |s.buf| {
        assert t.cur == |s.buf|;
        assert s.buf[s.cur..s.cur + (|s.buf| - s.cur)] == s.buf[s.cur..];
      }
    }
  }

  /** The answers are the groups, then `None` forever; a misconfigured
      grouper answers its error on every call while the vector is not empty. */
  lemma Behaviour<T>(buf: seq<T>, n: nat, incomplete: IncompleteType, fillvalue: Option<T>, m: nat)
    ensures Pull.Run(Next, Init(buf, n, incomplete, fillvalue), m) == Pull.Observe(Output(buf, n, incomplete, fillvalue), Tail(buf, n, incomplete, fillvalue), m)
  {
    forall s: State<T> | Inv(s) ensures Pull.Advances(Next, Inv, Rest, TailOf, s) {
      NextAdvances(s);
    }
    Pull.RunObserves(Next, Inv, Rest, TailOf, Init(buf, n, incomplete, fillvalue), m);
  }

  /** Values of the `Ok` items of a sequence, in order. */
  function OkValues<T>(r: seq<Res<seq<T>>>): seq<seq<T>>
  {
    if |r| == 0 then [] else (if r[0].Ok? then [r[0].value] else []) + OkValues(r[1..])
  }

  /** From position `cur`: every delivered group has `n` items, and only
      Strict delivers an error, as the last item, exactly when `n` does not
      divide the remaining length. */
  lemma {:induction false} GroupsShape<T>(buf: seq<T>, n: nat, incomplete: IncompleteType, fillvalue: Option<T>, cur: nat)
    requires !Misconfigured(n, incomplete, fillvalue) && cur <= |buf|
    ensures var g := Groups(buf, n, incomplete, fillvalue, cur);
      (forall i :: 0 <= i < |g| && g[i].Ok? ==> |g[i].value| == n) &&
      (forall i :: 0 <= i < |g| - 1 ==> g[i].Ok?) &&
      (|g| > 0 && g[|g| - 1].Err? <==> incomplete == Strict && (|buf| - cur) % n != 0)
    decreases |buf| - cur
  {
    var g := Groups(buf, n, incomplete, fillvalue, cur);
    var r := |buf| - cur;
    if cur >= |buf| {
      DivMod(0, n, 0, 0);
    } else if cur + n <= |buf| {
      GroupsShape(buf, n, incomplete, fillvalue, cur + n);
      DivStep(r - n, n);
      assert g[1..] == Groups(buf, n, incomplete, fillvalue, cur + n);
    } else {
      DivMod(r, n, 0, r);
    }
  }

  /** In Fill mode the groups concatenate to the rest of the vector padded
      up to a multiple of `n`. */
  lemma {:induction false} FillFlatten<T>(buf: seq<T>, n: nat, fillvalue: Option<T>, cur: nat)
    requires !Misconfigured(n, Fill, fillvalue) && cur <= |buf|
    ensures Flatten(OkValues(Groups(buf, n, Fill, fillvalue, cur))) == buf[cur..] + Pad(fillvalue.value, (n - (|buf| - cur) % n) % n)
    decreases |buf| - cur
  {
    var g := Groups(buf, n, Fill, fillvalue, cur);
    var r := |buf| - cur;
    if cur >= |buf| {
      DivMod(0, n, 0, 0);
      DivMod(n, n, 1, 0);
      assert buf[cur..] + Pad(fillvalue.value, 0) == [];
    } else if cur + n <= |buf| {
      FillFlatten(buf, n, fillvalue, cur + n);
      DivStep(r - n, n);
      var g1 := Groups(buf, n, Fill, fillvalue, cur + n);
      FillStep(buf, cur, n, Pad(fillvalue.value, (n - (r - n) % n) % n), g, g1);
    } else {
      FillShort(buf, n, fillvalue, cur);
    }
  }

  lemma FillStep<T>(buf: seq<T>, cur: nat, n: nat, p: seq<T>, g: seq<Res<seq<T>>>, g1: seq<Res<seq<T>>>)
    requires cur + n <= |buf|
    requires g == [Ok(buf[cur..cur + n])] + g1 && Flatten(OkValues(g1)) == buf[cur + n..] + p
    ensures Flatten(OkValues(g)) == buf[cur..] + p
  {
    assert g[1..] == g1;
    assert buf[cur..] == buf[cur..cur + n] + buf[cur + n..];
  }

  /** A short final stretch becomes one padded group. */
  lemma FillShort<T>(buf: seq<T>, n: nat, fillvalue: Option<T>, cur: nat)
    requires !Misconfigured(n, Fill, fillvalue) && cur < |buf| < cur + n
    ensures Flatten(OkValues(Groups(buf, n, Fill, fillvalue, cur))) == buf[cur..] + Pad(fillvalue.value, (n - (|buf| - cur) % n) % n)
  {
    var r := |buf| - cur;
    var g := Groups(buf, n, Fill, fillvalue, cur);
    DivMod(r, n, 0, r);
    DivMod(n - r, n, 0, n - r);
    assert OkValues(g) == [g[0].value] + OkValues([]);
  }

  /** In Ignore and Strict mode the delivered groups concatenate to the rest
      of the vector cut down to a multiple of `n`. */
  lemma {:induction false} CutFlatten<T>(buf: seq<T>, n: nat, incomplete: IncompleteType, fillvalue: Option<T>, cur: nat)
    requires !Misconfigured(n, incomplete, fillvalue) && incomplete != Fill && cur <= |buf|
    ensures Flatten(OkValues(Groups(buf, n, incomplete, fillvalue, cur))) == buf[cur..|buf| - (|buf| - cur) % n]
    decreases |buf| - cur
  {
    var g := Groups(buf, n, incomplete, fillvalue, cur);
    if cur >= |buf| {
      DivMod(0, n, 0, 0);
    } else if cur + n <= |buf| {
      CutFlatten(buf, n, incomplete, fillvalue, cur + n);
      var e := CutEnd(|buf|, cur, n);
      var g1 := Groups(buf, n, incomplete, fillvalue, cur + n);
      CutStep(buf, cur, n, e, g, g1);
    } else {
      CutShort(buf, n, incomplete, fillvalue, cur);
    }
  }

  /** A short final stretch is cut off entirely. */
  lemma CutShort<T>(buf: seq<T>, n: nat, incomplete: IncompleteType, fillvalue: Option<T>, cur: nat)
    requires !Misconfigured(n, incomplete, fillvalue) && incomplete != Fill && cur < |buf| < cur + n
    ensures Flatten(OkValues(Groups(buf, n, incomplete, fillvalue, cur))) == buf[cur..|buf| - (|buf| - cur) % n]
  {
    var r := |buf| - cur;
    DivMod(r, n, 0, r);
    assert OkValues(Groups(buf, n, incomplete, fillvalue, cur)) == [];
  }

  /** Dropping one full group leaves the same remainder to cut off. */
  lemma CutEnd(len: nat, cur: nat, n: nat) returns (e: nat)
    requires n > 0 && cur + n <= len
    ensures e == len - (len - cur) % n == len - (len - (cur + n)) % n && cur + n <= e <= len
  {
    var q, r := Split(len - cur - n, n);
    DivMod(len - cur, n, q + 1, r);
    e := len - r;
  }

  lemma CutStep<T>(buf: seq<T>, cur: nat, n: nat, e: nat, g: seq<Res<seq<T>>>, g1: seq<Res<seq<T>>>)
    requires cur + n <= e <= |buf|
    requires g == [Ok(buf[cur..cur + n])] + g1 && Flatten(OkValues(g1)) == buf[cur + n..e]
    ensures Flatten(OkValues(g)) == buf[cur..e]
  {
    assert g[1..] == g1;
    assert buf[cur..e] == buf[cur..cur + n] + buf[cur + n..e];
  }

  /** The library's examples: 1..=10 in threes. */
  lemma Examples()
    ensures Output([1, 2, 3, 4, 5, 6, 7, 8, 9, 10], 3, Fill, Some(0)) == [Ok([1, 2, 3]), Ok([4, 5, 6]), Ok([7, 8, 9]), Ok([10, 0, 0])]
    ensures Output([1, 2, 3, 4, 5, 6, 7, 8, 9, 10], 3, Ignore, Some(0)) == [Ok([1, 2, 3]), Ok([4, 5, 6]), Ok([7, 8, 9])]
    ensures Output([1, 2, 3, 4, 5, 6, 7, 8, 9, 10], 3, Strict, Some(0)) == [Ok([1, 2, 3]), Ok([4, 5, 6]), Ok([7, 8, 9]), Err(Incomplete)]
  {
    ExampleCase([1, 2, 3, 4, 5, 6, 7, 8, 9, 10]);
  }

  lemma ExampleCase(v: seq<int>)
    requires v == [1, 2, 3, 4, 5, 6, 7, 8, 9, 10]
    ensures Output(v, 3, Fill, Some(0)) == [Ok([1, 2, 3]), Ok([4, 5, 6]), Ok([7, 8, 9]), Ok([10, 0, 0])]
    ensures Output(v, 3, Ignore, Some(0)) == [Ok([1, 2, 3]), Ok([4, 5, 6]), Ok([7, 8, 9])]
    ensures Output(v, 3, Strict, Some(0)) == [Ok([1, 2, 3]), Ok([4, 5, 6]), Ok([7, 8, 9]), Err(Incomplete)]
  {
    assert v[0..3] == [1, 2, 3] && v[3..6] == [4, 5, 6] && v[6..9] == [7, 8, 9] && v[9..] == [10];
    assert Pad(0, 2) == [0, 0];
    assert v[9..] + Pad(0, 9 + 3 - 10) == [10, 0, 0];
    assert Groups(v, 3, Fill, Some(0), 9) == [Ok([10, 0, 0])];
    assert Groups(v, 3, Fill, Some(0), 6) == [Ok([7, 8, 9]), Ok([10, 0, 0])];
    assert Groups(v, 3, Fill, Some(0), 3) == [Ok([4, 5, 6]), Ok([7, 8, 9]), Ok([10, 0, 0])];
    assert Groups(v, 3, Ignore, Some(0), 9) == [];
    assert Groups(v, 3, Ignore, Some(0), 6) == [Ok([7, 8, 9])];
    assert Groups(v, 3, Ignore, Some(0), 3) == [Ok([4, 5, 6]), Ok([7, 8, 9])];
    assert Groups(v, 3, Strict, Some(0), 9) == [Err(Incomplete)];
    assert Groups(v, 3, Strict, Some(0), 6) == [Ok([7, 8, 9]), Err(Incomplete)];
    assert Groups(v, 3, Strict, Some(0), 3) == [Ok([4, 5, 6]), Ok([7, 8, 9]), Err(Incomplete)];
  }
}

=== FILE: interleave.dfy ===
/** `interleave`: one item from each input per round, in input order,
    stopping for good at the first round in which some input is exhausted. */
module Interleave {
  import opened Base
  import opened Columns
  import Pull

  /** The remaining items of every input, the items of the current round not
      yet delivered, and whether a short round was seen. */
  datatype State<T> = State(ins: seq<seq<T>>, buf: seq<T>, finished: bool)

  function Init<T>(ins: seq<seq<T>>): State<T>
  {
    State(ins, [], false)
  }

  /** Item `j` of every input, in input order. */
  function Column<T>(ins: seq<seq<T>>, j: nat): (r: seq<T>)
    requires j < MinLen(ins)
    ensures |r| == |ins| && forall i :: 0 <= i < |ins| ==> r[i] == ins[i][j]
  {
    seq(|ins|, i requires 0 <= i < |ins| => ins[i][j])
  }

  /** One call of `next()`: deliver the buffered round, or pull a new round
      from every input; a round with an exhausted input ends the iterator. */
  function Next<T>(s: State<T>): Pull.Step<State<T>, T>
  {
    if s.finished then Pull.Step(s, None)
    else if |s.buf| > 0 then Pull.Step(s.(buf := s.buf[1..]), Some(s.buf[0]))
    else if |s.ins| == 0 then Pull.Step(s, None)
    else if MinLen(s.ins) == 0 then Pull.Step(s.(finished := true), None)
    else
      var round := Column(s.ins, 0);
      Pull.Step(s.(ins := Tails(s.ins), buf := round[1..]), Some(round[0]))
  }

  /** Reference definition: the complete rounds, one per item of the
      shortest input. */
  function Rounds<T>(ins: seq<seq<T>>): (r: seq<seq<T>>)
    ensures |r| == MinLen(ins) && forall j :: 0 <= j < |r| ==> r[j] == Column(ins, j)
  {
    seq(MinLen(ins), j requires 0 <= j < MinLen(ins) => Column(ins, j))
  }

  /** Every item the iterator delivers, in order. */
  function Output<T>(ins: seq<seq<T>>): seq<T>
  {
    Flatten(Rounds(ins))
  }

  ghost predicate Inv<T>(s: State<T>) { s.finished ==> s.buf == [] }

  function Rest<T>(s: State<T>): seq<T>
  {
    if s.finished then [] else s.buf + Output(s.ins)
  }

  function TailOf<T>(s: State<T>): Option<T> { None }

  /** After a complete round, the remaining rounds are those of the inputs
      with their first item dropped. */
  lemma RoundsStep<T>(ins: seq<seq<T>>)
    requires MinLen(ins) > 0
    ensures Rounds(ins) == [Column(ins, 0)] + Rounds(Tails(ins))
  {
    TailsLen(ins);
    var r, r1 := Rounds(ins), Rounds(Tails(ins));
    forall j | 0 <= j < |r1| ensures r[j + 1] == r1[j] {
      ColumnOfTails(ins, j);
    }
    assert r == [r[0]] + r1;
  }

  /** Column `j` after a round is column `j + 1` before it. */
  lemma ColumnOfTails<T>(ins: seq<seq<T>>, j: nat)
    requires j + 1 < MinLen(ins) && j < MinLen(Tails(ins))
    ensures Column(ins, j + 1) == Column(Tails(ins), j)
  {
  }

  lemma NextAdvances<T>(s: State<T>)
    requires Inv(s)
    ensures Pull.Advances(Next, Inv, Rest, TailOf, s)
  {
    if !s.finished && |s.buf| == 0 && |s.ins| > 0 && MinLen(s.ins) > 0 {
      RoundAdvances(s);
    } else if !s.finished && |s.buf| == 0 {
      assert Rounds(s.ins) == [];
    }
  }

  /** With the buffer empty and every input holding an item, a new round is
      pulled: its first item is delivered and the others are buffered. */
  lemma RoundAdvances<T>(s: State<T>)
    requires !s.finished && |s.buf| == 0 && |s.ins| > 0 && MinLen(s.ins) > 0
    ensures Pull.Advances(Next, Inv, Rest, TailOf, s)
  {
    RoundsStep(s.ins);
    var round := Column(s.ins, 0);
    assert Output(s.ins) == round + Output(Tails(s.ins));
    assert Rest(Next(s).state) == round[1..] + Output(Tails(s.ins));
  }

  /** With at least one input, the iterator delivers the complete rounds and
      then answers `None` forever. */
  lemma Behaviour<T>(ins: seq<seq<T>>, m: nat)
    requires |ins| > 0
    ensures Pull.Run(Next, Init(ins), m) == Pull.Observe(Output(ins), None, m)
  {
    forall s: State<T> | Inv(s) ensures Pull.Advances(Next, Inv, Rest, TailOf, s) {
      NextAdvances(s);
    }
    Pull.RunObserves(Next, Inv, Rest, TailOf, Init(ins), m);
  }

  /** There are `k` times the shortest length items, and item `i` is item
      `i / k` of input `i % k`: items pulled in the short round are lost. */
  lemma OutputShape<T>(ins: seq<seq<T>>)
    requires |ins| > 0
    ensures |Output(ins)| == |ins| * MinLen(ins)
    ensures forall i :: 0 <= i < |Output(ins)| ==>
      i / |ins| < MinLen(ins) && Output(ins)[i] == ins[i % |ins|][i / |ins|]
  {
    var k := |ins|;
    var r := Rounds(ins);
    FlattenBlocks(r, k);
    assert forall j, c :: 0 <= j < |r| && 0 <= c < k ==> r[j][c] == ins[c][j];
    BlockShape(Output(ins), r, ins, MinLen(ins));
  }

  /** Blocks that are the columns of `ins`, read block after block, put item
      `i / k` of input `i % k` at position `i`. */
  lemma BlockShape<T>(out: seq<T>, r: seq<seq<T>>, ins: seq<seq<T>>, m: nat)
    requires |ins| > 0 && |r| == m && |out| == |ins| * m
    requires forall j :: 0 <= j < |r| ==> |r[j]| == |ins|
    requires forall c :: 0 <= c < |ins| ==> m <= |ins[c]|
    requires forall i :: 0 <= i < |ins| * m ==> i / |ins| < |r| && out[i] == r[i / |ins|][i % |ins|]
    requires forall j, c :: 0 <= j < |r| && 0 <= c < |ins| ==> r[j][c] == ins[c][j]
    ensures forall i :: 0 <= i < |out| ==> i / |ins| < m && out[i] == ins[i % |ins|][i / |ins|]
  {
  }

  /** The library's example: the third round is cut short by the second input. */
  lemma Example(ins: seq<seq<int>>)
    requires ins == [[1, 2, 3], [4, 5], [6, 7, 8]]
    ensures Output(ins) == [1, 4, 6, 2, 5, 7]
  {
    var m := MinLen(ins);
    assert m == 2 by {
      assert MinLen(ins[2..]) == 3;
      assert MinLen(ins[1..]) == 2;
    }
    var r := Rounds(ins);
    assert r[0] == [1, 4, 6] && r[1] == [2, 5, 7];
    assert r[1..][1..] == [];
    assert Flatten(r[1..]) == [2, 5, 7];
  }
}

=== FILE: interleave_longest.dfy ===
/** `interleave_longest` and `roundrobin`: one item from each input that
    still has one, per round, in input order, until every input is exhausted. */
module InterleaveLongest {
  import opened Base
  import opened Columns
  import Pull

  /** The remaining items of every input, the items of the current round not
      yet delivered, and whether a round found every input exhausted. */
  datatype State<T> = State(ins: seq<seq<T>>, buf: seq<T>, finished: bool)

  function Init<T>(ins: seq<seq<T>>): State<T>
  {
    State(ins, [], false)
  }

  /** The first item of every input that has one, in input order. */
  function Heads<T>(ins: seq<seq<T>>): seq<T>
  {
    if |ins| == 0 then [] else (if |ins[0]| > 0 then [ins[0][0]] else []) + Heads(ins[1..])
  }

  /** One call of `next()`: deliver the buffered round, or pull a new round;
      a round in which every input is exhausted ends the iterator. */
  function Next<T>(s: State<T>): Pull.Step<State<T>, T>
  {
    if s.finished then Pull.Step(s, None)
    else if |s.buf| > 0 then Pull.Step(s.(buf := s.buf[1..]), Some(s.buf[0]))
    else if MaxLen(s.ins) == 0 then Pull.Step(s.(finished := true), None)
    else
      var round := Heads(s.ins);
      if |round| == 0 then Pull.Step(s.(finished := true), None)
      else Pull.Step(s.(ins := Tails(s.ins), buf := round[1..]), Some(round[0]))
  }

  /** Reference definition: round after round of heads, until every input
      is exhausted. */
  function Output<T>(ins: seq<seq<T>>): seq<T>
    decreases MaxLen(ins)
  {
    if MaxLen(ins) == 0 then [] else (TailsLen(ins); Heads(ins) + Output(Tails(ins)))
  }

  /** Some input has an item exactly when the round has one. */
  lemma {:induction false} HeadsNonEmpty<T>(ins: seq<seq<T>>)
    ensures |Heads(ins)| > 0 <==> MaxLen(ins) > 0
  {
    if |ins| > 0 {
      HeadsNonEmpty(ins[1..]);
      if |ins[0]| == 0 && MaxLen(ins) > 0 {
        var i := Longest(ins);
        assert ins[1..][i - 1] == ins[i];
      }
    }
  }

  ghost predicate Inv<T>(s: State<T>) { s.finished ==> s.buf == [] }

  function Rest<T>(s: State<T>): seq<T>
  {
    if s.finished then [] else s.buf + Output(s.ins)
  }

  function TailOf<T>(s: State<T>): Option<T> { None }

  lemma NextAdvances<T>(s: State<T>)
    requires Inv(s)
    ensures Pull.Advances(Next, Inv, Rest, TailOf, s)
  {
    if !s.finished && |s.buf| == 0 {
      HeadsNonEmpty(s.ins);
    }
  }

  /** The iterator delivers the rounds and then answers `None` forever; with
      no input at all it answers `None` at once. */
  lemma Behaviour<T>(ins: seq<seq<T>>, m: nat)
    ensures Pull.Run(Next, Init(ins), m) == Pull.Observe(Output(ins), None, m)
  {
    forall s: State<T> | Inv(s) ensures Pull.Advances(Next, Inv, Rest, TailOf, s) {
      NextAdvances(s);
    }
    Pull.RunObserves(Next, Inv, Rest, TailOf, Init(ins), m);
  }

  /** A round takes one item from every non-empty input. */
  lemma {:induction false} HeadsTotal<T>(ins: seq<seq<T>>)
    ensures |Heads(ins)| + Total(Tails(ins)) == Total(ins)
  {
    if |ins| > 0 {
      HeadsTotal(ins[1..]);
      assert Tails(ins)[1..] == Tails(ins[1..]);
    }
  }

  /** Nothing is lost: the output has as many items as all inputs together. */
  lemma {:induction false} OutputLength<T>(ins: seq<seq<T>>)
    ensures |Output(ins)| == Total(ins)
    decreases MaxLen(ins)
  {
    if MaxLen(ins) == 0 {
      EmptyTotal(ins);
    } else {
      TailsLen(ins);
      OutputLength(Tails(ins));
      HeadsTotal(ins);
    }
  }

  lemma {:induction false} EmptyTotal<T>(ins: seq<seq<T>>)
    requires MaxLen(ins) == 0
    ensures Total(ins) == 0
  {
    if |ins| > 0 {
      assert forall i :: 1 <= i < |ins| ==> ins[1..][i - 1] == ins[i];
      EmptyTotal(ins[1..]);
    }
  }

  /** The items of `xs` tagged `t`, in order. */
  function Only<U>(xs: seq<(nat, U)>, t: nat): seq<(nat, U)>
  {
    if |xs| == 0 then [] else (if xs[0].0 == t then [xs[0]] else []) + Only(xs[1..], t)
  }

  lemma {:induction false} OnlyAppend<U>(a: seq<(nat, U)>, b: seq<(nat, U)>, t: nat)
    ensures Only(a + b, t) == Only(a, t) + Only(b, t)
  {
    if |a| > 0 {
      assert (a + b)[1..] == a[1..] + b;
      OnlyAppend(a[1..], b, t);
    } else {
      assert a + b == b;
    }
  }

  /** Every item of input `i` carries the tag `base + i`. */
  ghost predicate TaggedFrom<U>(ins: seq<seq<(nat, U)>>, base: nat)
  {
    forall i, j :: 0 <= i < |ins| && 0 <= j < |ins[i]| ==> ins[i][j].0 == base + i
  }

  /** A round holds at most one item of each input: its head. */
  lemma {:induction false} HeadsOnly<U>(ins: seq<seq<(nat, U)>>, base: nat, t: nat)
    requires TaggedFrom(ins, base)
    ensures Only(Heads(ins), t) ==
      if base <= t < base + |ins| && |ins[t - base]| > 0 then [ins[t - base][0]] else []
  {
    if |ins| > 0 {
      TaggedDrop(ins, base);
      HeadsOnly(ins[1..], base + 1, t);
      HeadsOnlyStep(ins, base, t);
    }
  }

  /** The inputs after the first are tagged from the next number. */
  lemma TaggedDrop<U>(ins: seq<seq<(nat, U)>>, base: nat)
    requires TaggedFrom(ins, base) && |ins| > 0
    ensures TaggedFrom(ins[1..], base + 1)
  {
    forall i, j | 0 <= i < |ins[1..]| && 0 <= j < |ins[1..][i]| ensures ins[1..][i][j].0 == base + 1 + i {
      assert ins[1..][i] == ins[i + 1];
    }
  }

  lemma HeadsOnlyStep<U>(ins: seq<seq<(nat, U)>>, base: nat, t: nat)
    requires TaggedFrom(ins, base) && |ins| > 0
    requires Only(Heads(ins[1..]), t) == if base + 1 <= t < base + 1 + |ins[1..]| && |ins[1..][t - (base + 1)]| > 0 then [ins[1..][t - (base + 1)][0]] else []
    ensures Only(Heads(ins), t) ==
      if base <= t < base + |ins| && |ins[t - base]| > 0 then [ins[t - base][0]] else []
  {
    var h: seq<(nat, U)> := if |ins[0]| > 0 then [ins[0][0]] else [];
    assert Heads(ins) == h + Heads(ins[1..]);
    OnlyAppend(h, Heads(ins[1..]), t);
    if t > base && t < base + |ins| {
      assert ins[1..][t - (base + 1)] == ins[t - base];
    }
  }

  /** Each input's order is kept: when every item is tagged with the index of
      its input, the items tagged `i` come out as exactly input `i`. */
  lemma {:induction false} OrderKept<U>(ins: seq<seq<(nat, U)>>, i: nat)
    requires TaggedFrom(ins, 0) && i < |ins|
    ensures Only(Output(ins), i) == ins[i]
    decreases MaxLen(ins)
  {
    if MaxLen(ins) == 0 {
      assert ins[i] == [];
    } else {
      TailsLen(ins);
      TaggedTails(ins);
      OrderKept(Tails(ins), i);
      HeadsOnly(ins, 0, i);
      OrderStep(ins, i);
    }
  }

  /** A round keeps the tags of the items it leaves. */
  lemma TaggedTails<U>(ins: seq<seq<(nat, U)>>)
    requires TaggedFrom(ins, 0)
    ensures TaggedFrom(Tails(ins), 0)
  {
    var t: seq<seq<(nat, U)>> := Tails(ins);
    forall a, j | 0 <= a < |t| && 0 <= j < |t[a]| ensures t[a][j].0 == a {
      assert t[a][j] == ins[a][j + 1];
    }
  }

  lemma OrderStep<U>(ins: seq<seq<(nat, U)>>, i: nat)
    requires i < |ins| && MaxLen(ins) > 0
    requires Only(Output(Tails(ins)), i) == Tails(ins)[i]
    requires Only(Heads(ins), i) == if |ins[i]| > 0 then [ins[i][0]] else []
    ensures Only(Output(ins), i) == ins[i]
  {
    assert Output(ins) == Heads(ins) + Output(Tails(ins));
    OnlyAppend(Heads(ins), Output(Tails(ins)), i);
    if |ins[i]| > 0 {
      assert ins[i] == [ins[i][0]] + ins[i][1..];
    }
  }

  /** Item `j` of `x`, if it has one. */
  function Nth<T>(x: seq<T>, j: nat): seq<T>
  {
    if j < |x| then [x[j]] else []
  }

  /** `x` after one pull. */
  function Drop<T>(x: seq<T>): seq<T>
  {
    if |x| == 0 then [] else x[1..]
  }

  /** One round over three inputs. */
  lemma Round3<T>(a: seq<T>, b: seq<T>, c: seq<T>)
    ensures |a| + |b| + |c| > 0 ==>
      Output([a, b, c]) == Nth(a, 0) + Nth(b, 0) + Nth(c, 0) + Output([Drop(a), Drop(b), Drop(c)])
    ensures |a| + |b| + |c| == 0 ==> Output([a, b, c]) == []
  {
    var ins := [a, b, c];
    Heads3(a, b, c);
    HeadsNonEmpty(ins);
    assert Tails(ins) == [Drop(a), Drop(b), Drop(c)];
  }

  /** The round of three inputs is their heads, in order. */
  lemma Heads3<T>(a: seq<T>, b: seq<T>, c: seq<T>)
    ensures Heads([a, b, c]) == Nth(a, 0) + Nth(b, 0) + Nth(c, 0)
  {
    var ins := [a, b, c];
    assert ins[1..] == [b, c] && [b, c][1..] == [c] && [c][1..] == [];
    assert Heads([c]) == Nth(c, 0) + Heads([c][1..]);
    assert Heads([b, c]) == Nth(b, 0) + Nth(c, 0);
    assert Heads(ins) == Nth(a, 0) + (Nth(b, 0) + Nth(c, 0));
  }

  /** Inputs of lengths 1, 0 and 0. */
  lemma Lengths100<T>(a: seq<T>, b: seq<T>, c: seq<T>)
    requires |a| == 1 && |b| == 0 && |c| == 0
    ensures Output([a, b, c]) == [a[0]]
  {
    Round3(a, b, c);
    Round3(Drop(a), Drop(b), Drop(c));
  }

  /** Inputs of lengths 1, 0 and 1. */
  lemma Lengths101<T>(a: seq<T>, b: seq<T>, c: seq<T>)
    requires |a| == 1 && |b| == 0 && |c| == 1
    ensures Output([a, b, c]) == [a[0], c[0]]
  {
    Round3(a, b, c);
    Round3(Drop(a), Drop(b), Drop(c));
  }

  /** Inputs of lengths 2, 0 and 1. */
  lemma Lengths201<T>(a: seq<T>, b: seq<T>, c: seq<T>)
    requires |a| == 2 && |b| == 0 && |c| == 1
    ensures Output([a, b, c]) == [a[0], c[0], a[1]]
  {
    Round3(a, b, c);
    Lengths100(Drop(a), Drop(b), Drop(c));
    assert Drop(a)[0] == a[1];
  }

  /** Inputs of lengths 2, 1 and 2. */
  lemma Lengths212<T>(a: seq<T>, b: seq<T>, c: seq<T>)
    requires |a| == 2 && |b| == 1 && |c| == 2
    ensures Output([a, b, c]) == [a[0], b[0], c[0], a[1], c[1]]
  {
    Round3(a, b, c);
    Lengths101(Drop(a), Drop(b), Drop(c));
    assert Drop(a)[0] == a[1] && Drop(c)[0] == c[1];
  }

  /** Inputs of lengths 3, 2 and 3. */
  lemma Lengths323<T>(a: seq<T>, b: seq<T>, c: seq<T>)
    requires |a| == 3 && |b| == 2 && |c| == 3
    ensures Output([a, b, c]) == [a[0], b[0], c[0], a[1], b[1], c[1], a[2], c[2]]
  {
    Round3(a, b, c);
    Lengths212(Drop(a), Drop(b), Drop(c));
    assert Drop(a)[0] == a[1] && Drop(b)[0] == b[1] && Drop(c)[0] == c[1];
    assert Drop(a)[1] == a[2] && Drop(c)[1] == c[2];
  }

  /** Inputs of lengths 3, 1 and 2. */
  lemma Lengths312<T>(a: seq<T>, b: seq<T>, c: seq<T>)
    requires |a| == 3 && |b| == 1 && |c| == 2
    ensures Output([a, b, c]) == [a[0], b[0], c[0], a[1], c[1], a[2]]
  {
    Round3(a, b, c);
    Lengths201(Drop(a), Drop(b), Drop(c));
    assert Drop(a)[0] == a[1] && Drop(c)[0] == c[1] && Drop(a)[1] == a[2];
  }

  /** The library's example: exhausted inputs are skipped, the longest one
      finishes alone. */
  lemma Example(ins: seq<seq<int>>)
    requires ins == [[1, 2, 3], [4, 5], [6, 7, 8]]
    ensures Output(ins) == [1, 4, 6, 2, 5, 7, 3, 8]
  {
    Lengths323(ins[0], ins[1], ins[2]);
    assert ins == [ins[0], ins[1], ins[2]];
  }

  /** `roundrobin`: interleave_longest over inputs of `Result` items; errors
      pass through like any other item. The library's example: ABC, D, EF. */
  lemma RoundrobinExample(ins: seq<seq<Res<char>>>)
    requires ins == [[Ok('A'), Ok('B'), Ok('C')], [Ok('D')], [Ok('E'), Ok('F')]]
    ensures Output(ins) == [Ok('A'), Ok('D'), Ok('E'), Ok('B'), Ok('F'), Ok('C')]
  {
    Lengths312(ins[0], ins[1], ins[2]);
    assert ins == [ins[0], ins[1], ins[2]];
  }
}

=== FILE: intersperse.dfy ===
/** `intersperse`: the values of a `Result` iterator with the filler `e`
    placed between every group of `n` of them. An upstream error ends the
    output. */
module Intersperse {
  import opened Base
  import Pull
  import Chunked

  /** The iterator state: the output buffer (at most one value), the items
      not yet pulled, the configuration, the end flag and the number of
      values delivered since the last filler. */
  datatype State<T> = State(buf: seq<T>, up: seq<Res<T>>, n: nat, e: T, finished: bool, count: nat)

  function Init<T>(e: T, xs: seq<Res<T>>, n: nat): State<T>
  {
    State([], xs, n, e, false, 0)
  }

  const ZeroN := ValueErr("[intersperse:n must be > 0]")

  /** The buffered branch: the filler when `n` values went out since the
      last one, otherwise the buffered value. */
  function Emit<T>(s: State<T>): Pull.Step<State<T>, Res<T>>
    requires |s.buf| > 0
  {
    if s.count == s.n then Pull.Step(s.(count := 0), Some(Ok(s.e)))
    else Pull.Step(s.(buf := s.buf[1..], count := s.count + 1), Some(Ok(s.buf[0])))
  }

  /** One call of `next()`: with an empty buffer one item is pulled first. */
  function Next<T>(s: State<T>): Pull.Step<State<T>, Res<T>>
  {
    if s.finished then Pull.Step(s, None)
    else if s.n == 0 then Pull.Step(s, Some(Err(ZeroN)))
    else if |s.buf| > 0 then Emit(s)
    else if |s.up| == 0 then Pull.Step(s.(finished := true), None)
    else if s.up[0].Err? then Pull.Step(s.(up := s.up[1..], finished := true), Some(Err(s.up[0].error)))
    else Emit(s.(buf := s.buf + [s.up[0].value], up := s.up[1..]))
  }

  /** The values with fillers, continuing from `c` values since the last filler. */
  function InterFrom<T>(v: seq<T>, n: nat, e: T, c: nat): seq<T>
    requires 0 < n && c <= n
    decreases |v|, if c == n then 1 else 0
  {
    if |v| == 0 then []
    else if c == n then [e] + InterFrom(v, n, e, 0)
    else [v[0]] + InterFrom(v[1..], n, e, c + 1)
  }

  /** Every item delivered: the interspersed values before the first error,
      then that error. */
  function Output<T>(xs: seq<Res<T>>, n: nat, e: T): seq<Res<T>>
  {
    if n == 0 then [] else Oks(InterFrom(OkPrefix(xs), n, e, 0)) + ErrItem(FirstErr(xs))
  }

  function Tail<T>(n: nat): Option<Res<T>>
  {
    if n == 0 then Some(Err(ZeroN)) else None
  }

  // ---- the machine ----

  ghost predicate Inv<T>(s: State<T>) { |s.buf| <= 1 && s.count <= s.n }

  function Rest<T>(s: State<T>): seq<Res<T>>
  {
    if s.finished || s.n == 0 || s.count > s.n then []
    else Oks(InterFrom(s.buf + OkPrefix(s.up), s.n, s.e, s.count)) + ErrItem(FirstErr(s.up))
  }

  function TailOf<T>(s: State<T>): Option<Res<T>> { if s.finished then None else Tail(s.n) }

  lemma EmitAdvances<T>(s: State<T>, v: seq<T>, err: Option<Error>)
    requires |s.buf| == 1 && 0 < s.n && s.count <= s.n
    ensures var t := Emit(s).state;
      |t.buf| <= 1 && t.count <= t.n &&
      Some(Oks(InterFrom(s.buf + v, s.n, s.e, s.count))[0]) == Emit(s).out &&
      Oks(InterFrom(t.buf + v, t.n, t.e, t.count)) + ErrItem(err) == (Oks(InterFrom(s.buf + v, s.n, s.e, s.count)) + ErrItem(err))[1..]
  {
    var w := s.buf + v;
    if s.count < s.n {
      assert w[1..] == s.buf[1..] + v;
    }
  }

  lemma NextAdvances<T>(s: State<T>)
    requires Inv(s)
    ensures Pull.Advances(Next, Inv, Rest, TailOf, s)
  {
    if !s.finished && s.n > 0 {
      if |s.buf| > 0 {
        EmitAdvances(s, OkPrefix(s.up), FirstErr(s.up));
      } else if |s.up| > 0 && s.up[0].Ok? {
        var s1 := s.(buf := s.buf + [s.up[0].value], up := s.up[1..]);
        EmitAdvances(s1, OkPrefix(s.up[1..]), FirstErr(s.up[1..]));
        assert s1.buf + OkPrefix(s1.up) == s.buf + OkPrefix(s.up);
      } else {
        assert s.buf + OkPrefix(s.up) == [];
      }
    }
  }

  /** The answers are the interspersed values, then the first upstream error
      once, then `None` forever; `n == 0` is an error on every call. */
  lemma Behaviour<T>(e: T, xs: seq<Res<T>>, n: nat, m: nat)
    ensures Pull.Run(Next, Init(e, xs, n), m) == Pull.Observe(Output(xs, n, e), Tail(n), m)
  {
    forall s: State<T> | Inv(s) ensures Pull.Advances(Next, Inv, Rest, TailOf, s) {
      NextAdvances(s);
    }
    Pull.RunObserves(Next, Inv, Rest, TailOf, Init(e, xs, n), m);
    assert [] + OkPrefix(xs) == OkPrefix(xs);
  }

  // ---- properties ----

  /** Groups joined with the filler in between. */
  function Join<T>(cs: seq<seq<T>>, e: T): seq<T>
  {
    if |cs| == 0 then [] else if |cs| == 1 then cs[0] else cs[0] + [e] + Join(cs[1..], e)
  }

  /** Continuing from `c`, the next `n - c` values go out before the next filler. */
  lemma {:induction false} InterPrefix<T>(v: seq<T>, n: nat, e: T, c: nat)
    requires 0 < n && c <= n
    ensures |v| <= n - c ==> InterFrom(v, n, e, c) == v
    ensures |v| > n - c ==> InterFrom(v, n, e, c) == v[..n - c] + InterFrom(v[n - c..], n, e, n)
    decreases |v|
  {
    if |v| > 0 && c < n {
      InterPrefix(v[1..], n, e, c + 1);
      if |v| > n - c {
        assert v[..n - c] == [v[0]] + v[1..][..n - (c + 1)];
        assert v[1..][n - (c + 1)..] == v[n - c..];
      }
    }
  }

  /** The interspersed values are the groups of `n` (see `chunked`) joined
      with the filler: it comes after every `n` values, never first and never last. */
  lemma {:induction false} InterIsJoin<T>(v: seq<T>, n: nat, e: T)
    requires n > 0
    ensures InterFrom(v, n, e, 0) == Join(Chunked.Chunks(v, n), e)
    decreases |v|
  {
    InterPrefix(v, n, e, 0);
    if |v| > n {
      InterIsJoin(v[n..], n, e);
      var cs := Chunked.Chunks(v, n);
      assert cs == [v[..n]] + Chunked.Chunks(v[n..], n);
      assert cs[1..] == Chunked.Chunks(v[n..], n);
      assert |Chunked.Chunks(v[n..], n)| > 0;
    } else if |v| > 0 {
      assert Chunked.Chunks(v, n) == [v];
    }
  }

  /** `L > 0` values give `L + (L - 1) / n` items. */
  lemma {:induction false} InterLength<T>(v: seq<T>, n: nat, e: T, c: nat)
    requires 0 < n && c <= n
    ensures |InterFrom(v, n, e, c)| == |v| + (if |v| == 0 then 0 else (|v| - 1 + c) / n)
    decreases |v|, if c == n then 1 else 0
  {
    if |v| > 0 {
      if c == n {
        InterLength(v, n, e, 0);
        DivStep(|v| - 1, n);
      } else {
        InterLength(v[1..], n, e, c + 1);
        if |v| == 1 {
          DivMod(c, n, 0, c);
        }
      }
    }
  }

  /** The library's examples: an empty input gives nothing, and filler 0
      every 2 over 1..=5 gives 1, 2, 0, 3, 4, 0, 5. */
  lemma Examples()
    ensures InterFrom([1, 2, 3, 4, 5], 2, 0, 0) == [1, 2, 0, 3, 4, 0, 5]
    ensures Output<int>([], 1, 0) == []
  {
    ExampleCase([1, 2, 3, 4, 5]);
  }

  lemma ExampleCase(v: seq<int>)
    requires v == [1, 2, 3, 4, 5]
    ensures InterFrom(v, 2, 0, 0) == [1, 2, 0, 3, 4, 0, 5]
  {
    InterPrefix(v, 2, 0, 0);
    InterPrefix(v[2..], 2, 0, 0);
    InterPrefix(v[4..], 2, 0, 0);
    assert v[2..][2..] == v[4..] == [5];
    assert v[..2] == [1, 2] && v[2..][..2] == [3, 4];
  }
}

=== FILE: islice.dfy ===
/** `islice`: the items at `start`, `start + step`, `start + 2 * step`, ...
    below `stop`. The first call skips to `start` and delivers that item
    without comparing it with `stop`; every later call first moves the
    position by `step` and checks it against `usize::MAX` and `stop`. */
module Islice {
  import opened Base
  import Pull

  /** The iterator state: the bounds, the items not yet pulled, the current
      position and whether the first call happened. */
  datatype State<U> = State(start: nat, stop: nat, step: nat, up: seq<U>, cur: nat, skipped: bool)

  function Init<U>(xs: seq<U>, start: nat, stop: nat, step: nat): State<U>
  {
    State(start, stop, step, xs, 0, false)
  }

  const SkipOverflow := ValueErr("cur overflow usize::MAX while skiping to start.")
  const StepOverflow := ValueErr("cur overflow usize::MAX while iterating to stop.")

  /** One pull from the upstream. */
  function Pull1<U>(up: seq<U>): (r: (Option<U>, seq<U>))
    ensures |up| > 0 ==> r == (Some(up[0]), up[1..])
    ensures |up| == 0 ==> r == (None, up)
  {
    if |up| == 0 then (None, up) else (Some(up[0]), up[1..])
  }

  /** What the skipping loop leaves: the last item pulled, the upstream, the
      position, and whether the position hit `usize::MAX`. */
  datatype Skipped<U> = Skipped(item: Option<U>, up: seq<U>, cur: nat, overflow: bool)

  /** The skipping loop: while the position is below `start`, count one and
      pull the next item, stopping early once the upstream is exhausted. */
  function Skip<U>(item: Option<U>, up: seq<U>, cur: nat, start: nat): Skipped<U>
    decreases start - cur
  {
    if cur >= start then Skipped(item, up, cur, false)
    else if cur == USIZE_MAX then Skipped(item, up, cur, true)
    else if item.None? then Skipped(item, up, cur + 1, false)
    else Skip(Pull1(up).0, Pull1(up).1, cur + 1, start)
  }

  /** `k` pulls; the answer is the last of them (none when `k == 0`). */
  function PullN<U>(up: seq<U>, k: nat): (r: (Option<U>, seq<U>))
    ensures k == 0 ==> r == (None, up)
    ensures 0 < k <= |up| ==> r == (Some(up[k - 1]), up[k..])
    ensures k > |up| ==> r.0 == None && r.1 == []
    decreases k
  {
    if k == 0 then (None, up)
    else if k == 1 then Pull1(up)
    else PullN(Pull1(up).1, k - 1)
  }

  /** One call of `next()`. */
  function Next<U>(s: State<U>): Pull.Step<State<U>, Res<U>>
  {
    if s.skipped then
      if USIZE_MAX - s.cur < s.step then Pull.Step(s, Some(Err(StepOverflow)))
      else
        var cur := s.cur + s.step;
        if cur >= s.stop then Pull.Step(s.(cur := cur), None)
        else
          var (ret, up) := PullN(s.up, s.step);
          Pull.Step(s.(cur := cur, up := up), if ret.Some? then Some(Ok(ret.value)) else None)
    else
      var (item, up) := Pull1(s.up);
      var k := Skip(item, up, s.cur, s.start);
      if k.overflow then Pull.Step(s.(up := k.up, cur := k.cur), Some(Err(SkipOverflow)))
      else Pull.Step(s.(up := k.up, cur := k.cur, skipped := true), if k.item.Some? then Some(Ok(k.item.value)) else None)
  }

  // ---- reference definition ----

  /** The items owed after the first: every `step`-th one while the position
      stays below `stop`. */
  function Later<U>(up: seq<U>, cur: nat, stop: nat, step: nat): seq<Res<U>>
    requires step > 0
    decreases |up|
  {
    if cur + step >= stop || step > |up| then [] else [Ok(up[step - 1])] + Later(up[step..], cur + step, stop, step)
  }

  /** Every item delivered: the one at `start` (whatever `stop` is), then
      the later ones. */
  function Output<U>(xs: seq<U>, start: nat, stop: nat, step: nat): seq<Res<U>>
  {
    if start >= |xs| then []
    else [Ok(xs[start])] + (if step == 0 then [] else Later(xs[start + 1..], start, stop, step))
  }

  // ---- the machine ----

  /** The skipping loop with an upstream of at least `start - cur` items
      after `item` stops on the item at `start`. */
  lemma {:induction false} SkipLands<U>(xs: seq<U>, i: nat, cur: nat, start: nat)
    requires cur <= start <= USIZE_MAX && i + start - cur < |xs|
    ensures Skip(Some(xs[i]), xs[i + 1..], cur, start) == Skipped(Some(xs[i + start - cur]), xs[i + start - cur + 1..], start, false)
    decreases start - cur
  {
    if cur < start {
      SkipLands(xs, i + 1, cur + 1, start);
      assert xs[i + 1..][1..] == xs[i + 2..];
    }
  }

  /** With too few items the skipping loop ends on `None`, with nothing left. */
  lemma {:induction false} SkipShort<U>(xs: seq<U>, i: nat, cur: nat, start: nat)
    requires cur <= start <= USIZE_MAX && i <= |xs| && i + start - cur >= |xs|
    ensures var k := Skip(if i < |xs| then Some(xs[i]) else None, xs[Min(i + 1, |xs|)..], cur, start);
      k.item == None && k.up == [] && !k.overflow && k.cur <= start
    decreases start - cur
  {
    if cur < start && i < |xs| {
      SkipShort(xs, i + 1, cur + 1, start);
      if i + 1 < |xs| {
        assert xs[i + 1..][1..] == xs[i + 2..];
      }
    }
  }

  /** What a stepping state still owes. */
  function Owed<U>(s: State<U>): seq<Res<U>>
  {
    if s.step == 0 then [] else Later(s.up, s.cur, s.stop, s.step)
  }

  /** One stepping call within `usize` delivers the first owed item (or
      `None` when nothing is owed) and owes the others. */
  lemma LaterStep<U>(s: State<U>)
    requires s.skipped && s.cur + s.step <= USIZE_MAX
    ensures var t := Next(s);
      t.state.skipped && t.state.step == s.step && t.state.cur == s.cur + s.step &&
      (|Owed(s)| > 0 ==> t.out == Some(Owed(s)[0]) && Owed(t.state) == Owed(s)[1..]) &&
      (|Owed(s)| == 0 ==> t.out == None && Owed(t.state) == [])
  {
    var t := Next(s).state;
    if s.step > 0 && s.cur + s.step < s.stop && s.step <= |s.up| {
      assert Owed(s)[1..] == Later(s.up[s.step..], s.cur + s.step, s.stop, s.step);
    } else if s.step > 0 {
      if s.cur + s.step < s.stop {
        assert t.up == [] && Later(t.up, t.cur, t.stop, t.step) == [];
      } else {
        assert Later(t.up, t.cur, t.stop, t.step) == [] by {
          assert t.cur + t.step >= t.stop;
        }
      }
    }
  }

  /** A stepping state owes `Later`, as long as the position does not pass
      `usize::MAX` within `m` calls. */
  lemma {:induction false} RunLater<U>(s: State<U>, m: nat)
    requires s.skipped && s.cur + m * s.step <= USIZE_MAX
    ensures Pull.Run(Next, s, m) == Pull.Observe(Owed(s), None, m)
    decreases m
  {
    if m > 0 {
      MulSucc(m - 1, s.step);
      LaterStep(s);
      RunLater(Next(s).state, m - 1);
      Pull.ObserveFirst(Owed(s), None, m);
    }
  }

  lemma MulSucc(j: nat, k: nat)
    ensures (j + 1) * k == j * k + k
  {
  }

  /** The first `m` answers: the item at `start`, then every `step`-th item
      below `stop`, then `None`, as long as the position stays within
      `usize`. */
  lemma Behaviour<U>(xs: seq<U>, start: nat, stop: nat, step: nat, m: nat)
    requires start + m * step <= USIZE_MAX
    ensures Pull.Run(Next, Init(xs, start, stop, step), m) == Pull.Observe(Output(xs, start, stop, step), None, m)
  {
    if m > 0 {
      var s := Init(xs, start, stop, step);
      var t := Next(s).state;
      MulMono(1, m, step);
      if start < |xs| {
        SkipLands(xs, 0, 0, start);
        assert t == State(start, stop, step, xs[start + 1..], start, true);
      } else {
        SkipShort(xs, 0, 0, start);
        assert xs[Min(1, |xs|)..] == Pull1(xs).1;
        assert t.up == [] && t.skipped && t.cur <= start;
      }
      MulSucc(m - 1, step);
      RunLater(t, m - 1);
      Pull.ObserveFirst(Output(xs, start, stop, step), None, m);
      if start >= |xs| && step > 0 {
        assert Later(t.up, t.cur, t.stop, t.step) == [];
      }
    }
  }

  /** Once the position is within `step` of `usize::MAX`, every call is the
      overflow ValueError and the state no longer changes. */
  lemma StepOverflowForever<U>(s: State<U>, m: nat)
    requires s.skipped && USIZE_MAX - s.cur < s.step
    ensures Pull.Run(Next, s, m) == Pull.Observe([], Some(Err(StepOverflow)), m)
  {
    forall u: State<U> | Overflowed(u) ensures Pull.Advances(Next, Overflowed, NoItems, OverflowTail, u) {
    }
    Pull.RunObserves(Next, Overflowed, NoItems, OverflowTail, s, m);
  }

  predicate Overflowed<U>(s: State<U>) { s.skipped && USIZE_MAX - s.cur < s.step }

  function NoItems<U>(s: State<U>): seq<Res<U>> { [] }

  function OverflowTail<U>(s: State<U>): Option<Res<U>> { Some(Err(StepOverflow)) }

  // ---- properties ----

  /** Later item `j` is the one `(j + 1) * step` positions on. */
  lemma {:induction false} LaterItem<U>(up: seq<U>, cur: nat, stop: nat, step: nat, j: nat)
    requires step > 0 && j < |Later(up, cur, stop, step)|
    ensures cur + (j + 1) * step < stop && (j + 1) * step <= |up| && Later(up, cur, stop, step)[j] == Ok(up[(j + 1) * step - 1])
    decreases |up|
  {
    if j > 0 {
      var r := up[step..];
      assert Later(up, cur, stop, step)[j] == Later(r, cur + step, stop, step)[j - 1];
      LaterItem(r, cur + step, stop, step, j - 1);
      MulSucc(j, step);
      assert r[j * step - 1] == up[(j + 1) * step - 1];
    }
  }

  /** The later items stop exactly where the next position would reach
      `stop` or run past the items. */
  lemma {:induction false} LaterEnd<U>(up: seq<U>, cur: nat, stop: nat, step: nat)
    requires step > 0
    ensures var n := |Later(up, cur, stop, step)|; cur + (n + 1) * step >= stop || (n + 1) * step > |up|
    decreases |up|
  {
    if !(cur + step >= stop || step > |up|) {
      var r := up[step..];
      LaterEnd(r, cur + step, stop, step);
      var n := |Later(r, cur + step, stop, step)|;
      MulSucc(n + 1, step);
    }
  }

  /** Item `k` of the output is the one at `start + k * step`, and every
      item after the first lies below `stop` (the first is delivered even
      when `start >= stop`). */
  lemma OutputItem<U>(xs: seq<U>, start: nat, stop: nat, step: nat, k: nat)
    requires step > 0 && k < |Output(xs, start, stop, step)|
    ensures start + k * step < |xs| && Output(xs, start, stop, step)[k] == Ok(xs[start + k * step])
    ensures k > 0 ==> start + k * step < stop
  {
    if k > 0 {
      var up := xs[start + 1..];
      LaterAt(up, start, stop, step, k - 1, k * step);
      Shift(xs, start, up, k * step);
      assert Output(xs, start, stop, step)[k] == Later(up, start, stop, step)[k - 1];
    }
  }

  /** `LaterItem` with the distance `m = (j + 1) * step` named. */
  lemma LaterAt<U>(up: seq<U>, cur: nat, stop: nat, step: nat, j: nat, m: nat)
    requires step > 0 && j < |Later(up, cur, stop, step)| && m == (j + 1) * step
    ensures cur + m < stop && 0 < m <= |up| && Later(up, cur, stop, step)[j] == Ok(up[m - 1])
  {
    LaterItem(up, cur, stop, step, j);
    MulMono(1, j + 1, step);
  }

  /** Position `m - 1` after `start + 1` is position `start + m`. */
  lemma Shift<U>(xs: seq<U>, start: nat, up: seq<U>, m: nat)
    requires start < |xs| && up == xs[start + 1..] && 0 < m <= |up|
    ensures start + m < |xs| && up[m - 1] == xs[start + m]
  {
  }

  /** There is no further item: the next position is at or past `stop`, or
      past the input. */
  lemma OutputEnd<U>(xs: seq<U>, start: nat, stop: nat, step: nat)
    requires step > 0
    ensures var n := |Output(xs, start, stop, step)|; start + n * step >= |xs| || (n > 0 && start + n * step >= stop)
  {
    if start < |xs| {
      LaterEnd(xs[start + 1..], start, stop, step);
    }
  }

  /** The library's examples: (3, 10, 1) over 0..=4 gives 3, 4; start 7 over
      0..=6 gives nothing; (3, 11, 3) over 0..=10 gives 3, 6, 9; and the
      first item ignores `stop`. */
  lemma Examples()
    ensures Output([0, 1, 2, 3, 4], 3, 10, 1) == [Ok(3), Ok(4)]
    ensures Output([0, 1, 2, 3, 4, 5, 6], 7, 10, 1) == []
    ensures Output([0, 1, 2, 3, 4, 5, 6, 7, 8, 9, 10], 3, 11, 3) == [Ok(3), Ok(6), Ok(9)]
    ensures Output([0, 1, 2, 3, 4], 3, 3, 1) == [Ok(3)]
  {
    ExampleCase([0, 1, 2, 3, 4], [0, 1, 2, 3, 4, 5, 6, 7, 8, 9, 10]);
  }

  lemma ExampleCase(a: seq<int>, b: seq<int>)
    requires a == [0, 1, 2, 3, 4] && b == [0, 1, 2, 3, 4, 5, 6, 7, 8, 9, 10]
    ensures Output(a, 3, 10, 1) == [Ok(3), Ok(4)]
    ensures Output(b, 3, 11, 3) == [Ok(3), Ok(6), Ok(9)]
    ensures Output(a, 3, 3, 1) == [Ok(3)]
  {
    assert a[4..] == [4];
    assert Later([4], 3, 10, 1) == [Ok(4)] + Later([], 4, 10, 1);
    var u := b[4..];
    assert u == [4, 5, 6, 7, 8, 9, 10];
    assert u[3..] == [7, 8, 9, 10] && u[3..][3..] == [10];
    assert Later([10], 9, 11, 3) == [];
    assert Later([7, 8, 9, 10], 6, 11, 3) == [Ok(9)] + Later([10], 9, 11, 3);
    assert Later(u, 3, 11, 3) == [Ok(6)] + Later([7, 8, 9, 10], 6, 11, 3);
  }
}

=== FILE: iterate.dfy ===
/** `iterate`: `start`, `f(start)`, `f(f(start))`, ... without end. */
module Iterate {
  import opened Base
  import Pull

  datatype State<!T> = State(f: T -> T, start: T)

  /** One call of `next()`: the current value; the state moves to its image. */
  function Next<T>(s: State<T>): Pull.Step<State<T>, T>
  {
    Pull.Step(s.(start := s.f(s.start)), Some(s.start))
  }

  /** Reference definition: `f` applied `i` times to `x`. */
  function Power<T>(f: T -> T, x: T, i: nat): T
  {
    if i == 0 then x else f(Power(f, x, i - 1))
  }

  lemma {:induction false} PowerShift<T>(f: T -> T, x: T, i: nat)
    ensures Power(f, f(x), i) == Power(f, x, i + 1)
  {
    if i > 0 {
      PowerShift(f, x, i - 1);
    }
  }

  /** Answer `i` is `f` applied `i` times to `start`: the first is `start`,
      each later one is `f` of the one before, and none is `None`. */
  lemma {:induction false} Behaviour<T>(f: T -> T, start: T, m: nat)
    ensures forall i :: 0 <= i < m ==> Pull.Run(Next, State(f, start), m)[i] == Some(Power(f, start, i))
    decreases m
  {
    if m > 0 {
      Behaviour(f, f(start), m - 1);
      var r := Pull.Run(Next, State(f, start), m);
      assert r == [Some(start)] + Pull.Run(Next, State(f, f(start)), m - 1);
      forall i | 1 <= i < m ensures r[i] == Some(Power(f, start, i)) {
        PowerShift(f, start, i - 1);
      }
    }
  }

  /** The library's example: doubling from 1 gives the powers of two. */
  lemma Doubling(i: nat)
    ensures Power(x => x * 2, 1, i) == Pow2(i)
  {
    if i > 0 {
      Doubling(i - 1);
    }
  }

  function Pow2(i: nat): nat { if i == 0 then 1 else 2 * Pow2(i - 1) }

  lemma Example()
    ensures Pull.Run(Next, State(x => x * 2, 1), 5) == [Some(1), Some(2), Some(4), Some(8), Some(16)]
  {
    var f := x => x * 2;
    Behaviour(f, 1, 5);
    forall i | 0 <= i < 5 ensures Power(f, 1, i) == Pow2(i) {
      Doubling(i);
    }
  }
}

=== FILE: locate.dfy ===
/** `locate`: the start offsets of every occurrence of a query in an array,
    overlapping ones included, in ascending order. */
module Locate {
  import opened Base
  import Pull

  datatype State<T> = State(items: seq<T>, query: seq<T>, offset: nat, window: nat)

  function Init<T>(items: seq<T>, query: seq<T>, window: nat): State<T>
  {
    State(items, query, 0, window)
  }

  /** True when `query` occurs in `a` at offset `o`. */
  ghost predicate At<T>(a: seq<T>, q: seq<T>, o: int)
  {
    0 <= o && o + |q| <= |a| && a[o..o + |q|] == q
  }

  /** One call of `next()`: a window size other than the query's length
      finds nothing; otherwise slide the window to the next occurrence. */
  function Next<T(==)>(s: State<T>): Pull.Step<State<T>, nat>
    decreases |s.items| + 1 - s.offset
  {
    if s.window != |s.query| then Pull.Step(s, None)
    else if s.offset + s.window > |s.items| then Pull.Step(s, None)
    else if s.items[s.offset..s.offset + s.window] == s.query then
      Pull.Step(s.(offset := s.offset + 1), Some(s.offset))
    else Next(s.(offset := s.offset + 1))
  }

  /** Reference definition: the occurrences in the offsets `lo .. hi - 1`,
      ascending, built from the top. */
  function Window<T(==)>(a: seq<T>, q: seq<T>, lo: nat, hi: nat): seq<nat>
    decreases hi
  {
    if hi <= lo then []
    else Window(a, q, lo, hi - 1) + (if hi - 1 + |q| <= |a| && a[hi - 1..hi - 1 + |q|] == q then [hi - 1] else [])
  }

  /** The offsets a query could start at. */
  function Starts<T>(a: seq<T>, q: seq<T>): nat
  {
    if |q| <= |a| then |a| - |q| + 1 else 0
  }

  /** Every item of the output. */
  function Output<T(==)>(a: seq<T>, q: seq<T>, window: nat): seq<nat>
  {
    if window != |q| then [] else Window(a, q, 0, Starts(a, q))
  }

  /** The window can also be taken apart from the bottom. */
  lemma {:induction false} WindowBottom<T>(a: seq<T>, q: seq<T>, lo: nat, hi: nat)
    requires lo < hi
    ensures Window(a, q, lo, hi) == (if lo + |q| <= |a| && a[lo..lo + |q|] == q then [lo] else []) + Window(a, q, lo + 1, hi)
    decreases hi
  {
    if lo + 1 < hi {
      WindowBottom(a, q, lo, hi - 1);
    }
  }

  ghost predicate Inv<T>(s: State<T>) { true }

  function Rest<T(==)>(s: State<T>): seq<nat>
  {
    if s.window != |s.query| then [] else Window(s.items, s.query, s.offset, Starts(s.items, s.query))
  }

  function TailOf<T>(s: State<T>): Option<nat> { None }

  lemma {:induction false} NextAdvances<T>(s: State<T>)
    ensures Pull.Advances(Next, Inv, Rest, TailOf, s)
    decreases |s.items| + 1 - s.offset
  {
    if s.window == |s.query| {
      var hi := Starts(s.items, s.query);
      if s.offset + s.window <= |s.items| {
        WindowBottom(s.items, s.query, s.offset, hi);
        if s.items[s.offset..s.offset + s.window] != s.query {
          var s1 := s.(offset := s.offset + 1);
          NextAdvances(s1);
          Pull.AdvancesTransfer(Next, Inv, Rest, TailOf, s, s1);
        }
      }
    }
  }

  /** The answers are the occurrences in ascending order, then `None`
      forever; a window size other than the query's length answers `None`. */
  lemma Behaviour<T>(a: seq<T>, q: seq<T>, window: nat, m: nat)
    ensures Pull.Run(Next, Init(a, q, window), m) == Pull.Observe(Output(a, q, window), None, m)
  {
    forall s: State<T> | Inv(s) ensures Pull.Advances(Next, Inv, Rest, TailOf, s) {
      NextAdvances(s);
    }
    Pull.RunObserves(Next, Inv, Rest, TailOf, Init(a, q, window), m);
  }

  /** The window holds exactly the occurrences between its bounds, in
      strictly ascending order. */
  lemma {:induction false} WindowExact<T>(a: seq<T>, q: seq<T>, lo: nat, hi: nat)
    ensures forall o :: o in Window(a, q, lo, hi) <==> lo <= o < hi && At(a, q, o)
    ensures forall i, j :: 0 <= i < j < |Window(a, q, lo, hi)| ==> Window(a, q, lo, hi)[i] < Window(a, q, lo, hi)[j]
    ensures forall i :: 0 <= i < |Window(a, q, lo, hi)| ==> Window(a, q, lo, hi)[i] < hi
    decreases hi
  {
    if hi > lo {
      WindowExact(a, q, lo, hi - 1);
    }
  }

  /** The output is every occurrence, each once, ascending. */
  lemma OutputExact<T>(a: seq<T>, q: seq<T>)
    ensures forall o :: o in Output(a, q, |q|) <==> At(a, q, o)
    ensures forall i, j :: 0 <= i < j < |Output(a, q, |q|)| ==> Output(a, q, |q|)[i] < Output(a, q, |q|)[j]
  {
    WindowExact(a, q, 0, Starts(a, q));
  }

  /** The library's examples. */
  lemma Examples(a: seq<int>)
    requires a == [1, 1, 1, 1, 1]
    ensures Output(a, [1, 1, 1], 3) == [0, 1, 2]
    ensures Output(a, [1], 1) == [0, 1, 2, 3, 4]
  {
    assert a[0..3] == a[1..4] == a[2..5] == [1, 1, 1];
    assert a[0..1] == a[1..2] == a[2..3] == a[3..4] == a[4..5] == [1];
  }
}

=== FILE: map_items.dfy ===
/** `map`: applies a function to every item, in order. */
module MapItems {
  import opened Base
  import Pull

  /** The upstream left, the function, and whether exhaustion was latched. */
  datatype State<!T, J> = State(up: seq<T>, f: T -> J, finished: bool)

  function Init<T, J>(xs: seq<T>, f: T -> J): State<T, J>
  {
    State(xs, f, false)
  }

  /** `f` applied to every item of `xs`. */
  function Apply<T, J>(xs: seq<T>, f: T -> J): (r: seq<J>)
    ensures |r| == |xs|
    ensures forall i :: 0 <= i < |xs| ==> r[i] == f(xs[i])
  {
    seq(|xs|, i requires 0 <= i < |xs| => f(xs[i]))
  }

  /** One call of `next()`: map the next upstream item, or latch exhaustion. */
  function Next<T, J>(s: State<T, J>): Pull.Step<State<T, J>, J>
  {
    if s.finished then Pull.Step(s, None)
    else if |s.up| == 0 then Pull.Step(s.(finished := true), None)
    else Pull.Step(s.(up := s.up[1..]), Some(s.f(s.up[0])))
  }

  ghost predicate Inv<T, J>(s: State<T, J>) { true }

  function Rest<T, J>(s: State<T, J>): seq<J>
  {
    if s.finished then [] else Apply(s.up, s.f)
  }

  function TailOf<T, J>(s: State<T, J>): Option<J> { None }

  lemma NextAdvances<T, J>(s: State<T, J>)
    ensures Pull.Advances(Next, Inv, Rest, TailOf, s)
  {
  }

  /** The iterator yields `f` of each item, one per item and in order, then
      `None` forever. */
  lemma Behaviour<T, J>(xs: seq<T>, f: T -> J, m: nat)
    ensures Pull.Run(Next, Init(xs, f), m) == Pull.Observe(Apply(xs, f), None, m)
  {
    forall s: State<T, J> | Inv(s) ensures Pull.Advances(Next, Inv, Rest, TailOf, s) {
      NextAdvances(s);
    }
    Pull.RunObserves(Next, Inv, Rest, TailOf, Init(xs, f), m);
  }

  /** Mapping distributes over concatenation. */
  lemma ApplyAppend<T, J>(a: seq<T>, b: seq<T>, f: T -> J)
    ensures Apply(a + b, f) == Apply(a, f) + Apply(b, f)
  {
  }

  /** The library's example: `x == 3` over 1, 2, 3. */
  lemma Example(xs: seq<int>)
    requires xs == [1, 2, 3]
    ensures Apply(xs, x => x == 3) == [false, false, true]
  {
  }
}

=== FILE: mark_ends.dfy ===
/** `mark_ends`: every item tagged with whether it is the first and whether
    it is the last, found by looking one item ahead. */
module MarkEnds {
  import opened Base
  import Pull

  /** An entry of the look-ahead buffer: an item, or the marker pushed when
      the input is exhausted. */
  datatype Entry<T> = Item(value: T) | Sentinel

  datatype Marked<T> = Marked(first: bool, last: bool, value: T)

  datatype State<T> = State(up: seq<T>, emittedHead: bool, buffer: seq<Entry<T>>, finished: bool)

  function Init<T>(xs: seq<T>): State<T>
  {
    State(xs, false, [], false)
  }

  function Measure<T>(s: State<T>): nat { |s.up| + if s.finished then 0 else 1 }

  /** One call of `next()`: the loop pulls until the buffer holds an item and
      the entry after it, then delivers the item, tagged last when that entry
      is the end marker. */
  function Next<T>(s: State<T>): Pull.Step<State<T>, Marked<T>>
    decreases Measure(s)
  {
    if |s.buffer| == 1 && s.buffer[0].Sentinel? then Pull.Step(s.(buffer := []), None)
    else if |s.buffer| == 2 && s.buffer[0].Item? then
      var out := Marked(!s.emittedHead, s.buffer[1].Sentinel?, s.buffer[0].value);
      var rest := if s.buffer[1].Sentinel? then [] else s.buffer[1..];
      Pull.Step(s.(buffer := rest, emittedHead := true), Some(out))
    else if s.finished then Pull.Step(s, None)
    else if |s.up| == 0 then Next(s.(finished := true, buffer := s.buffer + [Sentinel]))
    else Next(s.(up := s.up[1..], buffer := s.buffer + [Item(s.up[0])]))
  }

  /** Reference definition: item `i` of `xs`, tagged first when `i == 0` and
      last when it is the final item. */
  function Marks<T>(xs: seq<T>): (r: seq<Marked<T>>)
  {
    seq(|xs|, i requires 0 <= i < |xs| => Marked(i == 0, i == |xs| - 1, xs[i]))
  }

  /** Between calls the buffer holds at most one entry, an item, and only
      after the first item was delivered; a done input leaves it empty. */
  ghost predicate Inv<T>(s: State<T>)
  {
    (s.buffer == [] || (|s.buffer| == 1 && s.buffer[0].Item? && s.emittedHead)) &&
    (s.finished ==> s.buffer == [] && s.up == [])
  }

  function Pending<T>(s: State<T>): seq<T>
  {
    (if |s.buffer| == 1 && s.buffer[0].Item? then [s.buffer[0].value] else []) + s.up
  }

  function Rest<T>(s: State<T>): seq<Marked<T>>
  {
    if s.finished then [] else
    var p := Pending(s);
    seq(|p|, i requires 0 <= i < |p| => Marked(i == 0 && !s.emittedHead, i == |p| - 1, p[i]))
  }

  function TailOf<T>(s: State<T>): Option<Marked<T>> { None }

  /** Inside the loop: the buffer holds at most two entries, items before
      the marker, and what is owed is unchanged. */
  ghost predicate Looping<T>(s: State<T>, owed: seq<Marked<T>>, head: bool)
  {
    |s.buffer| <= 2 && s.emittedHead == head &&
    (forall i :: 0 <= i < |s.buffer| - 1 ==> s.buffer[i].Item?) &&
    (s.finished <==> |s.buffer| > 0 && s.buffer[|s.buffer| - 1].Sentinel?) &&
    (s.finished ==> s.up == []) &&
    owed == LoopRest(s)
  }

  function Items<T>(b: seq<Entry<T>>): seq<T>
  {
    if |b| == 0 then [] else (if b[0].Item? then [b[0].value] else []) + Items(b[1..])
  }

  function LoopRest<T>(s: State<T>): seq<Marked<T>>
  {
    var p := Items(s.buffer) + s.up;
    seq(|p|, i requires 0 <= i < |p| => Marked(i == 0 && !s.emittedHead, i == |p| - 1, p[i]))
  }

  lemma {:induction false} LoopAdvances<T>(s: State<T>, owed: seq<Marked<T>>, head: bool)
    requires Looping(s, owed, head)
    ensures Inv(Next(s).state)
    ensures |owed| > 0 ==> Next(s).out == Some(owed[0]) && Rest(Next(s).state) == owed[1..]
    ensures |owed| == 0 ==> Next(s).out == None && Rest(Next(s).state) == []
    decreases Measure(s)
  {
    if |s.buffer| == 1 && s.buffer[0].Sentinel? {
      assert Items(s.buffer) == [];
    } else if |s.buffer| == 2 && s.buffer[0].Item? {
      DeliverStep(s, owed, head);
    } else if s.finished {
      assert false;
    } else {
      PullStep(s, owed, head);
      LoopAdvances(PullOne(s), owed, head);
    }
  }

  /** The state after the loop pulls one entry: the next item, or the end marker. */
  function PullOne<T>(s: State<T>): State<T>
  {
    if |s.up| == 0 then s.(finished := true, buffer := s.buffer + [Sentinel])
    else s.(up := s.up[1..], buffer := s.buffer + [Item(s.up[0])])
  }

  /** With an item and the entry after it in the buffer, the item is delivered
      with its tags and the rest stays owed. */
  lemma DeliverStep<T>(s: State<T>, owed: seq<Marked<T>>, head: bool)
    requires Looping(s, owed, head) && |s.buffer| == 2 && s.buffer[0].Item?
    ensures Inv(Next(s).state)
    ensures |owed| > 0 && Next(s).out == Some(owed[0]) && Rest(Next(s).state) == owed[1..]
  {
    var t := Next(s).state;
    if s.buffer[1].Sentinel? {
      assert Items(s.buffer) == [s.buffer[0].value] + Items(s.buffer[1..]);
      assert Items(s.buffer[1..]) == [];
      assert s.up == [];
    } else {
      assert Items(s.buffer) == [s.buffer[0].value, s.buffer[1].value] by {
        assert Items(s.buffer[1..][1..]) == [];
      }
      assert Pending(t) == [s.buffer[1].value] + s.up;
    }
  }

  /** Pulling one entry answers the same, owes the same, and brings the loop
      closer to its end. */
  lemma PullStep<T>(s: State<T>, owed: seq<Marked<T>>, head: bool)
    requires Looping(s, owed, head) && !s.finished
    requires !(|s.buffer| == 1 && s.buffer[0].Sentinel?) && !(|s.buffer| == 2 && s.buffer[0].Item?)
    ensures Looping(PullOne(s), owed, head) && Next(s) == Next(PullOne(s)) && Measure(PullOne(s)) < Measure(s)
  {
    if |s.up| == 0 {
      PullEnd(s, owed, head);
    } else {
      PullItem(s, owed, head);
    }
  }

  lemma PullEnd<T>(s: State<T>, owed: seq<Marked<T>>, head: bool)
    requires Looping(s, owed, head) && !s.finished && |s.up| == 0
    requires !(|s.buffer| == 2 && s.buffer[0].Item?)
    ensures Looping(PullOne(s), owed, head)
  {
    ItemsAppend(s.buffer, [Sentinel]);
    assert Items<T>([Sentinel]) == [];
  }

  lemma PullItem<T>(s: State<T>, owed: seq<Marked<T>>, head: bool)
    requires Looping(s, owed, head) && !s.finished && |s.up| > 0
    requires !(|s.buffer| == 2 && s.buffer[0].Item?)
    ensures Looping(PullOne(s), owed, head)
  {
    ItemsAppend(s.buffer, [Item(s.up[0])]);
    assert Items([Item(s.up[0])]) == [s.up[0]];
    assert Items(s.buffer) + [s.up[0]] + s.up[1..] == Items(s.buffer) + s.up;
  }

  lemma {:induction false} ItemsAppend<T>(a: seq<Entry<T>>, b: seq<Entry<T>>)
    ensures Items(a + b) == Items(a) + Items(b)
  {
    if |a| > 0 {
      assert (a + b)[1..] == a[1..] + b;
      ItemsAppend(a[1..], b);
    } else {
      assert a + b == b;
    }
  }

  lemma NextAdvances<T>(s: State<T>)
    requires Inv(s)
    ensures Pull.Advances(Next, Inv, Rest, TailOf, s)
  {
    if s.finished {
    } else {
      if |s.buffer| == 1 {
        assert Items(s.buffer) == [s.buffer[0].value] + Items(s.buffer[1..]);
      }
      assert Items(s.buffer) + s.up == Pending(s);
      LoopAdvances(s, Rest(s), s.emittedHead);
    }
  }

  /** The answers are the marked items, then `None` forever. */
  lemma Behaviour<T>(xs: seq<T>, m: nat)
    ensures Pull.Run(Next, Init(xs), m) == Pull.Observe(Marks(xs), None, m)
  {
    forall s: State<T> | Inv(s) ensures Pull.Advances(Next, Inv, Rest, TailOf, s) {
      NextAdvances(s);
    }
    assert Pending(Init(xs)) == xs;
    Pull.RunObserves(Next, Inv, Rest, TailOf, Init(xs), m);
  }

  /** One output per item, in order; exactly the first is tagged first and
      exactly the final one is tagged last. */
  lemma MarksShape<T>(xs: seq<T>)
    ensures |Marks(xs)| == |xs|
    ensures forall i :: 0 <= i < |xs| ==> Marks(xs)[i].value == xs[i]
    ensures forall i :: 0 <= i < |xs| ==> (Marks(xs)[i].first <==> i == 0)
    ensures forall i :: 0 <= i < |xs| ==> (Marks(xs)[i].last <==> i == |xs| - 1)
  {
  }

  /** The library's examples, and the single item tagged both first and last. */
  lemma Examples()
    ensures Marks([1, 2, 3]) == [Marked(true, false, 1), Marked(false, false, 2), Marked(false, true, 3)]
    ensures Marks([1, 2]) == [Marked(true, false, 1), Marked(false, true, 2)]
    ensures forall x: int :: Marks([x]) == [Marked(true, true, x)]
    ensures Marks<int>([]) == []
  {
  }
}

=== FILE: ncycles.dfy ===
/** `ncycles`: a sequence delivered `n` times over. */
module Ncycles {
  import opened Base
  import Pull

  /** The iterator state: the read index and the number of finished cycles. */
  datatype State<T> = State(xs: seq<T>, n: nat, cur: nat, loops: nat)

  function Init<T>(xs: seq<T>, n: nat): State<T>
  {
    State(xs, n, 0, 0)
  }

  /** One call of `next()`. */
  function Next<T>(s: State<T>): Pull.Step<State<T>, T>
  {
    if |s.xs| == 0 || s.cur >= |s.xs| then Pull.Step(s, None)
    else if s.loops >= s.n then Pull.Step(s, None)
    else
      var cur := s.cur + 1;
      var t := if cur >= |s.xs| then s.(cur := 0, loops := s.loops + 1) else s.(cur := cur);
      Pull.Step(t, Some(s.xs[s.cur]))
  }

  /** Reference definition: `c` copies of `xs`, one after the other. */
  function Cycles<T>(xs: seq<T>, c: nat): seq<T>
  {
    if c == 0 then [] else xs + Cycles(xs, c - 1)
  }

  ghost predicate Inv<T>(s: State<T>) { s.cur < |s.xs| || s.cur == 0 }

  function Rest<T>(s: State<T>): seq<T>
  {
    if |s.xs| == 0 || s.cur >= |s.xs| || s.loops >= s.n then [] else s.xs[s.cur..] + Cycles(s.xs, s.n - s.loops - 1)
  }

  function TailOf<T>(s: State<T>): Option<T> { None }

  lemma NextAdvances<T>(s: State<T>)
    requires Inv(s)
    ensures Pull.Advances(Next, Inv, Rest, TailOf, s)
  {
    if |s.xs| > 0 && s.cur < |s.xs| && s.loops < s.n {
      var t := Next(s).state;
      if s.cur + 1 >= |s.xs| {
        assert s.xs[s.cur..] == [s.xs[s.cur]];
        if t.loops < s.n {
          assert s.xs[0..] == s.xs;
        }
      } else {
        assert s.xs[s.cur..][1..] == s.xs[s.cur + 1..];
      }
    }
  }

  /** The answers are `n` copies of the sequence, then `None` forever; an
      empty sequence or `n == 0` answers `None` at once. */
  lemma Behaviour<T>(xs: seq<T>, n: nat, m: nat)
    ensures Pull.Run(Next, Init(xs, n), m) == Pull.Observe(Cycles(xs, n), None, m)
  {
    forall s: State<T> | Inv(s) ensures Pull.Advances(Next, Inv, Rest, TailOf, s) {
      NextAdvances(s);
    }
    InitRest(xs, n);
    Pull.RunObserves(Next, Inv, Rest, TailOf, Init(xs, n), m);
  }

  /** At the start the iterator owes all `n` copies. */
  lemma InitRest<T>(xs: seq<T>, n: nat)
    ensures Inv(Init(xs, n)) && Rest(Init(xs, n)) == Cycles(xs, n)
  {
    if |xs| == 0 {
      CyclesOfEmpty(xs, n);
    } else if n > 0 {
      assert xs[0..] == xs;
    }
  }

  lemma {:induction false} CyclesOfEmpty<T>(xs: seq<T>, c: nat)
    requires |xs| == 0
    ensures Cycles(xs, c) == []
  {
    if c > 0 {
      CyclesOfEmpty(xs, c - 1);
    }
  }

  /** The copies, as blocks. */
  function Copies<T>(xs: seq<T>, c: nat): (r: seq<seq<T>>)
    ensures |r| == c && forall k :: 0 <= k < c ==> r[k] == xs
  {
    seq(c, k => xs)
  }

  lemma {:induction false} CyclesAreCopies<T>(xs: seq<T>, c: nat)
    ensures Cycles(xs, c) == Flatten(Copies(xs, c))
  {
    if c > 0 {
      CyclesAreCopies(xs, c - 1);
      assert Copies(xs, c)[1..] == Copies(xs, c - 1);
    }
  }

  /** `n * L` items, item `i` being `xs[i % L]`. */
  lemma CyclesShape<T>(xs: seq<T>, n: nat)
    requires |xs| > 0
    ensures |Cycles(xs, n)| == |xs| * n
    ensures forall i :: 0 <= i < |xs| * n ==> Cycles(xs, n)[i] == xs[i % |xs|]
  {
    CyclesAreCopies(xs, n);
    FlattenBlocks(Copies(xs, n), |xs|);
  }

  /** The library's examples. */
  lemma Examples()
    ensures Cycles(['A', 'B'], 3) == ['A', 'B', 'A', 'B', 'A', 'B']
    ensures Cycles<char>([], 3) == []
  {
  }
}

=== FILE: nth.dfy ===
/** `nth`: the item at index `n` of a `Result` iterator, found with
    `islice(n, n + 1, 1)`, or the default past the end. The crate matches
    the sliced item as if `islice` did not wrap it once more; the model
    hands on the upstream item as it is. */
module Nth {
  import opened Base
  import Islice

  /** `n + 1` must fit in a `usize`. */
  function Nth<T>(xs: seq<Res<T>>, n: nat, default: Option<T>): Option<Res<T>>
    requires n < USIZE_MAX
  {
    match Islice.Next(Islice.Init(xs, n, n + 1, 1)).out
    case None => if default.Some? then Some(Ok(default.value)) else None
    case Some(Ok(item)) => Some(item)
    case Some(Err(e)) => Some(Err(e))
  }

  /** The item at `n`, an error there included; past the end the default,
      or `None` without one. */
  lemma NthIsIndex<T>(xs: seq<Res<T>>, n: nat, default: Option<T>)
    requires n < USIZE_MAX
    ensures n < |xs| ==> Nth(xs, n, default) == Some(xs[n])
    ensures n >= |xs| && default.Some? ==> Nth(xs, n, default) == Some(Ok(default.value))
    ensures n >= |xs| && default.None? ==> Nth(xs, n, default) == None
  {
    Islice.Behaviour(xs, n, n + 1, 1, 1);
  }

  /** The library's examples: three lookups in 0..5, and index 6 of 0..5
      followed by an overflow error, which answers that error even though a
      default is given. */
  lemma Examples()
    ensures Nth([Ok(0), Ok(1), Ok(2), Ok(3), Ok(4), Ok(5)], 5, Some(1)) == Some(Ok(5))
    ensures Nth([Ok(0), Ok(1), Ok(2), Ok(3), Ok(4), Ok(5)], 7, Some(0)) == Some(Ok(0))
    ensures Nth<int>([Ok(0), Ok(1), Ok(2), Ok(3), Ok(4), Ok(5)], 7, None) == None
    ensures var r := Nth([Ok(0), Ok(1), Ok(2), Ok(3), Ok(4), Ok(5), Err(AnyError(OverflowError, "[test]"))], 6, Some(1));
      r.Some? && r.value.Err? && r.value.error.kind == OverflowError
  {
    ExampleCase([Ok(0), Ok(1), Ok(2), Ok(3), Ok(4), Ok(5)]);
    ExampleErrCase([Ok(0), Ok(1), Ok(2), Ok(3), Ok(4), Ok(5), Err(AnyError(OverflowError, "[test]"))]);
  }

  lemma ExampleCase(xs: seq<Res<int>>)
    requires xs == [Ok(0), Ok(1), Ok(2), Ok(3), Ok(4), Ok(5)]
    ensures Nth(xs, 5, Some(1)) == Some(Ok(5)) && Nth(xs, 7, Some(0)) == Some(Ok(0)) && Nth(xs, 7, None) == None
  {
    NthIsIndex(xs, 5, Some(1));
    NthIsIndex(xs, 7, Some(0));
    NthIsIndex(xs, 7, None);
  }

  lemma ExampleErrCase(xs: seq<Res<int>>)
    requires xs == [Ok(0), Ok(1), Ok(2), Ok(3), Ok(4), Ok(5), Err(AnyError(OverflowError, "[test]"))]
    ensures var r := Nth(xs, 6, Some(1)); r.Some? && r.value.Err? && r.value.error.kind == OverflowError
  {
    NthIsIndex(xs, 6, Some(1));
  }
}

=== FILE: padded.dfy ===
/** `padded`: the input, then copies of a fill value until the total count
    reaches `n` or, in next-multiple mode, the next multiple of `n`. */
module Padded {
  import opened Base
  import Pull

  /** The iterator state: `offset` counts the items delivered so far and
      `target` is the total fixed at exhaustion in next-multiple mode. */
  datatype State<T> = State(up: seq<T>, fill: T, n: nat, nextMultiple: bool,
                            offset: nat, finished: bool, target: nat)

  function Init<T>(xs: seq<T>, fill: T, n: nat, nextMultiple: bool): State<T>
  {
    State(xs, fill, n, nextMultiple, 0, false, 0)
  }

  /** The search loop `n * i` for `i = 1, 2, ...` until the product reaches
      `offset`, starting at `m == n * i`. */
  function Search(n: nat, offset: nat, m: nat): nat
    requires n > 0
    decreases offset - m
  {
    if m >= offset then m else Search(n, offset, m + n)
  }

  /** The total the output is padded to once `offset` items were delivered.
      With `n == 0` and items delivered the search never ends; it is given
      the value 0 here, which makes the iterator end. */
  function Goal(n: nat, nextMultiple: bool, offset: nat): nat
  {
    if !nextMultiple then n else if n == 0 then 0 else Search(n, offset, n)
  }

  /** One call of `next()`: an upstream item, else a fill value while the
      total has not been reached. */
  function Next<T>(s: State<T>): Pull.Step<State<T>, T>
  {
    if !s.finished && |s.up| > 0 then
      Pull.Step(s.(up := s.up[1..], offset := s.offset + 1), Some(s.up[0]))
    else
      var t := if s.finished then s
               else s.(finished := true, target := if s.nextMultiple then Goal(s.n, true, s.offset) else s.target);
      var total := if s.nextMultiple then t.target else s.n;
      if total <= t.offset then Pull.Step(t, None)
      else Pull.Step(t.(offset := t.offset + 1), Some(s.fill))
  }

  /** Reference definition: the items, then fill values up to the goal. */
  function Output<T>(xs: seq<T>, fill: T, n: nat, nextMultiple: bool): seq<T>
  {
    xs + Pad(fill, Gap(Goal(n, nextMultiple, |xs|), |xs|))
  }

  ghost predicate Inv<T>(s: State<T>) { true }

  function Rest<T>(s: State<T>): seq<T>
  {
    var total := if s.finished then (if s.nextMultiple then s.target else s.n)
                 else Goal(s.n, s.nextMultiple, s.offset + |s.up|);
    (if s.finished then [] else s.up) + Pad(s.fill, Gap(total, s.offset + if s.finished then 0 else |s.up|))
  }

  function TailOf<T>(s: State<T>): Option<T> { None }

  lemma NextAdvances<T>(s: State<T>)
    ensures Pull.Advances(Next, Inv, Rest, TailOf, s)
  {
    if !s.finished && |s.up| > 0 {
      assert Rest(s) == [s.up[0]] + Rest(Next(s).state);
    } else {
      var t := Next(s).state;
      if |Rest(s)| > 0 {
        assert Rest(s)[1..] == Rest(t);
      }
    }
  }

  /** The answers are the items then the fill values, then `None` forever.
      Next-multiple mode with `n == 0` and a non-empty input never answers. */
  lemma Behaviour<T>(xs: seq<T>, fill: T, n: nat, nextMultiple: bool, m: nat)
    requires nextMultiple && n == 0 ==> |xs| == 0
    ensures Pull.Run(Next, Init(xs, fill, n, nextMultiple), m) == Pull.Observe(Output(xs, fill, n, nextMultiple), None, m)
  {
    forall s: State<T> | Inv(s) ensures Pull.Advances(Next, Inv, Rest, TailOf, s) {
      NextAdvances(s);
    }
    Pull.RunObserves(Next, Inv, Rest, TailOf, Init(xs, fill, n, nextMultiple), m);
  }

  /** The search finds the smallest multiple `n * i` with `i >= 1` that is
      at least `offset`. */
  lemma {:induction false} SearchFinds(n: nat, offset: nat, i: nat)
    requires n > 0 && i >= 1 && ((i - 1) * n < offset || i == 1)
    ensures Search(n, offset, i * n) % n == 0
    ensures Search(n, offset, i * n) >= offset && Search(n, offset, i * n) >= n
    ensures Search(n, offset, i * n) - n < offset || Search(n, offset, i * n) == n
    decreases offset - i * n
  {
    if i * n < offset {
      assert (i + 1) * n == i * n + n;
      SearchFinds(n, offset, i + 1);
    } else {
      DivMod(i * n, n, i, 0);
      assert i * n >= n;
      if i > 1 {
        assert i * n - n == (i - 1) * n;
      }
    }
  }

  /** Plain mode pads up to `n` and never pads past the input; next-multiple
      mode pads to the least positive multiple of `n` at least the input's
      length, so empty input gives `n` fill values. */
  lemma OutputShape<T>(xs: seq<T>, fill: T, n: nat)
    ensures |Output(xs, fill, n, false)| == Max(n, |xs|)
    ensures Output(xs, fill, n, false)[..|xs|] == xs
    ensures forall i :: |xs| <= i < |Output(xs, fill, n, false)| ==> Output(xs, fill, n, false)[i] == fill
    ensures var r := Output(xs, fill, n, true);
      n > 0 ==> r[..|xs|] == xs && |r| % n == 0 && |r| >= n && |r| >= |xs| &&
                (|r| - n < |xs| || |r| == n) &&
                forall i :: |xs| <= i < |r| ==> r[i] == fill
    ensures Output([], fill, n, true) == Pad(fill, n)
  {
    if n > 0 {
      SearchFinds(n, |xs|, 1);
      SearchFinds(n, 0, 1);
    }
  }

  /** The library's examples. */
  lemma Examples()
    ensures Output([1, 2, 3], 0, 5, false) == [1, 2, 3, 0, 0]
    ensures Output([1, 2, 3], 0, 2, false) == [1, 2, 3]
    ensures Output([1, 2, 3], 0, 5, true) == [1, 2, 3, 0, 0]
    ensures Output([1, 2, 3], 0, 2, true) == [1, 2, 3, 0]
    ensures Output([1, 2, 3, 4], 0, 2, true) == [1, 2, 3, 4]
    ensures Output([1, 2, 3, 4], 0, 4, true) == [1, 2, 3, 4]
  {
    assert Search(2, 3, 2) == 4;
    assert Search(2, 4, 2) == 4;
  }
}

=== FILE: pairwise.dfy ===
/** `pairwise` and `triplewise`: windows of two and three consecutive items
    of a `Result` iterator. Both go through `sliding_windowed`, which passes
    the items straight to `windowed` with step 1. */
module Pairwise {
  import opened Base
  import Pull
  import W = Windowed
  import SW = SlidingWindow

  function Pairs<T>(xs: seq<Res<T>>): W.State<T>
  {
    W.Init(xs, 2, 1)
  }

  function Triples<T>(xs: seq<Res<T>>): W.State<T>
  {
    W.Init(xs, 3, 1)
  }

  /** For an all-Ok input the pairs are the slides of length 2, then `None`
      forever; an upstream error ends them as in `windowed`. */
  lemma PairsBehaviour<T>(v: seq<T>, m: nat)
    ensures Pull.Run(W.Next, Pairs(Oks(v)), m) == Pull.Observe(Oks(SW.Slides(v, 2)), None, m)
  {
    SW.Behaviour(v, 2, m);
  }

  /** For an all-Ok input the triples are the slides of length 3, then `None` forever. */
  lemma TriplesBehaviour<T>(v: seq<T>, m: nat)
    ensures Pull.Run(W.Next, Triples(Oks(v)), m) == Pull.Observe(Oks(SW.Slides(v, 3)), None, m)
  {
    SW.Behaviour(v, 3, m);
  }

  /** `L` values give `L - 1` pairs, each two neighbours. */
  lemma PairsShape<T>(v: seq<T>)
    ensures |SW.Slides(v, 2)| == if |v| < 2 then 0 else |v| - 1
    ensures forall i :: 0 <= i < |v| - 1 ==> SW.Slides(v, 2)[i] == [v[i], v[i + 1]]
  {
    forall i | 0 <= i < |v| - 1 ensures SW.Slides(v, 2)[i] == [v[i], v[i + 1]] {
      assert v[i..i + 2] == [v[i], v[i + 1]];
    }
  }

  /** `L` values give `L - 2` triples, each three neighbours. */
  lemma TriplesShape<T>(v: seq<T>)
    ensures |SW.Slides(v, 3)| == if |v| < 3 then 0 else |v| - 2
    ensures forall i :: 0 <= i < |v| - 2 ==> SW.Slides(v, 3)[i] == [v[i], v[i + 1], v[i + 2]]
  {
    forall i | 0 <= i < |v| - 2 ensures SW.Slides(v, 3)[i] == [v[i], v[i + 1], v[i + 2]] {
      assert v[i..i + 3] == [v[i], v[i + 1], v[i + 2]];
    }
  }

  /** The library's examples over 0..=4. */
  lemma Examples()
    ensures SW.Slides([0, 1, 2, 3, 4], 2) == [[0, 1], [1, 2], [2, 3], [3, 4]]
    ensures SW.Slides([0, 1, 2, 3, 4], 3) == [[0, 1, 2], [1, 2, 3], [2, 3, 4]]
  {
    ExampleCase([0, 1, 2, 3, 4]);
  }

  lemma ExampleCase(v: seq<int>)
    requires v == [0, 1, 2, 3, 4]
    ensures SW.Slides(v, 2) == [[0, 1], [1, 2], [2, 3], [3, 4]]
    ensures SW.Slides(v, 3) == [[0, 1, 2], [1, 2, 3], [2, 3, 4]]
  {
    PairsShape(v);
    TriplesShape(v);
    var p := SW.Slides(v, 2);
    assert p[0] == [0, 1] && p[1] == [1, 2] && p[2] == [2, 3] && p[3] == [3, 4];
    var t := SW.Slides(v, 3);
    assert t[0] == [0, 1, 2] && t[1] == [1, 2, 3] && t[2] == [2, 3, 4];
  }
}

=== FILE: partition.dfy ===
/** `partition`: two cursors over one vector, the first delivering the items
    that fail a predicate and the second those that pass it. */
module Partition {
  import opened Base
  import Pull

  /** A cursor: the shared vector and predicate, which side it delivers
      (`want`), and its own read index. */
  datatype Cursor<!T> = Cursor(buf: seq<T>, pred: T -> bool, want: bool, next: nat)

  /** `get_cursor()`: the false cursor and the true cursor, both at 0. */
  function GetCursor<T>(buf: seq<T>, pred: T -> bool): (Cursor<T>, Cursor<T>)
  {
    (Cursor(buf, pred, false, 0), Cursor(buf, pred, true, 0))
  }

  /** One call of `next()` on a cursor: skip to the next item on its side. */
  function Next<T>(c: Cursor<T>): Pull.Step<Cursor<T>, T>
    decreases |c.buf| - c.next
  {
    if c.next >= |c.buf| then Pull.Step(c, None)
    else
      var t := c.buf[c.next];
      var c1 := c.(next := c.next + 1);
      if c.pred(t) == c.want then Pull.Step(c1, Some(t)) else Next(c1)
  }

  /** Reference definition: the items of `xs` whose predicate value is
      `want`, in order. */
  function Select<T>(xs: seq<T>, pred: T -> bool, want: bool): seq<T>
  {
    if |xs| == 0 then [] else (if pred(xs[0]) == want then [xs[0]] else []) + Select(xs[1..], pred, want)
  }

  ghost predicate Inv<T>(c: Cursor<T>) { c.next <= |c.buf| }

  function Rest<T>(c: Cursor<T>): seq<T>
  {
    if c.next <= |c.buf| then Select(c.buf[c.next..], c.pred, c.want) else []
  }

  function TailOf<T>(c: Cursor<T>): Option<T> { None }

  lemma {:induction false} NextAdvances<T>(c: Cursor<T>)
    requires Inv(c)
    ensures Pull.Advances(Next, Inv, Rest, TailOf, c)
    decreases |c.buf| - c.next
  {
    if c.next < |c.buf| {
      var c1 := c.(next := c.next + 1);
      var t := c.buf[c.next];
      assert c.buf[c.next..][0] == t && c.buf[c.next..][1..] == c.buf[c.next + 1..];
      assert Rest(c) == (if c.pred(t) == c.want then [t] else []) + Rest(c1);
      if c.pred(t) != c.want {
        NextAdvances(c1);
        Pull.AdvancesTransfer(Next, Inv, Rest, TailOf, c, c1);
      }
    }
  }

  /** Each cursor delivers its side of the vector in order, then `None`
      forever; the two advance independently. */
  lemma Behaviour<T>(buf: seq<T>, pred: T -> bool, m: nat)
    ensures Pull.Run(Next, GetCursor(buf, pred).0, m) == Pull.Observe(Select(buf, pred, false), None, m)
    ensures Pull.Run(Next, GetCursor(buf, pred).1, m) == Pull.Observe(Select(buf, pred, true), None, m)
  {
    forall c: Cursor<T> | Inv(c) ensures Pull.Advances(Next, Inv, Rest, TailOf, c) {
      NextAdvances(c);
    }
    assert buf[0..] == buf;
    Pull.RunObserves(Next, Inv, Rest, TailOf, GetCursor(buf, pred).0, m);
    Pull.RunObserves(Next, Inv, Rest, TailOf, GetCursor(buf, pred).1, m);
  }

  /** A side holds only items of the vector whose predicate value is the
      side's. */
  lemma {:induction false} SelectMembers<T>(xs: seq<T>, pred: T -> bool, want: bool)
    ensures forall x :: x in Select(xs, pred, want) ==> x in xs && pred(x) == want
  {
    if |xs| > 0 {
      SelectMembers(xs[1..], pred, want);
    }
  }

  /** Every item lands on exactly one side: together the two sides are the
      vector, counted with multiplicity. */
  lemma {:induction false} SidesSplit<T>(xs: seq<T>, pred: T -> bool)
    ensures multiset(Select(xs, pred, true)) + multiset(Select(xs, pred, false)) == multiset(xs)
  {
    if |xs| > 0 {
      SidesSplit(xs[1..], pred);
      assert xs == [xs[0]] + xs[1..];
    }
  }

  /** The predicate of the library's example. */
  predicate IsOdd(x: int) { x % 2 == 1 }

  /** The library's example, false side: the even numbers of 1..10. */
  lemma ExampleEven(v: seq<int>)
    requires v == [1, 2, 3, 4, 5, 6, 7, 8, 9, 10]
    ensures Select(v, IsOdd, false) == [2, 4, 6, 8, 10]
  {
    From1(v);
  }

  /** The library's example, true side: the odd numbers of 1..10. */
  lemma ExampleOdd(v: seq<int>)
    requires v == [1, 2, 3, 4, 5, 6, 7, 8, 9, 10]
    ensures Select(v, IsOdd, true) == [1, 3, 5, 7, 9]
  {
    From1(v);
  }

  /** The example input split from 1, 3, 5, 7 and 9 onwards. */
  lemma From1(xs: seq<int>)
    requires xs == [1, 2, 3, 4, 5, 6, 7, 8, 9, 10]
    ensures Select(xs, IsOdd, false) == [2, 4, 6, 8, 10] && Select(xs, IsOdd, true) == [1, 3, 5, 7, 9]
  {
    From3(xs[2..]);
    Alternating(1, 2, xs[2..], xs, [4, 6, 8, 10], [3, 5, 7, 9]);
  }

  lemma From3(xs: seq<int>)
    requires xs == [3, 4, 5, 6, 7, 8, 9, 10]
    ensures Select(xs, IsOdd, false) == [4, 6, 8, 10] && Select(xs, IsOdd, true) == [3, 5, 7, 9]
  {
    From5(xs[2..]);
    Alternating(3, 4, xs[2..], xs, [6, 8, 10], [5, 7, 9]);
  }

  lemma From5(xs: seq<int>)
    requires xs == [5, 6, 7, 8, 9, 10]
    ensures Select(xs, IsOdd, false) == [6, 8, 10] && Select(xs, IsOdd, true) == [5, 7, 9]
  {
    From7(xs[2..]);
    Alternating(5, 6, xs[2..], xs, [8, 10], [7, 9]);
  }

  lemma From7(xs: seq<int>)
    requires xs == [7, 8, 9, 10]
    ensures Select(xs, IsOdd, false) == [8, 10] && Select(xs, IsOdd, true) == [7, 9]
  {
    var last := xs[2..];
    var empty := last[2..];
    assert Select(empty, IsOdd, false) == [] && Select(empty, IsOdd, true) == [];
    Alternating(9, 10, empty, last, [], []);
    Alternating(7, 8, last, xs, [10], [9]);
  }

  /** An odd item followed by an even one: the odd item goes to the true
      side, the even one to the false side, and the rest is split as before. */
  lemma Alternating(a: int, b: int, rest: seq<int>, xs: seq<int>, e: seq<int>, o: seq<int>)
    requires IsOdd(a) && !IsOdd(b) && |xs| >= 2 && xs[0] == a && xs[1] == b && xs[2..] == rest
    requires Select(rest, IsOdd, false) == e && Select(rest, IsOdd, true) == o
    ensures Select(xs, IsOdd, false) == [b] + e && Select(xs, IsOdd, true) == [a] + o
  {
    SelectStep(xs[1..], rest, IsOdd, false, e, [b] + e);
    SelectStep(xs, xs[1..], IsOdd, false, [b] + e, [b] + e);
    SelectStep(xs[1..], rest, IsOdd, true, o, o);
    SelectStep(xs, xs[1..], IsOdd, true, o, [a] + o);
  }

  /** One step of selection: the first item joins the side when its
      predicate value is the side's, then the rest is selected. */
  lemma SelectStep<T>(xs: seq<T>, rest: seq<T>, pred: T -> bool, want: bool, s: seq<T>, r: seq<T>)
    requires |xs| > 0 && xs[1..] == rest && Select(rest, pred, want) == s
    requires r == (if pred(xs[0]) == want then [xs[0]] else []) + s
    ensures Select(xs, pred, want) == r
  {
  }
}

=== FILE: peekable.dfy ===
/** `peekable`: an iterator with a look-ahead buffer in front of its
    upstream, adding `peek` (the next item without consuming it) and
    `prepend` (items to deliver before everything else). The library has
    two copies of it, one over any iterator and one over a boxed iterator;
    they behave the same and are modelled once. */
module Peekable {
  import opened Base
  import Pull

  /** The buffer of items ahead of the upstream, and the upstream. */
  datatype State<T> = State(buf: seq<T>, up: seq<T>)

  function Init<T>(xs: seq<T>): State<T>
  {
    State([], xs)
  }

  /** Everything still to be delivered, in order. */
  function Contents<T>(s: State<T>): seq<T>
  {
    s.buf + s.up
  }

  /** `next()`: the front of the buffer, or else the next upstream item. */
  function Next<T>(s: State<T>): (t: Pull.Step<State<T>, T>)
    ensures |Contents(s)| > 0 ==> t.out == Some(Contents(s)[0]) && Contents(t.state) == Contents(s)[1..]
    ensures |Contents(s)| == 0 ==> t.out == None && t.state == s
  {
    if |s.buf| == 0 then
      if |s.up| == 0 then Pull.Step(s, None) else Pull.Step(s.(up := s.up[1..]), Some(s.up[0]))
    else
      assert Contents(s)[1..] == s.buf[1..] + s.up;
      Pull.Step(s.(buf := s.buf[1..]), Some(s.buf[0]))
  }

  /** `peek()`: with an empty buffer pull one upstream item into it; answer
      the buffer's front. */
  function Peek<T>(s: State<T>): (t: Pull.Step<State<T>, T>)
    ensures Contents(t.state) == Contents(s)
    ensures t.out == if |Contents(s)| > 0 then Some(Contents(s)[0]) else None
  {
    if |s.buf| == 0 then
      if |s.up| == 0 then Pull.Step(s, None)
      else
        var t := State([s.up[0]], s.up[1..]);
        assert Contents(t) == Contents(s);
        Pull.Step(t, Some(s.up[0]))
    else Pull.Step(s, Some(s.buf[0]))
  }

  /** `prepend(xs)`: push the items to the buffer's front, last first, so
      that they come out in the given order. */
  function Prepend<T>(s: State<T>, xs: seq<T>): (t: State<T>)
    ensures Contents(t) == xs + Contents(s)
    decreases |xs|
  {
    if |xs| == 0 then s
    else
      var t := Prepend(s.(buf := [xs[|xs| - 1]] + s.buf), xs[..|xs| - 1]);
      assert xs == xs[..|xs| - 1] + [xs[|xs| - 1]];
      t
  }

  ghost predicate Inv<T>(s: State<T>) { true }

  function TailOf<T>(s: State<T>): Option<T> { None }

  /** The answers of `next()` are the buffer then the upstream, then `None`
      forever. */
  lemma Behaviour<T>(s: State<T>, m: nat)
    ensures Pull.Run(Next, s, m) == Pull.Observe(Contents(s), None, m)
  {
    Pull.RunObserves(Next, Inv, Contents, TailOf, s, m);
  }

  /** Peeking twice answers the same, and `next()` after a peek delivers the
      peeked item; at the end every peek answers `None`. */
  lemma PeekThenNext<T>(s: State<T>)
    ensures Peek(Peek(s).state).out == Peek(s).out
    ensures Next(Peek(s).state).out == Peek(s).out
    ensures |Contents(s)| == 0 ==> Peek(s) == Pull.Step(s, None)
  {
  }

  /** The library's examples. */
  lemma Examples()
    ensures Peek(Init([1, 2, 3])).out == Some(1)
    ensures Peek(Next(Peek(Init([1, 2, 3])).state).state).out == Some(2)
    ensures Contents(Prepend(Init([1, 2, 3]), [10, 11, 12])) == [10, 11, 12, 1, 2, 3]
    ensures Peek(Next(Prepend(Init([1, 2, 3]), [10, 11, 12])).state).out == Some(11)
  {
    var p := Prepend(Init([1, 2, 3]), [10, 11, 12]);
    assert Contents(p) == [10, 11, 12, 1, 2, 3];
    assert Contents(Next(p).state) == [11, 12, 1, 2, 3];
  }
}

=== FILE: prepend.dfy ===
/** `prepend`: one value, then the upstream items. */
module Prepend {
  import opened Base
  import Pull

  /** The value, whether it was delivered, the upstream items not yet
      pulled, and whether the upstream was found exhausted. */
  datatype State<T> = State(value: T, emitted: bool, up: seq<T>, finished: bool)

  function Init<T>(value: T, xs: seq<T>): State<T>
  {
    State(value, false, xs, false)
  }

  /** One call of `next()`. */
  function Next<T>(s: State<T>): Pull.Step<State<T>, T>
  {
    if s.finished then Pull.Step(s, None)
    else if !s.emitted then Pull.Step(s.(emitted := true), Some(s.value))
    else if |s.up| == 0 then Pull.Step(s.(finished := true), None)
    else Pull.Step(s.(up := s.up[1..]), Some(s.up[0]))
  }

  ghost predicate Inv<T>(s: State<T>) { true }

  function Rest<T>(s: State<T>): seq<T>
  {
    if s.finished then [] else (if s.emitted then [] else [s.value]) + s.up
  }

  function TailOf<T>(s: State<T>): Option<T> { None }

  lemma NextAdvances<T>(s: State<T>)
    ensures Pull.Advances(Next, Inv, Rest, TailOf, s)
  {
  }

  /** The value comes first, then every upstream item in order, then `None`
      forever: `1 + L` items in all, just the value for an empty upstream. */
  lemma Behaviour<T>(value: T, xs: seq<T>, m: nat)
    ensures Pull.Run(Next, Init(value, xs), m) == Pull.Observe([value] + xs, None, m)
  {
    forall s: State<T> | Inv(s) ensures Pull.Advances(Next, Inv, Rest, TailOf, s) {
      NextAdvances(s);
    }
    Pull.RunObserves(Next, Inv, Rest, TailOf, Init(value, xs), m);
  }

  /** The library's example: 0 before 1, 2, 3. */
  lemma Example()
    ensures Pull.Run(Next, Init(0, [1, 2, 3]), 5) == [Some(0), Some(1), Some(2), Some(3), None]
  {
    Behaviour(0, [1, 2, 3], 5);
  }
}

=== FILE: pull.dfy ===
/** The pull protocol shared by every iterator: a `next()` call maps a state
    to its successor and an optional item. An iterator is described by the
    items it still has to deliver and by what it answers once they are gone. */
module Pull {
  import opened Base

  /** The result of one call of `next()`. */
  datatype Step<S, O> = Step(state: S, out: Option<O>)

  /** The answers of the first `k` calls of `next()`, starting in state `s`. */
  function Run<S, O>(next: S -> Step<S, O>, s: S, k: nat): (r: seq<Option<O>>)
    ensures |r| == k
    ensures k > 0 ==> r[0] == next(s).out
    decreases k
  {
    if k == 0 then [] else [next(s).out] + Run(next, next(s).state, k - 1)
  }

  /** The answers of the first `k` calls of an iterator that delivers `items`
      and then answers `tail` on every later call. */
  function Observe<O>(items: seq<O>, tail: Option<O>, k: nat): (r: seq<Option<O>>)
    ensures |r| == k
    ensures forall i :: 0 <= i < k && i < |items| ==> r[i] == Some(items[i])
    ensures forall i :: |items| <= i < k ==> r[i] == tail
  {
    seq(k, i requires 0 <= i < k => if i < |items| then Some(items[i]) else tail)
  }

  /** One call of `next()` in state `s` delivers the first of the items
      `rest(s)` still owed (or `tail(s)` when none is owed), owes the others
      afterwards, keeps `inv` and does not change the tail. */
  ghost predicate Advances<S, O>(next: S -> Step<S, O>, inv: S -> bool, rest: S -> seq<O>,
                                 tail: S -> Option<O>, s: S)
  {
    var t := next(s);
    inv(t.state) && tail(t.state) == tail(s) &&
    if |rest(s)| > 0 then t.out == Some(rest(s)[0]) && rest(t.state) == rest(s)[1..]
    else t.out == tail(s) && rest(t.state) == []
  }

  /** A state that answers like `s1` and owes what `s1` owes advances like it. */
  lemma AdvancesTransfer<S, O>(next: S -> Step<S, O>, inv: S -> bool, rest: S -> seq<O>,
                               tail: S -> Option<O>, s: S, s1: S)
    requires next(s) == next(s1) && rest(s) == rest(s1) && tail(s) == tail(s1)
    requires Advances(next, inv, rest, tail, s1)
    ensures Advances(next, inv, rest, tail, s)
  {
  }

  /** Observing `k > 0` answers is observing the first one, then `k - 1`
      answers of what is left. */
  lemma ObserveFirst<O>(items: seq<O>, tail: Option<O>, k: nat)
    requires k > 0
    ensures |items| > 0 ==> Observe(items, tail, k) == [Some(items[0])] + Observe(items[1..], tail, k - 1)
    ensures |items| == 0 ==> Observe(items, tail, k) == [tail] + Observe(items, tail, k - 1)
  {
    var o := Observe(items, tail, k);
    if |items| > 0 {
      var o1 := Observe(items[1..], tail, k - 1);
      assert forall i :: 1 <= i < k ==> o[i] == o1[i - 1];
    } else {
      var o1 := Observe(items, tail, k - 1);
      assert forall i :: 1 <= i < k ==> o[i] == o1[i - 1];
    }
  }

  /** From a state satisfying the invariant, the iterator answers exactly its
      owed items and then its tail. */
  lemma {:induction false} RunObserves<S, O>(next: S -> Step<S, O>, inv: S -> bool, rest: S -> seq<O>,
                                                   tail: S -> Option<O>, s: S, k: nat)
    requires forall u :: inv(u) ==> Advances(next, inv, rest, tail, u)
    requires inv(s)
    ensures Run(next, s, k) == Observe(rest(s), tail(s), k)
    decreases k
  {
    if k > 0 {
      assert Advances(next, inv, rest, tail, s);
      var t := next(s).state;
      RunObserves(next, inv, rest, tail, t, k - 1);
      ObserveFirst(rest(s), tail(s), k);
    }
  }
}

=== FILE: repeat_append_default.dfy ===
/** `repeat_append_default`: the input, then a default value forever, unless
    the input failed or there is no default. */
module RepeatAppendDefault {
  import opened Base
  import Pull

  datatype State<T> = State(up: seq<Res<T>>, finished: bool, default: Option<T>, error: Option<Error>)

  function Init<T>(xs: seq<Res<T>>, default: Option<T>): State<T>
  {
    State(xs, false, default, None)
  }

  /** One call of `next()`. */
  function Next<T>(s: State<T>): Pull.Step<State<T>, Res<T>>
  {
    if !s.finished && |s.up| > 0 then
      match s.up[0]
      case Ok(v) => Pull.Step(s.(up := s.up[1..]), Some(Ok(v)))
      case Err(e) => Pull.Step(s.(up := s.up[1..], error := Some(e), finished := true), Some(Err(e)))
    else
      var t := s.(finished := true);
      if t.error.Some? || t.default.None? then Pull.Step(t, None)
      else Pull.Step(t, Some(Ok(t.default.value)))
  }

  /** What every call answers after the input: the default, only when the
      input had no error and a default was given. */
  function Tail<T>(xs: seq<Res<T>>, default: Option<T>): Option<Res<T>>
  {
    if FirstErr(xs).None? && default.Some? then Some(Ok(default.value)) else None
  }

  ghost predicate Inv<T>(s: State<T>) { s.finished || s.error.None? }

  function Rest<T>(s: State<T>): seq<Res<T>>
  {
    if s.finished then [] else UntilErr(s.up)
  }

  function TailOf<T>(s: State<T>): Option<Res<T>>
  {
    if s.finished then (if s.error.Some? || s.default.None? then None else Some(Ok(s.default.value)))
    else Tail(s.up, s.default)
  }

  lemma NextAdvances<T>(s: State<T>)
    requires Inv(s)
    ensures Pull.Advances(Next, Inv, Rest, TailOf, s)
  {
    if !s.finished && |s.up| > 0 && s.up[0].Ok? {
      assert UntilErr(s.up) == [s.up[0]] + UntilErr(s.up[1..]);
    }
  }

  /** The answers are the input's items up to and including the first error;
      then the default forever when there was no error and a default, and
      `None` forever otherwise. */
  lemma Behaviour<T>(xs: seq<Res<T>>, default: Option<T>, m: nat)
    ensures Pull.Run(Next, Init(xs, default), m) == Pull.Observe(UntilErr(xs), Tail(xs, default), m)
  {
    forall s: State<T> | Inv(s) ensures Pull.Advances(Next, Inv, Rest, TailOf, s) {
      NextAdvances(s);
    }
    Pull.RunObserves(Next, Inv, Rest, TailOf, Init(xs, default), m);
  }

  /** An error-free input passes through unchanged and is followed by the
      default, or by `None` when there is no default; an error is delivered
      once and then `None`. */
  lemma TailCases<T>(xs: seq<Res<T>>, default: Option<T>)
    ensures AllOk(xs) ==> UntilErr(xs) == xs && Tail(xs, default) == (if default.Some? then Some(Ok(default.value)) else None)
    ensures !AllOk(xs) ==> Tail(xs, default) == None && UntilErr(xs)[|UntilErr(xs)| - 1].Err?
  {
    OkPrefixShape(xs);
    if AllOk(xs) {
      OkPrefixOfAllOk(xs);
    }
  }
}

=== FILE: repeat_each.dfy ===
/** `repeat_each`: every item delivered `n` times in a row. The first item
    is pulled at construction and is repeated even when it is an error. */
module RepeatEach {
  import opened Base
  import Pull

  /** The iterator state: the item being repeated (`None` when the input was
      empty) and how often it was delivered already. */
  datatype State<T> = State(up: seq<Res<T>>, n: nat, count: nat, finished: bool, last: Option<Res<T>>)

  /** The constructor pulls the first item. */
  function Init<T>(xs: seq<Res<T>>, n: nat): State<T>
  {
    if |xs| == 0 then State([], n, 0, false, None) else State(xs[1..], n, 0, false, Some(xs[0]))
  }

  /** One call of `next()`: the current item while it is owed, else pull;
      an `Ok` item starts a new run, an error is delivered once and latches. */
  function Next<T>(s: State<T>): Pull.Step<State<T>, Res<T>>
    decreases |s.up|
  {
    if s.finished then Pull.Step(s, None)
    else if s.count < s.n then Pull.Step(s.(count := s.count + 1), s.last)
    else if |s.up| == 0 then Pull.Step(s.(last := None, count := 0, finished := true), None)
    else match s.up[0]
      case Ok(_) => Next(s.(last := Some(s.up[0]), count := 0, up := s.up[1..]))
      case Err(e) => Pull.Step(s.(last := Some(s.up[0]), up := s.up[1..], finished := true), Some(Err(e)))
  }

  /** The items after the first: each `Ok` value `n` times, and the first
      error once, ending the output. */
  function Later<T>(up: seq<Res<T>>, n: nat): seq<Res<T>>
  {
    if |up| == 0 then []
    else if up[0].Err? then [up[0]]
    else Pad(up[0], n) + Later(up[1..], n)
  }

  /** Reference definition: the first item `n` times, whatever it is, then
      the later items. */
  function Output<T>(xs: seq<Res<T>>, n: nat): seq<Res<T>>
  {
    if |xs| == 0 then [] else Pad(xs[0], n) + Later(xs[1..], n)
  }

  ghost predicate Inv<T>(s: State<T>) { s.count <= s.n && (s.last.None? ==> s.up == []) }

  function Rest<T>(s: State<T>): seq<Res<T>>
  {
    if s.finished then []
    else (if s.last.Some? then Pad(s.last.value, Gap(s.n, s.count)) else []) + Later(s.up, s.n)
  }

  function TailOf<T>(s: State<T>): Option<Res<T>> { None }

  lemma {:induction false} NextAdvances<T>(s: State<T>)
    requires Inv(s)
    ensures Pull.Advances(Next, Inv, Rest, TailOf, s)
    decreases |s.up|
  {
    if s.finished {
    } else if s.count < s.n {
      if s.last.Some? {
        assert Pad(s.last.value, s.n - s.count)[1..] == Pad(s.last.value, s.n - s.count - 1);
      }
    } else if |s.up| > 0 && s.up[0].Ok? {
      var s1 := s.(last := Some(s.up[0]), count := 0, up := s.up[1..]);
      NextAdvances(s1);
      assert Rest(s) == Rest(s1) by {
        if s.last.Some? {
          assert Pad(s.last.value, 0) == [];
        }
      }
      Pull.AdvancesTransfer(Next, Inv, Rest, TailOf, s, s1);
    } else if |s.up| > 0 {
      if s.last.Some? {
        assert Pad(s.last.value, 0) == [];
      }
    }
  }

  /** The answers are the output, then `None` forever. */
  lemma Behaviour<T>(xs: seq<Res<T>>, n: nat, m: nat)
    ensures Pull.Run(Next, Init(xs, n), m) == Pull.Observe(Output(xs, n), None, m)
  {
    forall s: State<T> | Inv(s) ensures Pull.Advances(Next, Inv, Rest, TailOf, s) {
      NextAdvances(s);
    }
    Pull.RunObserves(Next, Inv, Rest, TailOf, Init(xs, n), m);
  }

  /** An error-free input gives `n * L` items, item `i` being input item
      `i / n`. */
  lemma AllOkRepeats<T>(xs: seq<Res<T>>, n: nat)
    requires AllOk(xs) && n > 0
    ensures |Output(xs, n)| == n * |xs|
    ensures forall i :: 0 <= i < n * |xs| ==> Output(xs, n)[i] == xs[i / n]
  {
    var bs := Blocks(xs, n);
    LaterBlocks(xs, n);
    FlattenBlocks(bs, n);
    if |xs| > 0 {
      assert Output(xs, n) == Later(xs, n);
    }
  }

  /** The runs of an error-free input, one block of `n` copies per item. */
  function Blocks<T>(xs: seq<Res<T>>, n: nat): (r: seq<seq<Res<T>>>)
    ensures |r| == |xs| && forall k :: 0 <= k < |xs| ==> r[k] == Pad(xs[k], n)
  {
    seq(|xs|, k requires 0 <= k < |xs| => Pad(xs[k], n))
  }

  lemma {:induction false} LaterBlocks<T>(xs: seq<Res<T>>, n: nat)
    requires AllOk(xs)
    ensures Later(xs, n) == Flatten(Blocks(xs, n))
  {
    if |xs| > 0 {
      LaterBlocks(xs[1..], n);
      assert Blocks(xs, n)[1..] == Blocks(xs[1..], n);
    }
  }

  /** `n == 0` delivers nothing but the first error after the first item. */
  lemma {:induction false} ZeroRepeats<T>(xs: seq<Res<T>>)
    ensures Later(xs, 0) == ErrItem(FirstErr(xs))
  {
    if |xs| > 0 && xs[0].Ok? {
      ZeroRepeats(xs[1..]);
      assert Pad(xs[0], 0) == [];
    }
  }

  /** An error after some items comes once, after their repeats; an error as
      the first item is repeated `n` times and the input carries on. */
  lemma Errors<T>(a: T, e: Error, b: T, n: nat)
    ensures Output([Ok(a), Err(e), Ok(b)], n) == Pad(Ok(a), n) + [Err(e)]
    ensures Output([Err(e), Ok(b)], n) == Pad(Err(e), n) + Pad(Ok(b), n)
  {
    assert [Ok(a), Err(e), Ok(b)][1..] == [Err(e), Ok(b)];
    assert Later([Ok(b)], n) == Pad(Ok(b), n) + Later([], n);
  }
}

=== FILE: repeat_last.dfy ===
/** `repeat_last`: the input, then its last item forever (the default when
    the input is empty). `next()` never answers `None`. */
module RepeatLast {
  import opened Base
  import Pull

  datatype State<T> = State(up: seq<T>, default: T, last: Option<T>, finished: bool)

  function Init<T>(xs: seq<T>, default: T): State<T>
  {
    State(xs, default, None, false)
  }

  /** One call of `next()`. */
  function Next<T>(s: State<T>): Pull.Step<State<T>, T>
  {
    if !s.finished && |s.up| > 0 then Pull.Step(s.(up := s.up[1..], last := Some(s.up[0])), Some(s.up[0]))
    else
      var t := s.(finished := true);
      Pull.Step(t, Some(if t.last.Some? then t.last.value else t.default))
  }

  /** The item repeated after the input. */
  function Final<T>(xs: seq<T>, default: T): T
  {
    if |xs| == 0 then default else xs[|xs| - 1]
  }

  ghost predicate Inv<T>(s: State<T>) { s.finished ==> s.up == [] }

  function Rest<T>(s: State<T>): seq<T> { s.up }

  function TailOf<T>(s: State<T>): Option<T>
  {
    Some(Final(s.up, if s.last.Some? then s.last.value else s.default))
  }

  lemma NextAdvances<T>(s: State<T>)
    requires Inv(s)
    ensures Pull.Advances(Next, Inv, Rest, TailOf, s)
  {
  }

  /** The answers are the input's items, then its last item (or the default)
      forever. */
  lemma Behaviour<T>(xs: seq<T>, default: T, m: nat)
    ensures Pull.Run(Next, Init(xs, default), m) == Pull.Observe(xs, Some(Final(xs, default)), m)
  {
    forall s: State<T> | Inv(s) ensures Pull.Advances(Next, Inv, Rest, TailOf, s) {
      NextAdvances(s);
    }
    Pull.RunObserves(Next, Inv, Rest, TailOf, Init(xs, default), m);
  }

  /** Answer `i` is input item `i` while there is one and the last item
      after that; no answer is `None`. */
  lemma Answers<T>(xs: seq<T>, default: T, m: nat)
    ensures forall i :: 0 <= i < m ==> Pull.Run(Next, Init(xs, default), m)[i] == Some(if i < |xs| then xs[i] else Final(xs, default))
    ensures forall i :: 0 <= i < m ==> Pull.Run(Next, Init(xs, default), m)[i].Some?
  {
    Behaviour(xs, default, m);
  }

  /** The library's examples: five answers over 1..3 and over an empty input. */
  lemma Examples()
    ensures Pull.Run(Next, Init([1, 2, 3], 0), 5) == [Some(1), Some(2), Some(3), Some(3), Some(3)]
    ensures Pull.Run(Next, Init([], 42), 5) == [Some(42), Some(42), Some(42), Some(42), Some(42)]
  {
    Behaviour([1, 2, 3], 0, 5);
    Behaviour([], 42, 5);
  }
}

=== FILE: replace.dfy ===
/** `replace`: substitutes `sub` for every left-to-right, non-overlapping
    occurrence of `query` in the stream of values. A sliding cache of
    `|query|` values is compared with the query before each pull. */
module Replace {
  import opened Base
  import Pull

  const EmptyQuery := ValueErr("[replace:len of query should gt 0]")

  /** The iterator state. `out` is the pending output list flattened into one
      sequence; `up` is what the upstream has not yet delivered. */
  datatype State<T> = State(out: seq<T>, cache: seq<T>, up: seq<Res<T>>, finished: bool,
                            query: seq<T>, sub: seq<T>, error: Option<Error>, emitted: bool)

  /** `is_equals`: element-wise comparison of the cache with the query. */
  function IsEquals<T(==)>(a: seq<T>, b: seq<T>): (r: bool)
    ensures r <==> a == b
  {
    if |a| != |b| then false
    else if |a| == 0 then true
    else
      assert a == [a[0]] + a[1..] && b == [b[0]] + b[1..];
      a[0] == b[0] && IsEquals(a[1..], b[1..])
  }

  /** `flush_sub`: queue a copy of `sub` and clear the cache. */
  function FlushSub<T>(s: State<T>): (t: State<T>)
    ensures t.out == s.out + s.sub && t.cache == []
  {
    s.(out := s.out + s.sub, cache := [])
  }

  /** `flush_cache`: move the cache to the output. */
  function FlushCache<T>(s: State<T>): (t: State<T>)
    ensures t.out + t.cache == s.out + s.cache && t.cache == []
  {
    s.(out := s.out + s.cache, cache := [])
  }

  /** `push_and_pop`: append `v` to the cache; once the cache holds `|query|`
      values the oldest one is popped and returned. */
  function PushAndPop<T>(s: State<T>, v: T): (r: (State<T>, Option<T>))
    ensures r.1.None? ==> r.0.cache == s.cache + [v]
    ensures r.1.Some? ==> [r.1.value] + r.0.cache == s.cache + [v]
    ensures |s.cache| <= |s.query| ==> |r.0.cache| <= |s.query| || |r.0.cache| == 1
  {
    if |s.cache| < |s.query| then (s.(cache := s.cache + [v]), None)
    else if |s.cache| == 0 then (s.(cache := [v]), None)
    else (s.(cache := s.cache[1..] + [v]), Some(s.cache[0]))
  }

  /** `push_back`: queue a popped value (the list is empty whenever it is called). */
  function PushBack<T>(s: State<T>, v: T): (t: State<T>)
    ensures |s.out| == 0 ==> t.out == [v]
  {
    if |s.out| == 0 then s.(out := [v]) else s
  }

  /** The successor of a pull of value `v` (`push_and_pop`, then `push_back`). */
  function PullOk<T>(s: State<T>, v: T): (t: State<T>)
    requires |s.up| > 0
    ensures |t.up| < |s.up| && t.finished == s.finished
  {
    var (s1, popped) := PushAndPop(s.(up := s.up[1..]), v);
    if popped.Some? then PushBack(s1, popped.value) else s1
  }

  /** The loop of `next()`. With an empty query and an empty substitute the
      crate loops forever; no reachable state of the corrected constructor
      gets there, and this model answers `None` instead. */
  function Loop<T(==)>(s: State<T>): (t: Pull.Step<State<T>, Res<T>>)
    ensures t.state.query == s.query && t.state.sub == s.sub
    decreases !s.finished, |s.up|, (if s.cache == s.query && |s.query| > 0 then 1 else 0), (if |s.out| == 0 then 1 else 0)
  {
    if |s.out| > 0 then Pull.Step(s.(out := s.out[1..]), Some(Ok(s.out[0])))
    else if s.error.Some? && !s.emitted then Pull.Step(s.(emitted := true), Some(Err(s.error.value)))
    else if s.finished then Pull.Step(s, None)
    else if IsEquals(s.cache, s.query) then
      if |s.sub| == 0 && |s.query| == 0 then Pull.Step(s, None)
      else Loop(FlushSub(s))
    else if |s.up| == 0 then Loop(FlushCache(s).(finished := true))
    else match s.up[0]
      case Ok(v) => Loop(PullOk(s, v))
      case Err(e) => Loop(FlushCache(s.(up := s.up[1..])).(error := Some(e), finished := true))
  }

  function Next<T(==)>(s: State<T>): Pull.Step<State<T>, Res<T>>
  {
    Loop(s)
  }

  /** The preloading loop of the constructor: read values into the cache
      until it holds `|query|` of them or the upstream ends. An upstream error
      is remembered and marks the iterator finished, but reading goes on. */
  function Preload<T>(s: State<T>): (t: State<T>)
    ensures t.query == s.query && t.sub == s.sub && t.out == s.out && t.emitted == s.emitted
    ensures s.finished ==> t.finished
    decreases |s.up|
  {
    if |s.up| == 0 then s.(finished := true)
    else match s.up[0]
      case Ok(v) =>
        if |s.cache| + 1 == |s.query| then s.(cache := s.cache + [v], up := s.up[1..])
        else Preload(s.(cache := s.cache + [v], up := s.up[1..]))
      case Err(e) => Preload(s.(up := s.up[1..], finished := true, error := Some(e)))
  }

  /** `replace` as written: an empty query only records the ValueError. */
  function ReplaceAsWritten<T>(xs: seq<Res<T>>, query: seq<T>, sub: seq<T>): State<T>
  {
    var s := State([], [], xs, false, query, sub, None, false);
    if |query| == 0 then s.(error := Some(EmptyQuery)) else Preload(s)
  }

  /** `replace` with the empty-query error also finishing the iterator, as
      every other error of this iterator does. */
  function Replace<T>(xs: seq<Res<T>>, query: seq<T>, sub: seq<T>): State<T>
  {
    var s := State([], [], xs, false, query, sub, None, false);
    if |query| == 0 then s.(error := Some(EmptyQuery), finished := true) else Preload(s)
  }

  /** Reference definition: greedy left-to-right replacement of `q` by `sub`. */
  function ReplaceAll<T(==)>(xs: seq<T>, q: seq<T>, sub: seq<T>): seq<T>
    requires |q| > 0
    decreases |xs|
  {
    if |xs| >= |q| && xs[..|q|] == q then sub + ReplaceAll(xs[|q|..], q, sub)
    else if |xs| == 0 then []
    else [xs[0]] + ReplaceAll(xs[1..], q, sub)
  }

  /** The error the preloading loop remembers when it reads `xs`, needing
      `need` more values, having remembered `acc` so far. */
  function PreloadErr<T>(xs: seq<Res<T>>, need: nat, acc: Option<Error>): Option<Error>
    decreases |xs|
  {
    if need == 0 || |xs| == 0 then acc
    else if xs[0].Ok? then (if need == 1 then acc else PreloadErr(xs[1..], need - 1, acc))
    else PreloadErr(xs[1..], need, Some(xs[0].error))
  }

  /** Every item the iterator delivers. An error met while preloading is the
      only item; an upstream shorter than the query delivers nothing; otherwise
      the replaced values up to the first error, then that error. */
  function Output<T(==)>(xs: seq<Res<T>>, q: seq<T>, sub: seq<T>): seq<Res<T>>
  {
    if |q| == 0 then [Err(EmptyQuery)]
    else match PreloadErr(xs, |q|, None)
      case Some(e) => [Err(e)]
      case None => if |OkPrefix(xs)| < |q| then [] else Oks(ReplaceAll(OkPrefix(xs), q, sub)) + ErrItem(FirstErr(xs))
  }

  // ---- the abstraction of a state ----

  ghost predicate Inv<T>(s: State<T>)
  {
    |s.cache| <= |s.query| && (s.error.Some? ==> s.finished) && (|s.query| == 0 ==> s.finished)
    && (s.emitted ==> s.error.Some?)
  }

  /** The items a state still owes. */
  function Rest<T(==)>(s: State<T>): seq<Res<T>>
  {
    Oks(s.out) + (if s.error.Some? && !s.emitted then [Err(s.error.value)] else [])
    + (if s.finished || |s.query| == 0 then []
       else Oks(ReplaceAll(s.cache + OkPrefix(s.up), s.query, s.sub)) + ErrItem(FirstErr(s.up)))
  }

  function TailOf<T>(s: State<T>): Option<Res<T>> { None }

  // ---- facts about the reference definition ----

  lemma {:induction false} ReplaceAllShort<T>(xs: seq<T>, q: seq<T>, sub: seq<T>)
    requires 0 < |q| && |xs| < |q|
    ensures ReplaceAll(xs, q, sub) == xs
    decreases |xs|
  {
    if |xs| > 0 {
      ReplaceAllShort(xs[1..], q, sub);
      assert xs == [xs[0]] + xs[1..];
    }
  }

  /** A window of `|q|` values that is not `q` passes unchanged. */
  lemma ReplaceAllWindow<T>(c: seq<T>, q: seq<T>, sub: seq<T>)
    requires 0 < |q| && |c| <= |q| && c != q
    ensures ReplaceAll(c, q, sub) == c
  {
    if |c| < |q| {
      ReplaceAllShort(c, q, sub);
    } else {
      assert c[..|q|] == c;
      ReplaceAllShort(c[1..], q, sub);
      assert c == [c[0]] + c[1..];
    }
  }

  /** A window that is not `q` emits its first value and slides. */
  lemma ReplaceAllSlide<T>(c: seq<T>, rest: seq<T>, q: seq<T>, sub: seq<T>)
    requires 0 < |q| && |c| == |q| && c != q
    ensures ReplaceAll(c + rest, q, sub) == [c[0]] + ReplaceAll(c[1..] + rest, q, sub)
  {
    assert (c + rest)[..|q|] == c;
    assert (c + rest)[1..] == c[1..] + rest;
  }

  // ---- the step lemma ----

  /** A running state: nothing queued, no error to report, not finished. */
  ghost predicate Running<T>(s: State<T>)
  {
    Inv(s) && |s.out| == 0 && !(s.error.Some? && !s.emitted) && !s.finished
  }

  lemma FlushSubStep<T>(s: State<T>)
    requires Running(s) && s.cache == s.query
    ensures Inv(FlushSub(s)) && Rest(FlushSub(s)) == Rest(s) && Loop(s) == Loop(FlushSub(s))
  {
    var s1 := FlushSub(s);
    var p := OkPrefix(s.up);
    assert (s.cache + p)[..|s.query|] == s.query && (s.cache + p)[|s.query|..] == p;
    assert ReplaceAll(s.cache + p, s.query, s.sub) == s.sub + ReplaceAll(p, s.query, s.sub);
    assert s1.cache + OkPrefix(s1.up) == p;
    OksAppend(s.sub, ReplaceAll(p, s.query, s.sub));
  }

  lemma EndStep<T>(s: State<T>)
    requires Running(s) && s.cache != s.query && |s.up| == 0
    ensures var s1 := FlushCache(s).(finished := true);
      Inv(s1) && Rest(s1) == Rest(s) && Loop(s) == Loop(s1)
  {
    assert s.cache + OkPrefix(s.up) == s.cache;
    ReplaceAllWindow(s.cache, s.query, s.sub);
  }

  lemma ErrStep<T>(s: State<T>)
    requires Running(s) && s.cache != s.query && |s.up| > 0 && s.up[0].Err?
    ensures var s1 := FlushCache(s.(up := s.up[1..])).(error := Some(s.up[0].error), finished := true);
      Inv(s1) && Rest(s1) == Rest(s) && Loop(s) == Loop(s1)
  {
    assert s.cache + OkPrefix(s.up) == s.cache;
    assert FirstErr(s.up) == Some(s.up[0].error);
    ReplaceAllWindow(s.cache, s.query, s.sub);
  }

  lemma OkStep<T>(s: State<T>)
    requires Running(s) && s.cache != s.query && |s.up| > 0 && s.up[0].Ok?
    ensures var s1 := PullOk(s, s.up[0].value);
      Inv(s1) && Rest(s1) == Rest(s) && Loop(s) == Loop(s1)
  {
    var v := s.up[0].value;
    var rest := OkPrefix(s.up[1..]);
    assert OkPrefix(s.up) == [v] + rest;
    assert FirstErr(s.up) == FirstErr(s.up[1..]);
    if |s.cache| < |s.query| {
      OkFillStep(s, v, rest);
    } else {
      OkSlideStep(s, v, rest);
    }
  }

  lemma OkFillStep<T>(s: State<T>, v: T, rest: seq<T>)
    requires Running(s) && |s.up| > 0 && s.up[0] == Ok(v) && |s.cache| < |s.query|
    requires OkPrefix(s.up) == [v] + rest && rest == OkPrefix(s.up[1..]) && FirstErr(s.up) == FirstErr(s.up[1..])
    ensures Inv(PullOk(s, v)) && Rest(PullOk(s, v)) == Rest(s)
  {
    var s1 := PullOk(s, v);
    assert s1.cache + OkPrefix(s1.up) == s.cache + OkPrefix(s.up);
  }

  lemma OkSlideStep<T>(s: State<T>, v: T, rest: seq<T>)
    requires Running(s) && s.cache != s.query && |s.up| > 0 && s.up[0] == Ok(v) && |s.cache| == |s.query|
    requires OkPrefix(s.up) == [v] + rest && rest == OkPrefix(s.up[1..]) && FirstErr(s.up) == FirstErr(s.up[1..])
    ensures Inv(PullOk(s, v)) && Rest(PullOk(s, v)) == Rest(s)
  {
    var s1 := PullFull(s, v);
    ReplaceAllSlide(s.cache, [v] + rest, s.query, s.sub);
    assert s.cache[1..] + ([v] + rest) == s1.cache + OkPrefix(s1.up);
    assert Oks([s.cache[0]]) == [Ok(s.cache[0])];
  }

  /** Pulling a value into a full cache pops its oldest value into the output. */
  lemma PullFull<T>(s: State<T>, v: T) returns (s1: State<T>)
    requires |s.up| > 0 && |s.out| == 0 && 0 < |s.cache| == |s.query|
    ensures s1 == PullOk(s, v) == s.(out := [s.cache[0]], cache := s.cache[1..] + [v], up := s.up[1..])
  {
    s1 := PullOk(s, v);
  }

  lemma {:induction false} LoopAdvances<T>(s: State<T>)
    requires Inv(s)
    ensures Pull.Advances(Next, Inv, Rest, TailOf, s)
    decreases !s.finished, |s.up|, (if s.cache == s.query && |s.query| > 0 then 1 else 0), (if |s.out| == 0 then 1 else 0)
  {
    if |s.out| > 0 {
      assert Oks(s.out) == [Ok(s.out[0])] + Oks(s.out[1..]);
    } else if s.error.Some? && !s.emitted {
    } else if s.finished {
    } else {
      var s1 := Advance(s);
      LoopAdvances(s1);
      Pull.AdvancesTransfer(Next, Inv, Rest, TailOf, s, s1);
    }
  }

  /** One pass of the loop that delivers nothing: the state it continues
      from owes the same, answers the same and is closer to the end. */
  lemma Advance<T>(s: State<T>) returns (s1: State<T>)
    requires Running(s)
    ensures Inv(s1) && Rest(s1) == Rest(s) && Next(s1) == Next(s)
    ensures s1.finished || |s1.up| < |s.up|
      || (|s1.up| == |s.up| && s.cache == s.query && |s.query| > 0 && !(s1.cache == s1.query && |s1.query| > 0))
  {
    if s.cache == s.query {
      FlushSubStep(s);
      s1 := FlushSub(s);
    } else if |s.up| == 0 {
      EndStep(s);
      s1 := FlushCache(s).(finished := true);
    } else if s.up[0].Err? {
      ErrStep(s);
      s1 := FlushCache(s.(up := s.up[1..])).(error := Some(s.up[0].error), finished := true);
    } else {
      OkStep(s);
      s1 := PullOk(s, s.up[0].value);
    }
  }
}

module ReplaceFacts {
  import opened Base
  import Pull
  import opened Replace

  /** A state of the constructor's preloading loop. */
  ghost predicate Preloading<T>(s: State<T>)
  {
    |s.out| == 0 && !s.emitted && 0 < |s.query| && |s.cache| < |s.query| && (s.finished <==> s.error.Some?)
  }

  /** What the iterator owes once preloading from `s` is over. */
  function PreloadOutcome<T(==)>(s: State<T>): seq<Res<T>>
    requires 0 < |s.query| && |s.cache| < |s.query|
  {
    match PreloadErr(s.up, |s.query| - |s.cache|, s.error)
    case Some(e) => [Err(e)]
    case None =>
      if |s.cache| + |OkPrefix(s.up)| < |s.query| then []
      else Oks(ReplaceAll(s.cache + OkPrefix(s.up), s.query, s.sub)) + ErrItem(FirstErr(s.up))
  }

  lemma {:induction false} PreloadRest<T>(s: State<T>)
    requires Preloading(s)
    ensures Inv(Preload(s)) && Rest(Preload(s)) == PreloadOutcome(s)
    decreases |s.up|
  {
    if |s.up| > 0 {
      match s.up[0]
      case Ok(v) =>
        assert OkPrefix(s.up) == [v] + OkPrefix(s.up[1..]);
        assert FirstErr(s.up) == FirstErr(s.up[1..]);
        assert s.cache + OkPrefix(s.up) == (s.cache + [v]) + OkPrefix(s.up[1..]);
        if |s.cache| + 1 != |s.query| {
          PreloadRest(s.(cache := s.cache + [v], up := s.up[1..]));
        }
      case Err(e) =>
        PreloadRest(s.(up := s.up[1..], finished := true, error := Some(e)));
        PreloadErrKeeps(s.up[1..], |s.query| - |s.cache|, Some(e));
    }
  }

  lemma {:induction false} PreloadErrKeeps<T>(xs: seq<Res<T>>, need: nat, acc: Option<Error>)
    requires acc.Some?
    ensures PreloadErr(xs, need, acc).Some?
    decreases |xs|
  {
    if need > 0 && |xs| > 0 {
      if xs[0].Ok? {
        if need != 1 {
          PreloadErrKeeps(xs[1..], need - 1, acc);
        }
      } else {
        PreloadErrKeeps(xs[1..], need, Some(xs[0].error));
      }
    }
  }

  /** The answers of `next()` are exactly `Output`, then `None` forever. */
  lemma Behaviour<T>(xs: seq<Res<T>>, q: seq<T>, sub: seq<T>, k: nat)
    ensures Pull.Run(Next, Replace.Replace(xs, q, sub), k) == Pull.Observe(Output(xs, q, sub), None, k)
  {
    forall s: State<T> | Inv(s) ensures Pull.Advances(Next, Inv, Rest, TailOf, s) {
      LoopAdvances(s);
    }
    if |q| > 0 {
      PreloadRest(State([], [], xs, false, q, sub, None, false));
      assert [] + OkPrefix(xs) == OkPrefix(xs);
    }
    Pull.RunObserves(Next, Inv, Rest, TailOf, Replace.Replace(xs, q, sub), k);
  }

  /** Every call preserves the bound on the cache: it never holds more than
      `|query|` values. */
  lemma CacheBound<T>(s: State<T>)
    requires Inv(s)
    ensures |Next(s).state.cache| <= |s.query| && Next(s).state.query == s.query
  {
    LoopAdvances(s);
  }

  lemma {:induction false} PreloadErrAllOk<T>(xs: seq<Res<T>>, need: nat)
    requires AllOk(xs)
    ensures PreloadErr(xs, need, None) == None
    decreases |xs|
  {
    if need > 0 && |xs| > 0 && need != 1 {
      PreloadErrAllOk(xs[1..], need - 1);
    }
  }

  /** On error-free input at least as long as the query, the output is the
      replaced input. */
  lemma OutputAllOk<T>(xs: seq<T>, q: seq<T>, sub: seq<T>)
    requires 0 < |q| <= |xs|
    ensures Output(Oks(xs), q, sub) == Oks(ReplaceAll(xs, q, sub))
  {
    PreloadErrAllOk(Oks(xs), |q|);
    OkPrefixOfAllOk(Oks(xs));
    assert Values(Oks(xs)) == xs;
  }

  /** Upstream shorter than the query: the preloaded values are never emitted. */
  lemma ShortInputLost<T>(xs: seq<T>, q: seq<T>, sub: seq<T>)
    requires |xs| < |q|
    ensures Output(Oks(xs), q, sub) == []
  {
    PreloadErrAllOk(Oks(xs), |q|);
    OkPrefixOfAllOk(Oks(xs));
    assert Values(Oks(xs)) == xs;
  }

  /** Only the last item can be an error, so an error is delivered at most
      once and after every value before it. */
  lemma ErrorLast<T>(xs: seq<Res<T>>, q: seq<T>, sub: seq<T>)
    ensures forall i :: 0 <= i < |Output(xs, q, sub)| - 1 ==> Output(xs, q, sub)[i].Ok?
  {
  }

  /** An upstream error after the preload window follows all replaced values. */
  lemma ErrorAfterValues<T>(xs: seq<T>, e: Error, q: seq<T>, sub: seq<T>)
    requires 0 < |q| <= |xs|
    ensures Output(Oks(xs) + [Err(e)], q, sub) == Oks(ReplaceAll(xs, q, sub)) + [Err(e)]
  {
    var ys := Oks(xs) + [Err(e)];
    PreloadErrWindow(xs, e, |q|);
    OkPrefixThenErr(xs, e);
  }

  lemma {:induction false} PreloadErrWindow<T>(xs: seq<T>, e: Error, need: nat)
    requires need <= |xs|
    ensures PreloadErr(Oks(xs) + [Err(e)], need, None) == None
    decreases |xs|
  {
    if need > 1 {
      assert (Oks(xs) + [Err(e)])[1..] == Oks(xs[1..]) + [Err(e)];
      PreloadErrWindow(xs[1..], e, need - 1);
    }
  }

  lemma {:induction false} OkPrefixThenErr<T>(xs: seq<T>, e: Error)
    ensures OkPrefix(Oks(xs) + [Err(e)]) == xs && FirstErr(Oks(xs) + [Err(e)]) == Some(e)
    decreases |xs|
  {
    if |xs| > 0 {
      assert (Oks(xs) + [Err(e)])[1..] == Oks(xs[1..]) + [Err(e)];
      OkPrefixThenErr(xs[1..], e);
      assert xs == [xs[0]] + xs[1..];
    }
  }

  /** Replacing the query by itself changes nothing. */
  lemma {:induction false} ReplaceByItself<T>(xs: seq<T>, q: seq<T>)
    requires |q| > 0
    ensures ReplaceAll(xs, q, q) == xs
    decreases |xs|
  {
    if |xs| >= |q| && xs[..|q|] == q {
      ReplaceByItself(xs[|q|..], q);
      assert xs == xs[..|q|] + xs[|q|..];
    } else if |xs| > 0 {
      ReplaceByItself(xs[1..], q);
      assert xs == [xs[0]] + xs[1..];
    }
  }

  /** `q` occurs in `xs` at offset `i`. */
  predicate OccursAt<T(==)>(xs: seq<T>, q: seq<T>, i: nat)
  {
    i + |q| <= |xs| && xs[i..i + |q|] == q
  }

  /** Without an occurrence of the query the values pass unchanged. */
  lemma {:induction false} ReplaceNoOccurrence<T>(xs: seq<T>, q: seq<T>, sub: seq<T>)
    requires |q| > 0
    requires forall i: nat :: !OccursAt(xs, q, i)
    ensures ReplaceAll(xs, q, sub) == xs
    decreases |xs|
  {
    if |xs| > 0 {
      assert !OccursAt(xs, q, 0);
      assert |xs| >= |q| ==> xs[..|q|] == xs[0..0 + |q|];
      forall i: nat ensures !OccursAt(xs[1..], q, i) {
        assert !OccursAt(xs, q, i + 1);
        if i + |q| <= |xs[1..]| {
          assert xs[1..][i..i + |q|] == xs[i + 1..i + 1 + |q|];
        }
      }
      ReplaceNoOccurrence(xs[1..], q, sub);
      assert xs == [xs[0]] + xs[1..];
    }
  }

  /** After a match the search restarts behind it, so matches never overlap. */
  lemma ReplaceRestartsAfterMatch<T>(xs: seq<T>, q: seq<T>, sub: seq<T>)
    requires |q| > 0
    ensures ReplaceAll(q + xs, q, sub) == sub + ReplaceAll(xs, q, sub)
  {
    assert (q + xs)[..|q|] == q && (q + xs)[|q|..] == xs;
  }

  /** Five ones with query 1,1,1 give 3,4,1,1: the second match would
      overlap the first, so it is not taken. */
  lemma ExampleOverlap()
    ensures Output(Oks([1, 1, 1, 1, 1]), [1, 1, 1], [3, 4]) == Oks([3, 4, 1, 1])
  {
    var q: seq<int> := [1, 1, 1];
    OutputAllOk([1, 1, 1, 1, 1], q, [3, 4]);
    assert [1, 1, 1, 1, 1] == q + [1, 1];
    ReplaceRestartsAfterMatch([1, 1], q, [3, 4]);
    ReplaceAllShort([1, 1], q, [3, 4]);
  }

  lemma ExampleMiddle()
    ensures Output(Oks([0, 1, 2, 5, 0, 1, 2, 5]), [1, 2, 5], [3, 4]) == Oks([0, 3, 4, 0, 3, 4])
  {
    var q: seq<int> := [1, 2, 5];
    var sub: seq<int> := [3, 4];
    var xs: seq<int> := [0, 1, 2, 5, 0, 1, 2, 5];
    var h: seq<int> := [0, 1, 2, 5];
    OutputAllOk(xs, q, sub);
    MiddleHalf(h, q, sub);
    ReplaceRestartsAfterMatch(h, q, sub);
    assert xs[..3] != q && xs[1..] == q + h;
    assert ReplaceAll(xs, q, sub) == [0] + (sub + [0, 3, 4]);
    assert [0] + (sub + [0, 3, 4]) == [0, 3, 4, 0, 3, 4];
  }

  /** The second half of `ExampleMiddle`: 0 1 2 5 gives 0 3 4. */
  lemma MiddleHalf(h: seq<int>, q: seq<int>, sub: seq<int>)
    requires h == [0, 1, 2, 5] && q == [1, 2, 5] && sub == [3, 4]
    ensures ReplaceAll(h, q, sub) == [0, 3, 4]
  {
    ReplaceRestartsAfterMatch([], q, sub);
    assert q + [] == q;
    assert h[..3] != q && h[1..] == q + [];
    assert ReplaceAll(h, q, sub) == [0] + sub;
  }

  lemma ExampleFront()
    ensures Output(Oks([0, 1, 2, 5, 0, 1, 2, 5]), [0, 1, 2], [3, 4]) == Oks([3, 4, 5, 3, 4, 5])
  {
    var q: seq<int> := [0, 1, 2];
    var sub: seq<int> := [3, 4];
    var xs: seq<int> := [0, 1, 2, 5, 0, 1, 2, 5];
    var h: seq<int> := [5, 0, 1, 2, 5];
    OutputAllOk(xs, q, sub);
    FrontHalf(h, q, sub);
    ReplaceRestartsAfterMatch(h, q, sub);
    assert xs == q + h;
    assert sub + [5, 3, 4, 5] == [3, 4, 5, 3, 4, 5];
  }

  /** The second half of `ExampleFront`: 5 0 1 2 5 gives 5 3 4 5. */
  lemma FrontHalf(h: seq<int>, q: seq<int>, sub: seq<int>)
    requires h == [5, 0, 1, 2, 5] && q == [0, 1, 2] && sub == [3, 4]
    ensures ReplaceAll(h, q, sub) == [5, 3, 4, 5]
  {
    ReplaceRestartsAfterMatch([5], q, sub);
    ReplaceAllShort([5], q, sub);
    assert h[..3] != q && h[1..] == q + [5];
    assert ReplaceAll(h, q, sub) == [5] + sub + [5];
  }

  /** As written, an empty query reports its ValueError and then delivers the
      substitute again and again instead of ending. */
  lemma EmptyQueryAsWritten<T>(xs: seq<Res<T>>, v: T)
    ensures Pull.Run(Next, ReplaceAsWritten(xs, [], [v]), 3) == [Some(Err(EmptyQuery)), Some(Ok(v)), Some(Ok(v))]
  {
    var s0 := ReplaceAsWritten(xs, [], [v]);
    var s1 := Next(s0).state;
    assert Next(s0).out == Some(Err(EmptyQuery));
    assert Loop(s1) == Loop(FlushSub(s1));
    var s2 := Next(s1).state;
    assert Next(s1).out == Some(Ok(v));
    assert s2 == s1;
  }

  /** Corrected: an empty query reports its ValueError once, then `None` forever. */
  lemma EmptyQueryFinishes<T>(xs: seq<Res<T>>, sub: seq<T>, k: nat)
    ensures Pull.Run(Next, Replace.Replace(xs, [], sub), k) == Pull.Observe([Err(EmptyQuery)], None, k)
  {
    Behaviour(xs, [], sub, k);
  }
}

=== FILE: rlocate.dfy ===
/** `rlocate`: the start offsets of every occurrence of a query, overlapping
    ones included, from the last to the first. A query longer than the array
    is an error on every call. */
module Rlocate {
  import opened Base
  import Pull
  import L = Locate

  /** The iterator state. `offset` is the next start to examine; `-1` stands
      for the unsigned index wrapping below 0 in a release build, which
      ends the search; a debug build panics there. */
  datatype State<T> = State(items: seq<T>, query: seq<T>, offset: int, overflow: bool)

  /** The first start is `len(array) - len(query)`; a negative difference is
      the subtraction's overflow. */
  function Init<T>(items: seq<T>, query: seq<T>): State<T>
  {
    State(items, query, |items| - |query|, |query| > |items|)
  }

  const OffsetOverflow := AnyError(OverflowError, "offset overflow.")

  /** One call of `next()`: the overflow error, not latched; otherwise step
      the start down to the next occurrence. */
  function Next<T(==)>(s: State<T>): Pull.Step<State<T>, Res<nat>>
    decreases if s.offset < 0 then 0 else s.offset + 1
  {
    if s.overflow then Pull.Step(s, Some(Err(OffsetOverflow)))
    else if s.offset < 0 then Pull.Step(s, None)
    else if s.offset + |s.query| <= |s.items| && s.items[s.offset..s.offset + |s.query|] == s.query then
      Pull.Step(s.(offset := s.offset - 1), Some(Ok(s.offset as nat)))
    else Next(s.(offset := s.offset - 1))
  }

  /** Every item of the output: the occurrences found by `locate`, last
      first. */
  function Output<T(==)>(items: seq<T>, query: seq<T>): seq<Res<nat>>
  {
    if |query| > |items| then [] else Oks(Positions(items, query))
  }

  /** The occurrences, last first. */
  function Positions<T(==)>(items: seq<T>, query: seq<T>): seq<nat>
  {
    Reverse(L.Output(items, query, |query|))
  }

  function Tail<T>(items: seq<T>, query: seq<T>): Option<Res<nat>>
  {
    if |query| > |items| then Some(Err(OffsetOverflow)) else None
  }

  ghost predicate Inv<T>(s: State<T>)
  {
    !s.overflow ==> -1 <= s.offset && s.offset + |s.query| <= |s.items|
  }

  function Rest<T(==)>(s: State<T>): seq<Res<nat>>
  {
    if s.overflow || s.offset < 0 then [] else Oks(Reverse(L.Window(s.items, s.query, 0, s.offset + 1)))
  }

  function TailOf<T>(s: State<T>): Option<Res<nat>>
  {
    if s.overflow then Some(Err(OffsetOverflow)) else None
  }

  lemma ReverseAppend<T>(a: seq<T>, b: seq<T>)
    ensures Reverse(a + b) == Reverse(b) + Reverse(a)
  {
  }

  lemma {:induction false} NextAdvances<T>(s: State<T>)
    requires Inv(s)
    ensures Pull.Advances(Next, Inv, Rest, TailOf, s)
    decreases if s.offset < 0 then 0 else s.offset + 1
  {
    if !s.overflow && s.offset >= 0 {
      RestStep(s);
      var o := s.offset as nat;
      if s.items[o..o + |s.query|] != s.query {
        var s1 := s.(offset := s.offset - 1);
        NextAdvances(s1);
        Pull.AdvancesTransfer(Next, Inv, Rest, TailOf, s, s1);
      }
    }
  }

  /** The start examined now is owed first when it is an occurrence; the
      starts below it are owed after it. */
  lemma RestStep<T>(s: State<T>)
    requires Inv(s) && !s.overflow && s.offset >= 0
    ensures var o := s.offset as nat;
      Rest(s) == (if s.items[o..o + |s.query|] == s.query then [Ok(o)] else []) + Rest(s.(offset := s.offset - 1))
  {
    var o := s.offset as nat;
    var w := L.Window(s.items, s.query, 0, o);
    var here: seq<nat> := if s.items[o..o + |s.query|] == s.query then [o] else [];
    assert L.Window(s.items, s.query, 0, o + 1) == w + here;
    ReverseAppend(w, here);
    if o == 0 {
      assert w == [];
    }
    OksAppend(here, Reverse(w));
  }

  /** The answers are the occurrences from the last to the first, then
      `None` forever; a query longer than the array is an OverflowError on
      every call. */
  lemma Behaviour<T>(items: seq<T>, query: seq<T>, m: nat)
    ensures Pull.Run(Next, Init(items, query), m) == Pull.Observe(Output(items, query), Tail(items, query), m)
  {
    forall s: State<T> | Inv(s) ensures Pull.Advances(Next, Inv, Rest, TailOf, s) {
      NextAdvances(s);
    }
    Pull.RunObserves(Next, Inv, Rest, TailOf, Init(items, query), m);
  }

  /** Every delivered offset is an occurrence, every occurrence is
      delivered, and the offsets strictly decrease. */
  lemma PositionsExact<T>(items: seq<T>, query: seq<T>)
    ensures forall o :: o in Positions(items, query) <==> L.At(items, query, o)
    ensures forall i, j :: 0 <= i < j < |Positions(items, query)| ==> Positions(items, query)[i] > Positions(items, query)[j]
  {
    var f := L.Output(items, query, |query|);
    L.OutputExact(items, query);
    ReverseMembers(f);
  }

  lemma ReverseMembers<T>(xs: seq<T>)
    ensures forall x :: x in Reverse(xs) <==> x in xs
  {
    forall x ensures x in Reverse(xs) <==> x in xs {
      if x in xs {
        var i :| 0 <= i < |xs| && xs[i] == x;
        assert Reverse(xs)[|xs| - 1 - i] == x;
      }
    }
  }

  /** The library's examples. */
  lemma Examples(a: seq<int>)
    requires a == [1, 1, 1, 1, 1]
    ensures Output(a, [1, 1, 1]) == [Ok(2), Ok(1), Ok(0)]
    ensures Output(a, [1]) == [Ok(4), Ok(3), Ok(2), Ok(1), Ok(0)]
    ensures Tail([0, 1], [1, 2, 3]) == Some(Err(OffsetOverflow))
  {
    L.Examples(a);
  }

  lemma ExampleRepeated(b: seq<int>)
    requires b == [0, 1, 2, 3, 0, 1, 2, 3, 0, 1, 2, 3]
    ensures Output(b, [1, 2, 3]) == [Ok(9), Ok(5), Ok(1)]
  {
    var q := [1, 2, 3];
    assert b[1..4] == q && b[5..8] == q && b[9..12] == q;
    RepeatedWindow(b, q);
    assert Positions(b, q) == [9, 5, 1];
  }

  lemma RepeatedWindow(b: seq<int>, q: seq<int>)
    requires |b| == 12 && q == [1, 2, 3]
    requires b[0] != 1 && b[2] != 1 && b[3] != 1 && b[4] != 1 && b[6] != 1 && b[7] != 1 && b[8] != 1
    requires b[1..4] == q && b[5..8] == q && b[9..12] == q
    ensures L.Window(b, q, 0, 10) == [1, 5, 9]
  {
    Skip(b, q, 1);
    Hit(b, q, 2);
    Skip(b, q, 3);
    Skip(b, q, 4);
    Skip(b, q, 5);
    Hit(b, q, 6);
    Skip(b, q, 7);
    Skip(b, q, 8);
    Skip(b, q, 9);
    Hit(b, q, 10);
  }

  lemma Skip(b: seq<int>, q: seq<int>, hi: nat)
    requires 0 < hi && |q| > 0 && hi - 1 < |b| && b[hi - 1] != q[0]
    ensures L.Window(b, q, 0, hi) == L.Window(b, q, 0, hi - 1)
  {
    if hi - 1 + |q| <= |b| {
      assert b[hi - 1..hi - 1 + |q|][0] != q[0];
    }
  }

  lemma Hit(b: seq<int>, q: seq<int>, hi: nat)
    requires 0 < hi && hi - 1 + |q| <= |b| && b[hi - 1..hi - 1 + |q|] == q
    ensures L.Window(b, q, 0, hi) == L.Window(b, q, 0, hi - 1) + [hi - 1]
  {
  }
}

=== FILE: selecting.dfy ===
/** The eager selectors: `take`, `spy`, `first`, `only`, `one`,
    `strictly_n`, `last` and `nth_or_last`. Each reads its input through
    `next()`; the number of pulls is returned where the library bounds it. */
module Selecting {
  import opened Base

  const FirstEmpty := ValueErr("first() was called on an empty iterable, and no default value was provided.")
  const OnlyShort := ValueErr("too short and default is None")
  const TooShort := ValueErr("too short")
  const TooLong := ValueErr("too long")
  const ZeroN := ValueErr("n should not be 0")
  const MaxN := ValueErr("n should not be usize::MAX")
  const LastEmpty := ValueErr("[last:empty iterable, and no default]")
  const NthOrLastEmpty := ValueErr("nth_or_last() was called on an empty iterable, and no default was provided.")

  /** `take(it, n)`: pull up to `n` items, stopping at the first `None`.
      `pulls` counts the calls of `next()`. */
  method Take<T>(xs: seq<T>, n: nat) returns (r: seq<T>, pulls: nat)
    ensures r == xs[..Min(n, |xs|)]
    ensures pulls == Min(n, |xs| + 1)
  {
    r := [];
    pulls := 0;
    var i := 0;
    while i < n
      invariant i <= n && i <= |xs| && r == xs[..i] && pulls == i
      decreases n - i
    {
      pulls := pulls + 1;
      if i >= |xs| {
        return;
      }
      r := r + [xs[i]];
      i := i + 1;
    }
  }

  /** `spy(iterable, n)`: the first `min(n, L)` items, always `Some`. */
  method Spy<T>(xs: seq<T>, n: nat) returns (r: Option<seq<T>>, pulls: nat)
    ensures r.Some? && |r.value| == Min(n, |xs|)
    ensures r.value == xs[..|r.value|]
    ensures pulls <= n
  {
    var v;
    v, pulls := Take(xs, n);
    r := Some(v);
  }

  /** `first(iterable, default)`. */
  function First<T>(xs: seq<T>, default: Option<T>): (r: Res<T>)
    ensures |xs| > 0 ==> r == Ok(xs[0])
    ensures |xs| == 0 && default.Some? ==> r == Ok(default.value)
    ensures |xs| == 0 && default.None? ==> r == Err(FirstEmpty)
  {
    if |xs| > 0 then Ok(xs[0])
    else if default.Some? then Ok(default.value)
    else Err(FirstEmpty)
  }

  /** `first` pulls one item: what comes after it never matters, and once
      there is an item the default plays no part. */
  lemma FirstReadsOne<T>(xs: seq<T>, ys: seq<T>, d1: Option<T>, d2: Option<T>)
    requires |xs| > 0
    ensures First(xs + ys, d1) == First(xs[..1], d2)
  {
  }

  /** The library's examples: 2, 3, 4 and 1, 2, 3 answer their first item
      whatever the default; an empty input answers the default, or the
      "empty" error without one. */
  lemma FirstExamples()
    ensures First([2, 3, 4], Some(5)) == Ok(2)
    ensures First([], Some(5)) == Ok(5)
    ensures First<int>([], None).Err?
    ensures First([1, 2, 3], Some(0)) == Ok(1)
  {
  }

  /** `only(iterable, default)`: spies two items. One item is the answer,
      none gives the default, two or more are "too long" even with a default. */
  method Only<T>(xs: seq<T>, default: Option<T>) returns (r: Res<T>, pulls: nat)
    ensures |xs| == 1 ==> r == Ok(xs[0])
    ensures |xs| == 0 ==> r == (if default.Some? then Ok(default.value) else Err(OnlyShort))
    ensures |xs| >= 2 ==> r == Err(TooLong)
    ensures pulls <= 2
  {
    var s;
    s, pulls := Spy(xs, 2);
    // `spy` always answers `Some`, so its `None` arm is dead.
    if |s.value| > 1 {
      r := Err(TooLong);
    } else if |s.value| == 0 {
      r := if default.Some? then Ok(default.value) else Err(OnlyShort);
    } else {
      r := Ok(s.value[0]);
    }
  }

  /** `one(iterable)`: exactly one item, else "too short" or "too long". */
  method One<T>(xs: seq<T>) returns (r: Res<T>, pulls: nat)
    ensures |xs| == 1 ==> r == Ok(xs[0])
    ensures |xs| == 0 ==> r == Err(TooShort)
    ensures |xs| >= 2 ==> r == Err(TooLong)
    ensures pulls <= 2
  {
    var s;
    s, pulls := Spy(xs, 2);
    if |s.value| > 1 {
      r := Err(TooLong);
    } else if |s.value| == 0 {
      r := Err(TooShort);
    } else {
      r := Ok(s.value[0]);
    }
  }

  /** `strictly_n(iterable, n)`: all items when there are exactly `n`;
      `n` must be neither 0 nor `usize::MAX`. */
  method StrictlyN<T>(xs: seq<T>, n: nat) returns (r: Res<seq<T>>, pulls: nat)
    requires n <= USIZE_MAX
    ensures n == 0 ==> r == Err(ZeroN) && pulls == 0
    ensures n == USIZE_MAX ==> r == Err(MaxN) && pulls == 0
    ensures 0 < n < USIZE_MAX ==>
      r == (if |xs| == n then Ok(xs) else if |xs| < n then Err(TooShort) else Err(TooLong))
    ensures pulls <= n + 1
  {
    pulls := 0;
    if n == 0 {
      return Err(ZeroN), 0;
    }
    if n == USIZE_MAX {
      return Err(MaxN), 0;
    }
    var s;
    s, pulls := Spy(xs, n + 1);
    if |s.value| > n {
      r := Err(TooLong);
    } else if |s.value| < n {
      r := Err(TooShort);
    } else {
      assert xs[..|xs|] == xs;
      r := Ok(s.value);
    }
  }

  /** `last(iter, default)`: reads the whole input through a cache of the
      last item. The first upstream error is returned; otherwise the last
      item, or the default for an empty input. */
  method Last<T>(xs: seq<Res<T>>, default: Option<T>) returns (r: Res<T>)
    ensures FirstErr(xs).Some? ==> r == Err(FirstErr(xs).value)
    ensures FirstErr(xs).None? && |xs| > 0 ==> r == xs[|xs| - 1]
    ensures |xs| == 0 ==> r == (if default.Some? then Ok(default.value) else Err(LastEmpty))
  {
    var last: Option<Res<T>> := None;
    var i := 0;
    while i < |xs|
      invariant i <= |xs| && FirstErr(xs) == FirstErr(xs[i..])
      invariant last == (if i == 0 then None else Some(xs[i - 1]))
      invariant i > 0 ==> xs[i - 1].Ok?
      decreases |xs| - i
    {
      assert xs[i..][1..] == xs[i + 1..];
      if xs[i].Err? {
        return Err(xs[i].error);
      }
      last := Some(xs[i]);
      i := i + 1;
    }
    if last.None? {
      r := if default.Some? then Ok(default.value) else Err(LastEmpty);
    } else {
      r := last.value;
    }
  }

  /** `nth_or_last(iterable, n, default)`: the item at `n`, or the last item
      when there are fewer, or the default for an empty input. At most
      `n + 1` calls of `next()` are made. */
  method NthOrLast<T>(xs: seq<T>, n: nat, default: Option<T>) returns (r: Res<T>, pulls: nat)
    ensures n < |xs| ==> r == Ok(xs[n])
    ensures 0 < |xs| <= n ==> r == Ok(xs[|xs| - 1])
    ensures |xs| == 0 ==> r == (if default.Some? then Ok(default.value) else Err(NthOrLastEmpty))
    ensures pulls == Min(n, |xs|) + 1
  {
    var buf: seq<T> := [];
    var i := 0;
    var ret: Option<T> := if |xs| > 0 then Some(xs[0]) else None;
    pulls := 1;
    while true
      invariant i <= n && i <= |xs| && pulls == i + 1
      invariant ret == (if i < |xs| then Some(xs[i]) else None)
      invariant buf == (if i == 0 then [] else [xs[i - 1]])
      decreases |xs| - i
    {
      if i == n {
        if ret.Some? {
          return Ok(ret.value), pulls;
        }
        break;
      }
      if ret.None? {
        break;
      }
      buf := [ret.value];
      ret := if i + 1 < |xs| then Some(xs[i + 1]) else None;
      pulls := pulls + 1;
      i := i + 1;
    }
    if |buf| > 0 {
      r := Ok(buf[0]);
    } else {
      r := if default.Some? then Ok(default.value) else Err(NthOrLastEmpty);
    }
  }
}

=== FILE: sequence.dfy ===
/** `Sequence`: a read-only vector with indexed access, slicing and
    equality, built from a vector or by draining an iterator. */
module Sequence {
  import opened Base

  /** `get(index)`: the item at `index`, or `None` past the end. */
  function Get<T>(v: seq<T>, index: nat): (r: Option<T>)
    ensures r.Some? <==> index < |v|
    ensures r.Some? ==> r.value == v[index]
  {
    if index < |v| then Some(v[index]) else None
  }

  /** `len()`. */
  function Len<T>(v: seq<T>): nat
  {
    |v|
  }

  /** `slice(begin, end)`; the vector slice panics unless
      `begin <= end <= len`. */
  function Slice<T>(v: seq<T>, begin: nat, end: nat): (r: seq<T>)
    requires begin <= end <= |v|
    ensures Len(r) == end - begin
    ensures forall i :: 0 <= i < end - begin ==> Get(r, i) == Get(v, begin + i)
  {
    v[begin..end]
  }

  /** Reading through a slice: index `j` of `slice(begin, end)` is index
      `begin + j` of the vector while `j` is inside the slice, and `None`
      from its end on, even where the vector itself goes on. */
  lemma GetOfSlice<T>(v: seq<T>, begin: nat, end: nat, j: nat)
    requires begin <= end <= |v|
    ensures Get(Slice(v, begin, end), j) == if j < end - begin then Get(v, begin + j) else None
  {
  }

  /** Whether `b` is a prefix of `a` (`starts_with`), item by item. */
  predicate StartsWith<T(==)>(a: seq<T>, b: seq<T>)
  {
    |b| == 0 || (|a| > 0 && a[0] == b[0] && StartsWith(a[1..], b[1..]))
  }

  /** `are_seqs_equals`: equal lengths and the second a prefix of the first. */
  predicate AreSeqsEqual<T(==)>(a: seq<T>, b: seq<T>)
  {
    Len(a) == Len(b) && StartsWith(a, b)
  }

  /** `starts_with` holds exactly when `b` is a prefix of `a`. */
  lemma {:induction false} StartsWithPrefix<T>(a: seq<T>, b: seq<T>)
    ensures StartsWith(a, b) <==> |b| <= |a| && a[..|b|] == b
  {
    if |b| > 0 && |a| > 0 {
      StartsWithPrefix(a[1..], b[1..]);
      if |b| <= |a| && a[..|b|] == b {
        assert a[1..][..|b| - 1] == a[..|b|][1..];
      }
      if StartsWith(a, b) {
        assert a[..|b|] == [a[0]] + a[1..][..|b| - 1];
        assert b == [b[0]] + b[1..];
      }
    }
  }

  /** `are_seqs_equals` holds exactly when the sequences are equal: same
      length, same items. */
  lemma AreSeqsEqualExact<T>(a: seq<T>, b: seq<T>)
    ensures AreSeqsEqual(a, b) <==> a == b
  {
    StartsWithPrefix(a, b);
    assert a[..|a|] == a;
  }

  /** Adjacent slices join into the slice spanning both. */
  lemma SliceJoin<T>(v: seq<T>, b: nat, m: nat, e: nat)
    requires b <= m <= e <= |v|
    ensures Slice(v, b, m) + Slice(v, m, e) == Slice(v, b, e)
  {
  }

  /** `create_seq_from_iterator`: pull every item of the iterator into a
      vector. */
  method CreateFromIterator<T>(up: seq<T>) returns (v: seq<T>)
    ensures Len(v) == Len(up)
    ensures forall i :: 0 <= i < |up| ==> Get(v, i) == Some(up[i])
  {
    var rest := up;
    v := [];
    while |rest| > 0
      invariant v + rest == up
      decreases |rest|
    {
      v := v + [rest[0]];
      rest := rest[1..];
    }
  }

  /** The library's examples: 1, 2, 3 read back by index. */
  method Example() returns (v: seq<int>)
    ensures Len(v) == 3 && Get(v, 0) == Some(1) && Get(v, 1) == Some(2) && Get(v, 2) == Some(3)
  {
    v := CreateFromIterator([1, 2, 3]);
  }
}

=== FILE: sliced.dfy ===
/** `sliced`: groups of `n` consecutive items of a vector, read by index.
    The strict variant answers a short final group with a ValueError. */
module Sliced {
  import opened Base
  import Pull
  import Chunked

  /** The iterator state: the vector, the configuration and the read index. */
  datatype State<T> = State(buf: seq<T>, n: nat, strict: bool, cur: nat)

  function Init<T>(buf: seq<T>, n: nat, strict: bool): State<T>
  {
    State(buf, n, strict, 0)
  }

  const NotDivisible := ValueErr("vector.len is not divisible by n.")

  /** One call of `next()`: the items from `cur` up to `cur + n` (clipped to
      the vector), then `cur` moves on by `n`. */
  function Next<T>(s: State<T>): Pull.Step<State<T>, Res<seq<T>>>
  {
    if s.cur >= |s.buf| then Pull.Step(s, None)
    else
      var end := Min(s.cur + s.n, |s.buf|);
      var ret := s.buf[s.cur..end];
      var t := s.(cur := s.cur + s.n);
      if s.strict && |ret| < s.n then Pull.Step(t, Some(Err(NotDivisible)))
      else Pull.Step(t, Some(Ok(ret)))
  }

  /** Every item delivered for a vector `xs` and `n > 0`. */
  function Output<T>(xs: seq<T>, n: nat, strict: bool): seq<Res<seq<T>>>
    requires n > 0
  {
    var cs := Chunked.Chunks(xs, n);
    if strict && |xs| % n != 0 then Oks(cs[..|cs| - 1]) + [Err(NotDivisible)] else Oks(cs)
  }

  /** What every call answers once the items are delivered: with `n == 0`
      the index never moves, so a non-empty vector yields empty groups forever. */
  function Tail<T>(xs: seq<T>, n: nat): Option<Res<seq<T>>>
  {
    if n == 0 && |xs| > 0 then Some(Ok([])) else None
  }

  ghost predicate Inv<T>(s: State<T>) { true }

  function Rest<T>(s: State<T>): seq<Res<seq<T>>>
  {
    if s.cur >= |s.buf| || s.n == 0 then [] else Output(s.buf[s.cur..], s.n, s.strict)
  }

  function TailOf<T>(s: State<T>): Option<Res<seq<T>>>
  {
    if s.cur >= |s.buf| then None else Tail(s.buf[s.cur..], s.n)
  }

  lemma NextAdvances<T>(s: State<T>)
    ensures Pull.Advances(Next, Inv, Rest, TailOf, s)
  {
    if s.cur < |s.buf| && s.n == 0 {
      assert s.buf[s.cur..s.cur] == [];
    } else if s.cur < |s.buf| {
      var xs := s.buf[s.cur..];
      var n := s.n;
      var cs := Chunked.Chunks(xs, n);
      var short := s.strict && |xs| % n != 0;
      if |xs| > n {
        var tl := Chunked.Chunks(xs[n..], n);
        assert cs == [xs[..n]] + tl;
        assert s.buf[s.cur..s.cur + n] == xs[..n];
        assert s.buf[s.cur + n..] == xs[n..];
        DivStep(|xs| - n, n);
        if short {
          Chunked.LastChunk(xs[n..], n);
          assert cs[..|cs| - 1] == [xs[..n]] + tl[..|tl| - 1];
          assert Oks(cs[..|cs| - 1]) + [Err(NotDivisible)] == [Ok(xs[..n])] + (Oks(tl[..|tl| - 1]) + [Err(NotDivisible)]);
        } else {
          assert |xs[n..]| % n == |xs| % n;
          assert Oks(cs) == [Ok(xs[..n])] + Oks(tl);
        }
      } else {
        assert cs == [xs];
        assert s.buf[s.cur..|s.buf|] == xs;
        if |xs| == n {
          DivMod(n, n, 1, 0);
        } else {
          DivMod(|xs|, n, 0, |xs|);
        }
        if short {
          assert cs[..0] == [];
        }
      }
    }
  }

  /** For `n > 0` the answers are the groups (or the strict error) and then
      `None` forever; for `n == 0` a non-empty vector answers `Ok([])` forever. */
  lemma Behaviour<T>(xs: seq<T>, n: nat, strict: bool, m: nat)
    ensures n > 0 ==> Pull.Run(Next, Init(xs, n, strict), m) == Pull.Observe(Output(xs, n, strict), None, m)
    ensures n == 0 ==> Pull.Run(Next, Init(xs, n, strict), m) == Pull.Observe([], Tail(xs, 0), m)
  {
    forall s: State<T> | Inv(s) ensures Pull.Advances(Next, Inv, Rest, TailOf, s) {
      NextAdvances(s);
    }
    assert xs[0..] == xs;
    Pull.RunObserves(Next, Inv, Rest, TailOf, Init(xs, n, strict), m);
  }

  /** The groups are those of `chunked`: plain mode delivers them all and
      they concatenate back to the vector. */
  lemma PlainOutput<T>(xs: seq<T>, n: nat)
    requires n > 0
    ensures Output(xs, n, false) == Oks(Chunked.Chunks(xs, n))
    ensures Flatten(Chunked.Chunks(xs, n)) == xs
  {
    Chunked.ChunksFlatten(xs, n);
  }

  /** Strict mode: an error appears exactly when `n` does not divide the
      length, only as the last item; every `Ok` group has `n` items and the
      `Ok` groups concatenate to the longest prefix whose length `n` divides. */
  lemma StrictOutput<T>(xs: seq<T>, n: nat)
    requires n > 0
    ensures var r := Output(xs, n, true);
      (forall i :: 0 <= i < |r| && r[i].Ok? ==> |r[i].value| == n) &&
      (forall i :: 0 <= i < |r| - 1 ==> r[i].Ok?) &&
      (|r| > 0 && r[|r| - 1].Err? <==> |xs| % n != 0)
  {
    Chunked.ChunksShape(xs, n);
    if |xs| > 0 {
      Chunked.LastChunk(xs, n);
    } else {
      DivMod(0, n, 0, 0);
    }
  }

  /** The library's examples. */
  lemma Examples()
    ensures Output([1, 2, 3, 4, 5, 6, 7, 8, 9, 10], 3, false) == [Ok([1, 2, 3]), Ok([4, 5, 6]), Ok([7, 8, 9]), Ok([10])]
    ensures Output([1, 2, 3, 4, 5, 6, 7, 8, 9, 10, 11], 3, true) == [Ok([1, 2, 3]), Ok([4, 5, 6]), Ok([7, 8, 9]), Err(NotDivisible)]
  {
    ExampleCase([1, 2, 3, 4, 5, 6, 7, 8, 9, 10], [1, 2, 3, 4, 5, 6, 7, 8, 9, 10, 11]);
  }

  lemma ExampleCase(a: seq<int>, b: seq<int>)
    requires a == [1, 2, 3, 4, 5, 6, 7, 8, 9, 10] && b == a + [11]
    ensures Output(a, 3, false) == [Ok([1, 2, 3]), Ok([4, 5, 6]), Ok([7, 8, 9]), Ok([10])]
    ensures Output(b, 3, true) == [Ok([1, 2, 3]), Ok([4, 5, 6]), Ok([7, 8, 9]), Err(NotDivisible)]
  {
    assert a[..3] == [1, 2, 3] && a[3..][..3] == [4, 5, 6] && a[3..][3..][..3] == [7, 8, 9] && a[3..][3..][3..] == [10];
    assert Chunked.Chunks(a[3..][3..][3..], 3) == [[10]];
    assert Chunked.Chunks(a[3..][3..], 3) == [[7, 8, 9], [10]];
    assert Chunked.Chunks(a[3..], 3) == [[4, 5, 6], [7, 8, 9], [10]];
    assert Chunked.Chunks(a, 3) == [[1, 2, 3], [4, 5, 6], [7, 8, 9], [10]];
    assert b[..3] == [1, 2, 3] && b[3..][..3] == [4, 5, 6] && b[3..][3..][..3] == [7, 8, 9] && b[3..][3..][3..] == [10, 11];
    assert Chunked.Chunks(b[3..][3..][3..], 3) == [[10, 11]];
    assert Chunked.Chunks(b[3..][3..], 3) == [[7, 8, 9], [10, 11]];
    assert Chunked.Chunks(b[3..], 3) == [[4, 5, 6], [7, 8, 9], [10, 11]];
    var cs := Chunked.Chunks(b, 3);
    assert cs == [[1, 2, 3], [4, 5, 6], [7, 8, 9], [10, 11]];
    assert cs[..3] == [[1, 2, 3], [4, 5, 6], [7, 8, 9]];
  }
}

=== FILE: sliding_window.dfy ===
/** `sliding_windowed`: windows of `n` consecutive items, one item apart,
    built on `windowed` with step 1. The crate hands its plain items to
    `windowed`, which expects `Result` items; the model wraps every item as
    `Ok`, so no upstream error can occur. */
module SlidingWindow {
  import opened Base
  import Pull
  import W = Windowed

  function Init<T>(xs: seq<T>, n: nat): W.State<T>
  {
    W.Init(Oks(xs), n, 1)
  }

  /** Reference definition: the slices of length `n` at every start. */
  function Slides<T>(xs: seq<T>, n: nat): (r: seq<seq<T>>)
    ensures |r| == if |xs| < n then 0 else |xs| - n + 1
  {
    if |xs| < n then [] else seq(|xs| - n + 1, i requires 0 <= i < |xs| - n + 1 => xs[i..i + n])
  }

  /** The answers are the slides, then `None` forever; `n == 0` is an error
      on every call. */
  lemma Behaviour<T>(xs: seq<T>, n: nat, m: nat)
    ensures n > 0 ==> Pull.Run(W.Next, Init(xs, n), m) == Pull.Observe(Oks(Slides(xs, n)), None, m)
    ensures n == 0 ==> Pull.Run(W.Next, Init(xs, n), m) == Pull.Observe([], Some(Err(W.ZeroN)), m)
  {
    W.Behaviour(Oks(xs), n, 1, m);
    OkPrefixOfAllOk(Oks(xs));
    assert Values(Oks(xs)) == xs;
    if n > 0 {
      W.StepOne(xs, n);
      assert W.Wins(xs, n, 1) == Slides(xs, n);
    }
  }

  /** The library's examples: windows of 4 over 0..=5, and none over 0..=2. */
  lemma Examples()
    ensures Slides([0, 1, 2, 3, 4, 5], 4) == [[0, 1, 2, 3], [1, 2, 3, 4], [2, 3, 4, 5]]
    ensures Slides([0, 1, 2], 4) == []
  {
    ExampleCase([0, 1, 2, 3, 4, 5]);
  }

  lemma ExampleCase(xs: seq<int>)
    requires xs == [0, 1, 2, 3, 4, 5]
    ensures Slides(xs, 4) == [[0, 1, 2, 3], [1, 2, 3, 4], [2, 3, 4, 5]]
  {
    assert xs[0..4] == [0, 1, 2, 3] && xs[1..5] == [1, 2, 3, 4] && xs[2..6] == [2, 3, 4, 5];
  }
}

=== FILE: sort_together.dfy ===
/** `sort_together2` / `sort_together3`: sort the first vector and reorder
    the others by the same permutation, so that rows stay together. */
module SortTogether {
  import opened Base

  /** Positions `0 .. n - 1`. */
  function Range(n: nat): (r: seq<nat>)
    ensures |r| == n && forall i :: 0 <= i < n ==> r[i] == i
  {
    seq(n, i => i)
  }

  /** Puts position `i` into the key-ordered positions `p`, after every
      position whose key is not greater. */
  function Insert(v: seq<int>, p: seq<nat>, i: nat): (r: seq<nat>)
    requires i < |v| && forall k :: 0 <= k < |p| ==> p[k] < |v|
    ensures |r| == |p| + 1 && forall k :: 0 <= k < |r| ==> r[k] < |v|
  {
    if |p| == 0 then [i]
    else if v[i] < v[p[0]] then [i] + p
    else [p[0]] + Insert(v, p[1..], i)
  }

  /** The positions `0 .. n - 1` ordered by key (`argsort` of the first `n`
      keys), built by insertion. */
  function ArgSort(v: seq<int>, n: nat): (r: seq<nat>)
    requires n <= |v|
    ensures |r| == n && forall k :: 0 <= k < |r| ==> r[k] < |v|
  {
    if n == 0 then [] else Insert(v, ArgSort(v, n - 1), n - 1)
  }

  /** The items of `w` at the positions `p`, in that order. */
  function Apply<T>(w: seq<T>, p: seq<nat>): (r: seq<T>)
    requires forall k :: 0 <= k < |p| ==> p[k] < |w|
    ensures |r| == |p|
  {
    seq(|p|, k requires 0 <= k < |p| => w[p[k]])
  }

  /** The order the vectors are rearranged by: ascending keys, or the same
      order backwards when `reverse` is set. */
  function Order(v1: seq<int>, reverse: bool): (p: seq<nat>)
    ensures |p| == |v1| && forall k :: 0 <= k < |p| ==> p[k] < |v1|
  {
    var p := ArgSort(v1, |v1|);
    if reverse then Reverse(p) else p
  }

  /** `sort_together2`: both vectors rearranged by the order of `v1`. The
      second vector needs at least `|v1|` items. */
  function SortTogether2<T>(v1: seq<int>, v2: seq<T>, reverse: bool): (r: (seq<int>, seq<T>))
    requires |v2| >= |v1|
    ensures |r.0| == |v1| && |r.1| == |v1|
  {
    var p := Order(v1, reverse);
    (Apply(v1, p), Apply(v2, p))
  }

  /** `sort_together3`: all three vectors rearranged by the order of `v1`. */
  function SortTogether3<T, U>(v1: seq<int>, v2: seq<T>, v3: seq<U>, reverse: bool): (r: (seq<int>, seq<T>, seq<U>))
    requires |v2| >= |v1| && |v3| >= |v1|
    ensures |r.0| == |v1| && |r.1| == |v1| && |r.2| == |v1|
  {
    var p := Order(v1, reverse);
    (Apply(v1, p), Apply(v2, p), Apply(v3, p))
  }

  /** Keys along `p` never decrease. */
  ghost predicate Ascending(v: seq<int>, p: seq<nat>)
    requires forall k :: 0 <= k < |p| ==> p[k] < |v|
  {
    forall a, b :: 0 <= a < b < |p| ==> v[p[a]] <= v[p[b]]
  }

  /** Insertion keeps the other positions and adds `i`. */
  lemma {:induction false} InsertMembers(v: seq<int>, p: seq<nat>, i: nat)
    requires i < |v| && forall k :: 0 <= k < |p| ==> p[k] < |v|
    ensures multiset(Insert(v, p, i)) == multiset(p) + multiset{i}
  {
    if |p| > 0 {
      assert p == [p[0]] + p[1..];
      if v[i] >= v[p[0]] {
        InsertMembers(v, p[1..], i);
      }
    }
  }

  /** Insertion keeps the keys ascending. */
  lemma {:induction false} InsertSorted(v: seq<int>, p: seq<nat>, i: nat)
    requires i < |v| && forall k :: 0 <= k < |p| ==> p[k] < |v|
    requires Ascending(v, p)
    ensures Ascending(v, Insert(v, p, i))
  {
    if |p| > 0 {
      var r := Insert(v, p, i);
      if v[i] >= v[p[0]] {
        var t := Insert(v, p[1..], i);
        InsertSorted(v, p[1..], i);
        InsertMembers(v, p[1..], i);
        forall b | 0 <= b < |t| ensures v[p[0]] <= v[t[b]] {
          AboveHead(v, p, t[b], i);
        }
        forall a, b | 0 <= a < b < |r| ensures v[r[a]] <= v[r[b]] {
          assert r[b] == t[b - 1];
          if a > 0 {
            assert r[a] == t[a - 1];
          }
        }
      } else {
        forall a, b | 0 <= a < b < |r| ensures v[r[a]] <= v[r[b]] {
          assert r[b] == p[b - 1];
          if a > 0 {
            assert r[a] == p[a - 1];
          } else {
            assert v[p[0]] <= v[p[b - 1]];
          }
        }
      }
    }
  }

  /** Every position in the rest of an ascending order, and the inserted one
      when its key is not below the head's, has a key at least the head's. */
  lemma AboveHead(v: seq<int>, p: seq<nat>, x: nat, i: nat)
    requires |p| > 0 && i < |v| && forall k :: 0 <= k < |p| ==> p[k] < |v|
    requires Ascending(v, p) && v[i] >= v[p[0]]
    requires x in multiset(p[1..]) + multiset{i}
    ensures x < |v| && v[p[0]] <= v[x]
  {
    if x != i {
      assert x in p[1..];
      var c :| 0 <= c < |p[1..]| && p[1..][c] == x;
      assert p[c + 1] == x;
    }
  }

  /** `argsort` orders the keys ascending and uses every position once. */
  lemma {:induction false} ArgSortCorrect(v: seq<int>, n: nat)
    requires n <= |v|
    ensures Ascending(v, ArgSort(v, n))
    ensures multiset(ArgSort(v, n)) == multiset(Range(n))
  {
    if n > 0 {
      ArgSortCorrect(v, n - 1);
      InsertSorted(v, ArgSort(v, n - 1), n - 1);
      InsertMembers(v, ArgSort(v, n - 1), n - 1);
      assert Range(n) == Range(n - 1) + [n - 1];
    }
  }

  /** Insertion puts `i` at one place and keeps the other positions in order. */
  lemma {:induction false} InsertSplit(v: seq<int>, p: seq<nat>, i: nat) returns (k: nat)
    requires i < |v| && forall k :: 0 <= k < |p| ==> p[k] < |v|
    ensures k <= |p| && Insert(v, p, i) == p[..k] + [i] + p[k..]
  {
    if |p| == 0 || v[i] < v[p[0]] {
      k := 0;
      assert p[..0] == [] && p[0..] == p;
    } else {
      var k1 := InsertSplit(v, p[1..], i);
      k := k1 + 1;
      assert p[..k] == [p[0]] + p[1..][..k1];
      assert p[k..] == p[1..][k1..];
    }
  }

  lemma ApplyConcat<T>(w: seq<T>, a: seq<nat>, b: seq<nat>)
    requires forall k :: 0 <= k < |a| ==> a[k] < |w|
    requires forall k :: 0 <= k < |b| ==> b[k] < |w|
    ensures Apply(w, a + b) == Apply(w, a) + Apply(w, b)
  {
  }

  /** Rearranging by an inserted position adds that position's item. */
  lemma ApplyInsert<T>(v: seq<int>, w: seq<T>, p: seq<nat>, i: nat)
    requires i < |v| <= |w| && forall k :: 0 <= k < |p| ==> p[k] < |v|
    ensures multiset(Apply(w, Insert(v, p, i))) == multiset(Apply(w, p)) + multiset{w[i]}
  {
    var k := InsertSplit(v, p, i);
    var a, b := p[..k], p[k..];
    assert p == a + b;
    ApplyConcat(w, a + [i], b);
    ApplyConcat(w, a, [i]);
    ApplyConcat(w, a, b);
    assert Apply(w, [i]) == [w[i]];
  }

  /** Rearranging the first `n` items of any vector by `argsort` keeps
      exactly those items. */
  lemma {:induction false} ApplyArgSort<T>(v: seq<int>, w: seq<T>, n: nat)
    requires n <= |v| <= |w|
    ensures multiset(Apply(w, ArgSort(v, n))) == multiset(w[..n])
  {
    if n > 0 {
      ApplyArgSort(v, w, n - 1);
      ApplyInsert(v, w, ArgSort(v, n - 1), n - 1);
      assert w[..n] == w[..n - 1] + [w[n - 1]];
    }
  }

  lemma {:induction false} ReverseMultiset<T>(x: seq<T>)
    ensures multiset(Reverse(x)) == multiset(x)
  {
    if |x| > 0 {
      ReverseMultiset(x[1..]);
      assert Reverse(x) == Reverse(x[1..]) + [x[0]];
      assert x == [x[0]] + x[1..];
    }
  }

  /** Rearranging by the reversed order is the rearranged vector reversed. */
  lemma ApplyReverse<T>(w: seq<T>, p: seq<nat>)
    requires forall k :: 0 <= k < |p| ==> p[k] < |w|
    ensures Apply(w, Reverse(p)) == Reverse(Apply(w, p))
  {
  }

  /** The rows of two vectors, side by side. */
  function Rows<T, U>(a: seq<T>, b: seq<U>): (r: seq<(T, U)>)
    requires |b| >= |a|
    ensures |r| == |a|
  {
    seq(|a|, k requires 0 <= k < |a| => (a[k], b[k]))
  }

  /** Whatever the direction, the order uses the positions of `v1` once each,
      and rearranging any vector by it keeps its first `|v1|` items. */
  lemma OrderKeeps<T>(v1: seq<int>, w: seq<T>, reverse: bool)
    requires |w| >= |v1|
    ensures multiset(Apply(w, Order(v1, reverse))) == multiset(w[..|v1|])
  {
    var p := ArgSort(v1, |v1|);
    ApplyArgSort(v1, w, |v1|);
    if reverse {
      ApplyReverse(w, p);
      ReverseMultiset(Apply(w, p));
    }
  }

  /** The keys rearranged by the order are ascending, or descending with `reverse`. */
  lemma OrderSorted(v1: seq<int>, reverse: bool)
    ensures var r := Apply(v1, Order(v1, reverse));
      forall a, b :: 0 <= a < b < |v1| ==> if reverse then r[a] >= r[b] else r[a] <= r[b]
  {
    var p := ArgSort(v1, |v1|);
    ArgSortCorrect(v1, |v1|);
    if reverse {
      Descending(v1, p);
    } else {
      var r := Apply(v1, p);
      assert forall a :: 0 <= a < |v1| ==> r[a] == v1[p[a]];
    }
  }

  /** Reading an ascending order backwards gives descending keys. */
  lemma Descending(v: seq<int>, p: seq<nat>)
    requires forall k :: 0 <= k < |p| ==> p[k] < |v|
    requires Ascending(v, p)
    ensures var r := Apply(v, Reverse(p));
      forall a, b :: 0 <= a < b < |p| ==> r[a] >= r[b]
  {
    var r := Apply(v, Reverse(p));
    forall a, b | 0 <= a < b < |p| ensures r[a] >= r[b] {
      assert r[a] == v[p[|p| - 1 - a]] && r[b] == v[p[|p| - 1 - b]];
    }
  }

  /** `sort_together2`: the first result is `v1` sorted ascending (descending
      with `reverse`), and the rows of the results are exactly the rows of
      the inputs: every pair `(v1[i], v2[i])` is kept together. */
  lemma SortTogether2Correct<T>(v1: seq<int>, v2: seq<T>, reverse: bool)
    requires |v2| >= |v1|
    ensures var r := SortTogether2(v1, v2, reverse);
      (forall a, b :: 0 <= a < b < |v1| ==> if reverse then r.0[a] >= r.0[b] else r.0[a] <= r.0[b]) &&
      multiset(Rows(r.0, r.1)) == multiset(Rows(v1, v2))
  {
    OrderSorted(v1, reverse);
    var rows := Rows(v1, v2);
    OrderKeeps(v1, rows, reverse);
    var r := SortTogether2(v1, v2, reverse);
    assert Rows(r.0, r.1) == Apply(rows, Order(v1, reverse));
    assert rows[..|v1|] == rows;
  }

  /** The rows of three vectors, side by side. */
  function Rows3<T, U, W>(a: seq<T>, b: seq<U>, c: seq<W>): (r: seq<(T, U, W)>)
    requires |b| >= |a| && |c| >= |a|
    ensures |r| == |a|
  {
    seq(|a|, k requires 0 <= k < |a| => (a[k], b[k], c[k]))
  }

  /** `sort_together3`: the first result is `v1` sorted, and the same
      permutation is applied to all three vectors, keeping each row
      `(v1[i], v2[i], v3[i])` together. */
  lemma SortTogether3Correct<T, U>(v1: seq<int>, v2: seq<T>, v3: seq<U>, reverse: bool)
    requires |v2| >= |v1| && |v3| >= |v1|
    ensures var r := SortTogether3(v1, v2, v3, reverse);
      (forall a, b :: 0 <= a < b < |v1| ==> if reverse then r.0[a] >= r.0[b] else r.0[a] <= r.0[b]) &&
      multiset(Rows3(r.0, r.1, r.2)) == multiset(Rows3(v1, v2, v3))
  {
    OrderSorted(v1, reverse);
    var rows := Rows3(v1, v2, v3);
    OrderKeeps(v1, rows, reverse);
    var r := SortTogether3(v1, v2, v3, reverse);
    assert Rows3(r.0, r.1, r.2) == Apply(rows, Order(v1, reverse));
    assert rows[..|v1|] == rows;
  }

  /** The library's examples: keys 4, 3, 2, 1 with letters a to d, and for
      `sort_together3` also with 5, 6, 7, 8 (ascending) or 8, 7, 6, 5
      (descending). */
  lemma Examples(v1: seq<int>, v2: seq<char>, v3: seq<int>, w3: seq<int>)
    requires v1 == [4, 3, 2, 1] && v2 == ['a', 'b', 'c', 'd']
    requires v3 == [5, 6, 7, 8] && w3 == [8, 7, 6, 5]
    ensures SortTogether2(v1, v2, false) == ([1, 2, 3, 4], ['d', 'c', 'b', 'a'])
    ensures SortTogether2(v1, v2, true) == ([4, 3, 2, 1], ['a', 'b', 'c', 'd'])
    ensures SortTogether3(v1, v2, v3, false) == ([1, 2, 3, 4], ['d', 'c', 'b', 'a'], [8, 7, 6, 5])
    ensures SortTogether3(v1, v2, w3, true) == ([4, 3, 2, 1], ['a', 'b', 'c', 'd'], [8, 7, 6, 5])
  {
    ExampleAscending(v1, v2, v3);
    ExampleDescending(v1, v2, w3);
  }

  /** The ascending cases: positions 3, 2, 1, 0. */
  lemma ExampleAscending(v1: seq<int>, v2: seq<char>, v3: seq<int>)
    requires v1 == [4, 3, 2, 1] && v2 == ['a', 'b', 'c', 'd'] && v3 == [5, 6, 7, 8]
    ensures SortTogether2(v1, v2, false) == ([1, 2, 3, 4], ['d', 'c', 'b', 'a'])
    ensures SortTogether3(v1, v2, v3, false) == ([1, 2, 3, 4], ['d', 'c', 'b', 'a'], [8, 7, 6, 5])
  {
    ExampleApply(v1, [3, 2, 1, 0], [1, 2, 3, 4]);
    ExampleApply(v2, [3, 2, 1, 0], ['d', 'c', 'b', 'a']);
    ExampleApply(v3, [3, 2, 1, 0], [8, 7, 6, 5]);
    ExampleOrder(v1);
    ExampleVia(v1, v2, v3, false, [3, 2, 1, 0], [1, 2, 3, 4], ['d', 'c', 'b', 'a'], [8, 7, 6, 5]);
  }

  /** The descending cases: positions 0, 1, 2, 3. */
  lemma ExampleDescending(v1: seq<int>, v2: seq<char>, w3: seq<int>)
    requires v1 == [4, 3, 2, 1] && v2 == ['a', 'b', 'c', 'd'] && w3 == [8, 7, 6, 5]
    ensures SortTogether2(v1, v2, true) == ([4, 3, 2, 1], ['a', 'b', 'c', 'd'])
    ensures SortTogether3(v1, v2, w3, true) == ([4, 3, 2, 1], ['a', 'b', 'c', 'd'], [8, 7, 6, 5])
  {
    ExampleApply(v1, [0, 1, 2, 3], [4, 3, 2, 1]);
    ExampleApply(v2, [0, 1, 2, 3], ['a', 'b', 'c', 'd']);
    ExampleApply(w3, [0, 1, 2, 3], [8, 7, 6, 5]);
    ExampleOrder(v1);
    ExampleVia(v1, v2, w3, true, [0, 1, 2, 3], [4, 3, 2, 1], ['a', 'b', 'c', 'd'], [8, 7, 6, 5]);
  }

  /** Both functions read every vector through the order of `v1`. */
  lemma ExampleVia<T, U>(v1: seq<int>, v2: seq<T>, v3: seq<U>, reverse: bool, p: seq<nat>, r1: seq<int>, r2: seq<T>, r3: seq<U>)
    requires |v2| >= |v1| && |v3| >= |v1| && Order(v1, reverse) == p
    requires Apply(v1, p) == r1 && Apply(v2, p) == r2 && Apply(v3, p) == r3
    ensures SortTogether2(v1, v2, reverse) == (r1, r2)
    ensures SortTogether3(v1, v2, v3, reverse) == (r1, r2, r3)
  {
  }

  /** Reading four items through a given order of four positions. */
  lemma ExampleApply<T>(v: seq<T>, p: seq<nat>, r: seq<T>)
    requires |v| == 4 && |p| == 4 && forall i :: 0 <= i < 4 ==> p[i] < 4
    requires |r| == 4 && forall i :: 0 <= i < 4 ==> r[i] == v[p[i]]
    ensures Apply(v, p) == r
  {
  }

  /** Keys 4, 3, 2, 1 are ordered by positions 3, 2, 1, 0. */
  lemma ExampleOrder(v1: seq<int>)
    requires v1 == [4, 3, 2, 1]
    ensures Order(v1, false) == [3, 2, 1, 0] && Order(v1, true) == [0, 1, 2, 3]
  {
    assert ArgSort(v1, 1) == [0];
    assert ArgSort(v1, 2) == [1, 0];
    assert ArgSort(v1, 3) == [2, 1, 0];
    assert ArgSort(v1, 4) == [3, 2, 1, 0];
    ExampleReverse([3, 2, 1, 0]);
  }

  /** Positions 3, 2, 1, 0 backwards. */
  lemma ExampleReverse(p: seq<nat>)
    requires p == [3, 2, 1, 0]
    ensures Reverse(p) == [0, 1, 2, 3]
  {
    var q := Reverse(p);
    assert q[0] == 0 && q[1] == 1 && q[2] == 2 && q[3] == 3;
  }
}

=== FILE: split_at.dfy ===
/** `split_at`: splits a stream of values at the values that satisfy `pred`,
    optionally keeping each separator as its own one-element group. A
    negative `maxsplit` allows any number of splits; `maxsplit == 0` emits
    the whole input as one group. */
module SplitAt {
  import opened Base
  import Pull

  /** An entry of the pending output list: a separator or a group. */
  datatype Piece<T> = Piece(isSep: bool, items: seq<T>)

  datatype State<!T> = State(buf: seq<Piece<T>>, up: seq<T>, pred: T -> bool, maxsplit: int,
                            keep: bool, splited: int, finished: bool)

  /** `split_at`: the output list starts with one empty group. */
  function Init<T>(xs: seq<T>, pred: T -> bool, maxsplit: int, keep: bool): State<T>
  {
    State([Piece(false, [])], xs, pred, maxsplit, keep, 0, false)
  }

  /** Appends `v` to the group at the back of the output list. */
  function AppendBack<T>(buf: seq<Piece<T>>, v: T): (r: seq<Piece<T>>)
    ensures |r| == |buf| && (|buf| > 0 ==> r[..|r| - 1] == buf[..|buf| - 1] && r[|r| - 1] == buf[|buf| - 1].(items := buf[|buf| - 1].items + [v]))
  {
    if |buf| == 0 then buf else buf[..|buf| - 1] + [buf[|buf| - 1].(items := buf[|buf| - 1].items + [v])]
  }

  /** May `v` be split at in state `s`? */
  predicate SplitsAt<T>(s: State<T>, v: T)
  {
    if s.maxsplit < 0 then s.pred(v) else s.splited < s.maxsplit && s.pred(v)
  }

  /** The first loop of `next()`: pull values into the back group until one
      is split at (queueing it and a fresh group) or the upstream ends. */
  function Fill<T>(s: State<T>): (t: State<T>)
    ensures t.pred == s.pred && t.maxsplit == s.maxsplit && t.keep == s.keep
    decreases |s.up|
  {
    if s.finished then s
    else if |s.up| == 0 then s.(finished := true)
    else
      var v := s.up[0];
      if SplitsAt(s, v) then
        s.(up := s.up[1..], buf := s.buf + [Piece(true, [v]), Piece(false, [])],
           splited := if s.maxsplit < 0 then s.splited else s.splited + 1)
      else Fill(s.(up := s.up[1..], buf := AppendBack(s.buf, v)))
  }

  /** The second loop of `next()`: pop the front entry, skipping separators
      unless they are kept. */
  function Drain<T>(s: State<T>): (t: Pull.Step<State<T>, seq<T>>)
    ensures t.state == s.(buf := t.state.buf) && |t.state.buf| <= |s.buf|
    decreases |s.buf|
  {
    if |s.buf| == 0 then Pull.Step(s, None)
    else if s.keep || !s.buf[0].isSep then Pull.Step(s.(buf := s.buf[1..]), Some(s.buf[0].items))
    else Drain(s.(buf := s.buf[1..]))
  }

  function Next<T>(s: State<T>): Pull.Step<State<T>, seq<T>>
  {
    if s.maxsplit == 0 then
      if s.finished then Pull.Step(s, None) else Pull.Step(s.(up := [], finished := true), Some(s.up))
    else Drain(Fill(s))
  }

  /** Reference definition: the groups of `cur + xs`, where `cur` is the group
      being collected and `left` splits remain (negative: any number). */
  function Groups<T>(cur: seq<T>, xs: seq<T>, pred: T -> bool, left: int, keep: bool): seq<seq<T>>
    decreases |xs|
  {
    if |xs| == 0 then [cur]
    else if left != 0 && pred(xs[0]) then
      [cur] + (if keep then [[xs[0]]] else []) + Groups([], xs[1..], pred, if left > 0 then left - 1 else left, keep)
    else Groups(cur + [xs[0]], xs[1..], pred, left, keep)
  }

  /** Every group the iterator delivers. */
  function Output<T>(xs: seq<T>, pred: T -> bool, maxsplit: int, keep: bool): seq<seq<T>>
  {
    Groups([], xs, pred, if maxsplit < 0 then -1 else maxsplit, keep)
  }

  // ---- the abstraction of a state ----

  /** The groups the entries of `buf` stand for. */
  function Render<T>(buf: seq<Piece<T>>, keep: bool): seq<seq<T>>
  {
    if |buf| == 0 then [] else (if keep || !buf[0].isSep then [buf[0].items] else []) + Render(buf[1..], keep)
  }

  /** Separators and groups alternate and a group comes last. */
  ghost predicate Alternating<T>(buf: seq<Piece<T>>)
  {
    (forall i :: 0 <= i < |buf| - 1 ==> buf[i].isSep != buf[i + 1].isSep) && (|buf| > 0 ==> !buf[|buf| - 1].isSep)
  }

  ghost predicate Inv<T>(s: State<T>)
  {
    (s.maxsplit >= 0 ==> 0 <= s.splited <= s.maxsplit) &&
    (s.maxsplit != 0 ==> Alternating(s.buf) && (!s.finished ==> |s.buf| > 0))
  }

  function Left<T>(s: State<T>): int
  {
    if s.maxsplit < 0 then -1 else s.maxsplit - s.splited
  }

  function Rest<T>(s: State<T>): seq<seq<T>>
  {
    if s.maxsplit == 0 then (if s.finished then [] else [s.up])
    else if s.finished || |s.buf| == 0 then Render(s.buf, s.keep)
    else Render(s.buf[..|s.buf| - 1], s.keep) + Groups(s.buf[|s.buf| - 1].items, s.up, s.pred, Left(s), s.keep)
  }

  function TailOf<T>(s: State<T>): Option<seq<T>> { None }

  lemma {:induction false} RenderAppend<T>(a: seq<Piece<T>>, b: seq<Piece<T>>, keep: bool)
    ensures Render(a + b, keep) == Render(a, keep) + Render(b, keep)
    decreases |a|
  {
    if |a| > 0 {
      assert (a + b)[1..] == a[1..] + b;
      RenderAppend(a[1..], b, keep);
    } else {
      assert a + b == b;
    }
  }

  /** Pieces that Fill may stand in front of: a state whose back group is
      still being collected. */
  ghost predicate Collecting<T>(s: State<T>)
  {
    Inv(s) && s.maxsplit != 0 && !s.finished
  }

  /** The upstream ends: the back group is complete. */
  lemma FillEnd<T>(s: State<T>)
    requires Collecting(s) && |s.up| == 0
    ensures Inv(Fill(s)) && Rest(Fill(s)) == Rest(s)
  {
    var b := s.buf[|s.buf| - 1];
    var pre := s.buf[..|s.buf| - 1];
    assert s.buf == pre + [b];
    RenderAppend(pre, [b], s.keep);
    assert Render([b], s.keep) == [b.items] + Render([], s.keep);
  }

  /** A split: the back group is complete and a separator and a fresh group
      are queued. */
  lemma FillSplit<T>(s: State<T>)
    requires Collecting(s) && |s.up| > 0 && SplitsAt(s, s.up[0])
    ensures var t := Fill(s); Inv(t) && Rest(t) == Rest(s) && !t.finished && |t.buf| >= 3
  {
    var v := s.up[0];
    var b := s.buf[|s.buf| - 1];
    var pre := s.buf[..|s.buf| - 1];
    var t := Fill(s);
    assert t.buf == s.buf + [Piece(true, [v]), Piece(false, [])];
    assert t.buf[..|t.buf| - 1] == pre + [b, Piece(true, [v])];
    RenderAppend(pre, [b, Piece(true, [v])], s.keep);
    assert Render([b, Piece(true, [v])], s.keep) == [b.items] + (if s.keep then [[v]] else []) by {
      assert [b, Piece(true, [v])][1..] == [Piece(true, [v])];
      assert Render([Piece(true, [v])], s.keep) == (if s.keep then [[v]] else []) + Render([], s.keep);
    }
    assert t.buf[|t.buf| - 1].items == [];
    assert Left(t) == if Left(s) > 0 then Left(s) - 1 else Left(s);
    assert Alternating(t.buf) by {
      assert forall i :: 0 <= i < |s.buf| ==> t.buf[i] == s.buf[i];
    }
  }

  /** No split: the value joins the back group. */
  lemma AppendStep<T>(s: State<T>) returns (s1: State<T>)
    requires Collecting(s) && |s.up| > 0 && !SplitsAt(s, s.up[0])
    ensures s1 == s.(up := s.up[1..], buf := AppendBack(s.buf, s.up[0]))
    ensures Collecting(s1) && Rest(s1) == Rest(s) && Fill(s1) == Fill(s)
  {
    var v := s.up[0];
    s1 := s.(up := s.up[1..], buf := AppendBack(s.buf, v));
    assert Alternating(s1.buf) by {
      assert forall i :: 0 <= i < |s1.buf| ==> s1.buf[i].isSep == s.buf[i].isSep;
    }
    assert Groups(s.buf[|s.buf| - 1].items, s.up, s.pred, Left(s), s.keep)
        == Groups(s1.buf[|s1.buf| - 1].items, s1.up, s.pred, Left(s), s.keep);
  }

  lemma {:induction false} FillRest<T>(s: State<T>)
    requires Collecting(s)
    ensures var t := Fill(s);
      Inv(t) && Rest(t) == Rest(s) && (!t.finished ==> |t.buf| >= 3)
    decreases |s.up|
  {
    if |s.up| == 0 {
      FillEnd(s);
    } else if SplitsAt(s, s.up[0]) {
      FillSplit(s);
    } else {
      var s1 := AppendStep(s);
      FillRest(s1);
    }
  }

  lemma {:induction false} DrainAdvances<T>(s: State<T>)
    requires Inv(s) && s.maxsplit != 0
    requires !s.finished ==> |s.buf| >= 3 || (|s.buf| == 2 && !s.buf[0].isSep)
    ensures Inv(Drain(s).state)
    ensures |Rest(s)| > 0 ==> Drain(s).out == Some(Rest(s)[0]) && Rest(Drain(s).state) == Rest(s)[1..]
    ensures |Rest(s)| == 0 ==> Drain(s).out == None && Rest(Drain(s).state) == []
    decreases |s.buf|
  {
    if |s.buf| > 0 {
      DropFront(s);
      if !(s.keep || !s.buf[0].isSep) {
        DrainAdvances(s.(buf := s.buf[1..]));
      }
    }
  }

  /** Popping the front entry owes what it stands for less: its group, or
      nothing for a separator that is not kept. */
  lemma DropFront<T>(s: State<T>)
    requires Inv(s) && s.maxsplit != 0 && |s.buf| > 0
    requires !s.finished ==> |s.buf| >= 3 || (|s.buf| == 2 && !s.buf[0].isSep)
    ensures var s1 := s.(buf := s.buf[1..]);
      Inv(s1) &&
      Rest(s) == (if s.keep || !s.buf[0].isSep then [s.buf[0].items] else []) + Rest(s1) &&
      (s.buf[0].isSep && !s.finished ==> |s1.buf| >= 3 || (|s1.buf| == 2 && !s1.buf[0].isSep))
  {
    var s1 := s.(buf := s.buf[1..]);
    assert Alternating(s1.buf) by {
      assert forall i :: 0 <= i < |s1.buf| ==> s1.buf[i] == s.buf[i + 1];
    }
    if !s.finished {
      assert s.buf[..|s.buf| - 1] == [s.buf[0]] + s1.buf[..|s1.buf| - 1];
      if s.buf[0].isSep {
        assert s.buf[1].isSep != s.buf[0].isSep;
      }
    }
  }

  lemma NextAdvances<T>(s: State<T>)
    requires Inv(s)
    ensures Pull.Advances(Next, Inv, Rest, TailOf, s)
  {
    if s.maxsplit != 0 {
      if s.finished {
        DrainAdvances(s);
      } else {
        FillRest(s);
        DrainAdvances(Fill(s));
      }
    }
  }

  /** The answers of `next()` are exactly the groups, then `None` forever. */
  lemma Behaviour<T>(xs: seq<T>, pred: T -> bool, maxsplit: int, keep: bool, k: nat)
    ensures Pull.Run(Next, Init(xs, pred, maxsplit, keep), k) == Pull.Observe(Output(xs, pred, maxsplit, keep), None, k)
  {
    forall s: State<T> | Inv(s) ensures Pull.Advances(Next, Inv, Rest, TailOf, s) {
      NextAdvances(s);
    }
    var s0 := Init(xs, pred, maxsplit, keep);
    if maxsplit == 0 {
      ZeroMaxsplit(xs, pred, keep);
    } else {
      assert s0.buf[..0] == [];
      assert Rest(s0) == Output(xs, pred, maxsplit, keep);
    }
    Pull.RunObserves(Next, Inv, Rest, TailOf, s0, k);
  }

  // ---- properties of the reference definition ----

  /** With no split left the rest is one group. */
  lemma {:induction false} NoBudget<T>(cur: seq<T>, xs: seq<T>, pred: T -> bool, keep: bool)
    ensures Groups(cur, xs, pred, 0, keep) == [cur + xs]
    decreases |xs|
  {
    if |xs| > 0 {
      assert Groups(cur, xs, pred, 0, keep) == Groups(cur + [xs[0]], xs[1..], pred, 0, keep);
      NoBudget(cur + [xs[0]], xs[1..], pred, keep);
      assert cur + [xs[0]] + xs[1..] == cur + xs;
    } else {
      assert cur + xs == cur;
    }
  }

  /** maxsplit == 0 emits the whole input as one group. */
  lemma ZeroMaxsplit<T>(xs: seq<T>, pred: T -> bool, keep: bool)
    ensures Output(xs, pred, 0, keep) == [xs]
  {
    NoBudget([], xs, pred, keep);
    assert [] + xs == xs;
  }

  /** Empty input yields exactly one empty group. */
  lemma EmptyInput<T>(pred: T -> bool, maxsplit: int, keep: bool)
    ensures Output([], pred, maxsplit, keep) == [[]]
  {
  }

  /** Keeping separators, the groups concatenate to the input. */
  lemma {:induction false} KeepFlatten<T>(cur: seq<T>, xs: seq<T>, pred: T -> bool, left: int)
    ensures Flatten(Groups(cur, xs, pred, left, true)) == cur + xs
    decreases |xs|
  {
    if |xs| == 0 {
      assert Flatten([cur]) == cur + Flatten([]);
    } else if left != 0 && pred(xs[0]) {
      var left' := if left > 0 then left - 1 else left;
      KeepFlatten([], xs[1..], pred, left');
      FlattenAppend([cur, [xs[0]]], Groups([], xs[1..], pred, left', true));
      assert Flatten([cur, [xs[0]]]) == cur + [xs[0]] by {
        assert Flatten([cur, [xs[0]]]) == cur + ([xs[0]] + Flatten([]));
      }
      assert Groups(cur, xs, pred, left, true) == [cur, [xs[0]]] + Groups([], xs[1..], pred, left', true);
      assert cur + [xs[0]] + ([] + xs[1..]) == cur + xs;
    } else {
      KeepFlatten(cur + [xs[0]], xs[1..], pred, left);
      assert cur + [xs[0]] + xs[1..] == cur + xs;
    }
  }

  /** The number of values of `xs` satisfying `pred`. */
  function CountIf<T>(xs: seq<T>, pred: T -> bool): nat
  {
    if |xs| == 0 then 0 else (if pred(xs[0]) then 1 else 0) + CountIf(xs[1..], pred)
  }

  /** The values of `xs` that do not satisfy `pred`, in order. */
  function Rejected<T>(xs: seq<T>, pred: T -> bool): seq<T>
  {
    if |xs| == 0 then [] else (if pred(xs[0]) then [] else [xs[0]]) + Rejected(xs[1..], pred)
  }

  /** Without separators there is one group more than splits were made:
      `min(matches, left)` of them, or every match when unlimited. */
  lemma {:induction false} GroupCount<T>(cur: seq<T>, xs: seq<T>, pred: T -> bool, left: int)
    ensures |Groups(cur, xs, pred, left, false)| == 1 + (if left < 0 then CountIf(xs, pred) else Min(CountIf(xs, pred), left))
    decreases |xs|
  {
    if |xs| > 0 {
      if left != 0 && pred(xs[0]) {
        GroupCount([], xs[1..], pred, if left > 0 then left - 1 else left);
      } else {
        GroupCount(cur + [xs[0]], xs[1..], pred, left);
      }
    }
  }

  /** Unlimited splitting without separators: no group holds a matching
      value, and together the groups hold exactly the non-matching values. */
  lemma UnlimitedRuns<T>(cur: seq<T>, xs: seq<T>, pred: T -> bool)
    requires forall i :: 0 <= i < |cur| ==> !pred(cur[i])
    ensures var g := Groups(cur, xs, pred, -1, false);
      (forall j, i :: 0 <= j < |g| && 0 <= i < |g[j]| ==> !pred(g[j][i])) &&
      Flatten(g) == cur + Rejected(xs, pred)
  {
    UnlimitedClean(cur, xs, pred);
    UnlimitedFlatten(cur, xs, pred);
  }

  /** No value of any group satisfies `pred`. */
  predicate Clean<T>(g: seq<seq<T>>, pred: T -> bool)
  {
    forall j, i :: 0 <= j < |g| && 0 <= i < |g[j]| ==> !pred(g[j][i])
  }

  lemma {:induction false} UnlimitedClean<T>(cur: seq<T>, xs: seq<T>, pred: T -> bool)
    requires forall i :: 0 <= i < |cur| ==> !pred(cur[i])
    ensures Clean(Groups(cur, xs, pred, -1, false), pred)
    decreases |xs|
  {
    if |xs| == 0 {
      assert Groups(cur, xs, pred, -1, false) == [cur];
    } else if pred(xs[0]) {
      UnlimitedClean([], xs[1..], pred);
      var g1 := Groups([], xs[1..], pred, -1, false);
      assert Groups(cur, xs, pred, -1, false) == [cur] + g1;
      CleanCons(cur, g1, pred);
    } else {
      var c1 := cur + [xs[0]];
      forall i | 0 <= i < |c1| ensures !pred(c1[i]) {
        if i < |cur| { assert c1[i] == cur[i]; } else { assert c1[i] == xs[0]; }
      }
      UnlimitedClean(c1, xs[1..], pred);
      assert Groups(cur, xs, pred, -1, false) == Groups(c1, xs[1..], pred, -1, false);
    }
  }

  lemma CleanCons<T>(c: seq<T>, g1: seq<seq<T>>, pred: T -> bool)
    requires forall i :: 0 <= i < |c| ==> !pred(c[i])
    requires Clean(g1, pred)
    ensures Clean([c] + g1, pred)
  {
    var g := [c] + g1;
    forall j, i | 0 <= j < |g| && 0 <= i < |g[j]| ensures !pred(g[j][i]) {
      if j > 0 { assert g[j] == g1[j - 1]; }
    }
  }

  lemma {:induction false} UnlimitedFlatten<T>(cur: seq<T>, xs: seq<T>, pred: T -> bool)
    ensures Flatten(Groups(cur, xs, pred, -1, false)) == cur + Rejected(xs, pred)
    decreases |xs|
  {
    if |xs| == 0 {
      assert Flatten([cur]) == cur + Flatten([]);
    } else if pred(xs[0]) {
      UnlimitedFlatten([], xs[1..], pred);
      var g1 := Groups([], xs[1..], pred, -1, false);
      assert Groups(cur, xs, pred, -1, false) == [cur] + g1;
    } else {
      UnlimitedFlatten(cur + [xs[0]], xs[1..], pred);
      assert cur + [xs[0]] + Rejected(xs[1..], pred) == cur + Rejected(xs, pred);
    }
  }

  predicate IsA(c: char) { c == 'a' }

  /** A trailing match yields a final empty group; a positive maxsplit keeps
      later matches in the last group. */
  lemma Examples()
    ensures Output("bababa", IsA, -1, false) == ["b", "b", "b", ""]
    ensures Output("bababbabc", IsA, 2, false) == ["b", "b", "bbabc"]
    ensures Output("aaa", IsA, -1, true) == ["", "a", "", "a", "", "a", ""]
  {
    ExampleUnlimited();
    ExampleLimited();
    ExampleKept();
  }

  lemma ExampleUnlimited()
    ensures Groups("", "bababa", IsA, -1, false) == ["b", "b", "b", ""]
  {
    assert Groups("b", "a", IsA, -1, false) == ["b", ""] by {
      assert "a"[1..] == "";
    }
    assert Groups("", "ba", IsA, -1, false) == ["b", ""] by {
      assert "ba"[1..] == "a" && "" + ['b'] == "b";
    }
    assert Groups("b", "aba", IsA, -1, false) == ["b", "b", ""] by {
      assert "aba"[1..] == "ba";
    }
    assert Groups("", "baba", IsA, -1, false) == ["b", "b", ""] by {
      assert "baba"[1..] == "aba" && "" + ['b'] == "b";
    }
    assert Groups("b", "ababa", IsA, -1, false) == ["b", "b", "b", ""] by {
      assert "ababa"[1..] == "baba";
    }
    assert "bababa"[1..] == "ababa" && "" + ['b'] == "b";
  }

  lemma ExampleLimited()
    ensures Groups("", "bababbabc", IsA, 2, false) == ["b", "b", "bbabc"]
  {
    assert Groups("b", "abbabc", IsA, 1, false) == ["b", "bbabc"] by {
      assert "abbabc"[1..] == "bbabc" && "" + "bbabc" == "bbabc";
      NoBudget("", "bbabc", IsA, false);
    }
    assert Groups("", "babbabc", IsA, 1, false) == ["b", "bbabc"] by {
      assert "babbabc"[1..] == "abbabc" && "" + ['b'] == "b";
    }
    assert Groups("b", "ababbabc", IsA, 2, false) == ["b", "b", "bbabc"] by {
      assert "ababbabc"[1..] == "babbabc";
    }
    assert "bababbabc"[1..] == "ababbabc" && "" + ['b'] == "b";
  }

  lemma ExampleKept()
    ensures Groups("", "aaa", IsA, -1, true) == ["", "a", "", "a", "", "a", ""]
  {
    assert Groups("", "a", IsA, -1, true) == ["", "a", ""];
    assert Groups("", "aa", IsA, -1, true) == ["", "a", "", "a", ""];
  }
}

=== FILE: split_into.dfy ===
/** `split_into`: consecutive groups of the declared sizes. A group that the
    input cannot fill is delivered short, the groups after it empty, and
    items beyond the sum of the sizes are read and dropped. */
module SplitInto {
  import opened Base
  import Pull

  /** A group being filled: its items so far and its declared size. */
  datatype Group<T> = Group(items: seq<T>, size: nat)

  /** The iterator state: the groups not yet delivered, the items not yet
      pulled, and whether the input is exhausted. */
  datatype State<T> = State(pending: seq<Group<T>>, up: seq<T>, finished: bool)

  function Init<T>(xs: seq<T>, sizes: seq<nat>): State<T>
  {
    State(seq(|sizes|, i requires 0 <= i < |sizes| => Group([], sizes[i])), xs, false)
  }

  function Measure<T>(s: State<T>): nat { |s.up| + if s.finished then 0 else 1 }

  /** One call of `next()`: the pulling loop fills the front group until it
      is full or the input is exhausted; without groups left it reads the
      input to its end. */
  function Next<T>(s: State<T>): Pull.Step<State<T>, seq<T>>
    decreases Measure(s)
  {
    if s.finished then
      if |s.pending| > 0 then Pull.Step(s.(pending := s.pending[1..]), Some(s.pending[0].items))
      else Pull.Step(s, None)
    else if |s.pending| > 0 && |s.pending[0].items| == s.pending[0].size then
      Pull.Step(s.(pending := s.pending[1..]), Some(s.pending[0].items))
    else if |s.up| == 0 then Next(s.(finished := true))
    else if |s.pending| == 0 then Next(s.(up := s.up[1..]))
    else Next(FillOne(s))
  }

  /** Reference definition: group `i` takes the next `sizes[i]` items, or
      what is left of them. */
  function Split<T>(xs: seq<T>, sizes: seq<nat>): (r: seq<seq<T>>)
    ensures |r| == |sizes|
  {
    if |sizes| == 0 then []
    else var k := Min(sizes[0], |xs|); [xs[..k]] + Split(xs[k..], sizes[1..])
  }

  // ---- the machine ----

  /** Before the input is exhausted only the front group holds items, and
      never more than its size. */
  ghost predicate Inv<T>(s: State<T>)
  {
    s.finished || Filling(s)
  }

  ghost predicate Filling<T>(s: State<T>)
  {
    (forall i :: 1 <= i < |s.pending| ==> s.pending[i].items == []) &&
    (|s.pending| > 0 ==> |s.pending[0].items| <= s.pending[0].size)
  }

  function Sizes<T>(gs: seq<Group<T>>): (r: seq<nat>)
    ensures |r| == |gs| && forall i :: 0 <= i < |gs| ==> r[i] == gs[i].size
  {
    seq(|gs|, i requires 0 <= i < |gs| => gs[i].size)
  }

  function Items<T>(gs: seq<Group<T>>): (r: seq<seq<T>>)
    ensures |r| == |gs| && forall i :: 0 <= i < |gs| ==> r[i] == gs[i].items
  {
    seq(|gs|, i requires 0 <= i < |gs| => gs[i].items)
  }

  function Rest<T>(s: State<T>): seq<seq<T>>
  {
    if s.finished then Items(s.pending)
    else if |s.pending| == 0 then []
    else
      var f := s.pending[0];
      if |f.items| > f.size then []
      else
        var k := Min(f.size - |f.items|, |s.up|);
        [f.items + s.up[..k]] + Split(s.up[k..], Sizes(s.pending[1..]))
  }

  function TailOf<T>(s: State<T>): Option<seq<T>> { None }

  /** Groups that have no items yet all split what the input holds. */
  lemma EmptyGroups<T>(gs: seq<Group<T>>)
    requires forall i :: 0 <= i < |gs| ==> gs[i].items == []
    ensures Items(gs) == Split([], Sizes(gs))
  {
    var a, b := Items(gs), Split([], Sizes(gs));
    forall i | 0 <= i < |gs| ensures a[i] == b[i] {
      SplitEmpty<T>(Sizes(gs), i);
    }
  }

  lemma {:induction false} SplitEmpty<T>(sizes: seq<nat>, i: nat)
    requires i < |sizes|
    ensures Split<T>([], sizes)[i] == []
  {
    if i > 0 {
      var e: seq<T> := [];
      assert e[0..] == e;
      SplitEmpty<T>(sizes[1..], i - 1);
    }
  }

  /** A full front group is delivered. */
  lemma PopAdvances<T>(s: State<T>)
    requires Filling(s) && !s.finished && |s.pending| > 0 && |s.pending[0].items| == s.pending[0].size
    ensures Pull.Advances(Next, Inv, Rest, TailOf, s)
  {
    var f := s.pending[0];
    var t := s.(pending := s.pending[1..]);
    assert Next(s) == Pull.Step(t, Some(f.items));
    assert f.items + s.up[..0] == f.items && s.up[0..] == s.up;
    assert Rest(s) == [f.items] + Split(s.up, Sizes(t.pending));
    PopRest(s, t);
  }

  /** Once the full front group is gone, the next group starts empty and the
      groups after it split what the input holds. */
  lemma PopRest<T>(s: State<T>, t: State<T>)
    requires Filling(s) && !s.finished && |s.pending| > 0
    requires t == s.(pending := s.pending[1..])
    ensures Inv(t) && Rest(t) == Split(s.up, Sizes(t.pending))
  {
    if |t.pending| > 0 {
      var g := t.pending[0];
      var k := Min(g.size, |s.up|);
      assert g.items == s.pending[1].items == [];
      assert [] + s.up[..k] == s.up[..k];
      assert Sizes(t.pending)[0] == g.size;
      assert Sizes(t.pending[1..]) == Sizes(t.pending)[1..];
    }
  }

  /** An exhausted input delivers the groups as they stand. */
  lemma ExhaustAdvances<T>(s: State<T>)
    requires Filling(s) && !s.finished && |s.up| == 0
    requires |s.pending| > 0 ==> |s.pending[0].items| < s.pending[0].size
    ensures Pull.Advances(Next, Inv, Rest, TailOf, s)
  {
    var s1 := s.(finished := true);
    assert Next(s) == Next(s1);
    if |s.pending| > 0 {
      assert s.up[..0] == [] && s.pending[0].items + [] == s.pending[0].items;
      assert s.up[0..] == [];
      EmptyGroups(s.pending[1..]);
      assert Items(s.pending) == [s.pending[0].items] + Items(s.pending[1..]);
    }
    assert Rest(s) == Rest(s1);
    Pull.AdvancesTransfer(Next, Inv, Rest, TailOf, s, s1);
  }

  lemma {:induction false} NextAdvances<T>(s: State<T>)
    requires Inv(s)
    ensures Pull.Advances(Next, Inv, Rest, TailOf, s)
    decreases Measure(s)
  {
    if s.finished {
    } else if |s.pending| > 0 && |s.pending[0].items| == s.pending[0].size {
      PopAdvances(s);
    } else if |s.up| == 0 {
      ExhaustAdvances(s);
    } else if |s.pending| == 0 {
      var s1 := s.(up := s.up[1..]);
      NextAdvances(s1);
      assert Next(s) == Next(s1);
      Pull.AdvancesTransfer(Next, Inv, Rest, TailOf, s, s1);
    } else {
      var s1 := FillOne(s);
      FillOneSame(s);
      NextAdvances(s1);
      Pull.AdvancesTransfer(Next, Inv, Rest, TailOf, s, s1);
    }
  }

  /** Pulling one item into a front group that is not full changes neither
      the answer nor what is owed. */
  lemma FillOneSame<T>(s: State<T>)
    requires Filling(s) && !s.finished && |s.up| > 0 && |s.pending| > 0
    requires |s.pending[0].items| < s.pending[0].size
    ensures Next(s) == Next(FillOne(s)) && Rest(s) == Rest(FillOne(s)) && Inv(FillOne(s))
  {
    FillOneRest(s);
    var s1 := FillOne(s);
    assert s1.pending[1..] == s.pending[1..];
  }

  /** Moving one item into the front group changes nothing that is owed. */
  lemma FillOneRest<T>(s: State<T>)
    requires !s.finished && |s.up| > 0 && |s.pending| > 0
    requires |s.pending[0].items| < s.pending[0].size
    ensures Rest(s) == Rest(FillOne(s))
  {
    var f := s.pending[0];
    var s1 := FillOne(s);
    assert s1.pending[1..] == s.pending[1..];
    var k := Min(f.size - |f.items|, |s.up|);
    assert f.items + [s.up[0]] + s.up[1..][..k - 1] == f.items + s.up[..k];
    assert s.up[1..][k - 1..] == s.up[k..];
  }

  function FillOne<T>(s: State<T>): State<T>
    requires |s.up| > 0 && |s.pending| > 0
  {
    s.(pending := [Group(s.pending[0].items + [s.up[0]], s.pending[0].size)] + s.pending[1..], up := s.up[1..])
  }

  /** The answers are the groups of `Split`, one per declared size, then
      `None` forever. */
  lemma Behaviour<T>(xs: seq<T>, sizes: seq<nat>, m: nat)
    ensures Pull.Run(Next, Init(xs, sizes), m) == Pull.Observe(Split(xs, sizes), None, m)
  {
    forall s: State<T> | Inv(s) ensures Pull.Advances(Next, Inv, Rest, TailOf, s) {
      NextAdvances(s);
    }
    InitRest(xs, sizes);
    Pull.RunObserves(Next, Inv, Rest, TailOf, Init(xs, sizes), m);
  }

  lemma InitRest<T>(xs: seq<T>, sizes: seq<nat>)
    ensures Inv(Init(xs, sizes)) && Rest(Init(xs, sizes)) == Split(xs, sizes)
  {
    var s := Init(xs, sizes);
    if |sizes| > 0 {
      assert Sizes(s.pending[1..]) == sizes[1..];
      assert [] + xs[..Min(sizes[0], |xs|)] == xs[..Min(sizes[0], |xs|)];
    }
  }

  // ---- properties ----

  /** The groups concatenate to the first `sum(sizes)` items (all of them
      when the input is shorter); group `i` has at most `sizes[i]` items,
      and once a group is short every later group is empty. */
  lemma {:induction false} SplitShape<T>(xs: seq<T>, sizes: seq<nat>)
    ensures Flatten(Split(xs, sizes)) == xs[..Min(Sum(sizes), |xs|)]
    ensures forall i :: 0 <= i < |sizes| ==> |Split(xs, sizes)[i]| <= sizes[i]
    ensures forall i, j :: 0 <= i < j < |sizes| && |Split(xs, sizes)[i]| < sizes[i] ==> Split(xs, sizes)[j] == []
  {
    if |sizes| > 0 {
      var k := Min(sizes[0], |xs|);
      var r := Split(xs, sizes);
      SplitShape(xs[k..], sizes[1..]);
      assert r[1..] == Split(xs[k..], sizes[1..]);
      assert xs[..Min(Sum(sizes), |xs|)] == xs[..k] + xs[k..][..Min(Sum(sizes[1..]), |xs[k..]|)];
      forall i, j | 0 <= i < j < |sizes| && |r[i]| < sizes[i] ensures r[j] == [] {
        if i == 0 {
          assert xs[k..] == [];
          SplitEmpty<T>(sizes[1..], j - 1);
        }
      }
    }
  }

  /** The library's examples. */
  lemma Examples()
    ensures Split([1, 2, 3, 4, 5, 6], [1, 2, 3]) == [[1], [2, 3], [4, 5, 6]]
    ensures Split([1, 2, 3, 4, 5, 6], [2, 3]) == [[1, 2], [3, 4, 5]]
    ensures Split([1, 2, 3, 4], [1, 2, 3, 4]) == [[1], [2, 3], [4], []]
    ensures Split([1, 2, 3, 4], [1, 2, 0, 3, 4]) == [[1], [2, 3], [], [4], []]
  {
    ExampleExact([1, 2, 3, 4, 5, 6], [1, 2, 3]);
    ExampleDropping([1, 2, 3, 4, 5, 6], [2, 3]);
    ExampleUneven([1, 2, 3, 4], [1, 2, 3, 4]);
    ExampleShort([1, 2, 3, 4], [1, 2, 0, 3, 4]);
  }

  lemma ExampleExact(a: seq<int>, sz: seq<nat>)
    requires a == [1, 2, 3, 4, 5, 6] && sz == [1, 2, 3]
    ensures Split(a, sz) == [[1], [2, 3], [4, 5, 6]]
  {
    assert a[..1] == [1] && a[1..][..2] == [2, 3] && a[1..][2..] == [4, 5, 6];
    assert sz[1..] == [2, 3] && sz[1..][1..] == [3] && sz[1..][1..][1..] == [];
    assert a[1..][2..][..3] == [4, 5, 6] && Split(a[1..][2..][3..], []) == [];
    assert Split(a[1..][2..], [3]) == [[4, 5, 6]];
    assert Split(a[1..], [2, 3]) == [[2, 3], [4, 5, 6]];
  }

  lemma ExampleDropping(a: seq<int>, sz: seq<nat>)
    requires a == [1, 2, 3, 4, 5, 6] && sz == [2, 3]
    ensures Split(a, sz) == [[1, 2], [3, 4, 5]]
  {
    assert a[..2] == [1, 2] && a[2..][..3] == [3, 4, 5];
    assert sz[1..] == [3] && sz[1..][1..] == [];
    assert Split(a[2..][3..], []) == [];
    assert Split(a[2..], [3]) == [[3, 4, 5]];
  }

  lemma ExampleUneven(b: seq<int>, sz: seq<nat>)
    requires b == [1, 2, 3, 4] && sz == [1, 2, 3, 4]
    ensures Split(b, sz) == [[1], [2, 3], [4], []]
  {
    assert b[..1] == [1] && b[1..][..2] == [2, 3] && b[1..][2..] == [4];
    assert sz[1..] == [2, 3, 4] && sz[1..][1..] == [3, 4];
    var c: seq<int> := [4];
    assert c[..1] == [4] && c[1..] == [];
    assert Split(c[1..], [4]) == [[]];
    assert Split(c, [3, 4]) == [[4]] + Split([], [4]);
    assert Split(b[1..], sz[1..]) == [[2, 3]] + Split(c, [3, 4]);
  }

  lemma ExampleShort(b: seq<int>, sz: seq<nat>)
    requires b == [1, 2, 3, 4] && sz == [1, 2, 0, 3, 4]
    ensures Split(b, sz) == [[1], [2, 3], [], [4], []]
  {
    assert b[..1] == [1] && b[1..][..2] == [2, 3] && b[1..][2..] == [4];
    assert sz[1..] == [2, 0, 3, 4] && sz[1..][1..] == [0, 3, 4];
    var c: seq<int> := [4];
    assert c[..1] == [4] && c[1..] == [];
    assert Split(c[1..], [4]) == [[]];
    assert Split(c, [3, 4]) == [[4]] + Split([], [4]);
    assert Split(c, [0, 3, 4]) == [[]] + Split(c, [3, 4]);
    assert Split(b[1..], sz[1..]) == [[2, 3]] + Split(c, [0, 3, 4]);
  }
}

=== FILE: split_when.dfy ===
/** `split_when`: splits a stream of values between two neighbours whenever
    `pred(next, previous)` holds, at most `maxsplit` times when that is
    non-negative; `maxsplit == 0` emits the whole input as one group. */
module SplitWhen {
  import opened Base
  import Pull

  datatype State<!T> = State(buf: seq<seq<T>>, up: seq<T>, pred: (T, T) -> bool, maxsplit: int,
                             splited: int, finished: bool)

  /** `split_when`: the output list starts with one empty group. */
  function Init<T>(xs: seq<T>, pred: (T, T) -> bool, maxsplit: int): State<T>
  {
    State([[]], xs, pred, maxsplit, 0, false)
  }

  /** Is there a split between `prev` and `v` in state `s`? The new value is
      the predicate's first argument. */
  predicate SplitsAt<T>(s: State<T>, v: T, prev: T)
  {
    if s.maxsplit < 0 then s.pred(v, prev) else s.splited < s.maxsplit && s.pred(v, prev)
  }

  /** The first loop of `next()`: pull values into the back group until a
      split opens a new group or the upstream ends. */
  function Fill<T>(s: State<T>): (t: State<T>)
    ensures t.pred == s.pred && t.maxsplit == s.maxsplit
    decreases |s.up|
  {
    if s.finished then s
    else if |s.up| == 0 then s.(finished := true)
    else
      var v := s.up[0];
      if |s.buf| > 0 then
        var items := s.buf[|s.buf| - 1];
        if |items| > 0 && SplitsAt(s, v, items[|items| - 1]) then
          s.(up := s.up[1..], buf := s.buf + [[v]], splited := if s.maxsplit < 0 then s.splited else s.splited + 1)
        else Fill(s.(up := s.up[1..], buf := s.buf[..|s.buf| - 1] + [items + [v]]))
      else Fill(s.(up := s.up[1..], buf := [[v]]))
  }

  /** The second loop of `next()`: pop the front group. */
  function Drain<T>(s: State<T>): Pull.Step<State<T>, seq<T>>
  {
    if |s.buf| == 0 then Pull.Step(s, None) else Pull.Step(s.(buf := s.buf[1..]), Some(s.buf[0]))
  }

  function Next<T>(s: State<T>): Pull.Step<State<T>, seq<T>>
  {
    if s.maxsplit == 0 then
      if s.finished then Pull.Step(s, None) else Pull.Step(s.(up := [], finished := true), Some(s.up))
    else Drain(Fill(s))
  }

  /** Reference definition: the groups of `cur + xs` with `left` splits
      remaining (negative: any number). */
  function Groups<T>(cur: seq<T>, xs: seq<T>, pred: (T, T) -> bool, left: int): seq<seq<T>>
    decreases |xs|
  {
    if |xs| == 0 then [cur]
    else if |cur| > 0 && left != 0 && pred(xs[0], cur[|cur| - 1]) then
      [cur] + Groups([xs[0]], xs[1..], pred, if left > 0 then left - 1 else left)
    else Groups(cur + [xs[0]], xs[1..], pred, left)
  }

  function Output<T>(xs: seq<T>, pred: (T, T) -> bool, maxsplit: int): seq<seq<T>>
  {
    Groups([], xs, pred, if maxsplit < 0 then -1 else maxsplit)
  }

  ghost predicate Inv<T>(s: State<T>)
  {
    (s.maxsplit >= 0 ==> 0 <= s.splited <= s.maxsplit) &&
    (s.maxsplit != 0 ==> if s.finished then |s.buf| <= 1 else |s.buf| == 1)
  }

  function Left<T>(s: State<T>): int
  {
    if s.maxsplit < 0 then -1 else s.maxsplit - s.splited
  }

  function Rest<T>(s: State<T>): seq<seq<T>>
  {
    if s.maxsplit == 0 then (if s.finished then [] else [s.up])
    else if s.finished || |s.buf| == 0 then s.buf
    else Groups(s.buf[0], s.up, s.pred, Left(s))
  }

  function TailOf<T>(s: State<T>): Option<seq<T>> { None }

  /** Fill completes the back group or opens a new one; either way the
      groups still owed are unchanged. */
  lemma {:induction false} FillRest<T>(s: State<T>)
    requires Inv(s) && s.maxsplit != 0 && !s.finished
    ensures var t := Fill(s);
      (t.finished && |t.buf| == 1 && Inv(t) && Rest(s) == t.buf) ||
      (!t.finished && |t.buf| == 2 && Inv(t.(buf := t.buf[1..])) && Rest(s) == [t.buf[0]] + Rest(t.(buf := t.buf[1..])))
    decreases |s.up|
  {
    if |s.up| > 0 {
      var v := s.up[0];
      var items := s.buf[0];
      assert s.buf[|s.buf| - 1] == items;
      if |items| > 0 && SplitsAt(s, v, items[|items| - 1]) {
        var t := Fill(s);
        assert t.buf == [items, [v]];
        assert t.buf[1..] == [[v]];
      } else {
        var s1 := s.(up := s.up[1..], buf := s.buf[..|s.buf| - 1] + [items + [v]]);
        assert s1.buf == [items + [v]];
        assert Rest(s) == Rest(s1);
        FillRest(s1);
      }
    }
  }

  lemma NextAdvances<T>(s: State<T>)
    requires Inv(s)
    ensures Pull.Advances(Next, Inv, Rest, TailOf, s)
  {
    if s.maxsplit != 0 && !s.finished {
      FillRest(s);
    }
  }

  /** The answers of `next()` are exactly the groups, then `None` forever. */
  lemma Behaviour<T>(xs: seq<T>, pred: (T, T) -> bool, maxsplit: int, k: nat)
    ensures Pull.Run(Next, Init(xs, pred, maxsplit), k) == Pull.Observe(Output(xs, pred, maxsplit), None, k)
  {
    forall s: State<T> | Inv(s) ensures Pull.Advances(Next, Inv, Rest, TailOf, s) {
      NextAdvances(s);
    }
    if maxsplit == 0 {
      ZeroMaxsplit(xs, pred);
    }
    Pull.RunObserves(Next, Inv, Rest, TailOf, Init(xs, pred, maxsplit), k);
  }

  // ---- properties of the reference definition ----

  lemma {:induction false} NoBudget<T>(cur: seq<T>, xs: seq<T>, pred: (T, T) -> bool)
    ensures Groups(cur, xs, pred, 0) == [cur + xs]
    decreases |xs|
  {
    if |xs| > 0 {
      assert Groups(cur, xs, pred, 0) == Groups(cur + [xs[0]], xs[1..], pred, 0);
      NoBudget(cur + [xs[0]], xs[1..], pred);
      assert cur + [xs[0]] + xs[1..] == cur + xs;
    } else {
      assert cur + xs == cur;
    }
  }

  /** maxsplit == 0 emits the whole input as one group. */
  lemma ZeroMaxsplit<T>(xs: seq<T>, pred: (T, T) -> bool)
    ensures Output(xs, pred, 0) == [xs]
  {
    NoBudget([], xs, pred);
    assert [] + xs == xs;
  }

  /** The groups concatenate to the input. */
  lemma {:induction false} GroupsFlatten<T>(cur: seq<T>, xs: seq<T>, pred: (T, T) -> bool, left: int)
    ensures Flatten(Groups(cur, xs, pred, left)) == cur + xs
    decreases |xs|
  {
    if |xs| == 0 {
      assert Flatten([cur]) == cur + Flatten([]);
    } else if |cur| > 0 && left != 0 && pred(xs[0], cur[|cur| - 1]) {
      GroupsFlatten([xs[0]], xs[1..], pred, if left > 0 then left - 1 else left);
      assert xs == [xs[0]] + xs[1..];
    } else {
      GroupsFlatten(cur + [xs[0]], xs[1..], pred, left);
      assert cur + [xs[0]] + xs[1..] == cur + xs;
    }
  }

  /** A group that is not empty. */
  predicate Filled<T>(g: seq<T>) { |g| > 0 }

  /** No group is empty unless everything is (the empty input gives one
      empty group). */
  lemma {:induction false} GroupsNonEmpty<T>(cur: seq<T>, xs: seq<T>, pred: (T, T) -> bool, left: int)
    requires |cur| + |xs| > 0
    ensures var g := Groups(cur, xs, pred, left); forall i :: 0 <= i < |g| ==> Filled(g[i])
    decreases |xs|
  {
    if |xs| > 0 {
      if |cur| > 0 && left != 0 && pred(xs[0], cur[|cur| - 1]) {
        var left' := if left > 0 then left - 1 else left;
        GroupsNonEmpty([xs[0]], xs[1..], pred, left');
        var g1 := Groups([xs[0]], xs[1..], pred, left');
        assert forall j :: 0 <= j < |g1| ==> Filled(Groups([xs[0]], xs[1..], pred, left')[j]);
        assert Groups(cur, xs, pred, left) == [cur] + g1;
      } else {
        GroupsNonEmpty(cur + [xs[0]], xs[1..], pred, left);
        assert forall j :: 0 <= j < |Groups(cur + [xs[0]], xs[1..], pred, left)| ==> Filled(Groups(cur + [xs[0]], xs[1..], pred, left)[j]);
        assert Groups(cur, xs, pred, left) == Groups(cur + [xs[0]], xs[1..], pred, left);
      }
    }
  }

  /** Every split is between an item and its predecessor that `pred` relates. */
  predicate SplitBetween<T>(pred: (T, T) -> bool, a: seq<T>, b: seq<T>)
  {
    |a| > 0 && |b| > 0 && pred(b[0], a[|a| - 1])
  }

  lemma {:induction false} SplitsAreMatches<T>(cur: seq<T>, xs: seq<T>, pred: (T, T) -> bool, left: int)
    ensures var g := Groups(cur, xs, pred, left);
      |g| > 0 && (|cur| > 0 ==> |g[0]| > 0 && g[0][0] == cur[0]) &&
      forall i :: 0 <= i < |g| - 1 ==> SplitBetween(pred, g[i], g[i + 1])
    decreases |xs|
  {
    if |xs| > 0 {
      if |cur| > 0 && left != 0 && pred(xs[0], cur[|cur| - 1]) {
        var left' := if left > 0 then left - 1 else left;
        SplitsAreMatches([xs[0]], xs[1..], pred, left');
        var g1 := Groups([xs[0]], xs[1..], pred, left');
        assert forall j :: 0 <= j < |g1| - 1 ==> SplitBetween(pred, Groups([xs[0]], xs[1..], pred, left')[j], Groups([xs[0]], xs[1..], pred, left')[j + 1]);
        var g := Groups(cur, xs, pred, left);
        assert g == [cur] + g1;
        assert SplitBetween(pred, g[0], g[1]);
        forall i | 0 < i < |g| - 1 ensures SplitBetween(pred, g[i], g[i + 1]) {
          assert g[i] == g1[i - 1] && g[i + 1] == g1[i];
        }
      } else {
        assert |cur| > 0 ==> (cur + [xs[0]])[0] == cur[0];
        SplitsAreMatches(cur + [xs[0]], xs[1..], pred, left);
        assert Groups(cur, xs, pred, left) == Groups(cur + [xs[0]], xs[1..], pred, left);
      }
    }
  }

  /** A positive budget bounds the number of groups. */
  lemma {:induction false} GroupBound<T>(cur: seq<T>, xs: seq<T>, pred: (T, T) -> bool, left: int)
    requires left >= 0
    ensures |Groups(cur, xs, pred, left)| <= left + 1
    decreases |xs|
  {
    if |xs| > 0 {
      if |cur| > 0 && left != 0 && pred(xs[0], cur[|cur| - 1]) {
        GroupBound([xs[0]], xs[1..], pred, left - 1);
      } else {
        GroupBound(cur + [xs[0]], xs[1..], pred, left);
      }
    }
  }

  /** No two neighbours inside `g` are related by `pred`. */
  predicate Clean<T>(pred: (T, T) -> bool, g: seq<T>)
  {
    forall j :: 0 < j < |g| ==> !pred(g[j], g[j - 1])
  }

  /** Every group is clean while the budget lasts: all groups but the last,
      and the last as well when the budget is unlimited (`left < 0`) or was
      not used up. */
  predicate CleanWhileBudget<T>(pred: (T, T) -> bool, g: seq<seq<T>>, left: int)
  {
    forall i :: 0 <= i < |g| && (i < |g| - 1 || left < 0 || |g| - 1 < left) ==> Clean(pred, g[i])
  }

  /** The converse of `SplitsAreMatches`: while the budget lasts no group
      holds two neighbours that `pred` relates. */
  lemma {:induction false} NoSplitInside<T>(cur: seq<T>, xs: seq<T>, pred: (T, T) -> bool, left: int)
    requires Clean(pred, cur)
    ensures CleanWhileBudget(pred, Groups(cur, xs, pred, left), left)
    decreases |xs|
  {
    if |xs| > 0 {
      if left == 0 {
        NoBudget(cur, xs, pred);
      } else if |cur| > 0 && pred(xs[0], cur[|cur| - 1]) {
        var left' := if left > 0 then left - 1 else left;
        NoSplitInside([xs[0]], xs[1..], pred, left');
        var g1 := Groups([xs[0]], xs[1..], pred, left');
        assert CleanWhileBudget(pred, g1, left');
        var g := Groups(cur, xs, pred, left);
        assert g == [cur] + g1;
        forall i | 0 <= i < |g| && (i < |g| - 1 || left < 0 || |g| - 1 < left) ensures Clean(pred, g[i]) {
          if i > 0 {
            assert g[i] == g1[i - 1];
            assert i - 1 < |g1| - 1 || left' < 0 || |g1| - 1 < left';
          }
        }
      } else {
        var next := cur + [xs[0]];
        forall j | 0 < j < |next| ensures !pred(next[j], next[j - 1]) {
          if j < |cur| {
            assert next[j] == cur[j] && next[j - 1] == cur[j - 1];
          }
        }
        NoSplitInside(next, xs[1..], pred, left);
        assert Groups(cur, xs, pred, left) == Groups(next, xs[1..], pred, left);
      }
    }
  }

  /** Both directions for the public entry point: the groups of
      `split_when(xs, pred, maxsplit)` are cut exactly where `pred` holds,
      while the budget lasts. */
  lemma SplitsExact<T>(xs: seq<T>, pred: (T, T) -> bool, maxsplit: int)
    ensures var g := Output(xs, pred, maxsplit);
      (forall i :: 0 <= i < |g| - 1 ==> SplitBetween(pred, g[i], g[i + 1])) &&
      CleanWhileBudget(pred, g, if maxsplit < 0 then -1 else maxsplit)
  {
    var left := if maxsplit < 0 then -1 else maxsplit;
    SplitsAreMatches([], xs, pred, left);
    NoSplitInside([], xs, pred, left);
  }

  function Rises(x: int, y: int): bool { y > x }

  /** One more value joins the group being collected: it is the first value,
      the budget is spent, or `pred` does not relate it to its predecessor. */
  lemma Join<T>(cur: seq<T>, v: T, next: seq<T>, xs: seq<T>, rest: seq<T>, pred: (T, T) -> bool, left: int, g: seq<seq<T>>)
    requires |cur| == 0 || left == 0 || !pred(v, cur[|cur| - 1])
    requires next == cur + [v] && |xs| > 0 && xs[0] == v && xs[1..] == rest
    requires Groups(next, rest, pred, left) == g
    ensures Groups(cur, xs, pred, left) == g
  {
  }

  /** A value that `pred` relates to its predecessor closes the group being
      collected and starts the next one, spending one split of a budget. */
  lemma Cut<T>(cur: seq<T>, v: T, xs: seq<T>, rest: seq<T>, pred: (T, T) -> bool, left: int, g: seq<seq<T>>, r: seq<seq<T>>)
    requires |cur| > 0 && left != 0 && pred(v, cur[|cur| - 1])
    requires |xs| > 0 && xs[0] == v && xs[1..] == rest
    requires Groups([v], rest, pred, if left > 0 then left - 1 else left) == g && r == [cur] + g
    ensures Groups(cur, xs, pred, left) == r
  {
  }

  /** The crate's main example, 1,2,3,3,2,5,2,4,2 cut wherever the next value
      is smaller than the one before it: without a budget and with a budget
      of 10 there are three cuts, a budget of 2 keeps the last two values
      together, and a budget of 0 keeps the whole input. */
  lemma ExampleFalls(xs: seq<int>)
    requires xs == [1, 2, 3, 3, 2, 5, 2, 4, 2]
    ensures Output(xs, Rises, -1) == [[1, 2, 3, 3], [2, 5], [2, 4], [2]]
    ensures Output(xs, Rises, 10) == [[1, 2, 3, 3], [2, 5], [2, 4], [2]]
    ensures Output(xs, Rises, 2) == [[1, 2, 3, 3], [2, 5], [2, 4, 2]]
    ensures Output(xs, Rises, 0) == [xs]
  {
    FallsFrom1(xs, -1, -1, -1);
    FallsFrom1(xs, 10, 9, 8);
    FallsFrom1(xs, 2, 1, 0);
    ZeroMaxsplit(xs, Rises);
  }

  /** The example's first group is 1,2,3,3; the next starts at the 2 after it. */
  lemma FallsFrom1(xs: seq<int>, left: int, left1: int, left2: int)
    requires xs == [1, 2, 3, 3, 2, 5, 2, 4, 2]
    requires left != 0 && left1 == (if left > 0 then left - 1 else left) && left2 == (if left1 > 0 then left1 - 1 else left1)
    requires left1 != 0
    ensures Groups([], xs, Rises, left) ==
      [[1, 2, 3, 3], [2, 5]] + (if left2 == 0 then [[2, 4, 2]] else [[2, 4], [2]])
  {
    var g := [[2, 5]] + (if left2 == 0 then [[2, 4, 2]] else [[2, 4], [2]]);
    FallsFrom2(xs[4..], left1, left2);
    Cut([1, 2, 3, 3], 2, xs[4..], xs[5..], Rises, left, g, [[1, 2, 3, 3]] + g);
    Join([1, 2, 3], 3, [1, 2, 3, 3], xs[3..], xs[4..], Rises, left, [[1, 2, 3, 3]] + g);
    Join([1, 2], 3, [1, 2, 3], xs[2..], xs[3..], Rises, left, [[1, 2, 3, 3]] + g);
    Join([1], 2, [1, 2], xs[1..], xs[2..], Rises, left, [[1, 2, 3, 3]] + g);
    Join([], 1, [1], xs, xs[1..], Rises, left, [[1, 2, 3, 3]] + g);
  }

  /** From the first cut on: 2,5 then the rest. */
  lemma FallsFrom2(ys: seq<int>, left: int, left1: int)
    requires ys == [2, 5, 2, 4, 2]
    requires left != 0 && left1 == (if left > 0 then left - 1 else left)
    ensures Groups([2], ys[1..], Rises, left) ==
      [[2, 5]] + (if left1 == 0 then [[2, 4, 2]] else [[2, 4], [2]])
  {
    var g := if left1 == 0 then [[2, 4, 2]] else [[2, 4], [2]];
    FallsFrom3(ys[2..], left1);
    Cut([2, 5], 2, ys[2..], ys[3..], Rises, left, g, [[2, 5]] + g);
    Join([2], 5, [2, 5], ys[1..], ys[2..], Rises, left, [[2, 5]] + g);
  }

  /** The last three values 2,4,2: cut before the final 2 unless the budget is spent. */
  lemma FallsFrom3(zs: seq<int>, left: int)
    requires zs == [2, 4, 2]
    ensures Groups([2], zs[1..], Rises, left) == if left == 0 then [[2, 4, 2]] else [[2, 4], [2]]
  {
    if left == 0 {
      NoBudget([2], zs[1..], Rises);
      assert [2] + zs[1..] == [2, 4, 2];
    } else {
      assert Groups([2], zs[3..], Rises, if left > 0 then left - 1 else left) == [[2]];
      Cut([2, 4], 2, zs[2..], zs[3..], Rises, left, [[2]], [[2, 4], [2]]);
      Join([2], 4, [2, 4], zs[1..], zs[2..], Rises, left, [[2, 4], [2]]);
    }
  }

  /** The crate's two short cases, and the empty input. */
  lemma Examples()
    ensures Output([2, 1], Rises, -1) == [[2], [1]]
    ensures Output([1, 2], Rises, -1) == [[1, 2]]
    ensures Output([], Rises, -1) == [[]]
  {
    assert [] + [2] == [2];
    assert Groups([2], [1], Rises, -1) == [[2], [1]];
    assert [] + [1] == [1] && [1] + [2] == [1, 2];
    assert Groups([1], [2], Rises, -1) == [[1, 2]];
  }
}

=== FILE: substrings.dfy ===
/** `substrings` and `substrings_indexes`: every contiguous non-empty slice of
    the input, shortest first and left to right (or, for the reverse
    variant, longest first and right to left). Both iterators read the whole
    input on their first call and then walk a (length, start) cursor. Strings
    are taken to be ASCII, so their byte length is their number of chars. */
module Substrings {
  import opened Base
  import Pull

  /** The iterator state. `k` is the current slice length and `cur` the
      current start; in reverse mode `cur == -1` stands for the start having
      stepped below 0 (a release build's wrap to `usize::MAX`; a debug
      build panics there). */
  datatype State<T> = State(vec: seq<T>, up: seq<T>, loaded: bool, len: nat, k: nat, cur: int, reverse: bool)

  /** `substrings_indexes(s, reverse)`. */
  function InitIndexes(s: string, reverse: bool): State<char>
  {
    if reverse then State([], s, false, |s|, |s|, |s| - |s|, true)
    else State([], s, false, |s|, 1, 0, false)
  }

  /** `substrings(xs)`. */
  function InitSlices<T>(xs: seq<T>): State<T>
  {
    State([], xs, false, |xs|, 1, 0, false)
  }

  function LoopMeasure<T>(s: State<T>): nat
  {
    if s.reverse then s.k else if s.k > |s.vec| then 0 else |s.vec| + 1 - s.k
  }

  /** The search loop after loading: move to the next length when the current
      one is used up, otherwise deliver the slice at the cursor. A slice
      outside the buffer (a panic in the crate) cannot occur from a reachable
      state and answers `None`. */
  function Loop<T>(s: State<T>): (t: Pull.Step<State<T>, (seq<T>, nat, nat)>)
    ensures t.state.vec == s.vec && t.state.up == s.up && t.state.loaded == s.loaded
    ensures t.state.len == s.len && t.state.reverse == s.reverse
    decreases LoopMeasure(s)
  {
    if !s.reverse then
      if s.k > |s.vec| then Pull.Step(s, None)
      else if s.cur + s.k > |s.vec| then Loop(s.(cur := 0, k := s.k + 1))
      else if s.cur < 0 then Pull.Step(s, None)
      else Pull.Step(s.(cur := s.cur + 1), Some((s.vec[s.cur..s.cur + s.k], s.cur, s.cur + s.k)))
    else
      if s.k == 0 then Pull.Step(s, None)
      else if s.cur == -1 then Loop(s.(k := s.k - 1, cur := s.len - (s.k - 1)))
      else if s.cur < 0 || s.cur + s.k > |s.vec| then Pull.Step(s, None)
      else Pull.Step(s.(cur := s.cur - 1), Some((s.vec[s.cur..s.cur + s.k], s.cur, s.cur + s.k)))
  }

  /** Loads the whole input on the first call. */
  function Load<T>(s: State<T>): State<T>
  {
    if s.loaded then s else s.(vec := s.vec + s.up, up := [], loaded := true)
  }

  /** `SubstringsIndexes::next`. */
  function Next<T>(s: State<T>): Pull.Step<State<T>, (seq<T>, nat, nat)>
  {
    Loop(Load(s))
  }

  /** `Substrings::next`: the same walk, delivering only the slice. */
  function SliceNext<T>(s: State<T>): Pull.Step<State<T>, seq<T>>
  {
    var t := Next(s);
    Pull.Step(t.state, if t.out.Some? then Some(t.out.value.0) else None)
  }

  // ---- reference definition: the (start, end) spans in delivery order ----

  /** The spans of length `k` in an input of `n` items, left to right. */
  function Level(n: nat, k: nat): (r: seq<(nat, nat)>)
    requires 1 <= k <= n
    ensures |r| == n - k + 1
    ensures forall i :: 0 <= i < |r| ==> r[i] == (i, i + k)
  {
    seq(n - k + 1, i requires 0 <= i < n - k + 1 => (i, i + k))
  }

  /** The spans of length `k` in an input of `n` items, right to left. */
  function LevelDown(n: nat, k: nat): (r: seq<(nat, nat)>)
    requires 1 <= k <= n
    ensures |r| == n - k + 1
    ensures forall i :: 0 <= i < |r| ==> r[i] == (n - k - i, n - i)
  {
    seq(n - k + 1, i requires 0 <= i < n - k + 1 => (n - k - i, n - i))
  }

  /** The spans of lengths `k..n`, shortest first. */
  function UpFrom(n: nat, k: nat): seq<(nat, nat)>
    requires k >= 1
    decreases n + 1 - k
  {
    if k > n then [] else Level(n, k) + UpFrom(n, k + 1)
  }

  /** The spans of lengths `k` down to 1, longest first. */
  function DownFrom(n: nat, k: nat): seq<(nat, nat)>
    requires k <= n
  {
    if k == 0 then [] else LevelDown(n, k) + DownFrom(n, k - 1)
  }

  /** The spans the iterator walks through, in order. */
  function Spans(n: nat, reverse: bool): seq<(nat, nat)>
  {
    if reverse then DownFrom(n, n) else UpFrom(n, 1)
  }

  /** The items of `xs` in `sp`, or nothing for a span outside `xs`. */
  function Slice<T>(xs: seq<T>, sp: (nat, nat)): seq<T>
  {
    if sp.0 <= sp.1 <= |xs| then xs[sp.0..sp.1] else []
  }

  function Triples<T>(xs: seq<T>, sps: seq<(nat, nat)>): (r: seq<(seq<T>, nat, nat)>)
    ensures |r| == |sps|
    ensures forall i :: 0 <= i < |sps| ==> r[i] == (Slice(xs, sps[i]), sps[i].0, sps[i].1)
  {
    seq(|sps|, i requires 0 <= i < |sps| => (Slice(xs, sps[i]), sps[i].0, sps[i].1))
  }

  /** Every triple `substrings_indexes` should deliver. */
  function Output<T>(xs: seq<T>, reverse: bool): seq<(seq<T>, nat, nat)>
  {
    Triples(xs, Spans(|xs|, reverse))
  }

  /** Every slice `substrings` should deliver. */
  function SliceOutput<T>(xs: seq<T>): (r: seq<seq<T>>)
    ensures |r| == |UpFrom(|xs|, 1)|
    ensures forall i :: 0 <= i < |r| ==> r[i] == Slice(xs, UpFrom(|xs|, 1)[i])
  {
    seq(|UpFrom(|xs|, 1)|, i requires 0 <= i < |UpFrom(|xs|, 1)| => Slice(xs, UpFrom(|xs|, 1)[i]))
  }

  // ---- the machine delivers the reference spans ----

  function N<T>(s: State<T>): nat { |s.vec| + |s.up| }

  predicate Inv<T>(s: State<T>)
  {
    (!s.loaded ==> s.vec == []) && (s.loaded ==> s.up == []) && s.len == N(s) &&
    if !s.reverse then 1 <= s.k <= N(s) + 1 && 0 <= s.cur && (s.k <= N(s) ==> s.cur + s.k <= N(s) + 1)
    else s.k <= N(s) && (s.k >= 1 ==> -1 <= s.cur <= N(s) - s.k)
  }

  /** The spans still owed. */
  function RestSpans<T>(s: State<T>): seq<(nat, nat)>
    requires Inv(s)
  {
    var n := N(s);
    if !s.reverse then (if s.k > n then [] else Level(n, s.k)[s.cur..] + UpFrom(n, s.k + 1))
    else if s.k == 0 then [] else LevelDown(n, s.k)[n - s.k - s.cur..] + DownFrom(n, s.k - 1)
  }

  function Rest<T>(s: State<T>): seq<(seq<T>, nat, nat)>
  {
    if Inv(s) then Triples(s.vec + s.up, RestSpans(s)) else []
  }

  function SliceRest<T>(s: State<T>): (r: seq<seq<T>>)
    ensures |r| == |Rest(s)|
    ensures forall i :: 0 <= i < |r| ==> r[i] == Rest(s)[i].0
  {
    seq(|Rest(s)|, i requires 0 <= i < |Rest(s)| => Rest(s)[i].0)
  }

  function TailOf<T, O>(s: State<T>): Option<O> { None }

  lemma ForwardAdvances<T>(s: State<T>)
    requires Inv(s) && s.loaded && !s.reverse
    ensures Pull.Advances(Loop, Inv, Rest, TailOf, s)
    decreases LoopMeasure(s)
  {
    var n := N(s);
    assert s.vec + s.up == s.vec;
    if s.k <= n {
      if s.cur + s.k > n {
        var s1 := s.(cur := 0, k := s.k + 1);
        ForwardAdvances(s1);
        ForwardCarry(s, s1);
        Pull.AdvancesTransfer(Loop, Inv, Rest, TailOf, s, s1);
      } else {
        ForwardEmit(s);
      }
    }
  }

  lemma ForwardCarry<T>(s: State<T>, s1: State<T>)
    requires Inv(s) && s.loaded && !s.reverse && s.k <= N(s) && s.cur + s.k > N(s)
    requires s1 == s.(cur := 0, k := s.k + 1)
    ensures Inv(s1) && Rest(s1) == Rest(s) && Loop(s) == Loop(s1)
  {
    var n := N(s);
    assert Level(n, s.k)[s.cur..] == [];
    if s.k + 1 <= n {
      assert Level(n, s.k + 1)[0..] == Level(n, s.k + 1);
    }
    assert RestSpans(s1) == RestSpans(s);
  }

  lemma ForwardEmit<T>(s: State<T>)
    requires Inv(s) && s.loaded && !s.reverse && s.k <= N(s) && s.cur + s.k <= N(s)
    ensures Pull.Advances(Loop, Inv, Rest, TailOf, s)
  {
    var n := N(s);
    var l := Level(n, s.k)[s.cur..];
    assert RestSpans(s) == [l[0]] + (l[1..] + UpFrom(n, s.k + 1));
    assert l[1..] == Level(n, s.k)[s.cur + 1..];
    assert l[0] == (s.cur, s.cur + s.k);
    var t := Loop(s).state;
    assert RestSpans(t) == RestSpans(s)[1..];
    TriplesTail(s.vec, RestSpans(s));
    assert s.vec + s.up == s.vec;
  }

  lemma ReverseAdvances<T>(s: State<T>)
    requires Inv(s) && s.loaded && s.reverse
    ensures Pull.Advances(Loop, Inv, Rest, TailOf, s)
    decreases LoopMeasure(s)
  {
    var n := N(s);
    assert s.vec + s.up == s.vec;
    if s.k > 0 {
      if s.cur == -1 {
        var s1 := s.(k := s.k - 1, cur := s.len - (s.k - 1));
        ReverseAdvances(s1);
        ReverseCarry(s, s1);
        Pull.AdvancesTransfer(Loop, Inv, Rest, TailOf, s, s1);
      } else {
        ReverseEmit(s);
      }
    }
  }

  lemma ReverseCarry<T>(s: State<T>, s1: State<T>)
    requires Inv(s) && s.loaded && s.reverse && s.k > 0 && s.cur == -1
    requires s1 == s.(k := s.k - 1, cur := s.len - (s.k - 1))
    ensures Inv(s1) && Rest(s1) == Rest(s) && Loop(s) == Loop(s1)
  {
    var n := N(s);
    assert LevelDown(n, s.k)[n - s.k - s.cur..] == [];
    if s.k - 1 > 0 {
      assert LevelDown(n, s.k - 1)[n - (s.k - 1) - s1.cur..] == LevelDown(n, s.k - 1);
    }
    assert RestSpans(s1) == RestSpans(s);
  }

  lemma ReverseEmit<T>(s: State<T>)
    requires Inv(s) && s.loaded && s.reverse && s.k > 0 && s.cur != -1
    ensures Pull.Advances(Loop, Inv, Rest, TailOf, s)
  {
    ReverseEmitSpans(s);
    TriplesTail(s.vec, RestSpans(s));
    assert s.vec + s.up == s.vec;
  }

  /** A reverse emission owes the first remaining span and moves the cursor one left. */
  lemma ReverseEmitSpans<T>(s: State<T>)
    requires Inv(s) && s.loaded && s.reverse && s.k > 0 && s.cur != -1
    ensures var t := Loop(s);
      Inv(t.state) && t.state.vec == s.vec && |RestSpans(s)| > 0 && RestSpans(s)[0] == (s.cur, s.cur + s.k) &&
      RestSpans(t.state) == RestSpans(s)[1..] && 0 <= s.cur <= s.cur + s.k <= |s.vec| &&
      t.out == Some((s.vec[s.cur..s.cur + s.k], s.cur, s.cur + s.k))
  {
    var n := N(s);
    var l := LevelDown(n, s.k)[n - s.k - s.cur..];
    assert RestSpans(s) == [l[0]] + (l[1..] + DownFrom(n, s.k - 1));
    assert l[1..] == LevelDown(n, s.k)[n - s.k - (s.cur - 1)..];
  }

  lemma TriplesTail<T>(xs: seq<T>, sps: seq<(nat, nat)>)
    requires |sps| > 0
    ensures Triples(xs, sps)[1..] == Triples(xs, sps[1..])
  {
  }

  lemma LoopAdvances<T>(s: State<T>)
    requires Inv(s) && s.loaded
    ensures Pull.Advances(Loop, Inv, Rest, TailOf, s)
  {
    if s.reverse {
      ReverseAdvances(s);
    } else {
      ForwardAdvances(s);
    }
  }

  lemma NextAdvances<T>(s: State<T>)
    requires Inv(s)
    ensures Pull.Advances(Next, Inv, Rest, TailOf, s)
  {
    var l := Load(s);
    LoadKeeps(s);
    LoopAdvances(l);
    assert Next(l) == Loop(l);
    assert Pull.Advances(Next, Inv, Rest, TailOf, l);
    Pull.AdvancesTransfer(Next, Inv, Rest, TailOf, s, l);
  }

  /** Loading the text on the first call changes neither the answer nor what is owed. */
  lemma LoadKeeps<T>(s: State<T>)
    requires Inv(s)
    ensures Inv(Load(s)) && Load(s).loaded && Rest(Load(s)) == Rest(s) && Next(Load(s)) == Next(s)
  {
    var l := Load(s);
    assert l.vec + l.up == s.vec + s.up && N(l) == N(s);
    assert RestSpans(l) == RestSpans(s);
  }

  lemma InitIndexesRest(s: string, reverse: bool)
    ensures Inv(InitIndexes(s, reverse)) && Rest(InitIndexes(s, reverse)) == Output(s, reverse)
  {
    var s0 := InitIndexes(s, reverse);
    assert s0.vec + s0.up == s;
    InitSpans(s, reverse);
  }

  /** A fresh iterator owes every span, in the order of its direction. */
  lemma InitSpans(s: string, reverse: bool)
    ensures Inv(InitIndexes(s, reverse)) && RestSpans(InitIndexes(s, reverse)) == Spans(|s|, reverse)
  {
    if reverse && |s| > 0 {
      assert LevelDown(|s|, |s|)[0..] == LevelDown(|s|, |s|);
    }
    if !reverse && |s| > 0 {
      assert Level(|s|, 1)[0..] == Level(|s|, 1);
    }
  }

  /** `substrings_indexes` delivers the reference triples, then `None` forever. */
  lemma Behaviour(s: string, reverse: bool, k: nat)
    ensures Pull.Run(Next, InitIndexes(s, reverse), k) == Pull.Observe(Output(s, reverse), None, k)
  {
    forall u: State<char> | Inv(u) ensures Pull.Advances(Next, Inv, Rest, TailOf, u) {
      NextAdvances(u);
    }
    InitIndexesRest(s, reverse);
    Pull.RunObserves(Next, Inv, Rest, TailOf, InitIndexes(s, reverse), k);
  }

  lemma SliceNextAdvances<T>(s: State<T>)
    requires Inv(s)
    ensures Pull.Advances(SliceNext, Inv, SliceRest, TailOf, s)
  {
    NextAdvances(s);
  }

  /** `substrings` delivers the reference slices, then `None` forever. */
  lemma SliceBehaviour<T>(xs: seq<T>, k: nat)
    ensures Pull.Run(SliceNext, InitSlices(xs), k) == Pull.Observe(SliceOutput(xs), None, k)
  {
    forall u: State<T> | Inv(u) ensures Pull.Advances(SliceNext, Inv, SliceRest, TailOf, u) {
      SliceNextAdvances(u);
    }
    var s0 := InitSlices(xs);
    assert s0.vec + s0.up == xs;
    if |xs| > 0 {
      assert Level(|xs|, 1)[0..] == Level(|xs|, 1);
    }
    assert SliceRest(s0) == SliceOutput(xs);
    Pull.RunObserves(SliceNext, Inv, SliceRest, TailOf, s0, k);
  }

  // ---- properties of the spans ----

  /** A span is a non-empty slice position of an input of `n` items. */
  predicate Valid(n: nat, sp: (nat, nat)) { sp.0 < sp.1 <= n }

  /** The delivery order of the forward walk: shorter first, then leftmost first. */
  predicate Before(a: (nat, nat), b: (nat, nat))
  {
    a.1 - a.0 < b.1 - b.0 || (a.1 - a.0 == b.1 - b.0 && a.0 < b.0)
  }

  /** The spans of lengths `k..n` are valid, at least `k` long, strictly
      ordered by `Before`, and contain every valid span of length `k` or more. */
  lemma {:induction false} UpFromShape(n: nat, k: nat)
    requires k >= 1
    ensures forall i :: 0 <= i < |UpFrom(n, k)| ==> Valid(n, UpFrom(n, k)[i]) && UpFrom(n, k)[i].1 - UpFrom(n, k)[i].0 >= k
    ensures forall i, j :: 0 <= i < j < |UpFrom(n, k)| ==> Before(UpFrom(n, k)[i], UpFrom(n, k)[j])
    ensures forall a: nat, b: nat :: a < b <= n && b - a >= k ==> (a, b) in UpFrom(n, k)
    decreases n + 1 - k
  {
    if k <= n {
      UpFromShape(n, k + 1);
      var l := Level(n, k);
      var tl := UpFrom(n, k + 1);
      var u := UpFrom(n, k);
      assert u == l + tl;
      assert forall i :: |l| <= i < |u| ==> u[i] == tl[i - |l|];
      forall a: nat, b: nat | a < b <= n && b - a >= k ensures (a, b) in u {
        if b - a == k {
          assert l[a] == (a, b);
        } else {
          assert (a, b) in tl;
        }
      }
    }
  }

  /** Exactly the non-empty slices, each once, in (length, start) order. */
  lemma ForwardSpans(n: nat)
    ensures forall i :: 0 <= i < |Spans(n, false)| ==> Valid(n, Spans(n, false)[i])
    ensures forall i, j :: 0 <= i < j < |Spans(n, false)| ==> Before(Spans(n, false)[i], Spans(n, false)[j])
    ensures forall a: nat, b: nat :: a < b <= n ==> (a, b) in Spans(n, false)
  {
    UpFromShape(n, 1);
  }

  /** There are `(n - k + 1)(n - k + 2) / 2` spans of lengths `k..n`. */
  lemma {:induction false} UpFromCount(n: nat, k: nat)
    requires 1 <= k <= n + 1
    ensures 2 * |UpFrom(n, k)| == (n - k + 1) * (n - k + 2)
    decreases n + 1 - k
  {
    if k <= n {
      UpFromCount(n, k + 1);
      var a := n - k + 1;
      assert (a - 1) * a + 2 * a == a * (a + 1);
    }
  }

  /** The spans of lengths `1..m`, built from the top. */
  function UpTo(n: nat, m: nat): seq<(nat, nat)>
    requires m <= n
  {
    if m == 0 then [] else UpTo(n, m - 1) + Level(n, m)
  }

  lemma {:induction false} UpToFrom(n: nat, k: nat)
    requires 1 <= k <= n + 1
    ensures UpTo(n, k - 1) + UpFrom(n, k) == UpTo(n, n)
    decreases n + 1 - k
  {
    if k <= n {
      UpToFrom(n, k + 1);
      assert UpTo(n, k) == UpTo(n, k - 1) + Level(n, k);
      assert UpTo(n, k - 1) + (Level(n, k) + UpFrom(n, k + 1)) == UpTo(n, k) + UpFrom(n, k + 1);
    } else {
      assert UpFrom(n, k) == [];
    }
  }

  lemma {:induction false} DownIsReversedUp(n: nat, m: nat)
    requires m <= n
    ensures DownFrom(n, m) == Reverse(UpTo(n, m))
  {
    if m > 0 {
      DownIsReversedUp(n, m - 1);
      var a := UpTo(n, m - 1);
      var b := Level(n, m);
      assert Reverse(a + b) == Reverse(b) + Reverse(a);
      assert Reverse(b) == LevelDown(n, m);
    }
  }

  /** The reverse walk is the forward walk backwards: the longest slices
      first, and among equal lengths the rightmost first. */
  lemma ReverseSpans(n: nat)
    ensures Spans(n, true) == Reverse(Spans(n, false))
    ensures forall i, j :: 0 <= i < j < |Spans(n, true)| ==> Before(Spans(n, true)[j], Spans(n, true)[i])
  {
    UpToFrom(n, 1);
    assert UpTo(n, 0) + UpFrom(n, 1) == UpFrom(n, 1);
    DownIsReversedUp(n, n);
    ForwardSpans(n);
  }

  /** An input of `n` items yields `n(n+1)/2` triples in either direction;
      each triple's text is the input between its start and end. */
  lemma OutputShape<T>(xs: seq<T>, reverse: bool)
    ensures 2 * |Output(xs, reverse)| == |xs| * (|xs| + 1)
    ensures forall i :: 0 <= i < |Output(xs, reverse)| ==>
      Output(xs, reverse)[i].1 < Output(xs, reverse)[i].2 <= |xs| &&
      Output(xs, reverse)[i].0 == xs[Output(xs, reverse)[i].1..Output(xs, reverse)[i].2]
  {
    SpansValid(|xs|, reverse);
    var sp := Spans(|xs|, reverse);
    forall i | 0 <= i < |sp|
      ensures Output(xs, reverse)[i].1 < Output(xs, reverse)[i].2 <= |xs|
      ensures Output(xs, reverse)[i].0 == xs[Output(xs, reverse)[i].1..Output(xs, reverse)[i].2]
    {
      assert Valid(|xs|, sp[i]);
    }
  }

  /** In either direction there are `n(n+1)/2` spans, each valid. */
  lemma SpansValid(n: nat, reverse: bool)
    ensures 2 * |Spans(n, reverse)| == n * (n + 1)
    ensures forall i :: 0 <= i < |Spans(n, reverse)| ==> Valid(n, Spans(n, reverse)[i])
  {
    UpFromCount(n, 1);
    ReverseSpans(n);
    ForwardSpans(n);
    var sp := Spans(n, reverse);
    if reverse {
      assert forall i :: 0 <= i < |sp| ==> sp[i] == Spans(n, false)[|sp| - 1 - i];
    }
  }

  /** `substrings` delivers `n(n+1)/2` slices; empty input delivers none. */
  lemma SliceCount<T>(xs: seq<T>)
    ensures 2 * |SliceOutput(xs)| == |xs| * (|xs| + 1)
    ensures |xs| == 0 ==> SliceOutput(xs) == []
  {
    UpFromCount(|xs|, 1);
  }

  /** The forward example: "more" yields m, o, r, e, mo, or, re, mor, ore, more. */
  lemma ExampleForward()
    ensures Output("more", false) == [("m", 0, 1), ("o", 1, 2), ("r", 2, 3), ("e", 3, 4), ("mo", 0, 2),
                                       ("or", 1, 3), ("re", 2, 4), ("mor", 0, 3), ("ore", 1, 4), ("more", 0, 4)]
  {
    assert UpFrom(4, 5) == [];
    assert UpFrom(4, 4) == [(0, 4)];
    assert UpFrom(4, 3) == [(0, 3), (1, 4), (0, 4)];
    assert UpFrom(4, 2) == [(0, 2), (1, 3), (2, 4), (0, 3), (1, 4), (0, 4)];
    assert UpFrom(4, 1) == [(0, 1), (1, 2), (2, 3), (3, 4), (0, 2), (1, 3), (2, 4), (0, 3), (1, 4), (0, 4)];
    Slices();
  }

  /** The reverse example: "more" yields more, ore, mor, re, or, mo, e, r, o, m. */
  lemma ExampleReverse()
    ensures Output("more", true) == [("more", 0, 4), ("ore", 1, 4), ("mor", 0, 3), ("re", 2, 4), ("or", 1, 3),
                                      ("mo", 0, 2), ("e", 3, 4), ("r", 2, 3), ("o", 1, 2), ("m", 0, 1)]
  {
    DownExample();
    Slices();
  }

  lemma DownExample()
    ensures DownFrom(4, 4) == [(0, 4), (1, 4), (0, 3), (2, 4), (1, 3), (0, 2), (3, 4), (2, 3), (1, 2), (0, 1)]
  {
    assert DownFrom(4, 0) == [];
    assert DownFrom(4, 1) == [(3, 4), (2, 3), (1, 2), (0, 1)];
    assert DownFrom(4, 2) == [(2, 4), (1, 3), (0, 2), (3, 4), (2, 3), (1, 2), (0, 1)];
    assert DownFrom(4, 3) == [(1, 4), (0, 3), (2, 4), (1, 3), (0, 2), (3, 4), (2, 3), (1, 2), (0, 1)];
  }

  lemma Slices()
    ensures Slice("more", (0, 1)) == "m" && Slice("more", (1, 2)) == "o" && Slice("more", (2, 3)) == "r"
    ensures Slice("more", (3, 4)) == "e" && Slice("more", (0, 2)) == "mo" && Slice("more", (1, 3)) == "or"
    ensures Slice("more", (2, 4)) == "re" && Slice("more", (0, 3)) == "mor" && Slice("more", (1, 4)) == "ore"
    ensures Slice("more", (0, 4)) == "more"
  {
  }
}

=== FILE: summing.dfy ===
/** The `sum!` macro and `ilen`: fold an upstream of `Result` items with
    checked addition, stopping at the first upstream error or overflow. The
    macro is modelled for an unsigned type whose largest value is `max`. */
module Summing {
  import opened Base

  const AddOverflow := AnyError(OverflowError, "Add overflow.")
  const IlenOverflow := AnyError(OverflowError, "[ilen] add overflow")

  /** `sum!(T, iter, init)`: `init` plus every value, unless the running sum
      passes `max` (an OverflowError) or an upstream error comes first (that
      error). Values are added one at a time, so the overflow is detected
      exactly when the values before the first error add up past `max`. */
  method SumOf(xs: seq<Res<nat>>, init: nat, max: nat) returns (r: Res<nat>)
    requires init <= max
    ensures init + Sum(OkPrefix(xs)) > max ==> r == Err(AddOverflow)
    ensures init + Sum(OkPrefix(xs)) <= max && FirstErr(xs).Some? ==> r == Err(FirstErr(xs).value)
    ensures init + Sum(OkPrefix(xs)) <= max && FirstErr(xs).None? ==> r == Ok(init + Sum(OkPrefix(xs)))
  {
    OkPrefixShape(xs);
    var vals := OkPrefix(xs);
    var sum := init;
    var i := 0;
    while i < |xs|
      invariant 0 <= i <= |vals|
      invariant sum == init + Sum(vals[..i]) && sum <= max
    {
      if xs[i].Err? {
        assert i == |vals| && vals[..i] == vals;
        return xs[i];
      }
      SumPrefix(vals, i);
      if sum + xs[i].value > max {
        return Err(AddOverflow);
      }
      sum := sum + xs[i].value;
      i := i + 1;
    }
    assert vals[..i] == vals;
    return Ok(sum);
  }

  /** `ilen(iter, init)`: `init` plus the number of items; an upstream error
      is returned as it is, and counting past `usize::MAX` is an OverflowError. */
  method Ilen<T>(xs: seq<Res<T>>, init: nat) returns (r: Res<nat>)
    requires init <= USIZE_MAX
    ensures init + |OkPrefix(xs)| > USIZE_MAX ==> r == Err(IlenOverflow)
    ensures init + |OkPrefix(xs)| <= USIZE_MAX && FirstErr(xs).Some? ==> r == Err(FirstErr(xs).value)
    ensures init + |OkPrefix(xs)| <= USIZE_MAX && FirstErr(xs).None? ==> r == Ok(init + |xs|)
  {
    OkPrefixShape(xs);
    var n := init;
    var i := 0;
    while i < |xs|
      invariant 0 <= i <= |OkPrefix(xs)|
      invariant n == init + i && n <= USIZE_MAX
    {
      if xs[i].Err? {
        return Err(xs[i].error);
      }
      if n + 1 > USIZE_MAX {
        return Err(IlenOverflow);
      }
      n := n + 1;
      i := i + 1;
    }
    return Ok(n);
  }

  /** The library's examples: 1 + 2 + 3 is 6, nothing sums to the initial
      value, and `usize::MAX + 2` overflows. */
  method SumExamples()
  {
    var a := SumOf([Ok(1), Ok(2), Ok(3)], 0, USIZE_MAX);
    assert OkPrefix([Ok(1), Ok(2), Ok(3)]) == [1, 2, 3];
    assert Sum([3]) == 3 && Sum([2, 3]) == 5 && Sum([1, 2, 3]) == 6;
    assert a == Ok(6);
    var b := SumOf([], 0, USIZE_MAX);
    assert b == Ok(0);
    var c := SumOf([Ok(USIZE_MAX), Ok(2), Ok(3)], 0, USIZE_MAX);
    assert OkPrefix([Ok(USIZE_MAX), Ok(2), Ok(3)]) == [USIZE_MAX, 2, 3];
    assert Sum([USIZE_MAX, 2, 3]) == USIZE_MAX + 2 + 3 + Sum([]);
    assert c == Err(AddOverflow);
  }
}

=== FILE: tail.dfy ===
/** `tail`: the last `n` items, found by running the upstream dry through a
    buffer of at most `n` items. */
module Tail {
  import opened Base
  import Pull

  /** The upstream items not yet pulled, the buffer, and `n`. */
  datatype State<T> = State(up: seq<T>, buf: seq<T>, n: nat)

  function Init<T>(xs: seq<T>, n: nat): State<T>
  {
    State(xs, [], n)
  }

  /** The last `min(n, |xs|)` items of `xs`. */
  function LastN<T>(xs: seq<T>, n: nat): (r: seq<T>)
    ensures |r| == Min(n, |xs|)
    ensures xs == xs[..|xs| - |r|] + r
  {
    xs[|xs| - Min(n, |xs|)..]
  }

  /** One call of `next()`: pull until the upstream is exhausted, dropping the
      oldest item whenever the buffer is full, then hand out the buffer. */
  function Next<T>(s: State<T>): (t: Pull.Step<State<T>, T>)
    requires |s.buf| <= s.n
    ensures |t.state.buf| <= t.state.n == s.n
    decreases |s.up|
  {
    if s.n == 0 then Pull.Step(s, None)
    else if |s.up| == 0 then
      if |s.buf| == 0 then Pull.Step(s, None) else Pull.Step(s.(buf := s.buf[1..]), Some(s.buf[0]))
    else
      var kept := if |s.buf| == s.n then s.buf[1..] else s.buf;
      Next(s.(up := s.up[1..], buf := kept + [s.up[0]]))
  }

  ghost predicate Inv<T>(s: State<T>) { |s.buf| <= s.n }

  /** The total step: states outside the invariant answer `None`. */
  function Step<T>(s: State<T>): Pull.Step<State<T>, T>
  {
    if |s.buf| <= s.n then Next(s) else Pull.Step(s, None)
  }

  function Rest<T>(s: State<T>): seq<T>
  {
    LastN(s.buf + s.up, s.n)
  }

  function TailOf<T>(s: State<T>): Option<T> { None }

  /** Pulling one item into the buffer does not change the last `n` items. */
  lemma PullKeeps<T>(s: State<T>)
    requires |s.buf| <= s.n && s.n > 0 && |s.up| > 0
    ensures var kept := if |s.buf| == s.n then s.buf[1..] else s.buf;
      LastN(kept + [s.up[0]] + s.up[1..], s.n) == LastN(s.buf + s.up, s.n)
  {
    var kept := if |s.buf| == s.n then s.buf[1..] else s.buf;
    var a := kept + [s.up[0]] + s.up[1..];
    var b := s.buf + s.up;
    if |s.buf| == s.n {
      assert b == [s.buf[0]] + a;
      assert b[1..] == a;
    } else {
      assert a == b;
    }
  }

  lemma {:induction false} NextAdvances<T>(s: State<T>)
    requires Inv(s)
    ensures Pull.Advances(Step, Inv, Rest, TailOf, s)
    decreases |s.up|
  {
    if s.n > 0 && |s.up| > 0 {
      var kept := if |s.buf| == s.n then s.buf[1..] else s.buf;
      var s1 := s.(up := s.up[1..], buf := kept + [s.up[0]]);
      PullKeeps(s);
      assert s1.buf + s1.up == kept + [s.up[0]] + s.up[1..];
      NextAdvances(s1);
      Pull.AdvancesTransfer(Step, Inv, Rest, TailOf, s, s1);
    } else if s.n > 0 {
      assert s.buf + s.up == s.buf;
      if |s.buf| > 0 {
        assert s.buf[1..] + s.up == s.buf[1..];
      }
    } else {
      assert LastN(s.buf + s.up, 0) == [];
    }
  }

  /** The iterator delivers the last `n` items in order (all of them when
      `n` exceeds the length, none when `n` is 0), then `None` forever. */
  lemma Behaviour<T>(xs: seq<T>, n: nat, m: nat)
    ensures Pull.Run(Step, Init(xs, n), m) == Pull.Observe(LastN(xs, n), None, m)
  {
    forall s: State<T> | Inv(s) ensures Pull.Advances(Step, Inv, Rest, TailOf, s) {
      NextAdvances(s);
    }
    assert [] + xs == xs;
    Pull.RunObserves(Step, Inv, Rest, TailOf, Init(xs, n), m);
  }

  /** The library's examples: the last 3 of 1..5, and all of them for 7. */
  lemma Examples(xs: seq<int>)
    requires xs == [1, 2, 3, 4, 5]
    ensures LastN(xs, 3) == [3, 4, 5]
    ensures LastN(xs, 7) == xs
    ensures LastN(xs, 0) == []
  {
  }
}

=== FILE: unzip.dfy ===
/** `unzip2` .. `unzip5`: split a sequence of tuples into one vector per
    component. */
module Unzip {

  /** Pairs up two equally long vectors position by position. */
  function Zip2<A, B>(a: seq<A>, b: seq<B>): (r: seq<(A, B)>)
    requires |a| == |b|
    ensures |r| == |a|
  {
    seq(|a|, i requires 0 <= i < |a| => (a[i], b[i]))
  }

  /** Every component in input order; zipping the two vectors back gives
      the input. */
  method Unzip2<A, B>(xs: seq<(A, B)>) returns (a: seq<A>, b: seq<B>)
    ensures |a| == |xs| && |b| == |xs|
    ensures forall i :: 0 <= i < |xs| ==> a[i] == xs[i].0 && b[i] == xs[i].1
    ensures Zip2(a, b) == xs
  {
    a, b := [], [];
    for i := 0 to |xs|
      invariant |a| == i && |b| == i
      invariant forall j :: 0 <= j < i ==> a[j] == xs[j].0 && b[j] == xs[j].1
    {
      a, b := a + [xs[i].0], b + [xs[i].1];
    }
  }

  method Unzip3<A, B, C>(xs: seq<(A, B, C)>) returns (a: seq<A>, b: seq<B>, c: seq<C>)
    ensures |a| == |xs| && |b| == |xs| && |c| == |xs|
    ensures forall i :: 0 <= i < |xs| ==> a[i] == xs[i].0 && b[i] == xs[i].1 && c[i] == xs[i].2
  {
    a, b, c := [], [], [];
    for i := 0 to |xs|
      invariant |a| == i && |b| == i && |c| == i
      invariant forall j :: 0 <= j < i ==> a[j] == xs[j].0 && b[j] == xs[j].1 && c[j] == xs[j].2
    {
      a, b, c := a + [xs[i].0], b + [xs[i].1], c + [xs[i].2];
    }
  }

  method Unzip4<A, B, C, D>(xs: seq<(A, B, C, D)>) returns (a: seq<A>, b: seq<B>, c: seq<C>, d: seq<D>)
    ensures |a| == |xs| && |b| == |xs| && |c| == |xs| && |d| == |xs|
    ensures forall i :: 0 <= i < |xs| ==> a[i] == xs[i].0 && b[i] == xs[i].1 && c[i] == xs[i].2 && d[i] == xs[i].3
  {
    a, b, c, d := [], [], [], [];
    for i := 0 to |xs|
      invariant |a| == i && |b| == i && |c| == i && |d| == i
      invariant forall j :: 0 <= j < i ==> a[j] == xs[j].0 && b[j] == xs[j].1 && c[j] == xs[j].2 && d[j] == xs[j].3
    {
      a, b, c, d := a + [xs[i].0], b + [xs[i].1], c + [xs[i].2], d + [xs[i].3];
    }
  }

  method Unzip5<A, B, C, D, E>(xs: seq<(A, B, C, D, E)>) returns (a: seq<A>, b: seq<B>, c: seq<C>, d: seq<D>, e: seq<E>)
    ensures |a| == |xs| && |b| == |xs| && |c| == |xs| && |d| == |xs| && |e| == |xs|
    ensures forall i :: 0 <= i < |xs| ==> a[i] == xs[i].0 && b[i] == xs[i].1 && c[i] == xs[i].2 && d[i] == xs[i].3 && e[i] == xs[i].4
  {
    a, b, c, d, e := [], [], [], [], [];
    for i := 0 to |xs|
      invariant |a| == i && |b| == i && |c| == i && |d| == i && |e| == i
      invariant forall j :: 0 <= j < i ==> a[j] == xs[j].0 && b[j] == xs[j].1 && c[j] == xs[j].2 && d[j] == xs[j].3 && e[j] == xs[j].4
    {
      a, b, c, d, e := a + [xs[i].0], b + [xs[i].1], c + [xs[i].2], d + [xs[i].3], e + [xs[i].4];
    }
  }

  /** Splitting a zipped pair of vectors gives the vectors back. */
  method ZipUnzip<A, B>(a: seq<A>, b: seq<B>) returns (a2: seq<A>, b2: seq<B>)
    requires |a| == |b|
    ensures a2 == a && b2 == b
  {
    a2, b2 := Unzip2(Zip2(a, b));
  }
}

=== FILE: utils.dfy ===
/** `extract_value_from_result_vec`: the values before the first error, and
    whether an error was met. */
module Utils {
  import opened Base

  method ExtractValues<T>(xs: seq<Res<T>>) returns (vals: seq<T>, sawErr: bool)
    ensures vals == OkPrefix(xs)
    ensures sawErr <==> exists i :: 0 <= i < |xs| && xs[i].Err?
    ensures |vals| <= |xs| && forall i :: 0 <= i < |vals| ==> xs[i] == Ok(vals[i])
    ensures !sawErr <==> |vals| == |xs|
  {
    vals := [];
    var i := 0;
    while i < |xs|
      invariant 0 <= i <= |xs|
      invariant forall j :: 0 <= j < i ==> xs[j].Ok?
      invariant vals == seq(i, j requires 0 <= j < i => xs[j].value)
      invariant OkPrefix(xs) == vals + OkPrefix(xs[i..])
    {
      assert xs[i..][1..] == xs[i + 1..];
      if xs[i].Err? {
        assert OkPrefix(xs[i..]) == [];
        return vals, true;
      }
      vals := vals + [xs[i].value];
      i := i + 1;
    }
    assert OkPrefix(xs[i..]) == [];
    return vals, false;
  }
}

=== FILE: windowed.dfy ===
/** `windowed`: windows of `n` consecutive values, starting `step` values
    apart. The first window is read in one go; each later one drops `step`
    values from the front and pulls `step` new ones. An upstream error is
    delivered once and ends the iteration. */
module Windowed {
  import opened Base
  import Pull

  /** The iterator state: the current window, the items not yet pulled, the
      configuration, whether the first window was read and whether an
      upstream error ended the iteration. */
  datatype State<T> = State(buf: seq<T>, up: seq<Res<T>>, n: nat, step: nat, cached: bool, finished: bool)

  function Init<T>(xs: seq<Res<T>>, n: nat, step: nat): State<T>
  {
    State([], xs, n, step, false, false)
  }

  const ZeroN := ValueErr("[windowed:n should not be 0]")

  /** What a pulling loop leaves: the buffer, the items not yet pulled and
      the upstream error it stopped at, if any. */
  datatype Pulled<T> = Pulled(buf: seq<T>, up: seq<Res<T>>, err: Option<Error>)

  /** The first-window loop: up to `i` pulls appended to the buffer, stopping
      early when the upstream is exhausted or delivers an error. */
  function Fill<T>(buf: seq<T>, up: seq<Res<T>>, i: nat): Pulled<T>
    decreases i
  {
    if i == 0 || |up| == 0 then Pulled(buf, up, None)
    else if up[0].Err? then Pulled(buf, up[1..], Some(up[0].error))
    else Fill(buf + [up[0].value], up[1..], i - 1)
  }

  /** The sliding loop: `i` rounds of dropping the front value (if any) and
      pulling one, stopping early like `Fill`. */
  function Shift<T>(buf: seq<T>, up: seq<Res<T>>, i: nat): Pulled<T>
    decreases i
  {
    if i == 0 then Pulled(buf, up, None)
    else
      var b := if |buf| > 0 then buf[1..] else buf;
      if |up| == 0 then Pulled(b, up, None)
      else if up[0].Err? then Pulled(b, up[1..], Some(up[0].error))
      else Shift(b + [up[0].value], up[1..], i - 1)
  }

  /** One call of `next()`. `n == 0` is an error on every call; a buffer
      shorter than `n` after pulling answers `None`. */
  function Next<T>(s: State<T>): Pull.Step<State<T>, Res<seq<T>>>
  {
    if s.finished then Pull.Step(s, None)
    else if s.n == 0 then Pull.Step(s, Some(Err(ZeroN)))
    else
      var p := if !s.cached then Fill(s.buf, s.up, s.n) else Shift(s.buf, s.up, s.step);
      if p.err.Some? then Pull.Step(State(p.buf, p.up, s.n, s.step, s.cached, true), Some(Err(p.err.value)))
      else
        var t := State(p.buf, p.up, s.n, s.step, true, false);
        if |p.buf| < s.n then Pull.Step(t, None) else Pull.Step(t, Some(Ok(p.buf)))
  }

  // ---- reference definition ----

  /** The windows of `n` values starting at 0, `step`, `2 * step`, ... that
      fit inside `v`. */
  function Wins<T>(v: seq<T>, n: nat, step: nat): seq<seq<T>>
    requires n > 0 && step > 0
    decreases |v|
  {
    if |v| < n then [] else [v[..n]] + Wins(v[Min(step, |v|)..], n, step)
  }

  /** Every item delivered: with `step > 0` the windows over the values
      before the first error, then that error; with `step == 0` only a too
      short input's error (the first window then repeats, see `Tail`). */
  function Output<T>(xs: seq<Res<T>>, n: nat, step: nat): seq<Res<seq<T>>>
  {
    if n == 0 then []
    else if step == 0 then (if n <= |OkPrefix(xs)| then [] else ErrItem(FirstErr(xs)))
    else Oks(Wins(OkPrefix(xs), n, step)) + ErrItem(FirstErr(xs))
  }

  /** What every later call answers: the `n == 0` error, the first window
      forever when `step == 0`, otherwise `None`. */
  function Tail<T>(xs: seq<Res<T>>, n: nat, step: nat): Option<Res<seq<T>>>
  {
    if n == 0 then Some(Err(ZeroN))
    else if step == 0 && n <= |OkPrefix(xs)| then Some(Ok(OkPrefix(xs)[..n]))
    else None
  }

  // ---- the pulling loops ----

  /** Dropping `i` items that are all values keeps the rest of the values and the first error. */
  lemma {:induction false} OkPrefixDrop<T>(up: seq<Res<T>>, i: nat)
    requires i <= |OkPrefix(up)|
    ensures i <= |up|
    ensures OkPrefix(up[i..]) == OkPrefix(up)[i..] && FirstErr(up[i..]) == FirstErr(up)
  {
    OkPrefixShape(up);
    if i > 0 {
      OkPrefixDrop(up[1..], i - 1);
      assert up[1..][i - 1..] == up[i..];
    }
  }

  /** With enough values ahead, the first-window loop appends `i` of them. */
  lemma {:induction false} FillOk<T>(buf: seq<T>, up: seq<Res<T>>, i: nat)
    requires i <= |OkPrefix(up)|
    ensures i <= |up|
    ensures Fill(buf, up, i) == Pulled(buf + OkPrefix(up)[..i], up[i..], None)
    decreases i
  {
    OkPrefixShape(up);
    if i > 0 {
      FillOk(buf + [up[0].value], up[1..], i - 1);
      assert buf + [up[0].value] + OkPrefix(up[1..])[..i - 1] == buf + OkPrefix(up)[..i];
      assert up[1..][i - 1..] == up[i..];
    } else {
      assert buf + OkPrefix(up)[..0] == buf;
    }
  }

  /** Without enough values ahead, the first-window loop stops at the first
      error, or at exhaustion with all remaining values appended. */
  lemma {:induction false} FillStop<T>(buf: seq<T>, up: seq<Res<T>>, i: nat)
    requires i > |OkPrefix(up)|
    ensures Fill(buf, up, i).err == FirstErr(up)
    ensures FirstErr(up).None? ==> Fill(buf, up, i).buf == buf + OkPrefix(up) && Fill(buf, up, i).up == []
    decreases i
  {
    if |up| > 0 && up[0].Ok? {
      FillStop(buf + [up[0].value], up[1..], i - 1);
      assert buf + [up[0].value] + OkPrefix(up[1..]) == buf + OkPrefix(up);
    }
  }

  /** With enough values ahead, sliding `i` times over a non-empty buffer
      moves it `i` values on and keeps its length. */
  lemma {:induction false} ShiftOk<T>(buf: seq<T>, up: seq<Res<T>>, i: nat)
    requires |buf| > 0 && i <= |OkPrefix(up)|
    ensures i <= |up|
    ensures Shift(buf, up, i) == Pulled((buf + OkPrefix(up)[..i])[i..], up[i..], None)
    decreases i
  {
    OkPrefixShape(up);
    if i > 0 {
      var b := buf[1..] + [up[0].value];
      ShiftOk(b, up[1..], i - 1);
      assert (b + OkPrefix(up[1..])[..i - 1])[i - 1..] == (buf + OkPrefix(up)[..i])[i..];
      assert up[1..][i - 1..] == up[i..];
    } else {
      assert (buf + OkPrefix(up)[..0])[0..] == buf;
    }
  }

  /** Without enough values ahead, sliding stops at the first error, or at
      exhaustion with a buffer shorter than before. */
  lemma {:induction false} ShiftStop<T>(buf: seq<T>, up: seq<Res<T>>, i: nat)
    requires |buf| > 0 && i > |OkPrefix(up)|
    ensures Shift(buf, up, i).err == FirstErr(up)
    ensures FirstErr(up).None? ==> |Shift(buf, up, i).buf| < |buf| && Shift(buf, up, i).up == []
    decreases i
  {
    if |up| > 0 && up[0].Ok? {
      ShiftStop(buf[1..] + [up[0].value], up[1..], i - 1);
    }
  }

  // ---- the machine ----

  ghost predicate Inv<T>(s: State<T>)
  {
    !s.finished ==>
      (!s.cached ==> s.buf == []) &&
      (s.cached ==> s.n > 0 && (|s.buf| == s.n || (|s.buf| < s.n && s.up == [])))
  }

  function Rest<T>(s: State<T>): seq<Res<seq<T>>>
  {
    if s.finished || s.n == 0 then []
    else if !s.cached then Output(s.up, s.n, s.step)
    else if |s.buf| < s.n || s.step == 0 then []
    else Oks(Wins(s.buf + OkPrefix(s.up), s.n, s.step)[1..]) + ErrItem(FirstErr(s.up))
  }

  function TailOf<T>(s: State<T>): Option<Res<seq<T>>>
  {
    if s.finished then None
    else if s.n == 0 then Some(Err(ZeroN))
    else if s.step == 0 && s.cached then (if |s.buf| >= s.n then Some(Ok(s.buf)) else None)
    else if s.step == 0 && s.n <= |OkPrefix(s.up)| then Some(Ok(OkPrefix(s.up)[..s.n]))
    else None
  }

  /** The first call, before any window was read. */
  lemma FirstAdvances<T>(s: State<T>)
    requires Inv(s) && !s.finished && s.n > 0 && !s.cached
    ensures Pull.Advances(Next, Inv, Rest, TailOf, s)
  {
    var v := OkPrefix(s.up);
    if s.n <= |v| {
      FillOk(s.buf, s.up, s.n);
      OkPrefixDrop(s.up, s.n);
      assert s.buf + v[..s.n] == v[..s.n];
      if s.step > 0 {
        assert v[..s.n] + v[s.n..] == v;
        var w := Wins(v, s.n, s.step);
        assert w[0] == v[..s.n];
        assert (Oks(w) + ErrItem(FirstErr(s.up)))[1..] == Oks(w[1..]) + ErrItem(FirstErr(s.up));
      }
    } else {
      FillStop(s.buf, s.up, s.n);
    }
  }

  /** A later call, sliding a full window by `step > 0`. */
  lemma SlideAdvances<T>(s: State<T>)
    requires Inv(s) && !s.finished && s.n > 0 && s.cached && |s.buf| == s.n && s.step > 0
    ensures Pull.Advances(Next, Inv, Rest, TailOf, s)
  {
    if s.step <= |OkPrefix(s.up)| {
      SlideFull(s);
    } else {
      SlideShort(s);
    }
  }

  /** Enough values remain: the window moves on by `step`. */
  lemma SlideFull<T>(s: State<T>)
    requires Inv(s) && !s.finished && s.n > 0 && s.cached && |s.buf| == s.n && s.step > 0
    requires s.step <= |OkPrefix(s.up)|
    ensures Pull.Advances(Next, Inv, Rest, TailOf, s)
  {
    var v := OkPrefix(s.up);
    var z := s.buf + v;
    var w := Wins(z, s.n, s.step);
    ShiftOk(s.buf, s.up, s.step);
    OkPrefixDrop(s.up, s.step);
    var b := (s.buf + v[..s.step])[s.step..];
    assert w[1..] == Wins(z[s.step..], s.n, s.step);
    assert z[s.step..][..s.n] == b;
    assert b + v[s.step..] == z[s.step..];
    assert (Oks(w[1..]) + ErrItem(FirstErr(s.up)))[1..] == Oks(w[1..][1..]) + ErrItem(FirstErr(s.up));
  }

  /** Too few values remain: the iterator stops. */
  lemma SlideShort<T>(s: State<T>)
    requires Inv(s) && !s.finished && s.n > 0 && s.cached && |s.buf| == s.n && s.step > 0
    requires s.step > |OkPrefix(s.up)|
    ensures Pull.Advances(Next, Inv, Rest, TailOf, s)
  {
    var z := s.buf + OkPrefix(s.up);
    var w := Wins(z, s.n, s.step);
    ShiftStop(s.buf, s.up, s.step);
    assert w[1..] == Wins(z[Min(s.step, |z|)..], s.n, s.step);
  }

  lemma NextAdvances<T>(s: State<T>)
    requires Inv(s)
    ensures Pull.Advances(Next, Inv, Rest, TailOf, s)
  {
    if !s.finished && s.n > 0 {
      if !s.cached {
        FirstAdvances(s);
      } else if |s.buf| == s.n && s.step > 0 {
        SlideAdvances(s);
      }
    }
  }

  /** The answers are the windows over the values before the first upstream
      error, then that error once, then `None` forever; with `step == 0` the
      first window repeats forever; with `n == 0` every call is a ValueError. */
  lemma Behaviour<T>(xs: seq<Res<T>>, n: nat, step: nat, m: nat)
    ensures Pull.Run(Next, Init(xs, n, step), m) == Pull.Observe(Output(xs, n, step), Tail(xs, n, step), m)
  {
    forall s: State<T> | Inv(s) ensures Pull.Advances(Next, Inv, Rest, TailOf, s) {
      NextAdvances(s);
    }
    Pull.RunObserves(Next, Inv, Rest, TailOf, Init(xs, n, step), m);
  }

  // ---- properties of the windows ----

  lemma MulSucc(j: nat, k: nat)
    ensures (j + 1) * k == j * k + k
  {
  }

  /** There are `(len - n) / step + 1` windows when `n <= len`, none
      otherwise, so a trailing short window is dropped. */
  lemma {:induction false} WinsCount<T>(v: seq<T>, n: nat, step: nat)
    requires n > 0 && step > 0
    ensures |Wins(v, n, step)| == if |v| < n then 0 else (|v| - n) / step + 1
    decreases |v|
  {
    if |v| >= n {
      var r := v[Min(step, |v|)..];
      WinsCount(r, n, step);
      if step <= |v| && |v| - step >= n {
        DivStep(|v| - step - n, step);
      } else {
        DivMod(|v| - n, step, 0, |v| - n);
      }
    }
  }

  /** Window `j` is the `n` values starting at `j * step`. */
  lemma WinsIndex<T>(v: seq<T>, n: nat, step: nat)
    requires n > 0 && step > 0
    ensures forall j :: 0 <= j < |Wins(v, n, step)| ==> j * step + n <= |v| && Wins(v, n, step)[j] == v[j * step..j * step + n]
  {
    forall j | 0 <= j < |Wins(v, n, step)| ensures j * step + n <= |v| && Wins(v, n, step)[j] == v[j * step..j * step + n] {
      WinAt(v, n, step, j, j * step);
    }
  }

  /** Window `j`, starting at `m = j * step`, is `v[m..m + n]`. */
  lemma {:induction false} WinAt<T>(v: seq<T>, n: nat, step: nat, j: nat, m: nat)
    requires n > 0 && step > 0 && j < |Wins(v, n, step)| && m == j * step
    ensures m + n <= |v| && Wins(v, n, step)[j] == v[m..m + n]
    decreases j
  {
    var r := v[Min(step, |v|)..];
    assert Wins(v, n, step) == [v[..n]] + Wins(r, n, step);
    if j > 0 {
      MulSucc(j - 1, step);
      assert step <= |v|;
      WinAt(r, n, step, j - 1, m - step);
      SliceShift(v, step, m - step, n);
    }
  }

  /** Slicing after dropping `d` items is slicing `d` further on. */
  lemma SliceShift<T>(v: seq<T>, d: nat, a: nat, n: nat)
    requires d + a + n <= |v|
    ensures v[d..][a..a + n] == v[d + a..d + a + n]
  {
  }

  /** Window `j` is the `n` values starting at `j * step`, and the windows
      are all that fit. */
  lemma WinsAt<T>(v: seq<T>, n: nat, step: nat)
    requires n > 0 && step > 0
    ensures |Wins(v, n, step)| == if |v| < n then 0 else (|v| - n) / step + 1
    ensures forall j :: 0 <= j < |Wins(v, n, step)| ==> j * step + n <= |v| && Wins(v, n, step)[j] == v[j * step..j * step + n]
  {
    WinsCount(v, n, step);
    WinsIndex(v, n, step);
  }

  /** With step 1 window `i` is `v[i..i + n]`, and there are `len - n + 1` windows. */
  lemma StepOne<T>(v: seq<T>, n: nat)
    requires n > 0
    ensures |Wins(v, n, 1)| == if |v| < n then 0 else |v| - n + 1
    ensures forall i :: 0 <= i < |Wins(v, n, 1)| ==> i + n <= |v| && Wins(v, n, 1)[i] == v[i..i + n]
  {
    WinsAt(v, n, 1);
  }

  /** Every delivered window has `n` items, an error can only be the last
      item, and it is the input's first error. */
  lemma OutputShape<T>(xs: seq<Res<T>>, n: nat, step: nat)
    ensures forall i :: 0 <= i < |Output(xs, n, step)| && Output(xs, n, step)[i].Ok? ==> |Output(xs, n, step)[i].value| == n
    ensures forall i :: 0 <= i < |Output(xs, n, step)| - 1 ==> Output(xs, n, step)[i].Ok?
    ensures forall i :: 0 <= i < |Output(xs, n, step)| && Output(xs, n, step)[i].Err? ==> FirstErr(xs) == Some(Output(xs, n, step)[i].error)
  {
    if n > 0 && step > 0 {
      WinsAt(OkPrefix(xs), n, step);
    }
  }

  /** Fewer than `n` values and no error: the first call already answers `None`. */
  lemma TooShort<T>(xs: seq<T>, n: nat, step: nat)
    requires 0 < n && |xs| < n
    ensures Next(Init(Oks(xs), n, step)).out == None
  {
    OkPrefixOfAllOk(Oks(xs));
    FillStop([], Oks(xs), n);
  }

  /** The library's examples: windows of 3 over 1..=5 with step 1, and over
      1..=8 with step 2 (the short window [7, 8] is dropped). */
  lemma Examples()
    ensures Wins([1, 2, 3, 4, 5], 3, 1) == [[1, 2, 3], [2, 3, 4], [3, 4, 5]]
    ensures Wins([1, 2, 3, 4, 5, 6, 7, 8], 3, 2) == [[1, 2, 3], [3, 4, 5], [5, 6, 7]]
  {
    ExampleCase([1, 2, 3, 4, 5], [1, 2, 3, 4, 5, 6, 7, 8]);
  }

  lemma ExampleCase(a: seq<int>, b: seq<int>)
    requires a == [1, 2, 3, 4, 5] && b == [1, 2, 3, 4, 5, 6, 7, 8]
    ensures Wins(a, 3, 1) == [[1, 2, 3], [2, 3, 4], [3, 4, 5]]
    ensures Wins(b, 3, 2) == [[1, 2, 3], [3, 4, 5], [5, 6, 7]]
  {
    WinsAt(a, 3, 1);
    WinsAt(b, 3, 2);
    assert a[0..3] == [1, 2, 3] && a[1..4] == [2, 3, 4] && a[2..5] == [3, 4, 5];
    assert b[0..3] == [1, 2, 3] && b[2..5] == [3, 4, 5] && b[4..7] == [5, 6, 7];
    DivMod(2, 1, 2, 0);
    DivMod(5, 2, 2, 1);
  }
}

=== FILE: windowed_complete.dfy ===
/** `windowed_complete`: for every window of `n` consecutive items, the items
    before it, the window and the items after it. The input is read in full
    when the iterator is built. */
module WindowedComplete {
  import opened Base
  import Pull

  datatype State<T> = State(buf: seq<T>, n: nat, cur: nat)

  /** Building the iterator drains the input into `buf`. */
  function Init<T>(xs: seq<T>, n: nat): (s: State<T>)
    ensures s.buf == xs && s.cur == 0
  {
    State(xs, n, 0)
  }

  const TooLong := ValueErr("n must be <= len(seq)")

  /** One call of `next()`. A window longer than the input is an error on
      every call. */
  function Next<T>(s: State<T>): Pull.Step<State<T>, Res<(seq<T>, seq<T>, seq<T>)>>
  {
    if s.n > |s.buf| then Pull.Step(s, Some(Err(TooLong)))
    else if s.cur + s.n > |s.buf| then Pull.Step(s, None)
    else Pull.Step(s.(cur := s.cur + 1), Some(Ok((s.buf[..s.cur], s.buf[s.cur..s.cur + s.n], s.buf[s.cur + s.n..]))))
  }

  /** Reference definition: the input cut around the window starting at `c`. */
  function Cut<T>(xs: seq<T>, n: nat, c: nat): (seq<T>, seq<T>, seq<T>)
    requires c + n <= |xs|
  {
    (xs[..c], xs[c..c + n], xs[c + n..])
  }

  /** Every delivered item: one cut per window start `0 ..= len - n`. */
  function Output<T>(xs: seq<T>, n: nat): seq<Res<(seq<T>, seq<T>, seq<T>)>>
  {
    if n > |xs| then [] else seq(|xs| - n + 1, c requires 0 <= c < |xs| - n + 1 => Ok(Cut(xs, n, c)))
  }

  function Tail<T>(xs: seq<T>, n: nat): Option<Res<(seq<T>, seq<T>, seq<T>)>>
  {
    if n > |xs| then Some(Err(TooLong)) else None
  }

  ghost predicate Inv<T>(s: State<T>) { s.n <= |s.buf| ==> s.cur <= |s.buf| - s.n + 1 }

  function Rest<T>(s: State<T>): seq<Res<(seq<T>, seq<T>, seq<T>)>>
  {
    if s.n > |s.buf| || s.cur > |s.buf| - s.n + 1 then [] else Output(s.buf, s.n)[s.cur..]
  }

  function TailOf<T>(s: State<T>): Option<Res<(seq<T>, seq<T>, seq<T>)>> { Tail(s.buf, s.n) }

  lemma NextAdvances<T>(s: State<T>)
    requires Inv(s)
    ensures Pull.Advances(Next, Inv, Rest, TailOf, s)
  {
    if s.n <= |s.buf| && s.cur + s.n <= |s.buf| {
      var o := Output(s.buf, s.n);
      assert o[s.cur..][1..] == o[s.cur + 1..];
    }
  }

  /** The answers are the cuts in window order, then `None` forever; a
      window longer than the input is a ValueError on every call. */
  lemma Behaviour<T>(xs: seq<T>, n: nat, m: nat)
    ensures Pull.Run(Next, Init(xs, n), m) == Pull.Observe(Output(xs, n), Tail(xs, n), m)
  {
    forall s: State<T> | Inv(s) ensures Pull.Advances(Next, Inv, Rest, TailOf, s) {
      NextAdvances(s);
    }
    Pull.RunObserves(Next, Inv, Rest, TailOf, Init(xs, n), m);
    assert Output(xs, n)[0..] == Output(xs, n);
  }

  /** The three parts concatenate to the input, the window has `n` items and
      `c` items come before it. */
  ghost predicate CutAt<T>(xs: seq<T>, n: nat, c: nat, t: (seq<T>, seq<T>, seq<T>))
  {
    t.0 + t.1 + t.2 == xs && |t.1| == n && |t.0| == c
  }

  /** There are `len - n + 1` cuts, and cut `c` splits the input around the
      window that starts at `c`. */
  lemma OutputShape<T>(xs: seq<T>, n: nat)
    ensures |Output(xs, n)| == if n > |xs| then 0 else |xs| - n + 1
    ensures forall c :: 0 <= c < |Output(xs, n)| ==> Output(xs, n)[c].Ok? && CutAt(xs, n, c, Output(xs, n)[c].value)
  {
    forall c | 0 <= c < |Output(xs, n)| ensures Output(xs, n)[c].Ok? && CutAt(xs, n, c, Output(xs, n)[c].value) {
      assert xs == xs[..c] + xs[c..c + n] + xs[c + n..];
    }
  }

  /** The library's example: windows of 3 over 0..=6. */
  lemma Example()
    ensures Output([0, 1, 2, 3, 4, 5, 6], 3) == [Ok(([], [0, 1, 2], [3, 4, 5, 6])), Ok(([0], [1, 2, 3], [4, 5, 6])),
      Ok(([0, 1], [2, 3, 4], [5, 6])), Ok(([0, 1, 2], [3, 4, 5], [6])), Ok(([0, 1, 2, 3], [4, 5, 6], []))]
  {
    ExampleCase([0, 1, 2, 3, 4, 5, 6]);
  }

  lemma ExampleCase(xs: seq<int>)
    requires xs == [0, 1, 2, 3, 4, 5, 6]
    ensures Output(xs, 3) == [Ok(([], [0, 1, 2], [3, 4, 5, 6])), Ok(([0], [1, 2, 3], [4, 5, 6])),
      Ok(([0, 1], [2, 3, 4], [5, 6])), Ok(([0, 1, 2], [3, 4, 5], [6])), Ok(([0, 1, 2, 3], [4, 5, 6], []))]
  {
    var o := Output(xs, 3);
    assert |o| == 5;
    assert xs[..0] == [] && xs[..1] == [0] && xs[..2] == [0, 1] && xs[..3] == [0, 1, 2] && xs[..4] == [0, 1, 2, 3];
    assert xs[0..3] == [0, 1, 2] && xs[1..4] == [1, 2, 3] && xs[2..5] == [2, 3, 4] && xs[3..6] == [3, 4, 5] && xs[4..7] == [4, 5, 6];
    assert xs[3..] == [3, 4, 5, 6] && xs[4..] == [4, 5, 6] && xs[5..] == [5, 6] && xs[6..] == [6] && xs[7..] == [];
    assert o[0] == Ok(([], [0, 1, 2], [3, 4, 5, 6]));
    assert o[1] == Ok(([0], [1, 2, 3], [4, 5, 6]));
    assert o[2] == Ok(([0, 1], [2, 3, 4], [5, 6]));
    assert o[3] == Ok(([0, 1, 2], [3, 4, 5], [6]));
    assert o[4] == Ok(([0, 1, 2, 3], [4, 5, 6], []));
  }
}

=== FILE: zip.dfy ===
/** `zip` of two inputs: pairs items by position and stops at the first round
    in which either input is exhausted. Both inputs are pulled every round. */
module Zip {
  import opened Base
  import Pull

  datatype State<A, B> = State(left: seq<A>, right: seq<B>, finished: bool)

  function Init<A, B>(xs: seq<A>, ys: seq<B>): State<A, B>
  {
    State(xs, ys, false)
  }

  function Drop1<T>(xs: seq<T>): seq<T> { if |xs| == 0 then [] else xs[1..] }

  /** `Zip::next`. */
  function Next<A, B>(s: State<A, B>): (t: Pull.Step<State<A, B>, (A, B)>)
    ensures !s.finished ==> t.state.left == Drop1(s.left) && t.state.right == Drop1(s.right)
  {
    if s.finished then Pull.Step(s, None)
    else if |s.left| > 0 && |s.right| > 0 then
      Pull.Step(State(s.left[1..], s.right[1..], false), Some((s.left[0], s.right[0])))
    else Pull.Step(State(Drop1(s.left), Drop1(s.right), true), None)
  }

  /** The pairs of items at equal positions, as far as both inputs reach. */
  function Output<A, B>(xs: seq<A>, ys: seq<B>): (r: seq<(A, B)>)
    ensures |r| == Min(|xs|, |ys|)
    ensures forall i :: 0 <= i < |r| ==> r[i] == (xs[i], ys[i])
  {
    seq(Min(|xs|, |ys|), i requires 0 <= i < Min(|xs|, |ys|) => (xs[i], ys[i]))
  }

  ghost predicate Inv<A, B>(s: State<A, B>) { true }

  function Rest<A, B>(s: State<A, B>): seq<(A, B)>
  {
    if s.finished then [] else Output(s.left, s.right)
  }

  function TailOf<A, B>(s: State<A, B>): Option<(A, B)> { None }

  lemma NextAdvances<A, B>(s: State<A, B>)
    ensures Pull.Advances(Next, Inv, Rest, TailOf, s)
  {
    if !s.finished && |s.left| > 0 && |s.right| > 0 {
      assert Output(s.left[1..], s.right[1..]) == Output(s.left, s.right)[1..];
    }
  }

  /** `zip` delivers the positional pairs up to the shorter input, then
      `None` forever. */
  lemma Behaviour<A, B>(xs: seq<A>, ys: seq<B>, k: nat)
    ensures Pull.Run(Next, Init(xs, ys), k) == Pull.Observe(Output(xs, ys), None, k)
  {
    forall s: State<A, B> | Inv(s) ensures Pull.Advances(Next, Inv, Rest, TailOf, s) {
      NextAdvances(s);
    }
    Pull.RunObserves(Next, Inv, Rest, TailOf, Init(xs, ys), k);
  }

  /** The first components are a prefix of the left input, the second
      components one of the right input, and one of them is the whole input. */
  lemma Projections<A, B>(xs: seq<A>, ys: seq<B>)
    ensures seq(|Output(xs, ys)|, i requires 0 <= i < |Output(xs, ys)| => Output(xs, ys)[i].0) <= xs
    ensures seq(|Output(xs, ys)|, i requires 0 <= i < |Output(xs, ys)| => Output(xs, ys)[i].1) <= ys
    ensures |Output(xs, ys)| == |xs| || |Output(xs, ys)| == |ys|
  {
  }

  /** The library's examples: the longer input's extra items are dropped. */
  lemma Examples()
    ensures Output([1, 2, 3, 4], ["a", "b", "c"]) == [(1, "a"), (2, "b"), (3, "c")]
    ensures Output([1, 2, 3], ["a", "b", "c", "d"]) == [(1, "a"), (2, "b"), (3, "c")]
  {
  }
}

=== FILE: zip_equal.dfy ===
/** `zip_equal`: reads one item from every input per round and delivers the
    round as one vector. An upstream error ends the iterator at once; inputs
    running out in different rounds end it with an IteratorError. */
module ZipEqual {
  import opened Base
  import opened Columns
  import Pull

  datatype State<T> = State(ins: seq<seq<Res<T>>>, finished: bool)

  function Init<T>(ins: seq<seq<Res<T>>>): State<T>
  {
    State(ins, false)
  }

  const LengthErr := AnyError(IteratorError, "Iterables have different lengths")

  /** What one round of pulls, input by input, collected. */
  datatype Round<T> = Round(ins: seq<seq<Res<T>>>, got: seq<Option<T>>, err: Option<Error>)

  /** The pull loop over the inputs: stops at the first error. */
  function PullRound<T>(ins: seq<seq<Res<T>>>): (r: Round<T>)
    ensures r.err.None? ==> |r.got| == |ins|
  {
    if |ins| == 0 then Round([], [], None)
    else
      var rest := PullRound(ins[1..]);
      if |ins[0]| == 0 then Round([[]] + rest.ins, [None] + rest.got, rest.err)
      else if ins[0][0].Err? then Round([ins[0][1..]] + ins[1..], [], Some(ins[0][0].error))
      else Round([ins[0][1..]] + rest.ins, [Some(ins[0][0].value)] + rest.got, rest.err)
  }

  /** What a round takes from input `x`: its value, or nothing once it is exhausted. */
  ghost predicate Took<T>(x: seq<Res<T>>, g: Option<T>)
  {
    (|x| == 0 && g == None) || (|x| > 0 && x[0].Ok? && g == Some(x[0].value))
  }

  /** A round without error takes one item from every input: its value, or
      nothing from an exhausted input; every input is left one item shorter. */
  lemma PullRoundShape<T>(ins: seq<seq<Res<T>>>)
    ensures var r := PullRound(ins);
      r.err.None? ==> r.ins == Tails(ins) && forall i :: 0 <= i < |ins| ==> Took(ins[i], r.got[i])
  {
    PullRoundIns(ins);
    PullRoundGot(ins);
  }

  lemma {:induction false} PullRoundIns<T>(ins: seq<seq<Res<T>>>)
    ensures PullRound(ins).err.None? ==> PullRound(ins).ins == Tails(ins)
  {
    if |ins| > 0 && PullRound(ins).err.None? {
      PullRoundIns(ins[1..]);
      var t := Tails(ins);
      assert t[0] == PullRound(ins).ins[0];
      assert t[1..] == Tails(ins[1..]);
      assert t == [t[0]] + t[1..];
    }
  }

  lemma {:induction false} PullRoundGot<T>(ins: seq<seq<Res<T>>>)
    ensures var r := PullRound(ins);
      r.err.None? ==> forall i :: 0 <= i < |ins| ==> Took(ins[i], r.got[i])
  {
    var r := PullRound(ins);
    if |ins| > 0 && r.err.None? {
      var rest := PullRound(ins[1..]);
      PullRoundGot(ins[1..]);
      assert r.got == [r.got[0]] + rest.got;
      forall i | 1 <= i < |ins| ensures Took(ins[i], r.got[i]) {
        assert ins[1..][i - 1] == ins[i];
        assert Took(ins[1..][i - 1], rest.got[i - 1]);
      }
    }
  }

  /** The values of the items pulled, in input order. */
  function Somes<T>(xs: seq<Option<T>>): (r: seq<T>)
    ensures |r| <= |xs|
    ensures |r| == |xs| ==> forall i :: 0 <= i < |xs| ==> xs[i] == Some(r[i])
  {
    if |xs| == 0 then [] else (if xs[0].Some? then [xs[0].value] else []) + Somes(xs[1..])
  }

  predicate AllNone<T>(xs: seq<Option<T>>) { forall i :: 0 <= i < |xs| ==> xs[i].None? }

  /** `ZipEqual::next`. */
  function Next<T>(s: State<T>): Pull.Step<State<T>, Res<seq<T>>>
  {
    if s.finished then Pull.Step(s, None)
    else
      var r := PullRound(s.ins);
      if r.err.Some? then Pull.Step(State(r.ins, true), Some(Err(r.err.value)))
      else if AllNone(r.got) then Pull.Step(State(r.ins, true), None)
      else
        var vals := Somes(r.got);
        if |vals| != |s.ins| then Pull.Step(State(r.ins, true), Some(Err(LengthErr)))
        else Pull.Step(State(r.ins, false), Some(Ok(vals)))
  }

  // ---- reference definition, round by round ----

  /** The first error among the inputs' next items, in input order. */
  function HeadErr<T>(ins: seq<seq<Res<T>>>): (r: Option<Error>)
    ensures r.None? <==> forall i :: 0 <= i < |ins| && |ins[i]| > 0 ==> ins[i][0].Ok?
  {
    assert forall i :: 1 <= i < |ins| ==> ins[1..][i - 1] == ins[i];
    if |ins| == 0 then None
    else if |ins[0]| > 0 && ins[0][0].Err? then Some(ins[0][0].error)
    else HeadErr(ins[1..])
  }

  /** Round `r` of inputs that are all longer than `r` and hold values there. */
  function Row<T>(ins: seq<seq<Res<T>>>, r: nat): (v: seq<T>)
    requires r < MinLen(ins) && forall i :: 0 <= i < |ins| ==> ins[i][r].Ok?
    ensures |v| == |ins|
  {
    seq(|ins|, i requires 0 <= i < |ins| => ins[i][r].value)
  }

  /** Every item `zip_equal` delivers. */
  function Output<T>(ins: seq<seq<Res<T>>>): seq<Res<seq<T>>>
    decreases MaxLen(ins)
  {
    if HeadErr(ins).Some? then [Err(HeadErr(ins).value)]
    else if MaxLen(ins) == 0 then []
    else if MinLen(ins) == 0 then [Err(LengthErr)]
    else
      TailsLen(ins);
      [Ok(Row(ins, 0))] + Output(Tails(ins))
  }

  // ---- the machine delivers the reference ----

  lemma {:induction false} PullRoundErr<T>(ins: seq<seq<Res<T>>>)
    ensures PullRound(ins).err == HeadErr(ins)
  {
    if |ins| > 0 {
      PullRoundErr(ins[1..]);
    }
  }

  lemma NoneIsEmpty<T>(ins: seq<seq<Res<T>>>)
    requires PullRound(ins).err.None?
    ensures AllNone(PullRound(ins).got) <==> MaxLen(ins) == 0
    ensures |Somes(PullRound(ins).got)| == |ins| <==> (MinLen(ins) > 0 || |ins| == 0)
  {
    var g := PullRound(ins).got;
    PullRoundShape(ins);
    if |Somes(g)| != |ins| && (MinLen(ins) > 0 || |ins| == 0) {
      SomesCount(g);
    }
    if |Somes(g)| == |ins| && |ins| > 0 {
      var i := Shortest(ins);
      assert g[i].Some?;
    }
    if MaxLen(ins) > 0 {
      var i := Longest(ins);
      assert g[i].Some?;
    }
  }

  /** When every entry is present, all of them are kept. */
  lemma {:induction false} SomesCount<T>(xs: seq<Option<T>>)
    requires forall i :: 0 <= i < |xs| ==> xs[i].Some?
    ensures |Somes(xs)| == |xs|
  {
    if |xs| > 0 {
      SomesCount(xs[1..]);
    }
  }

  ghost predicate Inv<T>(s: State<T>) { true }

  function Rest<T>(s: State<T>): seq<Res<seq<T>>>
  {
    if s.finished then [] else Output(s.ins)
  }

  function TailOf<T>(s: State<T>): Option<Res<seq<T>>> { None }

  lemma NextAdvances<T>(s: State<T>)
    ensures Pull.Advances(Next, Inv, Rest, TailOf, s)
  {
    if !s.finished {
      PullRoundErr(s.ins);
      if HeadErr(s.ins).None? {
        NoneIsEmpty(s.ins);
        PullRoundShape(s.ins);
        var r := PullRound(s.ins);
        if MaxLen(s.ins) > 0 && MinLen(s.ins) > 0 {
          assert Somes(r.got) == Row(s.ins, 0);
        }
      }
    }
  }

  /** `zip_equal` delivers the reference items, then `None` forever. */
  lemma Behaviour<T>(ins: seq<seq<Res<T>>>, k: nat)
    ensures Pull.Run(Next, Init(ins), k) == Pull.Observe(Output(ins), None, k)
  {
    forall s: State<T> | Inv(s) ensures Pull.Advances(Next, Inv, Rest, TailOf, s) {
      NextAdvances(s);
    }
    Pull.RunObserves(Next, Inv, Rest, TailOf, Init(ins), k);
  }

  // ---- properties ----

  predicate AllInputsOk<T>(ins: seq<seq<Res<T>>>)
  {
    forall i :: 0 <= i < |ins| ==> AllOk(ins[i])
  }

  /** The rounds of error-free inputs: round `r` holds the `r`-th value of
      every input, in input order. */
  function Rows<T>(ins: seq<seq<Res<T>>>): (r: seq<seq<T>>)
    requires AllInputsOk(ins)
    ensures |r| == MinLen(ins)
    ensures forall j :: 0 <= j < |r| ==> r[j] == Row(ins, j)
  {
    seq(MinLen(ins), j requires 0 <= j < MinLen(ins) => Row(ins, j))
  }

  /** Row `j` holds item `j` of every input, one per input. */
  lemma RowsItems<T>(ins: seq<seq<Res<T>>>)
    requires AllInputsOk(ins)
    ensures forall j, i :: 0 <= j < |Rows(ins)| && 0 <= i < |ins| ==> |Rows(ins)[j]| == |ins| && ins[i][j] == Ok(Rows(ins)[j][i])
  {
  }

  /** The length error when the inputs' lengths differ, nothing otherwise. */
  function Mismatch<T>(ins: seq<seq<Res<T>>>): seq<Res<seq<T>>>
  {
    if MinLen(ins) == MaxLen(ins) then [] else [Err(LengthErr)]
  }

  /** Error-free inputs: one `Ok` vector per round up to the shortest
      input; if the lengths differ, one IteratorError follows. */
  lemma {:induction false} OkInputs<T>(ins: seq<seq<Res<T>>>)
    requires AllInputsOk(ins)
    ensures Output(ins) == Oks(Rows(ins)) + (if MinLen(ins) == MaxLen(ins) then [] else [Err(LengthErr)])
    decreases MaxLen(ins)
  {
    OkHeads(ins);
    if MinLen(ins) > 0 {
      TailsLen(ins);
      TailsOk(ins);
      OkInputs(Tails(ins));
      OkStep(ins);
    } else {
      EmptyRowOutput(ins);
    }
  }

  /** One round: if what a round leaves answers its rows, then the inputs answer theirs. */
  lemma OkStep<T>(ins: seq<seq<Res<T>>>)
    requires AllInputsOk(ins) && HeadErr(ins).None? && MinLen(ins) > 0 && AllInputsOk(Tails(ins))
    requires Output(Tails(ins)) == Oks(Rows(Tails(ins))) + Mismatch(Tails(ins))
    ensures Output(ins) == Oks(Rows(ins)) + Mismatch(ins)
  {
    var t := Tails(ins);
    TailsLen(ins);
    RowsCons(ins);
    OutputCons(ins);
    assert Mismatch(ins) == Mismatch(t);
    ConsOks(Output(ins), Output(t), Rows(ins), Rows(t), Row(ins, 0), Mismatch(ins));
  }

  /** Prepending one `Ok` row to rows that answer `o1` answers the longer rows. */
  lemma ConsOks<U>(o: seq<Res<U>>, o1: seq<Res<U>>, rows: seq<U>, rows1: seq<U>, r0: U, m: seq<Res<U>>)
    requires o == [Ok(r0)] + o1 && o1 == Oks(rows1) + m && rows == [r0] + rows1
    ensures o == Oks(rows) + m
  {
    OksAppend([r0], rows1);
  }

  /** With an exhausted input and no error at the head there are no rows:
      nothing is delivered, or only the length error. */
  lemma EmptyRowOutput<T>(ins: seq<seq<Res<T>>>)
    requires AllInputsOk(ins) && HeadErr(ins).None? && MinLen(ins) == 0
    ensures Output(ins) == Oks(Rows(ins)) + (if MinLen(ins) == MaxLen(ins) then [] else [Err(LengthErr)])
  {
    assert Rows(ins) == [];
  }

  /** With no error at the head and no input exhausted, the first item is the first row. */
  lemma OutputCons<T>(ins: seq<seq<Res<T>>>)
    requires HeadErr(ins).None? && MinLen(ins) > 0
    ensures forall i :: 0 <= i < |ins| ==> ins[i][0].Ok?
    ensures Output(ins) == [Ok(Row(ins, 0))] + Output(Tails(ins))
  {
    if |ins| > 0 {
      var j := Longest(ins);
    }
  }

  /** Error-free inputs show no error at the head. */
  lemma OkHeads<T>(ins: seq<seq<Res<T>>>)
    requires AllInputsOk(ins)
    ensures HeadErr(ins).None?
  {
    forall i | 0 <= i < |ins| && |ins[i]| > 0 ensures ins[i][0].Ok? {
      assert AllOk(ins[i]);
    }
  }

  /** Error-free inputs stay error-free after a round. */
  lemma TailsOk<T>(ins: seq<seq<Res<T>>>)
    requires AllInputsOk(ins)
    ensures AllInputsOk(Tails(ins))
  {
    var t := Tails(ins);
    forall i | 0 <= i < |t| ensures AllOk(t[i]) {
      assert forall j :: 0 <= j < |t[i]| ==> t[i][j] == ins[i][j + 1];
    }
  }

  /** The rows of error-free inputs are their first row, then the rows of what
      a round leaves. */
  lemma RowsCons<T>(ins: seq<seq<Res<T>>>)
    requires AllInputsOk(ins) && MinLen(ins) > 0
    ensures AllInputsOk(Tails(ins))
    ensures Rows(ins) == [Row(ins, 0)] + Rows(Tails(ins))
  {
    TailsLen(ins);
    TailsOk(ins);
    var t := Tails(ins);
    forall j | 0 <= j < |Rows(t)| ensures Rows(t)[j] == Row(ins, j + 1) {
      assert forall i :: 0 <= i < |ins| ==> t[i][j] == ins[i][j + 1];
    }
  }

  /** Equal-length error-free inputs are zipped exactly, with no error. */
  lemma EqualLengths<T>(ins: seq<seq<Res<T>>>, n: nat)
    requires AllInputsOk(ins) && forall i :: 0 <= i < |ins| ==> |ins[i]| == n
    ensures Output(ins) == Oks(Rows(ins))
  {
    OkInputs(ins);
    if |ins| > 0 {
      var a := Shortest(ins);
      var b := Longest(ins);
    }
  }

  /** Only the last item can be an error, so the iterator latches after it. */
  lemma {:induction false} ErrorOnlyLast<T>(ins: seq<seq<Res<T>>>)
    ensures forall i :: 0 <= i < |Output(ins)| - 1 ==> Output(ins)[i].Ok?
    ensures |Output(ins)| > 0 && Output(ins)[|Output(ins)| - 1].Err? ==>
      Output(ins)[|Output(ins)| - 1] == Err(LengthErr) || exists i :: 0 <= i < |ins| && Err(Output(ins)[|Output(ins)| - 1].error) in ins[i]
    decreases MaxLen(ins)
  {
    if HeadErr(ins).Some? {
      HeadErrIn(ins);
    } else if MaxLen(ins) > 0 && MinLen(ins) > 0 {
      TailsLen(ins);
      ErrorOnlyLast(Tails(ins));
      OutputCons(ins);
      var o, o1 := Output(ins), Output(Tails(ins));
      OkThenLast(o, o1, Ok(Row(ins, 0)));
      if o[|o| - 1].Err? && o[|o| - 1] != Err(LengthErr) {
        ErrorsOfTails(ins, o1[|o1| - 1]);
      }
    }
  }

  /** Only the last item of `o` may be an error. */
  ghost predicate OkBeforeLast<U>(o: seq<Res<U>>)
  {
    forall i :: 0 <= i < |o| - 1 ==> o[i].Ok?
  }

  /** An `Ok` item in front keeps the errors last, and the last item is the old one. */
  lemma OkThenLast<U>(o: seq<Res<U>>, o1: seq<Res<U>>, x: Res<U>)
    requires o == [x] + o1 && x.Ok? && OkBeforeLast(o1)
    ensures OkBeforeLast(o)
    ensures o[|o| - 1].Err? ==> |o1| > 0 && o[|o| - 1] == o1[|o1| - 1]
  {
  }

  /** An error found in what a round leaves of an input is an item of that input. */
  lemma ErrorsOfTails<T, U>(ins: seq<seq<Res<T>>>, x: Res<U>)
    requires x.Err?
    requires exists i :: 0 <= i < |Tails(ins)| && Err(x.error) in Tails(ins)[i]
    ensures exists i :: 0 <= i < |ins| && Err(x.error) in ins[i]
  {
    var i :| 0 <= i < |Tails(ins)| && Err(x.error) in Tails(ins)[i];
    assert Tails(ins)[i] == ins[i][1..];
  }

  lemma HeadErrIn<T>(ins: seq<seq<Res<T>>>)
    requires HeadErr(ins).Some?
    ensures exists i :: 0 <= i < |ins| && Err(HeadErr(ins).value) in ins[i]
  {
    if |ins[0]| > 0 && ins[0][0].Err? {
      assert Err(HeadErr(ins).value) in ins[0];
    } else {
      HeadErrIn(ins[1..]);
      var i :| 0 <= i < |ins[1..]| && Err(HeadErr(ins).value) in ins[1..][i];
      assert ins[1..][i] == ins[i + 1];
    }
  }

  /** The library's example with equal lengths. */
  lemma ExampleEqual()
    ensures Output([[Ok(1), Ok(2), Ok(3)], [Ok(4), Ok(5), Ok(6)], [Ok(6), Ok(7), Ok(8)]]) ==
      [Ok([1, 4, 6]), Ok([2, 5, 7]), Ok([3, 6, 8])]
  {
    EqualCase([[Ok(1), Ok(2), Ok(3)], [Ok(4), Ok(5), Ok(6)], [Ok(6), Ok(7), Ok(8)]]);
  }

  lemma EqualCase(a: seq<seq<Res<int>>>)
    requires a == [[Ok(1), Ok(2), Ok(3)], [Ok(4), Ok(5), Ok(6)], [Ok(6), Ok(7), Ok(8)]]
    ensures Output(a) == [Ok([1, 4, 6]), Ok([2, 5, 7]), Ok([3, 6, 8])]
  {
    assert AllInputsOk(a);
    OkInputs(a);
    var i := Shortest(a);
    var j := Longest(a);
    assert MinLen(a) == 3 && MaxLen(a) == 3;
    assert Rows(a) == [Row(a, 0), Row(a, 1), Row(a, 2)];
    RowsOfExample(a);
  }

  lemma RowsOfExample(a: seq<seq<Res<int>>>)
    requires a == [[Ok(1), Ok(2), Ok(3)], [Ok(4), Ok(5), Ok(6)], [Ok(6), Ok(7), Ok(8)]]
    requires MinLen(a) == 3
    ensures Row(a, 0) == [1, 4, 6] && Row(a, 1) == [2, 5, 7] && Row(a, 2) == [3, 6, 8]
  {
  }

  /** The library's example where the second input is one item short. */
  lemma ExampleUneven()
    ensures Output([[Ok(1), Ok(2), Ok(3)], [Ok(4), Ok(5)], [Ok(6), Ok(7), Ok(8)]]) ==
      [Ok([1, 4, 6]), Ok([2, 5, 7]), Err(LengthErr)]
  {
    UnevenCase([[Ok(1), Ok(2), Ok(3)], [Ok(4), Ok(5)], [Ok(6), Ok(7), Ok(8)]]);
  }

  lemma UnevenCase(b: seq<seq<Res<int>>>)
    requires b == [[Ok(1), Ok(2), Ok(3)], [Ok(4), Ok(5)], [Ok(6), Ok(7), Ok(8)]]
    ensures Output(b) == [Ok([1, 4, 6]), Ok([2, 5, 7]), Err(LengthErr)]
  {
    assert AllInputsOk(b);
    OkInputs(b);
    var i := Shortest(b);
    var j := Longest(b);
    assert MinLen(b) == 2 && MaxLen(b) == 3;
    assert Rows(b) == [Row(b, 0), Row(b, 1)];
    RowsOfUneven(b);
  }

  lemma RowsOfUneven(b: seq<seq<Res<int>>>)
    requires b == [[Ok(1), Ok(2), Ok(3)], [Ok(4), Ok(5)], [Ok(6), Ok(7), Ok(8)]]
    requires MinLen(b) == 2
    ensures Row(b, 0) == [1, 4, 6] && Row(b, 1) == [2, 5, 7]
  {
  }
}

=== FILE: zip_offset.dfy ===
/** `zip_offset`: advances input `i` by `offsets[i]` items, then zips the
    inputs round by round. Without `longest` it stops at the first round in
    which any input is exhausted; with `longest` it goes on until all are,
    putting `fillvalue` in the slots of exhausted inputs. */
module ZipOffset {
  import opened Base
  import opened Columns
  import Pull

  /** The iterator state. The item buffer of the crate is always empty
      between calls. */
  datatype State<T> = State(ins: seq<seq<T>>, longest: bool, fill: T, finished: bool)

  /** `take(it, n)` run for its effect: the input without its first `n` items. */
  function Skip<T>(xs: seq<T>, n: nat): (r: seq<T>)
    ensures r == xs[Min(n, |xs|)..]
  {
    if n >= |xs| then [] else xs[n..]
  }

  /** The inputs after the offsets were consumed. Looking up an input for
      every offset panics when there are more offsets than inputs. */
  function Shifted<T>(ins: seq<seq<T>>, offsets: seq<nat>): (r: seq<seq<T>>)
    requires |offsets| <= |ins|
    ensures |r| == |ins|
    ensures forall i :: 0 <= i < |ins| ==> r[i] == if i < |offsets| then Skip(ins[i], offsets[i]) else ins[i]
  {
    seq(|ins|, i requires 0 <= i < |ins| => if i < |offsets| then Skip(ins[i], offsets[i]) else ins[i])
  }

  function Init<T>(ins: seq<seq<T>>, offsets: seq<nat>, longest: bool, fill: T): State<T>
    requires |offsets| <= |ins|
  {
    State(Shifted(ins, offsets), longest, fill, false)
  }

  /** One round of pulls: the next item of each input, if any. */
  function Heads<T>(ins: seq<seq<T>>): (r: seq<Option<T>>)
    ensures |r| == |ins|
    ensures forall i :: 0 <= i < |ins| ==> r[i] == if |ins[i]| == 0 then None else Some(ins[i][0])
  {
    seq(|ins|, i requires 0 <= i < |ins| => if |ins[i]| == 0 then None else Some(ins[i][0]))
  }

  /** `ZipOffset::next`. Without `longest` and with no input at all, the
      crate loops forever; that state answers `None` here. */
  function Next<T>(s: State<T>): Pull.Step<State<T>, seq<T>>
  {
    if s.finished then Pull.Step(s, None)
    else
      var h := Heads(s.ins);
      var t := s.(ins := Tails(s.ins));
      if s.longest then
        if forall i :: 0 <= i < |h| ==> h[i].None? then Pull.Step(t.(finished := true), None)
        else Pull.Step(t, Some(seq(|h|, i requires 0 <= i < |h| => if h[i].Some? then h[i].value else s.fill)))
      else
        if exists i :: 0 <= i < |h| && h[i].None? then Pull.Step(t.(finished := true), None)
        else if |h| == 0 then Pull.Step(s, None)
        else Pull.Step(t, Some(seq(|h|, i requires 0 <= i < |h| => h[i].value)))
  }

  /** Round `r` of the shifted inputs; slots of exhausted inputs hold `fill`. */
  function Row<T>(ys: seq<seq<T>>, r: nat, fill: T): (v: seq<T>)
    ensures |v| == |ys|
    ensures forall i :: 0 <= i < |ys| ==> v[i] == if r < |ys[i]| then ys[i][r] else fill
  {
    seq(|ys|, i requires 0 <= i < |ys| => if r < |ys[i]| then ys[i][r] else fill)
  }

  /** Every vector delivered for shifted inputs `ys`: one per round up to
      the shortest input, or with `longest` up to the longest input. */
  function Output<T>(ys: seq<seq<T>>, longest: bool, fill: T): seq<seq<T>>
  {
    var rounds := if longest then MaxLen(ys) else MinLen(ys);
    seq(rounds, r requires 0 <= r < rounds => Row(ys, r, fill))
  }

  /** Without `longest`, the rows never use the fill value. */
  lemma ShortRows<T>(ys: seq<seq<T>>, fill: T)
    ensures forall r, i :: 0 <= r < |Output(ys, false, fill)| && 0 <= i < |ys| ==> Output(ys, false, fill)[r][i] == ys[i][r]
  {
  }

  ghost predicate Inv<T>(s: State<T>) { s.longest || |s.ins| > 0 }

  function Rest<T>(s: State<T>): seq<seq<T>>
  {
    if s.finished then [] else Output(s.ins, s.longest, s.fill)
  }

  function TailOf<T>(s: State<T>): Option<seq<T>> { None }

  /** A round of pulls removes exactly the first row. */
  lemma OutputTails<T>(ys: seq<seq<T>>, longest: bool, fill: T)
    requires |Output(ys, longest, fill)| > 0
    ensures Output(Tails(ys), longest, fill) == Output(ys, longest, fill)[1..]
  {
    var t := Tails(ys);
    TailsLen(ys);
    var o := Output(ys, longest, fill);
    var o1 := Output(t, longest, fill);
    assert |o1| == |o| - 1;
    forall r | 0 <= r < |o1| ensures o1[r] == o[r + 1] {
      assert forall i :: 0 <= i < |t| ==> (r < |t[i]| <==> r + 1 < |ys[i]|);
    }
  }

  /** The vector of one round is the first row; the round reports the end
      exactly when there are no rows. */
  lemma HeadsRow<T>(s: State<T>)
    requires Inv(s) && !s.finished
    ensures var o := Output(s.ins, s.longest, s.fill); var t := Next(s);
      (|o| == 0 ==> t.out == None && t.state.finished) && (|o| > 0 ==> t.out == Some(o[0]) && t.state == s.(ins := Tails(s.ins)))
  {
    var h := Heads(s.ins);
    if s.longest {
      if |s.ins| > 0 && MaxLen(s.ins) > 0 {
        var i := Longest(s.ins);
        assert h[i].Some?;
        assert seq(|h|, i requires 0 <= i < |h| => if h[i].Some? then h[i].value else s.fill) == Row(s.ins, 0, s.fill);
      }
    } else {
      var i := Shortest(s.ins);
      if MinLen(s.ins) == 0 {
        assert h[i].None?;
      } else {
        assert seq(|h|, i requires 0 <= i < |h| => h[i].value) == Row(s.ins, 0, s.fill);
      }
    }
  }

  lemma NextAdvances<T>(s: State<T>)
    requires Inv(s)
    ensures Pull.Advances(Next, Inv, Rest, TailOf, s)
  {
    if !s.finished {
      HeadsRow(s);
      if |Output(s.ins, s.longest, s.fill)| > 0 {
        OutputTails(s.ins, s.longest, s.fill);
      }
    }
  }

  /** `zip_offset` delivers the reference rows of the shifted inputs, then
      `None` forever; without `longest` it needs at least one input. */
  lemma Behaviour<T>(ins: seq<seq<T>>, offsets: seq<nat>, longest: bool, fill: T, k: nat)
    requires |offsets| <= |ins|
    requires longest || |ins| > 0
    ensures Pull.Run(Next, Init(ins, offsets, longest, fill), k) == Pull.Observe(Output(Shifted(ins, offsets), longest, fill), None, k)
  {
    forall s: State<T> | Inv(s) ensures Pull.Advances(Next, Inv, Rest, TailOf, s) {
      NextAdvances(s);
    }
    Pull.RunObserves(Next, Inv, Rest, TailOf, Init(ins, offsets, longest, fill), k);
  }

  /** Every vector has one entry per input. The number of vectors is the
      shortest shifted length, or with `longest` the longest one. */
  lemma OutputShape<T>(ys: seq<seq<T>>, longest: bool, fill: T)
    ensures forall r :: 0 <= r < |Output(ys, longest, fill)| ==> |Output(ys, longest, fill)[r]| == |ys|
    ensures |Output(ys, longest, fill)| == if longest then MaxLen(ys) else MinLen(ys)
    ensures forall r, i :: 0 <= r < |Output(ys, longest, fill)| && 0 <= i < |ys| && r < |ys[i]| ==> Output(ys, longest, fill)[r][i] == ys[i][r]
  {
  }

  /** The library's examples: "0123" and "abcdef" with offsets 0 and 1. */
  lemma Examples()
    ensures Output(Shifted(["0123", "abcdef"], [0, 1]), false, '9') == ["0b", "1c", "2d", "3e"]
    ensures Output(Shifted(["0123", "abcdef"], [0, 1]), true, '9') == ["0b", "1c", "2d", "3e", "9f"]
  {
    ExampleCase(Shifted(["0123", "abcdef"], [0, 1]));
  }

  lemma ExampleCase(ys: seq<seq<char>>)
    requires ys == ["0123", "bcdef"]
    ensures Output(ys, false, '9') == ["0b", "1c", "2d", "3e"]
    ensures Output(ys, true, '9') == ["0b", "1c", "2d", "3e", "9f"]
  {
    var a := Shortest(ys);
    var b := Longest(ys);
    assert MinLen(ys) == 4 && MaxLen(ys) == 5;
    assert Row(ys, 0, '9') == "0b" && Row(ys, 1, '9') == "1c" && Row(ys, 2, '9') == "2d";
    assert Row(ys, 3, '9') == "3e" && Row(ys, 4, '9') == "9f";
  }
}
